=== FILE: README.md ===
# BogoKernel, modelled in Dafny

BogoKernel is a small RISC-V kernel. It has a C runtime, two interpreters and a handful of user programs. This project models the deterministic core of that system as pure Dafny functions and methods over datatypes, sequences and maps, and proves what each part promises.

**Kernel.**
- Sv39 address arithmetic and page-table-entry encoding (`Sv39Bits`).
- The page-table pool and the three-level walk of `map_4k`, `map_2m`, `id_map_region` and the `satp` word (`PageTable`).
- The ELF64 loader: header checks, the segment page loop, the program break and the user stack (`ElfProgram`, `ElfLoader`, `UserSpace`, `UserStack`).
- The trap handler's rules for the saved register frame (`Trap`), and the UART's `write_str` newline translation with the UTF-8 bytes of a printed character (`Uart`), and the system-call numbers and error sentinel (`Uapi`).
- The keyboard ring buffer and keycode table (`Keyboard`).
- The framebuffer console's cursor, blink and scroll (`FbConsole`).
- The log filter (`Logging`), the `display=` boot parameter (`Cmdline`) and the built-in file table (`Ramfs`).

**C library.**
- The string and memory routines (`CString`) and character classes (`Ctype`).
- Number formatting, `printf`, `vsnprintf` and the `sprintf` stub (`Stdio`).
- `atoi`, `abs` and the bump allocator `malloc`/`calloc`/`free` (`Stdlib`).
- The system-call wrappers and the `sbrk` cursor (`Unistd`).
- The curses screen buffer with its cursor, wrapping, attributes and dirty-cell painting (`Curses`).

**Interpreters.**
- The Forth stack machine (`ForthCore`) and the interactive Forth program with its own number parser and output words (`ForthRepl`).
- The Lisp interpreter's cell arena, string pool and environments (`LispCells`), reader (`LispReader`), primitives (`LispPrims`), evaluator (`LispEval`), and printer and read-eval-print loop (`LispRepl`).

**User programs.**
- The shell's line editor, tokenizer, `ls` walk and command dispatch (`LineEditor`, `Shell`).
- The BogoHack map reader and walker (`Rogue`).
- The CRogue game (`Crogue`).
- The minimal user program's hex formatter and argument echo (`UserApp`).

**Shared modules.**
- `Int32`: 32-bit two's-complement arithmetic.
- `Numerals`: positional numerals.
- `Words`: `split_whitespace`.
- `Ascii` and `Arith`: small helpers.
- `Wrappers`: the `Option`/`Result` types.

**Conventions.**
- Output that the code prints becomes a returned string or a list of effects.
- Input that the code reads becomes a parameter.
- A collaborator that no file in the model defines becomes a parameter: the ELF parser, the frame allocator, the kernel's side of each system call.

**Where the documentation and the code differ, the model follows the code.**
- The trap handler handles only call 1 (write a byte) and call 2 (exit).
  - Any other call number only moves `sepc` past the `ecall`; no error value is placed in `a0`.
  - Any other exception parks the hart in a `wfi` loop rather than reloading the shell.
- No program-loader object, allocator reset between loads, or teardown of old user mappings appears in the code, so none is modelled.

## Model

| member | source | states |
|---|---|---|
| Ascii.UpToNul | libc/src/string.c:5-9 | the C string a buffer holds is the prefix before its first NUL: it holds no NUL and is followed by one when shorter than the buffer |
| Ascii.Utf8Text | userapp/src/bin/shell.rs:44 | `from_utf8(..).unwrap_or("")` keeps ASCII bytes unchanged and yields the empty text otherwise (non-ASCII is treated as a decoding failure) |
| Words.Split | kernel/src/boot/cmdline.rs:12 | `split_whitespace` yields only non-empty words without white space |
| Words.Prefix | forth/src/lib.rs:202 | a word is the longest white-space-free prefix: it stops at white space or the end of the text |
| Words.PrefixOfWord | forth/src/lib.rs:202 | a word followed by white space or nothing is read back whole as the first word |
| Words.SplitJoin | userapp/src/bin/shell.rs:46-54 | splitting words joined by single spaces gives back the same words in order |
| Words.SplitSkipsSpace | userapp/src/bin/shell.rs:46-54 | leading white space does not change the words of a line |
| Words.BlankHasNoWords | userapp/src/bin/shell.rs:56 | a line of only white space has no words, so the shell sees no token |
| Cmdline.DisplayValue | kernel/src/boot/cmdline.rs:13 | `strip_prefix("display=")` succeeds exactly when the parameter starts with the key, and then the value is the remainder |
| Cmdline.ParseCmdline | kernel/src/boot/cmdline.rs:11-22 | the loop leaves the mode decided by the last `display=` parameter, and keeps the previous mode when there is none |
| Cmdline.LastWins | kernel/src/boot/cmdline.rs:12-20 | a later `display=` parameter overrides every earlier one; only the value "gpu" selects the GPU |
| Cmdline.OthersIgnored | kernel/src/boot/cmdline.rs:13 | parameters without the `display=` prefix never change the mode |
| Cmdline.SetDisplayMode | kernel/src/boot/cmdline.rs:24-32 | `display_mode()` reads back exactly the mode `set_display_mode` stored |
| Cmdline.Examples | kernel/src/boot/cmdline.rs:6-22 | the boot mode is ANSI; `display=gpu` selects the GPU and a later `display=vga` switches back to ANSI |
| Uapi.AsSigned | libc/src/syscall.c:19-30 | the C side reads the returned 64-bit register as a two's-complement `long` congruent to it |
| Uapi.SentinelIsMinusOne | uapi/src/lib.rs:26-29 | the error sentinel `usize::MAX` is exactly the word the C library reads as -1 |
| Uapi.CTableAgrees | libc/src/syscall.c:3-15 | the C library's table agrees with the kernel's on every call it lists, and lacks only EXECV |
| Logging.Rank | kernel/src/logging.rs:35 | `level as u8` is the level's rank among the five levels, and the rank decodes back to the level |
| Logging.GetLogLevel | kernel/src/logging.rs:23-31 | ranks 0 to 3 decode to Trace, Debug, Info and Warn; every other stored byte decodes to Error |
| Logging.SetLogLevel | kernel/src/logging.rs:34-36 | the stored byte is a valid rank and `get_log_level` reads back the level that was set |
| Logging.FilterAgrees | kernel/src/logging.rs:40-42 | after `set_log_level(t)`, `should_log` passes a message exactly when its level is at or above `t` |
| Logging.ShouldLogMonotone | kernel/src/logging.rs:40-42 | raising a message's level never suppresses it |
| Logging.DefaultFilter | kernel/src/logging.rs:20 | the boot threshold is Info: Trace and Debug are suppressed, Info, Warn and Error pass |
| Logging.Tag | kernel/src/logging.rs:67-73 | each level's tag is eight characters long and starts with '[' |
| Logging.Klog | kernel/src/logging.rs:62-78 | `klog!` writes nothing for a filtered message; otherwise the eight-character tag, then the message through `write_str` (each newline as "\r\n"), then "\r\n", which `write_str` sends as "\r\r\n"; a message without newlines appears unchanged right after the tag |
| Logging.KlogShowsMessage | kernel/src/logging.rs:74-76 | for a message without carriage returns, the text between the tag and the line end, with each carriage return before a newline dropped, is the message again |
| Logging.TagsDistinct | kernel/src/logging.rs:67-73 | different levels have different tags, so a printed line shows its level |
| Ramfs.FindFrom | kernel/src/fs.rs:19-22 | the search returns the first index whose name matches, and finds nothing exactly when no name matches |
| Ramfs.Lookup | kernel/src/fs.rs:18-23 | `lookup` returns a file of the table with the requested name, and `None` exactly when the table has no such name |
| Ramfs.NamesDistinct | kernel/src/fs.rs:13-16 | the table's names are distinct, so the first match is the only one |
| Ramfs.LookupFindsEach | kernel/src/fs.rs:18-23 | looking up any file's name returns that file |
| Ramfs.LookupExamples | kernel/src/fs.rs:10-16 | "hello.txt" and "etc/motd" give their embedded contents; "motd" is not found |
| Trap.RustTrap | kernel/src/trap.rs:43-99 | a timer tick resumes with the frame untouched; `write` prints one character, the low byte of `a0`; `write` and unknown calls only move `sepc` 4 bytes on (wrapping); `exit` jumps to `after_user` with SPP and SPIE set; any other trap halts |
| Trap.ExitStatusBits | kernel/src/trap.rs:70-75 | `exit` sets bit 8 (SPP) and bit 5 (SPIE) of the saved `sstatus` and leaves every other bit as it was |
| Trap.UnknownOnlyAdvances | kernel/src/trap.rs:77-82 | an unknown call number leaves `a0` and `sstatus` unchanged, so no error value reaches the caller, and it differs from `write` only in the message printed |
| Trap.WritesAdvance | kernel/src/trap.rs:60 | two `write` calls in a row advance `sepc` by 8 modulo 2^64 and leave the general-purpose registers alone |
| Trap.WriteSends | kernel/src/trap.rs:52-61 | a `write` call prints one character, the low byte of `a0`; through the UART it leaves as "\r\n" for a newline, as itself for another byte below 0x80, and as two bytes that decode back to it from 0x80 on |
| Uart.WriteStr | kernel/src/uart.rs:61-73 | `write_str` sends one byte per byte of the text plus one extra byte per newline |
| Uart.WriteStrAppend | kernel/src/uart.rs:61-73 | writing two texts one after the other sends the same bytes as writing them together |
| Uart.WriteStrPlain | kernel/src/uart.rs:63-70 | a text without a newline goes out unchanged |
| Uart.WriteStrRoundTrip | kernel/src/uart.rs:63-70 | for a text without carriage returns, dropping each carriage return that precedes a newline in what was sent gives the text back |
| Uart.EncodeChar | kernel/src/trap.rs:59 | `ch as char` printed with `{}` is one byte for code points below 0x80 and two bytes from 0x80 |
| Uart.EncodeRoundTrip | kernel/src/trap.rs:59 | the UTF-8 encoding of every byte value decodes back to that value |
| Uart.CharBytes | kernel/src/trap.rs:59 | a printed character reaches the UART as "\r\n" when it is a newline, as itself when it is another byte below 0x80, and as two bytes that decode back to it otherwise |
| Unistd.ReadResult | libc/src/unistd.c:22-26 | `read` returns -1 exactly when the kernel returned the error sentinel; any other word comes back as the `long` congruent to it |
| Unistd.OpenResult | libc/src/unistd.c:28-32 | `open` returns an `int`: -1 for the sentinel, the descriptor itself when it fits in 31 bits, otherwise the low 32 bits |
| Unistd.CloseResult | libc/src/unistd.c:34-37 | `close` returns 0 exactly when the kernel returned 0, and -1 otherwise |
| Unistd.Sbrk | libc/src/unistd.c:56-78 | the break is fetched with `brk(0)` on first use; `sbrk(0)` returns it; a request the kernel grants returns the old break and moves it by the increment; a refused one returns `(void *)-1` and keeps the break |
| Unistd.SbrkAdjacent | libc/src/unistd.c:68-74 | two granted requests hand out adjacent blocks: the second starts where the first ends |
| Unistd.EchoingKernel | libc/src/unistd.c:58-74 | against a kernel that echoes the argument register for `BRK`, the first request is granted and its block starts at address 0 |
| Int32.TruncDiv | forth/src/lib.rs:79-88 | `i32` division rounds toward zero: the quotient's magnitude is the floor of the magnitudes' ratio and its sign is negative exactly when the operands' signs differ |
| Int32.TruncRem | forth/src/lib.rs:89-98 | the remainder completes the truncating quotient, is smaller in magnitude than the divisor and has the dividend's sign |
| Int32.DivOverflowOnlyAtMin | forth/src/lib.rs:85-86 | the only `i32` quotient outside the range is `MIN / -1`, the case `checked_div` rejects |
| Int32.Unsigned | forth/src/lib.rs:152-170 | the 32-bit pattern of an `i32` read as unsigned, congruent to the value |
| Int32.Signed | forth/src/lib.rs:152-170 | the `i32` whose pattern a 32-bit word is; with `Unsigned` it forms a bijection |
| Int32.SignedUnsigned | forth/src/lib.rs:152-170 | reading an `i32`'s pattern back gives the same `i32` |
| Int32.UnsignedSigned | forth/src/lib.rs:152-170 | taking the pattern of the `i32` of a word gives the same word |
| Int32.BitwiseBits | forth/src/lib.rs:152-166 | each bit of a bitwise result is the operator applied to the operands' bits at that position |
| Int32.BitAnd | forth/src/lib.rs:152-156 | `a & b` on `i32`s stays in the `i32` range |
| Int32.BitOr | forth/src/lib.rs:157-161 | the bitwise OR of two `i32`s stays in the `i32` range |
| Int32.BitXor | forth/src/lib.rs:162-166 | `a ^ b` on `i32`s stays in the `i32` range |
| Int32.BitNot | forth/src/lib.rs:167-170 | `!a` on an `i32` stays in the `i32` range |
| Int32.NotIsNegMinusOne | forth/src/lib.rs:167-170 | complementing every bit of a two's-complement `i32` gives `-a - 1` |
| Int32.AndLow7 | libc/src/ctype.c:48-50 | `c & 0x7F` is the remainder of `c` modulo 128, for negative `c` too |
| Ctype.ToLower | libc/src/ctype.c:34-39 | `tolower` turns an upper-case letter into a lower-case one and returns every other code unchanged |
| Ctype.ToUpper | libc/src/ctype.c:41-46 | `toupper` turns a lower-case letter into an upper-case one and returns every other code unchanged |
| Ctype.ToAscii | libc/src/ctype.c:48-50 | `toascii` always gives a code below 128 |
| Ctype.ToAsciiIsMask | libc/src/ctype.c:48-50 | `toascii` is exactly the mask `c & 0x7F` on the two's-complement pattern, negative codes included |
| Ctype.CaseChanges | libc/src/ctype.c:34-46 | a conversion changes a character exactly when it is a letter of the other case, and letters stay letters |
| Ctype.CaseRoundTrip | libc/src/ctype.c:34-46 | both conversions are idempotent, and each undoes the other on letters |
| Ctype.Classes | libc/src/ctype.c:5-31 | letters and digits are printable and not space; ' ' is the only printable space; no code is both upper and lower case |
| Numerals.Digits | libc/src/stdio.c:37-51 | the digits of a number, most significant first, form a canonical numeral (no leading zero unless it is "0") whose value is the number |
| Numerals.DigitsOfValue | libc/src/stdio.c:37-51 | every canonical numeral is the one printed for its value, so printing and reading back are inverse |
| Numerals.ValueAppend | libc/src/stdlib.c:74-77 | appending a digit multiplies the value by the base and adds the digit, as the `result * 10 + digit` loops do |
| Numerals.ValuePrefix | libc/src/stdlib.c:74-77 | a prefix of a numeral is a numeral of no greater value |
| Numerals.LeadingZero | forth/src/lib.rs:244-253 | a leading zero does not change a numeral's value |
| Numerals.DigitsLength | libc/src/stdio.c:25 | a number below `base^k` has at most `k` digits |
| Numerals.DecimalShort | libc/src/stdio.c:63 | a 32-bit `int` prints in 1 to 11 characters, digits and at most a leading '-', so it fits the 32-byte buffer |
| Stdlib.DigitRun | libc/src/stdlib.c:74-77 | the digits `atoi` consumes: the longest run of decimal digits, ending at the first other character or NUL |
| Stdlib.AtoiLoop | libc/src/stdlib.c:58-80 | the pointer walk with its accumulator computes `atoi`: blanks skipped, one optional sign, then the value of the digit run with that sign |
| Stdlib.SkipLoop | libc/src/stdlib.c:63 | the skip loop stops at the first character that is not a space, tab or newline |
| Stdlib.DigitsLoop | libc/src/stdlib.c:74-77 | the accumulating loop computes the value of the digit run |
| Stdlib.DigitRunOf | libc/src/stdlib.c:74-77 | a digit string followed by anything that is not a digit is consumed exactly |
| Stdlib.AtoiDecimal | libc/src/stdlib.c:58-80 | `atoi` reads back every integer printed in decimal, whatever non-digit follows it |
| Stdlib.AtoiNonNegative | libc/src/stdlib.c:73-79 | `atoi` of a canonical numeral followed by a non-digit is its value |
| Stdlib.AtoiNegative | libc/src/stdlib.c:66-68 | a leading '-' negates the value read |
| Stdlib.AtoiMinus | libc/src/stdlib.c:66-79 | after a '-', the result is the negated value of the digit run |
| Stdlib.Abs | libc/src/stdlib.c:86-88 | `abs` returns `j` or `-j`, whichever is non-negative, for every `int` but `INT_MIN` |
| Stdlib.AlignedRequestAsWritten | libc/src/stdlib.c:19 | `(size + 7) & ~7` in wrapping `size_t` arithmetic is a multiple of 8 no larger than `SIZE_MAX` |
| Stdlib.MallocWrapsAsWritten | libc/src/stdlib.c:15-25 | a request within 7 bytes of `SIZE_MAX` rounds to 0, and `malloc` then returns the current break as if it had reserved the bytes |
| Stdlib.AlignUp8 | libc/src/stdlib.c:19 | the rounded request is the least multiple of 8 at or above the size |
| Stdlib.Malloc | libc/src/stdlib.c:15-25 | a zero size, or one too large to round up, gives NULL and leaves the break alone |
| Stdlib.MallocAgrees | libc/src/stdlib.c:15-25 | wherever the rounding does not wrap, the corrected `malloc` behaves exactly like the code |
| Stdlib.MallocReserves | libc/src/stdlib.c:21-24 | a non-NULL block is followed by a break at least the requested number of bytes further on |
| Stdlib.MallocNull | libc/src/stdlib.c:16-22 | `malloc` returns NULL exactly for a zero size, a size too large, or a refused `sbrk` |
| Stdlib.Free | libc/src/stdlib.c:27-30 | `free` keeps the break where it was |
| Stdlib.Calloc | libc/src/stdlib.c:32-39 | a NULL `calloc` clears nothing |
| Stdlib.CallocZeroes | libc/src/stdlib.c:32-39 | without wrap-around, a `calloc` block holds `nmemb * size` zero bytes inside its reserved space |
| Stdio.Pattern | libc/src/stdio.c:78 | `va_arg(args, unsigned int)` reads the low 32 bits of the argument word |
| Stdio.NumToStr | libc/src/stdio.c:23-55 | `num_to_str` writes a canonical numeral of the magnitude in the base, after a '-' exactly when the conversion is signed and the number negative |
| Stdio.SignedRoundTrip | libc/src/stdio.c:69-76 | what `%d` prints for an `int` is at most 11 characters and `atoi` reads it back as the same value |
| Stdio.HexRoundTrip | libc/src/stdio.c:84-91 | `%x` prints the only canonical hexadecimal numeral of the value, in at most 8 digits |
| Stdio.Convert | libc/src/stdio.c:69-105 | `%d %i %u %x %X %c` need a word and `%s` a string; `%c` prints the low byte, `%s` prints "(null)" for NULL and the C string otherwise |
| Stdio.Directive | libc/src/stdio.c:65-122 | one turn of the format loop consumes one or two format bytes and at most one argument, and prints at most 11 characters unless it prints a string |
| Stdio.WordShort | libc/src/stdio.c:63 | a numeric conversion never needs more than 11 of the 32 buffer bytes |
| Stdio.PrintfStopsAtNul | libc/src/stdio.c:65 | the corrected `printf` prints the same whatever follows the terminator: it reads nothing past it |
| Stdio.DirectiveStopsAtNul | libc/src/stdio.c:66-117 | a single turn of the corrected loop never looks past the terminator |
| Stdio.TrailingPercentOverruns | libc/src/stdio.c:111-117 | as written, a format ending in '%' prints the terminator and then the bytes stored after it; corrected, it prints only the '%' |
| Stdio.PrintfAgrees | libc/src/stdio.c:58-127 | for formats whose last byte before the terminator is not a lone '%', the code and the corrected `printf` print the same |
| Stdio.Fill | libc/src/stdio.c:151-215 | a turn of `vsnprintf` never writes more bytes than the room left |
| Stdio.Vsnprintf | libc/src/stdio.c:144-219 | no buffer or size 0 stores nothing and returns 0; otherwise fewer than `size` bytes are stored, then a terminator, and the count is returned |
| Stdio.Room | libc/src/stdio.c:149-151 | the room `(int)(size - 1)` is below the size, and equals `size - 1` when the size is at most 2^31 |
| Stdio.Snprintf | libc/src/stdio.c:136-142 | `snprintf` forwards to `vsnprintf`, so it stores fewer than `size` bytes |
| Stdio.PrintfUnfold | libc/src/stdio.c:65-123 | a turn that is not the last prints its piece and then what the rest of the format prints |
| Stdio.FillUnfold | libc/src/stdio.c:151-215 | a turn with room left writes its piece cut to the room, then the rest when the piece fitted |
| Stdio.FillIsPrefix | libc/src/stdio.c:151-215 | with `room` bytes left, `vsnprintf` writes exactly the first `room` bytes of what `printf` prints |
| Stdio.PrintfPlain | libc/src/stdio.c:118-122 | a plain character prints itself ahead of the rest of the format |
| Stdio.PrintfLiteral | libc/src/stdio.c:118-122 | literal text without '%' prints as it stands ahead of the rest |
| Stdio.PrintfPercent | libc/src/stdio.c:106-116 | `%%` prints one '%'; '%' before a character that is no conversion prints both; neither reads an argument |
| Stdio.PrintfTrailing | libc/src/stdio.c:111-117 | in the corrected `printf`, a '%' that ends the format prints '%' and nothing after it |
| Stdio.PrintfAsWrittenTrailing | libc/src/stdio.c:111-117 | as written, such a '%' prints '%' and the terminator, then continues with the memory behind it |
| Stdio.VsnprintfTruncatesPrintf | libc/src/stdio.c:144-219 | for a buffer of at most 2^31 bytes, `vsnprintf` stores the first `size - 1` bytes of the `printf` text and a terminator, and returns how many it stored |
| Stdio.SmallSize | libc/src/stdio.c:149 | a text shorter than the buffer is stored whole with its terminator |
| Stdio.FillAsWritten | libc/src/stdio.c:151-215 | as written, the loop never stores more bytes than the room left, even after it has run past the terminator |
| Stdio.VsnprintfAsWritten | libc/src/stdio.c:144-219 | as written, no buffer or size 0 stores nothing; otherwise fewer than `size` bytes and a terminator are stored and their count returned |
| Stdio.FillAgrees | libc/src/stdio.c:151-215 | for formats whose last byte before the terminator is not a lone '%', the loop as written and corrected store the same bytes |
| Stdio.VsnprintfAgrees | libc/src/stdio.c:144-219 | for such formats, `vsnprintf` as written and corrected store the same bytes and return the same count, for every buffer and size |
| Stdio.VsnprintfOverruns | libc/src/stdio.c:202-211 | a format like "50%" followed in memory by "XY": as written, size 32 stores "50%XY" and returns 5; corrected, it stores "50%" and returns 3 |
| Stdio.FillStopsAtNul | libc/src/stdio.c:151 | the corrected `vsnprintf` stores the same whatever follows the terminator: it reads nothing past it |
| Stdio.AsWrittenSmallSize | libc/src/stdio.c:149 | as written too, a buffer of at most 2^31 bytes leaves room for `size - 1` bytes |
| Stdio.SnprintfNumber | libc/src/stdio.c:155-162 | `snprintf(buf, 32, "<text>%d", n)` stores the text and the number whenever they fit |
| Stdio.DecimalFormat | libc/src/stdio.c:69-76 | `%d` alone prints the number in decimal |
| Stdio.HugeSizeStoresNothing | libc/src/stdio.c:149-151 | a size of 2^32 + 1 is cut to a room of 0, so only the terminator is stored |
| Stdio.Puts | libc/src/stdio.c:16-20 | `puts` returns 0 |
| Stdio.PutsIsPrintf | libc/src/stdio.c:16-20 | `puts(s)` writes what `printf("%s\n", s)` writes |
| Stdio.Putchar | libc/src/stdio.c:10-14 | `putchar` writes one byte, `c` cut to 8 bits, and returns `c` itself |
| Stdio.SprintfIsStub | libc/src/stdio.c:129-134 | `sprintf` writes nothing and returns 0, while `snprintf` of the same format stores it |
| CString.StrLen | libc/src/string.c:5-9 | `strlen` is the index of the first NUL: the byte there is NUL and none before it is |
| CString.TextIsUpToNul | libc/src/string.c:5-9 | the string `strlen` measures is the prefix every other reader takes |
| CString.FirstNul | libc/src/string.c:5-9 | a NUL with no NUL before it is where `strlen` stops |
| CString.StrLenOfText | libc/src/string.c:5-9 | a text written with a NUL after it reads back with its own length, whatever follows |
| CString.Span | libc/src/string.c:19 | a bounded routine reads the bytes before the first NUL, but no more than `n` |
| CString.SpanOfString | libc/src/string.c:19 | in a terminated buffer the span is the string's length or `n`, whichever is smaller |
| CString.StrCpy | libc/src/string.c:11-15 | `strcpy` copies the source string and its NUL over the front of the destination, keeps the rest, and the destination then holds the source's string |
| CString.CopiedText | libc/src/string.c:11-15 | buffers that agree up to and including one's first NUL hold the same string |
| CString.StrNCpy | libc/src/string.c:17-26 | `strncpy` writes exactly `n` bytes: the source string while it lasts, then NULs, and keeps everything after them |
| CString.StrNCpyTerminates | libc/src/string.c:17-26 | the `n` bytes written hold a NUL exactly when the source string is shorter than `n` |
| CString.StrCmp | libc/src/string.c:28-34 | `strcmp` returns a difference of two unsigned bytes, between -255 and 255 |
| CString.StepsPastByte | libc/src/string.c:29-32 | past an equal non-NUL byte both buffers still hold a string, each one byte shorter |
| CString.StrCmpOrders | libc/src/string.c:28-34 | `strcmp` is 0 exactly for equal strings and negative exactly when the first sorts below the second in unsigned byte order |
| CString.BelowCons | libc/src/string.c:29-32 | after equal first bytes, order and equality are decided by the rest |
| CString.FirstBytes | libc/src/string.c:33 | where the loop stops, the two current bytes decide equality and order |
| CString.StrNCmp | libc/src/string.c:36-44 | `strncmp` is 0 for `n == 0` and otherwise a byte difference between -255 and 255 |
| CString.StrNCmpIsStrCmp | libc/src/string.c:36-44 | once `n` exceeds the first string's length, `strncmp` agrees with `strcmp` |
| CString.StrNCmpEquates | libc/src/string.c:36-44 | `strncmp` is 0 exactly when the strings agree on their first `n` bytes, up to where either ends |
| CString.StrChr | libc/src/string.c:46-52 | `strchr` finds an offset within the string or at its terminator |
| CString.StrChrFinds | libc/src/string.c:46-52 | `strchr` finds the first occurrence of `(char)c`, or the terminator exactly when `c` is 0, and NULL exactly when neither exists |
| CString.StrChrWideZero | libc/src/string.c:48-51 | `(char)256` is 0 and yet `strchr(s, 256)` is NULL, because only `c == 0` finds the terminator |
| CString.StrRChr | libc/src/string.c:54-62 | `strrchr` finds an offset within the string or at its terminator |
| CString.StrRChrFinds | libc/src/string.c:54-62 | `strrchr` finds the last occurrence, or the terminator exactly when `c` is 0, and is NULL exactly when `strchr` is |
| CString.FirstBeforeLast | libc/src/string.c:46-62 | the first occurrence never comes after the last |
| CString.MemCpy | libc/src/string.c:64-69 | `memcpy` copies the first `n` bytes of the source over those of the destination and keeps the rest |
| CString.MemMove | libc/src/string.c:71-83 | `memmove` leaves at `d` the `n` bytes that were at `s` before the call, whether or not the ranges overlap, and changes nothing else |
| CString.MemSet | libc/src/string.c:85-89 | `memset` sets the first `n` bytes to `(unsigned char)c` and keeps the rest |
| CString.MemCmp | libc/src/string.c:91-100 | `memcmp` returns a difference of two unsigned bytes, between -255 and 255 |
| CString.MemCmpOrders | libc/src/string.c:91-100 | `memcmp` is 0 exactly for equal ranges and negative exactly when the first range sorts below the second |
| CString.StrCat | libc/src/string.c:103-110 | `strcat` leaves the concatenation of the two strings in the destination and keeps the bytes after the new terminator |
| CString.Joined | libc/src/string.c:106-108 | a buffer holding the destination's string, the source's string and a NUL holds their concatenation |
| CString.StrNCat | libc/src/string.c:113-123 | `strncat` appends at most `n` bytes of the source string and always writes a terminator |
| CString.StrError | libc/src/string.c:126-141 | every `int` error number gets a message of 1 to 31 characters, which fits the 32-byte buffer |
| CString.StrErrorDistinguishes | libc/src/string.c:126-141 | two different `int` error numbers never get the same message |
| CString.UnknownIsLong | libc/src/string.c:137-139 | an unknown number's message starts "Unknown error ", which no fixed message does |
| CString.StrErrorIsSnprintf | libc/src/string.c:138 | the message for an unknown number is exactly what the `snprintf` call stores |
| ForthCore.Push | forth/src/lib.rs:22-30 | a push succeeds exactly when fewer than 64 values are on the stack and then adds the value on top; otherwise it reports "Stack overflow" and changes nothing |
| ForthCore.Pop | forth/src/lib.rs:32-39 | a pop fails with "Stack underflow" exactly on an empty stack, and otherwise returns the top value and leaves the rest |
| ForthCore.Peek | forth/src/lib.rs:41-47 | a peek fails with "Stack empty" exactly on an empty stack, and otherwise returns the top value |
| ForthCore.PushPop | forth/src/lib.rs:22-39 | a pop undoes a push that succeeded |
| ForthCore.PopPush | forth/src/lib.rs:22-39 | pushing back a popped value restores the stack |
| ForthCore.Binary | forth/src/lib.rs:61-78 | a two-operand word never leaves more than 64 values on the stack |
| ForthCore.Division | forth/src/lib.rs:79-98 | `/` and `mod` never leave more than 64 values on the stack |
| ForthCore.Unary | forth/src/lib.rs:167-174 | `invert` and `negate` never leave more than 64 values on the stack |
| ForthCore.Dup | forth/src/lib.rs:101-104 | `dup` never leaves more than 64 values on the stack |
| ForthCore.Drop | forth/src/lib.rs:105-107 | `drop` never leaves more than 64 values on the stack |
| ForthCore.Swap | forth/src/lib.rs:108-113 | `swap` never leaves more than 64 values on the stack |
| ForthCore.Over | forth/src/lib.rs:114-120 | `over` never leaves more than 64 values on the stack |
| ForthCore.Rot | forth/src/lib.rs:121-132 | `rot` never leaves more than 64 values on the stack |
| ForthCore.Magnitude | forth/src/lib.rs:245-253 | a run of digits is accepted exactly when it is non-empty, all decimal and at most `i32::MAX`, and then yields its decimal value |
| ForthCore.ExecuteWordWith | forth/src/lib.rs:58-198 | no word takes the stack past 64 values |
| ForthCore.EvalWords | forth/src/lib.rs:201-207 | a line of words never takes the stack past 64 values |
| ForthCore.ParseNumber | forth/src/lib.rs:211-264 | the parser's character loop in checked `i32` arithmetic accepts exactly the optionally signed decimal numerals in range, plus the special-cased `i32::MIN` text |
| ForthCore.Accumulate | forth/src/lib.rs:245-253 | the checked multiply-and-add loop fails exactly when the digits are not all decimal or their value passes `i32::MAX`, and otherwise yields that value |
| ForthCore.DigitStep | forth/src/lib.rs:246-249 | one more digit multiplies the value so far by 10 and adds the digit |
| ForthCore.NotADigit | forth/src/lib.rs:250-252 | a character that is not a decimal digit makes the whole run invalid |
| ForthCore.NumberTooLong | forth/src/lib.rs:247-248 | once a prefix of the digits exceeds `i32::MAX`, so does every longer run, so failing early loses nothing |
| ForthCore.LibNumberAccepts | forth/src/lib.rs:505-515 | "42", "0", "-42" and "-2147483648" parse to their values |
| ForthCore.LibNumberRejects | forth/src/lib.rs:518-523 | "abc", "12a3", "" and "-" are not numbers |
| ForthCore.ParsePrinted | forth/src/lib.rs:211-264 | a printed magnitude reads back as itself exactly when it fits `i32::MAX` |
| ForthCore.ParsePrintedNegative | forth/src/lib.rs:216-219 | a printed negative number reads back as itself down to `i32::MIN`, which only the special case lets through |
| ForthCore.LeadingZeroMin | forth/src/lib.rs:216-261 | "-02147483648" is rejected: it misses the special case and its magnitude overflows |
| ForthCore.SpecialCaseOnlyAtMin | forth/src/lib.rs:217 | the special-cased text is the printed form of exactly one magnitude, 2147483648 |
| ForthCore.Eval | forth/src/lib.rs:201-207 | the evaluation loop runs the line's whitespace-separated words in order and stops at the first that fails |
| ForthCore.EvalAppend | forth/src/lib.rs:201-207 | evaluating two runs of words in a row is evaluating their concatenation, the second only if the first finished |
| ForthCore.BinaryEffect | forth/src/lib.rs:61-78 | a binary word replaces the top two values by its result, or has dropped both when the result overflows |
| ForthCore.ArithmeticWords | forth/src/lib.rs:61-78 | `+`, `-` and `*` are the checked `i32` operations on the second and top values |
| ForthCore.DivisionWords | forth/src/lib.rs:79-98 | `/` and `mod` truncate toward zero; a zero divisor is reported after being popped, leaving the dividend; only `i32::MIN / -1` overflows |
| ForthCore.DivModIdentity | forth/src/lib.rs:79-98 | when both succeed, quotient times divisor plus remainder is the dividend |
| ForthCore.StackWords | forth/src/lib.rs:101-132 | `dup`, `drop`, `swap`, `over` and `rot` rearrange the top of the stack as their stack comments say |
| ForthCore.ComparisonWords | forth/src/lib.rs:135-149 | `=`, `<` and `>` push -1 for true and 0 for false |
| ForthCore.InvertWord | forth/src/lib.rs:167-170 | `invert` complements every bit, which in two's complement is `-a - 1` |
| ForthCore.NegateWord | forth/src/lib.rs:171-174 | `negate` pushes `-a`, and its unchecked negation overflows exactly at `i32::MIN` |
| ForthCore.NoRollback | forth/src/lib.rs:61-174 | on an empty stack, and on one value, every word that pops two operands fails with "Stack underflow" and leaves the stack empty; `drop`, `invert` and `negate` do the same on an empty stack; `/` and `mod` on one value report "Division by zero" when that value is 0 and "Stack underflow" otherwise, with the value popped either way; `over` on one value and `rot` on two check the depth first and keep the stack; `dup` on an empty stack fails with "Stack empty" |
| ForthCore.FullStack | forth/src/lib.rs:22-30 | on a full stack a number, `true` or `dup` fails with "Stack overflow" and the stack stays as it was |
| ForthCore.SingleDigit | forth/src/lib.rs:234-236 | a one-digit numeral reads as its value |
| ForthCore.DigitWord | forth/src/lib.rs:188-195 | a one-digit word pushes its value |
| ForthCore.UnknownWordExample | forth/src/lib.rs:540-545 | a word that is neither defined nor a number is "Unknown word" |
| ForthRepl.ParseNumber | forth/src/main.rs:228-261 | the program's own parser, digit by digit in checked `i32` arithmetic with an unchecked final negation, computes the program's number reading |
| ForthRepl.NumberParsersAgree | forth/src/main.rs:228-261 | the program's parser and the library's agree on every text except a lone `-`, which the program reads as 0, and `-2147483648`, which only the library accepts |
| ForthRepl.DecimalRoundTrip | forth/src/main.rs:228-261 | the library's parser reads back every printed `i32`, the program's parser every one but `i32::MIN` |
| ForthRepl.PrintedNonNegative | forth/src/main.rs:228-261 | both parsers read back a printed non-negative `i32` |
| ForthRepl.PrintedNegative | forth/src/main.rs:256-258 | a printed negative number reads back in the library down to `i32::MIN`, and in the program down to `-i32::MAX` |
| ForthRepl.WordsAgree | forth/src/main.rs:51-215 | apart from the output words and the number text the parsers read differently, the program's `execute_word` is the library's and prints nothing |
| ForthRepl.DotWord | forth/src/main.rs:128-131 | `.` pops exactly one value and prints its decimal form, a space and a newline |
| ForthRepl.ListingWordsKeepStack | forth/src/main.rs:132-141 | `.s` and `cr` leave the stack as it is; `.s` starts its listing with the depth in angle brackets and `cr` prints a newline |
| ForthRepl.EmitWord | forth/src/main.rs:142-149 | `emit` pops one value and prints it as a character when it is 0..127; otherwise the value is gone and the word fails with "Invalid character code" |
| ForthRepl.Eval | forth/src/main.rs:218-224 | the evaluation loop runs the line's words in order, collecting their output, and stops at the first that fails |
| ForthRepl.Trim | forth/src/main.rs:310-315 | trimming never lengthens the line and leaves no whitespace at either end |
| ForthRepl.SpecialCommands | forth/src/main.rs:309-325 | `bye`, `quit` and `words`, with any surrounding whitespace, are answered without evaluation and leave the stack alone; all but `words` end the program |
| ForthRepl.HandleLine | forth/src/main.rs:309-325 | a line that trims to `bye` or `quit` prints "Goodbye!" and ends the program, one that trims to `words` prints the word list; neither touches the stack |
| ForthRepl.BlankLineIgnored | forth/src/main.rs:303-307 | a line of only whitespace evaluates no words: nothing is printed and the stack stays as it was |
| ForthRepl.TrimBlank | forth/src/main.rs:310 | a line that `trim` empties is all whitespace |
| ForthRepl.Repl | forth/src/main.rs:290-318 | once the program has exited, the loop does nothing more |
| ForthRepl.NonTextLineIgnored | forth/src/main.rs:307 | a line that `from_utf8` rejects is handled as the empty line: only the prompt and the echo are printed, and the stack stays as it was |
| ForthRepl.ReplAppends | forth/src/main.rs:298-337 | the loop, which decodes each line before handling it, only ever appends to what it has printed, and once the program has exited nothing more happens |
| LineEditor.FirstTerminator | forth/src/main.rs:270-272 | the line ends at the first carriage return or line feed, and no byte before it is one |
| LineEditor.ReadLine | forth/src/main.rs:264-286 | the byte-at-a-time reader with deletion and a full-buffer check computes the line editor's line, echo and consumed input |
| LineEditor.FirstTerminatorAt | userapp/src/bin/shell.rs:26-28 | a terminator with none before it is where the line ends |
| LineEditor.NoTerminator | userapp/src/bin/shell.rs:22-40 | input without a terminator has no line end yet |
| LineEditor.EditedFits | forth/src/main.rs:278-282 | the buffer never holds more than `size - 1` bytes |
| LineEditor.TypedText | userapp/src/bin/shell.rs:35-39 | text without control bytes that fits is stored and echoed exactly as typed |
| LineEditor.BackspaceCancels | userapp/src/bin/shell.rs:29-39 | a byte typed and then deleted leaves the buffer as it was, when there was room for it |
| LineEditor.FullDrops | forth/src/main.rs:278-282 | once the buffer is full, further plain bytes are neither stored nor echoed |
| LineEditor.DeleteOnEmpty | forth/src/main.rs:273-277 | a deletion on an empty buffer changes nothing and echoes nothing |
| Keyboard.Waiting | kernel/src/keyboard.rs:140-146 | fewer than 256 bytes are ever waiting |
| Keyboard.WaitingCases | kernel/src/keyboard.rs:140-146 | the waiting count is the difference of the indices, going round the ring when the write index is behind |
| Keyboard.Slot | kernel/src/keyboard.rs:113 | a slot counted round the ring is a valid index into the 256-byte buffer |
| Keyboard.Contents | kernel/src/keyboard.rs:96-100 | the queue the ring holds has as many bytes as the indices say are waiting |
| Keyboard.New | kernel/src/keyboard.rs:103-109 | a new buffer is well-formed and empty |
| Keyboard.Push | kernel/src/keyboard.rs:112-120 | a push succeeds exactly when fewer than 255 bytes are waiting and then appends the byte to the queue; otherwise nothing changes |
| Keyboard.PushContents | kernel/src/keyboard.rs:117-118 | storing at the write index and advancing it appends that byte to the queue |
| Keyboard.Pop | kernel/src/keyboard.rs:123-130 | a pop returns nothing exactly on an empty queue, and otherwise returns the oldest byte and removes it |
| Keyboard.PopContents | kernel/src/keyboard.rs:127-128 | advancing the read index removes the oldest byte from the queue |
| Keyboard.IsEmpty | kernel/src/keyboard.rs:134-136 | the buffer reports empty exactly when no byte is waiting |
| Keyboard.Len | kernel/src/keyboard.rs:140-146 | the length reported is the number of waiting bytes, at most 255 |
| Keyboard.PushInput | kernel/src/keyboard.rs:153-156 | a byte is appended when it fits and silently dropped when the buffer is full |
| Keyboard.BufferStep | kernel/src/keyboard.rs:112-130 | one push or pop keeps the ring well-formed |
| Keyboard.RunBuffer | kernel/src/keyboard.rs:112-130 | any run of pushes and pops keeps the ring well-formed |
| Keyboard.Fifo | kernel/src/keyboard.rs:96-146 | the ring buffer behaves as a bounded first-in first-out queue of 255 bytes: every push and pop answers as the queue does, so bytes come out in the order they went in |
| Keyboard.ProcessEvent | kernel/src/keyboard.rs:411-421 | only a key-press event of a mapped key adds a byte, its ASCII code, and only if it fits |
| Keyboard.KeymapInjective | kernel/src/keyboard.rs:425-498 | every mapped key has its own byte, and no key gives an upper-case letter |
| Keyboard.KeymapSurjective | kernel/src/keyboard.rs:425-498 | the table read backwards gives back the byte |
| Keyboard.KeymapControls | kernel/src/keyboard.rs:442-496 | Enter, Backspace, Space and Escape give line feed, 8, space and 27, and unmapped codes give nothing |
| Sv39Bits.Ppn | kernel/src/sv39.rs:59 | the page number of `pa` is the number of whole 4 KiB pages below it |
| Sv39Bits.Vpn | kernel/src/sv39.rs:62-65 | each virtual page number field is a 9-bit table index |
| Sv39Bits.VpnIndices | kernel/src/sv39.rs:62-65 | the three 9-bit indices and the page offset spell out the low 39 bits of the address |
| Sv39Bits.VpnDigits | kernel/src/sv39.rs:62-65 | the three fields, weighted by 1 GiB, 2 MiB and 4 KiB, plus the page offset give the address modulo the Sv39 span |
| Sv39Bits.VpnRoundTrip | kernel/src/sv39.rs:62-65 | a page-aligned address inside the Sv39 span is rebuilt from its three indices |
| Sv39Bits.VpnIndicesInjective | kernel/src/sv39.rs:62-65 | distinct pages of the Sv39 span have distinct index triples |
| Sv39Bits.SamePageSameVpn | kernel/src/sv39.rs:62-65 | addresses in the same 4 KiB page share all three indices |
| Sv39Bits.SameRegionSameVpn | kernel/src/sv39.rs:62-65 | addresses in the same 2 MiB region share the level-2 and level-1 indices |
| Sv39Bits.PageBase | kernel/src/sv39.rs:62-65 | inside the Sv39 span the indices spell out the base of the address's page |
| Sv39Bits.OtherPageOtherVpn | kernel/src/sv39.rs:62-65 | inside the span, an address outside a page has a different index triple |
| Sv39Bits.OtherRegionOtherVpn | kernel/src/sv39.rs:62-65 | inside the span, an address outside a 2 MiB region differs in its upper two indices |
| Sv39Bits.InPage | kernel/src/sv39.rs:28-29 | an address within a page of an aligned address lies in the same page and region, at offset `v - va` |
| Sv39Bits.InRegion | kernel/src/sv39.rs:29 | an address within the 2 MiB region at an aligned address lies in that region at offset `v - va` |
| Sv39Bits.PageGap | kernel/src/sv39.rs:28 | two distinct page-aligned addresses are at least a page apart |
| Sv39Bits.HeadPage | kernel/src/sv39.rs:125-128 | in the first loop of the region mapper, each page ends at or before the next 2 MiB boundary and its region begins below the start |
| Sv39Bits.BoundaryBelow | kernel/src/sv39.rs:129 | a 2 MiB boundary at or below an address is at or below the start of its region |
| Sv39Bits.VpnOfLayout | kernel/src/lib.rs:95-102 | DRAM, the user base and the UART have the index triples [0, 0, 2], [0, 0, 1] and [0, 128, 0] |
| Sv39Bits.PpnOfFrame | kernel/src/lib.rs:15-17 | the page number of the k-th frame is k |
| Sv39Bits.UserPoolLayout | kernel/src/lib.rs:37-41 | the user frame pool lies inside DRAM, is page-aligned and holds 256 frames |
| Sv39Bits.PteTarget | kernel/src/sv39.rs:80 | the address an entry points at is page-aligned and below the 56-bit physical limit |
| Sv39Bits.PteRoundTrip | kernel/src/sv39.rs:77-96 | encoding an entry as the page number shifted left by 10, ORed with the flags, and decoding it gives back the page base and the flags |
| Sv39Bits.PteFlagsOfMake | kernel/src/sv39.rs:96 | the low ten bits of an encoded entry are its flags |
| Sv39Bits.PteFlagsFromPf | kernel/src/elf.rs:94-101 | every user page is valid, user-accessible and pre-accessed; it is readable exactly when PF_R is set, writable and pre-dirtied exactly when PF_W is set, executable exactly when PF_X is set |
| Sv39Bits.PfOfFlags | kernel/src/elf.rs:94-101 | the permissions read back from an entry are only the three ELF permission bits |
| Sv39Bits.PfRoundTrip | kernel/src/elf.rs:94-101 | the three permission bits of `p_flags` survive the translation into entry flags |
| Sv39Bits.SatpBits | kernel/src/sv39.rs:152-163 | the satp value carries mode 8 in its top four bits, the 16-bit ASID at bit 44 and the root's page number in the low 44 bits |
| PageTable.Child | kernel/src/sv39.rs:80 | a pointer entry leads to one of the 32 pool tables |
| PageTable.PointerToDecodes | kernel/src/sv39.rs:77-80 | a freshly written pointer entry is valid, is not a leaf and decodes to the table it was made from |
| PageTable.Zeroed | kernel/src/sv39.rs:54 | a zeroed table has 512 entries, all 0 |
| PageTable.ZeroNotValid | kernel/src/sv39.rs:75 | a zero entry is not valid, so a fresh table maps nothing |
| PageTable.AllocPtPage | kernel/src/sv39.rs:48-56 | allocation fails exactly when all 32 tables are used; otherwise it hands out the table under the cursor, zeroed, and advances the cursor by one |
| PageTable.WriteEntry | kernel/src/sv39.rs:96 | writing an entry keeps the pool's shape and its cursor |
| PageTable.Step | kernel/src/sv39.rs:72-81 | one level of the walk follows a valid pool entry without changing anything, and otherwise allocates at most one table; it fails with OutOfPtPages exactly when the entry is invalid and the pool is full, and otherwise only with WildPointer on a valid entry outside the pool |
| PageTable.Map4k | kernel/src/sv39.rs:69-97 | `map_4k` keeps the pool's shape and allocates at most two tables |
| PageTable.Map2m | kernel/src/sv39.rs:99-117 | `map_2m` fails with Misaligned exactly when va or pa is not 2 MiB aligned, and otherwise fails only with OutOfPtPages or WildPointer; on success it keeps the pool's shape and allocates at most one table |
| PageTable.Follow | kernel/src/sv39.rs:80 | following a pointer lands on a pool table |
| PageTable.TableAt | kernel/src/sv39.rs:69-95 | the table the walk reaches at any level is a pool table |
| PageTable.WriteFrame | kernel/src/sv39.rs:96 | writing an entry that the walk of an address does not read leaves that walk and its translation unchanged |
| PageTable.PathAllocated | kernel/src/sv39.rs:48-56 | in a well-formed pool every table below the root is allocated and is not the root |
| PageTable.AllocFrame | kernel/src/sv39.rs:48-56 | allocating a table changes no walk |
| PageTable.MappedPathValid | kernel/src/sv39.rs:75-91 | every entry read by the walk of a mapped address is valid |
| PageTable.WfAlloc | kernel/src/sv39.rs:48-56 | allocating a table keeps the tree well formed |
| PageTable.WfLink | kernel/src/sv39.rs:77 | linking a fresh table into an invalid entry keeps the tree well formed |
| PageTable.WfLinkDistinct | kernel/src/sv39.rs:77 | after linking a fresh table, no two entries point at the same table |
| PageTable.WfLeaf | kernel/src/sv39.rs:96 | writing a leaf that is not a pool pointer keeps the tree well formed |
| PageTable.StepFacts | kernel/src/sv39.rs:72-81 | one walk step keeps the tree well formed and leaves a pointer to the table it returns |
| PageTable.StepPreservesMapped | kernel/src/sv39.rs:72-81 | a walk step changes the translation of no address that was already mapped |
| PageTable.PathsDisjoint0 | kernel/src/sv39.rs:95-96 | the leaf entry of one 4 KiB page is read by the walk of no other page |
| PageTable.PathsDisjoint1 | kernel/src/sv39.rs:115-116 | the level-1 entry of one 2 MiB region is read by the walk of no address outside it |
| PageTable.SameVpnSameWalk | kernel/src/sv39.rs:62-65 | addresses with the same index triple read the same entries |
| PageTable.Map4kWalk | kernel/src/sv39.rs:69-95 | before its leaf write `map_4k` has reached, through two pointers, two distinct allocated tables other than the root |
| PageTable.Map4kInstallsLeaf | kernel/src/sv39.rs:69-97 | `map_4k` installs the page number shifted left by 10, ORed with the flags, as the level-0 entry on the walk of `va`, and a level-2 entry it had to create carries V alone |
| PageTable.Map4kKeepsWf | kernel/src/sv39.rs:69-97 | `map_4k` keeps the tree well formed |
| PageTable.Map4kPath | kernel/src/sv39.rs:69-97 | after `map_4k` the walk of `va` passes two pointers and ends at the new leaf |
| PageTable.Map4kTranslate | kernel/src/sv39.rs:69-97 | after `map_4k` every address of the page translates to the same offset in the page of `pa` when the flags make a leaf, and faults when they lack V |
| PageTable.Map4kFrame | kernel/src/sv39.rs:69-97 | `map_4k` leaves the translation of every other mapped page as it was |
| PageTable.Map4kReusesTables | kernel/src/sv39.rs:75-92 | a walk whose level-2 and level-1 entries are already valid allocates nothing |
| PageTable.WriteSame | kernel/src/sv39.rs:96 | rewriting an entry with the value it holds changes nothing |
| PageTable.Map4kOverExisting | kernel/src/sv39.rs:69-97 | over existing tables `map_4k` is a single leaf write |
| PageTable.Map4kIdempotent | kernel/src/sv39.rs:69-97 | repeating `map_4k` with the same arguments allocates nothing and changes nothing |
| PageTable.Map2mWalk | kernel/src/sv39.rs:99-113 | before its leaf write `map_2m` has checked alignment and reached an allocated level-1 table other than the root |
| PageTable.Map2mInstallsLeaf | kernel/src/sv39.rs:99-117 | `map_2m` installs a superpage leaf as the level-1 entry on the walk of `va` |
| PageTable.Map2mKeepsWf | kernel/src/sv39.rs:99-117 | `map_2m` keeps the tree well formed |
| PageTable.Map2mTranslate | kernel/src/sv39.rs:99-117 | after `map_2m` every address of the 2 MiB region translates to the same offset in the region at `pa` when the flags make a leaf, and faults when they lack V |
| PageTable.Map2mFrame | kernel/src/sv39.rs:99-117 | `map_2m` leaves the translation of every mapped address outside the region as it was |
| PageTable.PageRounding | kernel/src/sv39.rs:121-122 | rounding down and up to pages gives the aligned addresses within a page below and above |
| PageTable.IdMap4kStep | kernel/src/sv39.rs:125-128 | one 4 KiB step of `id_map_region` extends the identity map by one page |
| PageTable.IdMap4kKeeps | kernel/src/sv39.rs:125-136 | a 4 KiB step keeps every translation outside the range |
| PageTable.IdMap4kCovers | kernel/src/sv39.rs:125-136 | after a 4 KiB step each address up to the end of the new page maps to itself |
| PageTable.IdMap2mStep | kernel/src/sv39.rs:129-132 | one 2 MiB step of `id_map_region` extends the identity map by one region |
| PageTable.IdMap2mKeeps | kernel/src/sv39.rs:129-132 | a 2 MiB step keeps every translation outside the range |
| PageTable.IdMap2mCovers | kernel/src/sv39.rs:129-132 | after a 2 MiB step each address up to the end of the new region maps to itself |
| PageTable.IdMapHead | kernel/src/sv39.rs:125-128 | the head loop maps 4 KiB pages identically from the start until the end or the first 2 MiB boundary |
| PageTable.IdMapBody | kernel/src/sv39.rs:129-132 | the middle loop maps whole 2 MiB regions identically and stops less than a region before the end |
| PageTable.IdMapTail | kernel/src/sv39.rs:133-136 | the tail loop maps the remaining 4 KiB pages identically up to the end |
| PageTable.IdMapRegion | kernel/src/sv39.rs:120-137 | `id_map_region` maps every address of the page-rounded range to itself, with 2 MiB flags inside whole aligned regions and 4 KiB flags elsewhere, and keeps every translation outside the range |
| PageTable.FreshRootWf | kernel/src/sv39.rs:143 | the first table of a fresh pool is a well-formed empty tree |
| PageTable.DramPages | kernel/src/sv39.rs:33-34 | DRAM starts and ends on page boundaries |
| PageTable.UartMapKeepsDram | kernel/src/sv39.rs:146-149 | mapping the UART page after DRAM keeps DRAM identity-mapped and maps the UART page to itself read-write |
| PageTable.EnableSv39 | kernel/src/sv39.rs:141-170 | `enable_sv39` on a fresh pool identity-maps all 128 MiB of DRAM with RWX and the UART page with RW, and builds the satp value for mode Sv39, ASID 0 and the root's page number |
| ElfLoader.LoadPage | kernel/src/elf.rs:182-209 | one turn of the page loop maps one fresh frame at the current page, advances the file count to the page's end, touches nothing outside the page and leaves the segment's bytes in the page right: file bytes where the file covers them, zeros for the rest |
| ElfLoader.FillPage | kernel/src/elf.rs:186-206 | the copy and zero-fill of one page stay inside the page and leave its part of the segment right |
| ElfLoader.CopyChunk | kernel/src/elf.rs:189-197 | the file chunk is copied from the image at `p_offset + copied` to the page, nothing else changes, and the count advances by the chunk |
| ElfLoader.ZeroRest | kernel/src/elf.rs:199-206 | the zero-fill runs from just after the copied bytes to the segment end or the page end, whichever comes first, and touches nothing else |
| ElfLoader.LoadPageFrame | kernel/src/elf.rs:186-206 | the copy and zero-fill of a page stay inside it, and the file count advances to the page's end |
| ElfLoader.LoadPageBytes | kernel/src/elf.rs:186-206 | after the copy and zero-fill, the segment's bytes in the page are the file's bytes followed by zeros |
| ElfLoader.LoadSegment | kernel/src/elf.rs:173-209 | a PT_LOAD segment maps exactly the pages from `p_vaddr` rounded down to `p_vaddr + p_memsz` rounded up, each to a fresh frame with the segment's flags, and afterwards memory holds the file bytes followed by zeros up to `p_memsz`; nothing outside those pages changes |
| ElfLoader.SegmentDone | kernel/src/elf.rs:182 | when the page loop reaches the rounded-up segment end, the segment is loaded |
| ElfLoader.SegmentLoopStep | kernel/src/elf.rs:182-209 | one turn of the page loop keeps the loop's invariant |
| ElfLoader.LoadSegmentStep | kernel/src/elf.rs:183 | mapping the next page extends the mapped range by one page and keeps memory outside it |
| ElfLoader.LoadSegmentBytes | kernel/src/elf.rs:186-206 | the bytes of the pages mapped so far stay right as the loop advances |
| ElfProgram.CheckHeader | kernel/src/elf.rs:112-136 | the header checks report `Short` exactly for an image shorter than the ELF header, `BadMagic` exactly when the parse fails or the magic is wrong, and pass exactly when the header is 64-bit little-endian RISC-V and a root table is set |
| ElfProgram.MaxBrkIsMax | kernel/src/elf.rs:166-170 | the break is the end of some mapped segment, or 0, and no mapped segment ends above it |
| ElfProgram.LoadSegments | kernel/src/elf.rs:142-210 | the header loop succeeds exactly when every PT_LOAD header's file bytes lie within the image, and then returns the largest segment end and leaves every segment loaded |
| ElfProgram.SkipStep | kernel/src/elf.rs:143-145 | a header that maps nothing changes neither the break nor the loaded segments |
| ElfProgram.LoadStep | kernel/src/elf.rs:162-209 | loading one more segment raises the break to its end if that is higher and keeps the loaded segments in step with the headers seen |
| ElfProgram.PagesStep | kernel/src/elf.rs:173-209 | the page map after one more segment is the earlier one with that segment's pages mapped |
| ElfProgram.BytesStep | kernel/src/elf.rs:173-209 | every earlier segment whose pages the new one does not overwrite keeps its bytes |
| ElfProgram.SegmentKept | kernel/src/elf.rs:173-209 | a segment whose pages lie outside the range written keeps its bytes |
| ElfProgram.OffStep | kernel/src/elf.rs:173-209 | memory outside all segments loaded so far stays as it was |
| ElfProgram.LoadUserElf | kernel/src/elf.rs:104-229 | `load_user_elf` returns the first failing check's error, `PhOutOfBounds` for a segment outside the image, or the stack's error; on success the result carries the entry point, the stack values and the largest segment end, with every segment loaded and the stack built above them |
| ElfProgram.StackOverSegments | kernel/src/elf.rs:212-227 | the stack set-up on top of the loaded segments gives the final process image |
| ElfProgram.StackPagesOver | kernel/src/elf.rs:240-246 | the stack pages are mapped over the page map the segments left |
| UserSpace.MapUserPage | kernel/src/elf.rs:76-80 | mapping a user page maps a fresh frame at `va` with the flags, uses one more frame, and forgets whatever bytes were visible in that page before |
| UserSpace.WriteBytes | kernel/src/elf.rs:59-63 | a user write stores the bytes from the address on and changes nothing else |
| UserSpace.StoreWord | kernel/src/elf.rs:65-71 | `write_user_usize` leaves the value's eight bytes at the address, least significant first, as `LeBytes` lays them out, and changes no other byte |
| UserSpace.Zeros | kernel/src/elf.rs:88-90 | zero-filling stores `n` bytes of 0 |
| UserSpace.HoldsFrame | kernel/src/elf.rs:59-63 | bytes outside a write keep their values |
| UserSpace.SameOutsideGrow | kernel/src/elf.rs:59-63 | two writes inside a range together change nothing outside it |
| UserSpace.Pow256Word | kernel/src/elf.rs:65-71 | an eight-byte word holds exactly the values of a 64-bit `usize` |
| UserSpace.ReadWrittenUsize | kernel/src/elf.rs:65-71 | a `usize` written as a word reads back as itself |
| UserSpace.LeBytes | kernel/src/elf.rs:66-69 | a `usize` is stored as eight bytes |
| UserSpace.LeValue | kernel/src/elf.rs:66-69 | the value of `n` little-endian bytes is below 256 to the `n` |
| UserSpace.LeRoundTrip | kernel/src/elf.rs:65-71 | reading back the little-endian bytes of a value in range gives the value |
| UserSpace.Gather | kernel/src/elf.rs:59-63 | reading `n` bytes gives `n` bytes |
| UserSpace.ReadWord | kernel/src/elf.rs:65-71 | a word read from memory is a `usize` |
| UserSpace.GatherHolds | kernel/src/elf.rs:59-63 | reading back the bytes of a write gives the bytes written |
| UserSpace.WordFrame | kernel/src/elf.rs:65-71 | a word outside a write keeps its value |
| UserSpace.WordAtSame | kernel/src/elf.rs:65-71 | a word named by an equal address is the same word |
| UserSpace.ReadWrittenWord | kernel/src/elf.rs:65-71 | a word that was written reads back as the same `usize` |
| UserStack.FootprintStep | kernel/src/elf.rs:256 | each string takes its length plus one byte for its NUL |
| UserStack.FootprintPrefix | kernel/src/elf.rs:254-270 | the strings placed so far take no more room than all of them |
| UserStack.AlignDown16 | kernel/src/elf.rs:273 | `sp & !15` is the largest multiple of 16 not above `sp` |
| UserStack.StringAddrs | kernel/src/elf.rs:254-260 | each string gets one address |
| UserStack.StringAddrsBounds | kernel/src/elf.rs:254-270 | every string and its NUL lie inside the strings' footprint below the base, one just below the other |
| UserStack.VectorEntry | kernel/src/elf.rs:275-290 | entry `j` of a pointer vector is the word in slot `j`, and the NULL follows the last entry |
| UserStack.StringsFrame | kernel/src/elf.rs:275-296 | writes below the stacked strings keep them |
| UserStack.VectorFrame | kernel/src/elf.rs:284-296 | writes below a vector keep it |
| UserStack.VectorCons | kernel/src/elf.rs:278-280 | a pointer stored just below a vector extends it by one entry at the front |
| UserStack.MapPages | kernel/src/elf.rs:241-246 | the mapping loop maps `stack_pages` fresh frames upward from the lowest stack page, each user read-write, and uses that many frames |
| UserStack.MapPagesStep | kernel/src/elf.rs:243-246 | one turn of the mapping loop extends the mapped range by one page |
| UserStack.PushStrings | kernel/src/elf.rs:254-270 | one string loop stores each string and its NUL just below the previous one and records its address; the 33rd string overflows the 32-entry vector after it was written |
| UserStack.PushString | kernel/src/elf.rs:256-258 | `sp` goes down by the length plus one, and the string and its NUL are written at the new `sp` and nowhere else |
| UserStack.ReachedFits | kernel/src/elf.rs:254-270 | a string the loop reaches fits within the footprint of those it reaches |
| UserStack.StringsStep | kernel/src/elf.rs:254-260 | one turn of the string loop keeps its invariant |
| UserStack.StringsExtend | kernel/src/elf.rs:256-259 | writing one more string and NUL below the earlier ones keeps them and the memory outside |
| UserStack.StoredWithNul | kernel/src/elf.rs:257-258 | writing a string and then a NUL just after it stores the string followed by NUL |
| UserStack.PushVector | kernel/src/elf.rs:275-290 | a NULL word and then the pointers in reverse leave a vector whose entry 0 is lowest, `8 * (n + 1)` bytes below the old `sp`, and nothing else changes |
| UserStack.VectorStep | kernel/src/elf.rs:278-280 | one turn of the vector loop keeps its invariant |
| UserStack.SetupUserStack | kernel/src/elf.rs:233-302 | `setup_user_stack` fails with `SegmentOverflow` exactly when either list has more than 32 strings, and otherwise maps the stack pages and leaves the full stack image with a 16-byte aligned `sp` |
| UserStack.BuildStack | kernel/src/elf.rs:248-301 | the strings, vectors and argc are laid down below the guard and nothing above it changes; overflow exactly when a list has more than 32 strings |
| UserStack.StackImageIntro | kernel/src/elf.rs:248-301 | the strings and vectors together make up the stack image |
| UserStack.VectorReadBack | kernel/src/elf.rs:275-291 | entry `i` of a pointer vector reads back as the address of string `i`, whose bytes and NUL are there, and the entry after the last reads back as NULL |
| UserStack.ArgvReadBack | kernel/src/elf.rs:262-296 | the program reads argc in the word below `argv[0]`, each `argv[i]` pointing at argument `i` and its NUL, and NULL after the last |
| UserStack.EnvpReadBack | kernel/src/elf.rs:252-282 | `envp[i]` points at variable `i` and its NUL, and a NULL ends the vector |
| UserStack.PlaceStrings | kernel/src/elf.rs:249-270 | the environment strings go under the 16-byte guard and the arguments below them; overflow exactly when a list has more than 32 strings |
| UserStack.PlaceVectors | kernel/src/elf.rs:272-299 | below the strings, after aligning to 16: the envp vector, then the argv vector directly below it, then argc, and a final `sp` aligned to 16 below argc |
| UserStack.VectorsKept | kernel/src/elf.rs:284-296 | writing the argv vector and argc below the envp vector keeps both vectors |
| FbConsole.InitFbConsole | kernel/src/display/fb_console.rs:18-45 | the console starts with the cursor at the top left, visible, with the blink counter at 0, and a grid of as many whole character cells as fit the framebuffer |
| FbConsole.ScrollCursor | kernel/src/display/fb_console.rs:285-288 | scrolling moves the cursor up one row unless it is on the top row, and changes nothing else |
| FbConsole.NewLine | kernel/src/display/fb_console.rs:84-89 | a new line goes to column 0 of the next row, and scrolls exactly when that row is off the bottom, staying on the same row |
| FbConsole.NextTab | kernel/src/display/fb_console.rs:97 | the next tab stop is the first multiple of 8 after the column |
| FbConsole.WriteCharInternal | kernel/src/display/fb_console.rs:70-134 | writing a byte changes only the cursor and keeps it on the grid |
| FbConsole.WriteCharCases | kernel/src/display/fb_console.rs:82-133 | carriage return goes to column 0; line feed to the next line; tab to the next multiple of 8 or, past the last column, to the next line; backspace moves left and draws a space; a printable byte is drawn and advances, wrapping at the last column; anything else is ignored |
| FbConsole.UpdateCursor | kernel/src/display/fb_console.rs:190-213 | one tick advances the blink counter, and on the 30th flips the cursor's visibility and resets the counter; nothing else changes |
| FbConsole.UpdateCounts | kernel/src/display/fb_console.rs:202-209 | ticks short of the period only count up |
| FbConsole.BlinkPeriod | kernel/src/display/fb_console.rs:205-209 | every 30 ticks flip the cursor's visibility once and bring the counter back to where it was |
| FbConsole.UpdateTimesSplit | kernel/src/display/fb_console.rs:190-213 | `j + k` ticks are `j` ticks and then `k` |
| FbConsole.RunAppend | kernel/src/display/fb_console.rs:145-148 | writing the bytes of `x + y` one at a time is writing `x` and then `y` |
| FbConsole.WriteBytesValid | kernel/src/display/fb_console.rs:145-148 | writing any bytes keeps the cursor on the grid and changes nothing but the cursor |
| FbConsole.WriteBytesAppend | kernel/src/display/fb_console.rs:145-148 | writing `x + y` is writing `x`, then `y`, and draws what the two draw in turn |
| FbConsole.WriteStr | kernel/src/display/fb_console.rs:145-154 | `write_str` draws exactly what writing the bytes one by one draws and leaves the console that writing leaves, after one cursor tick; without a console it does nothing |
| FbConsole.WriteChar | kernel/src/display/fb_console.rs:136-142 | `write_char` is `write_str` of one byte |
| FbConsole.WriteBytesOne | kernel/src/display/fb_console.rs:145-148 | writing one byte is one step of the byte writer |
| FbConsole.BackspaceUndoesPrintable | kernel/src/display/fb_console.rs:108-126 | backspace right after a printable byte that did not wrap puts the cursor back and draws a space over the byte |
| FbConsole.NewLineAtBottom | kernel/src/display/fb_console.rs:83-90 | a line feed on the bottom row scrolls and leaves the cursor at column 0 of that row |
| FbConsole.ScrollPixels | kernel/src/display/fb_console.rs:259-283 | after scrolling, pixel row `y` is the old row `y + FONT_HEIGHT`, and the last `FONT_HEIGHT` rows are the background colour |
| LispCells.Alloc | lisp/lisp.c:100-108 | a cell is appended at the next index while fewer than 1024 are in use; on a full arena "ERROR: Out of memory" is printed, nothing is written and the result is `nil`; environments and strings are untouched |
| LispCells.GrowsRefl | lisp/lisp.c:100-108 | a heap is an extension of itself |
| LispCells.GrowsTransitive | lisp/lisp.c:100-108 | extending an extension of a heap extends the heap |
| LispCells.AllocValid | lisp/lisp.c:100-161 | allocating a cell whose references are allocated keeps the heap valid, only grows it, and returns an allocated cell |
| LispCells.NilOverwritten | lisp/lisp.c:100-145 | as written, `make_cons(x, nil)` on a full arena rewrites cell 0 into a pair whose tail is itself, so `nil` is no longer empty |
| LispCells.NilKept | lisp/lisp.c:100-108 | with the corrected allocator `nil` stays the empty list on a full arena and the constructor returns it |
| LispCells.StrAlloc | lisp/lisp.c:82-92 | the string pool cursor moves by `len + 1` when the copy fits below the pool's last byte; otherwise "ERROR: Out of string memory" is printed and the cursor stays |
| LispCells.EnvExtend | lisp/lisp.c:110-116 | a new binding goes in front of the parent while fewer than 128 slots are used; otherwise an error is printed and the parent is returned unchanged; see also lisp/lisp.c:164-171 |
| LispCells.Lookup | lisp/lisp.c:173-182 | a name with no binding in the chain looks up as `nil` |
| LispCells.LookupNearest | lisp/lisp.c:173-182 | the lookup finds the first binding for the name, whatever comes after it |
| LispCells.LookupExtended | lisp/lisp.c:164-182 | a new binding shadows every older one for the same name and hides nothing else |
| LispReader.SkipSpace | lisp/lisp.c:291-295 | skipping stops at the first position at or after the start that is not white space, or at the end of the 256-byte buffer, and passes only white space |
| LispReader.TokenFrom | lisp/lisp.c:317-321 | the rest of a token is copied from the line, token characters only, and stops at the cap, the buffer end or the first character that ends a token |
| LispReader.Token | lisp/lisp.c:314-322 | a token is at most 63 characters copied from the line, and ends before white space, a parenthesis, the NUL, the buffer end or the cap |
| LispReader.ParseAtom | lisp/lisp.c:313-346 | an atom consumes exactly its token |
| LispReader.Quoted | lisp/lisp.c:360-363 | wrapping an expression as `(quote x)` consumes nothing more |
| LispReader.ParseExpr | lisp/lisp.c:348-367 | the reader never moves backwards or past the line, and consumes input whenever the next non-blank character is neither the end nor `)` |
| LispReader.ParseList | lisp/lisp.c:299-311 | reading a list never moves backwards or past the line |
| LispReader.OpenListNeverEnds | lisp/lisp.c:299-311 | as written, a list still open at the end of the line never finishes: each step reads `nil` at the NUL without moving, so no recursion budget is enough |
| LispReader.UnclosedParen | lisp/lisp.c:299-311 | the line `(` is never read to its end as written, while the corrected reader reads it as `nil`, closing the list at the end of the line |
| LispReader.ExprValid | lisp/lisp.c:348-367 | reading only allocates: over a valid heap the heap stays valid, only grows, and the cell read is allocated |
| LispReader.ListValid | lisp/lisp.c:299-311 | reading a list keeps the heap valid, only grows it, and returns an allocated cell |
| LispReader.ReadsNothing | lisp/lisp.c:351-359 | at the end of the line, or at a `)`, the reader returns `nil` and allocates nothing |
| LispReader.ReadsList | lisp/lisp.c:355-357 | an opening parenthesis starts a list |
| LispReader.ReadsAtom | lisp/lisp.c:364-365 | any other character starts an atom |
| LispReader.ReadsQuote | lisp/lisp.c:360-363 | a quote mark reads the expression after it and wraps it as `(quote x)` |
| LispReader.AtomValid | lisp/lisp.c:313-346 | reading an atom keeps the heap valid, only grows it, and returns an allocated cell |
| LispReader.QuotedValid | lisp/lisp.c:363 | the quote wrapping keeps the heap valid and returns an allocated cell |
| LispReader.TokenWhole | lisp/lisp.c:317-321 | a whole short line of token characters is one token |
| LispReader.ReadNumber | lisp/lisp.c:326-338 | every `int` a cell can hold, printed in decimal, reads back as a new number cell with that value |
| LispReader.DecimalIsNumeral | lisp/lisp.c:327-336 | a printed `int` passes the reader's numeral test |
| LispReader.ReadNumeral | lisp/lisp.c:326-338 | a line that is one numeral reads as a new number cell holding its `atoi` value |
| LispReader.ReadSymbol | lisp/lisp.c:340-345 | a name that is no numeral, `nil` or `t` reads back as a new symbol with that name, copied into the string pool |
| LispReader.TokenRest | lisp/lisp.c:317-321 | the rest of a short line of token characters is one token |
| LispReader.ReadQuoted | lisp/lisp.c:360-363 | `'x` for a symbol name `x` reads as the two-element list `(quote x)` |
| LispReader.ReadAfterQuote | lisp/lisp.c:360-362 | after the quote mark the name reads as a new symbol and consumes the rest of the line |
| LispReader.QuotedItems | lisp/lisp.c:363 | the list built for a quote has the items `quote` and the quoted cell |
| LispPrims.Car | lisp/lisp.c:185-190 | `car` gives the head of its first argument when that is a pair, and `nil` otherwise or without arguments |
| LispPrims.Cdr | lisp/lisp.c:192-197 | `cdr` gives the tail of its first argument when that is a pair, and `nil` otherwise or without arguments |
| LispPrims.MakeNum | lisp/lisp.c:125-130 | making a number only extends the heap |
| LispPrims.Cons | lisp/lisp.c:199-205 | `cons` with fewer than two arguments gives `nil` and allocates nothing; otherwise it only extends the heap |
| LispPrims.Atom | lisp/lisp.c:207-211 | `atom` gives `t` exactly when there is a first argument and it is not a pair, and `nil` otherwise |
| LispPrims.Eq | lisp/lisp.c:213-230 | `eq` answers `t` or `nil` |
| LispPrims.Numbers | lisp/lisp.c:234-238 | the arithmetic primitives see only the number cells of their arguments |
| LispPrims.Add | lisp/lisp.c:232-241 | `+` only extends the heap |
| LispPrims.Mul | lisp/lisp.c:261-270 | `*` only extends the heap |
| LispPrims.Sub | lisp/lisp.c:243-259 | `-` only extends the heap |
| LispPrims.Div | lisp/lisp.c:272-285 | `/` only extends the heap |
| LispPrims.Apply | lisp/lisp.c:457-459 | a primitive only extends the heap |
| LispPrims.AllocGrows | lisp/lisp.c:100-108 | allocation only extends the heap |
| LispPrims.ApplyValid | lisp/lisp.c:185-285 | over a valid heap a primitive keeps the heap valid and returns an allocated cell |
| LispPrims.ConsCarCdr | lisp/lisp.c:185-211 | `car` and `cdr` of a pair `cons` has just built give back the two arguments it was given, and `atom` of it is `nil` |
| LispPrims.EqReflexive | lisp/lisp.c:213-230 | `eq` holds of any value and itself |
| LispPrims.EqSymmetric | lisp/lisp.c:213-230 | `eq` does not depend on the order of its two arguments |
| LispPrims.SumAppend | lisp/lisp.c:232-241 | the sum of two runs of numbers is the sum of their sums |
| LispPrims.ProductAppend | lisp/lisp.c:261-270 | the product of two runs of numbers is the product of their products |
| LispPrims.ProductZero | lisp/lisp.c:261-270 | the product is zero exactly when one of the numbers is zero |
| LispPrims.SubIsAddNegated | lisp/lisp.c:243-259 | with more than one argument, `-` takes from the first number exactly what `+` adds up over the rest |
| LispPrims.QuotientShrinks | lisp/lisp.c:272-285 | `/` never ends further from 0 than its first argument |
| LispPrims.QuotientSkipsZero | lisp/lisp.c:279-281 | a zero divisor is skipped and leaves the running value as it was |
| LispEval.EvalValid | lisp/lisp.c:383-452 | evaluation never breaks the heap: everything it allocates refers to allocated cells, and the result is allocated |
| LispEval.EvalPairValid | lisp/lisp.c:396-448 | evaluating a form keeps the heap sound |
| LispEval.EvalIfValid | lisp/lisp.c:408-422 | evaluating `if` keeps the heap sound |
| LispEval.MakeLambdaValid | lisp/lisp.c:423-430 | building a closure keeps the heap sound |
| LispEval.EvalDefineValid | lisp/lisp.c:431-441 | evaluating `define` keeps the heap sound |
| LispEval.EvalCallValid | lisp/lisp.c:444-447 | a function call keeps the heap sound |
| LispEval.EvalListValid | lisp/lisp.c:370-381 | evaluating an argument list keeps the heap sound |
| LispEval.ApplyFnValid | lisp/lisp.c:454-477 | applying a function keeps the heap sound |
| LispEval.BindValid | lisp/lisp.c:466-471 | binding parameters takes environment slots but no cells |
| LispEval.ExtendGlobalValid | lisp/lisp.c:439 | extending the global environment keeps its bindings over allocated cells |
| LispEval.SoundThen | lisp/lisp.c:383-477 | soundness carries over from a step to the heap it extends |
| LispEval.EnvBelowMono | lisp/lisp.c:164-182 | an environment over allocated cells stays so as the heap grows |
| LispEval.PartsBelow | lisp/lisp.c:139-145 | in a valid heap the parts of a pair are older cells |
| LispEval.LookupBelow | lisp/lisp.c:173-182 | a lookup in an environment over allocated cells gives an allocated cell |
| LispEval.ItemsBelow | lisp/lisp.c:370-381 | every item of a list in a valid heap is allocated |
| LispEval.GrowsAt | lisp/lisp.c:100-108 | cells already allocated read the same after the heap has grown |
| LispEval.SelfEvaluating | lisp/lisp.c:387-391 | `nil`, numbers, closures and primitives evaluate to themselves and allocate nothing |
| LispEval.SymbolLooksUp | lisp/lisp.c:393-394 | a symbol evaluates to its nearest binding in the environment and allocates nothing |
| LispEval.QuoteReturnsArgument | lisp/lisp.c:402-407 | `(quote x)` evaluates to `x` itself, unevaluated, and allocates nothing |
| LispEval.IfPicksBranch | lisp/lisp.c:408-422 | `(if c a b)` evaluates the condition first, then `a` when its value is not a `nil` cell and `b` when it is, and nothing else |
| LispEval.IfWithoutElse | lisp/lisp.c:415-420 | `(if c a)` gives `nil` when the condition's value is `nil` |
| LispEval.IfShape | lisp/lisp.c:409-415 | the argument list of `(if c a ...)` holds the condition, the then-part and the else-part in order |
| LispEval.FormShape | lisp/lisp.c:424-435 | the argument list of a two-argument form holds its two arguments in order |
| LispEval.DefineBinds | lisp/lisp.c:431-441 | `(define x e)` returns the value of `e` and binds it to `x` in front of the global environment, so a later lookup there finds it first; with no slot left the environment stays as it was |
| LispEval.Pairs | lisp/lisp.c:466-471 | the binding loop pairs parameters and arguments up to the shorter list, first pair first |
| LispEval.Reversed | lisp/lisp.c:468 | the pairs end up in reverse order in front of the environment |
| LispEval.BindPrepends | lisp/lisp.c:462-471 | the binding loop puts one binding per pair in front of the closure's environment, the last pair nearest, and once the slots run out the remaining pairs are dropped |
| LispEval.ApplyClosure | lisp/lisp.c:460-474 | a closure is applied by evaluating its body in its own environment extended with the parameter bindings |
| LispEval.IdentityClosure | lisp/lisp.c:460-474 | `((lambda (x) x) v)` gives `v` and takes one environment slot |
| LispEval.BindOne | lisp/lisp.c:466-471 | binding one parameter to one argument takes one slot and adds that binding in front |
| LispEval.EvalMore | lisp/lisp.c:383-452 | more recursion budget never changes a finished evaluation |
| LispEval.EvalPairMore | lisp/lisp.c:396-448 | the same for a form |
| LispEval.EvalIfMore | lisp/lisp.c:408-422 | the same for `if` |
| LispEval.EvalDefineMore | lisp/lisp.c:431-441 | the same for `define` |
| LispEval.EvalCallMore | lisp/lisp.c:444-447 | the same for a call |
| LispEval.EvalListMore | lisp/lisp.c:370-381 | the same for an argument list |
| LispEval.ApplyFnMore | lisp/lisp.c:454-477 | the same for an application |
| LispRepl.PrintProperList | lisp/lisp.c:496-510 | a proper list prints as its elements, separated by single spaces, inside parentheses |
| LispRepl.PrintPair | lisp/lisp.c:496-499 | a pair prints as `(`, its head, then the rest of the list |
| LispRepl.Regroup | lisp/lisp.c:500-509 | regrouping the printed pieces of a list does not change the text |
| LispCells.ItemsOfPair | lisp/lisp.c:500-504 | the items of a list headed by a pair are its head and then the items of its tail |
| LispRepl.SpacedCons | lisp/lisp.c:500-503 | the items printed after the first are each preceded by one space |
| LispRepl.PrintRestProper | lisp/lisp.c:500-509 | the rest of a proper list prints as its items, each after a space, then `)` |
| LispRepl.InstallStep | lisp/lisp.c:527-535 | installing a primitive takes two cells and one environment slot and binds the name in front of the global environment |
| LispRepl.Laid | lisp/lisp.c:527-535 | installing the primitives lays out two cells each, a symbol for the name and the primitive |
| LispRepl.LaidNames | lisp/lisp.c:527-535 | only the names installed are laid out as symbols |
| LispRepl.Bound | lisp/lisp.c:527-535 | each installed binding points from a name cell to the primitive cell right after it |
| LispRepl.InstallAllIs | lisp/lisp.c:527-535 | installing the primitives over a heap appends their cells and bindings and nothing else |
| LispRepl.Installed | lisp/lisp.c:521-536 | installing primitives over the boot heap gives a valid heap laid out as `nil`, `t`, then each name and its primitive |
| LispRepl.InstalledWithout | lisp/lisp.c:527-535 | when no installed name is `t`, no global binding is for `t` |
| LispRepl.InstalledEntry | lisp/lisp.c:527-535 | each global binding after installing is for an installed name |
| LispRepl.BootAllocated | lisp/lisp.c:522-524 | `init_lisp` allocates `nil` as cell 0 and the symbol `t` as cell 1 before any primitive |
| LispRepl.InitLayout | lisp/lisp.c:521-536 | after `init_lisp` the heap is valid with `nil`, `t`, then the nine names and primitives; nine slots are used, each binding a primitive's name; no string memory is used and nothing is printed |
| LispRepl.TUnbound | lisp/lisp.c:524-535 | no primitive is called `t`, so in the initial environment `t` is unbound |
| LispRepl.NoPrimitiveIsT | lisp/lisp.c:527-535 | none of the nine primitive names is `t` |
| LispRepl.Entered | lisp/lisp.c:551-555 | the line worked on is never longer than what was read |
| LispRepl.Say | lisp/lisp.c:539-577 | printing only appends to the output and leaves the heap's cells and environment alone |
| LispRepl.EnteredChomps | lisp/lisp.c:551-555 | a line holding neither NUL nor newline is worked on as itself, with or without the newline `fgets` keeps |
| LispRepl.SayValid | lisp/lisp.c:539-577 | printing keeps the heap valid and only adds output |
| LispRepl.RespondValid | lisp/lisp.c:567-574 | a turn keeps the heap valid and only adds cells and output |
| LispRepl.SessionFrames | lisp/lisp.c:543-577 | whatever the input, a finished session keeps the heap valid, starts with a prompt and ends with the farewell |
| LispRepl.ReplFrames | lisp/lisp.c:538-584 | everything the program prints starts with the banner and the first prompt and ends with "Goodbye!" |
| LispRepl.ReplStops | lisp/lisp.c:547-560 | end of input, or `quit` or `exit` on the first line, ends the session at once whatever follows |
| LispRepl.EmptyThen | lisp/lisp.c:538-578 | with nothing printed before, the output is the banner, the prompt and the farewell in turn |
| LispRepl.SessionStops | lisp/lisp.c:547-560 | at end of input or a quit word the session prints the farewell after the prompt and stops |
| LispRepl.Prompts | lisp/lisp.c:544 | `n` prompts take `n` times the prompt's length |
| LispRepl.SkipsBlanks | lisp/lisp.c:562-565 | empty lines each print only a prompt: nothing is read and the heap stays as it was |
| LispRepl.SkipsBlank | lisp/lisp.c:562-565 | one empty line prints only a prompt |
| LispRepl.SayTwice | lisp/lisp.c:539-577 | printing twice is printing the two texts joined |
| LispRepl.InitFacts | lisp/lisp.c:521-536 | after `init_lisp` the heap is valid, holds twenty cells and nothing is printed |
| LispRepl.SessionOne | lisp/lisp.c:543-577 | a session of one ordinary line is one turn and then the farewell |
| LispRepl.RespondNumber | lisp/lisp.c:567-574 | a line holding an `int` in decimal prints that number back |
| LispRepl.RespondT | lisp/lisp.c:342 | `t` is read as the fixed symbol cell, which no binding names, so it evaluates to and prints as `nil`; see also lisp/lisp.c:393-394 |
| LispRepl.RespondQuote | lisp/lisp.c:360-363 | a quoted symbol evaluates to the symbol, which prints as its name; see also lisp/lisp.c:402-407 |
| LispRepl.FirstTurn | lisp/lisp.c:538-544 | the first line is read into `init_lisp`'s heap with the banner and the first prompt printed, and `t` still unbound |
| LispRepl.ReplPrints | lisp/lisp.c:538-578 | a single ordinary line prints the banner, the prompt, what the line's turn prints, the prompt again and the farewell |
| LispRepl.ReplNumber | lisp/lisp.c:538-578 | a number typed at the first prompt is printed back as typed |
| LispRepl.ReplT | lisp/lisp.c:538-578 | `t` typed at the first prompt prints `nil` |
| LispRepl.ReplQuote | lisp/lisp.c:538-578 | a quoted symbol typed at the first prompt prints the symbol's name |
| LispRepl.NumberLine | lisp/lisp.c:547-565 | a printed number is an ordinary line: no NUL or newline, not a quit word, not empty |
| LispRepl.QuoteLine | lisp/lisp.c:547-565 | a quoted name is an ordinary line |
| Curses.OrBit | libc/src/curses.c:156 | a bit of the OR of `x` and `y` is set exactly when it is set in either |
| Curses.AndBit | libc/src/curses.c:130-131 | a bit of `x & y` is set exactly when it is set in both |
| Curses.NotBit | libc/src/curses.c:131 | a bit of `~x` is set exactly when it is clear in `x` |
| Curses.ZeroBit | libc/include/curses.h:12 | `A_NORMAL` has no bit set |
| Curses.ZeroAnd | libc/src/curses.c:130-131 | masking 0 gives 0 |
| Curses.SameBits | libc/src/curses.c:130-131 | two `chtype`s with the same 64 bits are equal |
| Curses.CharTextBit | libc/include/curses.h:18 | `A_CHARTEXT` is the low eight bits |
| Curses.AttributesMask | libc/src/curses.c:131 | `~A_CHARTEXT` is every bit above the character byte |
| Curses.CharBit | libc/src/curses.c:130 | a character has no bit above its byte |
| Curses.LowIsMask | libc/src/curses.c:130 | `ch & A_CHARTEXT` is `ch` modulo 256 |
| Curses.Widen | libc/src/curses.c:211-216 | a character widened to a `chtype` has that character in its low byte |
| Curses.AttrBit | libc/src/curses.c:131 | attributes that leave the character byte alone have none of its bits |
| Curses.SplitChar | libc/src/curses.c:130 | a character joined with attributes outside the character byte keeps the character in its low byte |
| Curses.SplitAttrs | libc/src/curses.c:131 | a character joined with attributes outside the character byte keeps the attributes above it |
| Curses.Out | libc/src/curses.c:241 | the byte `putchar` writes for a screen cell is its character |
| Curses.Blank | libc/src/curses.c:57-60 | the blanked screen has a space with no attributes in every cell, waiting to be painted |
| Curses.Put | libc/src/curses.c:155-157 | storing a cell changes that cell and no other |
| Curses.NewWin | libc/src/curses.c:481-500 | `newwin` returns a window exactly when `malloc` finds room, with the given size and origin, the cursor home, no attributes and no flags set |
| Curses.DelWin | libc/src/curses.c:502-508 | `delwin` succeeds exactly on a window `newwin` made and refuses NULL, `stdscr` and `curscr` |
| Curses.WMove | libc/src/curses.c:104-111 | `wmove` succeeds exactly for a window and a position inside it, and then puts the cursor there; on failure nothing changes |
| Curses.NextLine | libc/src/curses.c:136-138 | the cursor goes one line down unless it is on the window's last line |
| Curses.NextTab | libc/src/curses.c:144 | `(x + 8) & ~7` is the first multiple of 8 after `x` |
| Curses.WAddch | libc/src/curses.c:118-169 | `waddch` fails exactly without a window or with the cursor off the 24 by 80 screen, and then changes nothing |
| Curses.Control | libc/src/curses.c:134-152 | line feed, carriage return and tab change only the cursor |
| Curses.WAddchStores | libc/src/curses.c:154-166 | a stored character lands at the cursor with its own and the window's attributes, no other cell changes, and the cursor advances |
| Curses.WAddchControls | libc/src/curses.c:134-152 | line feed, carriage return and tab leave every cell as it was |
| Curses.WAddchKeepsCursor | libc/src/curses.c:118-169 | a cursor inside its window stays inside it, whatever is written |
| Curses.AdvanceInside | libc/src/curses.c:160-166 | advancing to any column to the right keeps the cursor inside its window |
| Curses.WAddchOnScreen | libc/src/curses.c:126-128 | on a window no larger than the screen with its cursor inside, `waddch` never fails |
| Curses.WAddchMoves | libc/src/curses.c:134-166 | where the cursor goes after a stored character, a line feed, a carriage return or a tab, wrapping at the window's right edge and stopping at its last line |
| Curses.MvwAddch | libc/src/curses.c:175-180 | a failed move writes nothing and fails |
| Curses.MvwInch | libc/src/curses.c:211-216 | without a window or off the screen, `mvwinch` reads a plain space |
| Curses.CharsOf | libc/src/curses.c:191 | the characters of a C string are those before its first NUL |
| Curses.WAddStr | libc/src/curses.c:187-197 | `waddstr` fails without a window or a string, and otherwise writes each character through `waddch`, stopping at the first failure |
| Curses.AddAll | libc/src/curses.c:191-196 | writing the characters one by one keeps the screen well formed and the window present |
| Curses.AddAllRow | libc/src/curses.c:187-197 | printable text that fits before the window's right edge lands in the cells after the cursor with the window's attributes, and no other cell changes |
| Curses.AddAllRowCursor | libc/src/curses.c:187-197 | such text moves the cursor just past it and succeeds |
| Curses.AddAllStored | libc/src/curses.c:191-195 | a first character short of the right edge is stored at the cursor and the rest follows from the next column |
| Curses.WAddStrRow | libc/src/curses.c:187-197 | `waddstr` of printable text that fits on the cursor's line writes it there and succeeds |
| Curses.CharsOfText | libc/src/curses.c:191 | a string without NUL followed by a NUL reads as itself |
| Curses.WStandout | libc/src/curses.c:396-402 | `wstandout` fails exactly without a window, and otherwise turns on the standout mask of the layout it is given: the header's 0x01 as written, or the corrected one |
| Curses.StandoutSets | libc/src/curses.c:400 | after `wstandout` the window's attributes hold every standout bit and keep all other bits |
| Curses.WStandend | libc/src/curses.c:408-414 | `wstandend` fails exactly without a window, and otherwise turns off the standout mask of the layout it is given |
| Curses.StandendClears | libc/src/curses.c:412 | after `wstandend` no standout bit is left and all other bits are kept |
| Curses.AttrSetForgets | libc/src/curses.c:430-433 | `attrset` replaces the attributes, forgetting whatever was on before |
| Curses.AttrOnSets | libc/src/curses.c:420-423 | `attron` sets exactly the given bits and leaves the others |
| Curses.AttrOffClears | libc/src/curses.c:425-428 | `attroff` clears exactly the given bits and leaves the others |
| Curses.OrSets | libc/src/curses.c:421 | after ORing `a` into `x` every bit of `a` is set |
| Curses.OrKeeps | libc/src/curses.c:421 | ORing `a` into `x` keeps every bit of `x` outside `a` |
| Curses.AndNotClears | libc/src/curses.c:426 | after `x & ~a` no bit of `a` is set |
| Curses.AndNotKeeps | libc/src/curses.c:426 | clearing the same bits twice is clearing them once |
| Curses.NoneToClear | libc/src/curses.c:426 | clearing bits that are not set changes nothing |
| Curses.AttrOnOff | libc/src/curses.c:420-428 | turning attributes on and off again leaves exactly the bits that were on and not among them, so nothing changes when none of them were on |
| Curses.MaskLayouts | libc/include/curses.h:12-18 | every attribute mask of the header lies inside the character byte, and the corrected masks are distinct bits above it |
| Curses.OrZero | libc/src/curses.c:156 | joining with no attributes changes nothing |
| Curses.SevenBitOr | libc/src/curses.c:156 | the join of values below 128 is settled by their seven low bits |
| Curses.PlainStamp | libc/src/curses.c:155-157 | a plain character is stored as itself with the window's attributes |
| Curses.AttributeClobbersChar | libc/src/curses.c:130-131 | with the header's masks a bold 'a' is stored as a plain 'q', and with bold on in the window `mvwinch` reads 'q' back for an 'a'; see also libc/include/curses.h:17 |
| Curses.InchRecoversChar | libc/src/curses.c:118-216 | with attributes kept above the character byte, `mvwinch` reads back exactly the character written and its attributes joined with the window's |
| Curses.StoresSplit | libc/src/curses.c:130-131 | `waddch` of a character joined with attributes stores the two apart |
| Curses.OrAttrs | libc/src/curses.c:156 | attributes above the character byte stay above it when joined |
| Curses.WClear | libc/src/curses.c:264-291 | `wclear` and `werase` fail exactly without a window, and otherwise blank every cell, mark it dirty, send the cursor home and set the clear flag |
| Curses.WClearBlanks | libc/src/curses.c:264-283 | after `wclear` every position reads back as a plain space and the cursor is home |
| Curses.WClrToEol | libc/src/curses.c:298-313 | `wclrtoeol`, refused when the cursor is off the screen, changes only cells and never the window |
| Curses.WClrToEolClears | libc/src/curses.c:306-310 | `wclrtoeol` blanks the rest of the cursor's row, marks it dirty, and leaves every other cell alone |
| Curses.WClrToEolAgrees | libc/src/curses.c:298-313 | wherever the code as written stays inside the screen array, the corrected call does the same, and it refuses exactly the calls that would write outside |
| Curses.TallWindowOverruns | libc/src/curses.c:298-313 | a 30-line window from `newwin`, moved to line 25, makes `wclrtoeol` as written write past the 24 rows of the screen array; see also libc/src/curses.c:481-500 |
| Curses.ClearOk | libc/src/curses.c:320-330 | `clearok` fails exactly without a window, sets the clear flag, keeps the text, and when turning it on marks every cell dirty |
| Curses.Marked | libc/src/curses.c:327 | marking changes only the dirty flags, all to set |
| Curses.MoveCursor | libc/src/curses.c:36-38 | the cursor escape starts with ESC `[` and ends with `H` |
| Curses.SetAttrs | libc/src/curses.c:41-49 | the attribute escape is reverse, bold or normal; the refresh tests the header's masks, as the program does |
| Curses.SetAttrsPicks | libc/src/curses.c:41-49 | for either mask layout, standout or reverse picks reverse video, otherwise bold picks bold, and plain text gets the reset |
| Curses.MasksAgree | libc/src/curses.c:41-49 | the header's masks and the corrected ones show the same: no attributes give the reset, and a window in standout shows reverse video under both |
| Curses.Cleaned | libc/src/curses.c:242 | painting clears every dirty flag and keeps the text |
| Curses.Boot | libc/src/curses.c:19-33 | before any call nothing is initialized and echo is on |
| Curses.WRefresh | libc/src/curses.c:219-257 | `wrefresh` fails exactly without a window or before `initscr`, and then prints nothing; on success no cell is dirty afterwards and the text is unchanged |
| Curses.PaintClean | libc/src/curses.c:229 | clean cells print nothing and change no attributes |
| Curses.PaintSkips | libc/src/curses.c:227-245 | clean cells are skipped |
| Curses.CleanedTwice | libc/src/curses.c:242 | cleaning a clean screen changes nothing |
| Curses.RefreshTwice | libc/src/curses.c:219-257 | a second `wrefresh` with nothing written in between only places the cursor |
| Curses.PaintOneCell | libc/src/curses.c:227-245 | painting a screen with one dirty cell sends the cursor there, the attributes if they changed, and the character |
| Curses.PaintLast | libc/src/curses.c:227-245 | a dirty cell with only clean cells after it paints its escapes and character, and then nothing |
| Curses.RefreshOneCell | libc/src/curses.c:219-257 | with one dirty cell, `wrefresh` sends the cursor there, the attributes when not plain, the character, the reset when needed, and then the window's cursor |
| Curses.DirtyFromLists | libc/src/curses.c:227-229 | the row-major scan from a cell meets exactly the dirty cells from there on, each once, in increasing order |
| Curses.PieceShape | libc/src/curses.c:230-240 | what one dirty cell sends is the cursor move to that cell, then nothing when its attributes equal those last sent and otherwise one of the reverse, bold or reset escapes, then its character |
| Curses.PaintPieces | libc/src/curses.c:227-245 | on every screen, the painting loop sends one piece per dirty cell, in row-major order, each made from its own cell and the attributes of the dirty cell painted before it |
| Curses.PaintEnding | libc/src/curses.c:224-245 | the attributes in force after the loop are those of the last dirty cell, or the starting ones when no cell is dirty |
| Curses.RefreshPaints | libc/src/curses.c:219-257 | on every screen, `wrefresh` sends the pieces of all dirty cells, then the reset exactly when the last painted cell had attributes, then the move to the window's cursor |
| Curses.InitScr | libc/src/curses.c:52-84 | the first `initscr` blanks the screen, sets up both windows full-size, clears the terminal and hides its cursor; later calls change nothing and print nothing |
| Curses.InitTwice | libc/src/curses.c:53-55 | a second `initscr` changes nothing and prints nothing |
| Curses.InitReady | libc/src/curses.c:52-84 | right after `initscr`, `stdscr` can be written anywhere on the screen and the first refresh paints all of it |
| Curses.EndWin | libc/src/curses.c:87-101 | `endwin` is refused before `initscr`; otherwise it parks the cursor on the last line, restores the terminal and leaves curses mode |
| Curses.EndThenRefresh | libc/src/curses.c:87-101 | after `endwin` a refresh is refused until `initscr` runs again, which then clears the terminal afresh; see also libc/src/curses.c:220-222 |
| Curses.WGetch | libc/src/curses.c:333-346 | `wgetch` returns -1 when the read fails and otherwise the byte as 0..255; without echo or window nothing else happens |
| Curses.WGetchEchoes | libc/src/curses.c:340-343 | an echoed key on an initialized terminal is on the screen and already painted |
| Curses.SetEcho | libc/src/curses.c:365-373 | `echo` and `noecho` set the echo flag and nothing else |
| Crogue.RandomInt | crogue/crogue.c:43-48 | `random_int` advances the 32-bit linear congruential generator and returns a value in `0..max-1` drawn from its upper sixteen bits |
| Crogue.LowBitsCycle | crogue/crogue.c:46 | the generator's two lowest bits only count up by one modulo 4, so they carry no randomness |
| Crogue.Alive | crogue/crogue.c:129 | the number of living enemies is at most the number of slots |
| Crogue.Floor | crogue/crogue.c:57-66 | the 20 by 10 map has a wall on every border cell and floor everywhere inside |
| Crogue.Pick | crogue/crogue.c:85-86 | one pass of a placement loop picks an interior cell and advances the generator twice |
| Crogue.Place | crogue/crogue.c:84-88 | a placement loop that ends lands on an interior floor cell that the player does not occupy |
| Crogue.PlaceMoreFuel | crogue/crogue.c:84-88 | once a placement loop has ended, a larger pass bound gives the same cell |
| Crogue.PlaceAll | crogue/crogue.c:82-95 | `count` placement loops give `count` interior floor cells, none under the player |
| Crogue.Spawn | crogue/crogue.c:82-95 | exactly the first `num_enemies` enemy slots are alive, each at its placed cell with 10 hit points and attack 3 |
| Crogue.Stock | crogue/crogue.c:99-110 | exactly the first `num_items` potion slots are active, each at its placed cell |
| Crogue.InitGame | crogue/crogue.c:54-113 | `init_game` puts the player in columns 2..6 and rows 2..4 with 20 of 20 hit points, the only exit in columns 15..17 and rows 6..7, three to five living enemies and two or three potions on free floor cells, the welcome message, and a state satisfying the game invariant |
| Crogue.Dungeon | crogue/crogue.c:57-78 | the map is walled round the edge, floor inside, with the exit at the chosen cell and no other tile |
| Crogue.AliveFirst | crogue/crogue.c:82-95 | when exactly the first `k` enemies are alive, `k` are alive |
| Crogue.AliveUpdate | crogue/crogue.c:170 | changing one enemy changes the living count by that enemy's change alone |
| Crogue.Combat | crogue/crogue.c:165-186 | `combat` changes only the player's hit points, that enemy, the counter, the game-over flag and the message |
| Crogue.CombatKeeps | crogue/crogue.c:165-186 | fighting a living enemy keeps the counter equal to the number of living enemies, dropping it by one exactly when the enemy dies, and keeps the game invariant |
| Crogue.Decode | crogue/crogue.c:192-204 | the four move keys in either case give a one-cell step along one axis, `q` or `Q` quits, and every other key is unknown |
| Crogue.EnemyAt | crogue/crogue.c:226-232 | the enemy found is the first living one on the cell, and when none is found no living enemy is there |
| Crogue.ItemAt | crogue/crogue.c:235-248 | the potion found is the first active one on the cell among the first `num_items`, and when none is found no active one is there |
| Crogue.ProcessInput | crogue/crogue.c:188-254 | a key never changes the map or the number of potion slots |
| Crogue.Walk | crogue/crogue.c:206-253 | a move never changes the map or the number of potion slots |
| Crogue.WalkKeeps | crogue/crogue.c:206-253 | every move, whatever it meets, keeps the game invariant |
| Crogue.ProcessInputKeeps | crogue/crogue.c:188-254 | every key keeps the game invariant: the counter matches the living enemies, everything stands inside the map, and the player is on floor |
| Crogue.UnknownKeyWaits | crogue/crogue.c:201-203 | an unknown key changes only the message, to the help line |
| Crogue.QuitEnds | crogue/crogue.c:197-200 | `q` ends the game without winning it and changes nothing else but the message |
| Crogue.NeverOffMap | crogue/crogue.c:206-209 | under the game invariant the walls stop every move before the map's edge, so the bounds check never fires |
| Crogue.WallBlocks | crogue/crogue.c:211-215 | walking into a wall changes only the message |
| Crogue.ExitWins | crogue/crogue.c:217-223 | stepping onto the exit wins and ends the game with the player staying put |
| Crogue.EnemyFights | crogue/crogue.c:225-232 | moving onto a living enemy fights the first such enemy and the player does not move |
| Crogue.PotionHeals | crogue/crogue.c:234-248 | moving onto an active potion with no enemy there gains ten hit points up to the maximum, uses the potion up and moves the player there |
| Crogue.MovesOneStep | crogue/crogue.c:188-254 | the player either stays put or steps one cell onto floor |
| Crogue.WalkStep | crogue/crogue.c:206-253 | a move leaves the player in place or on its target, which is floor |
| Crogue.Play | crogue/crogue.c:288-292 | the main loop never changes the map |
| Crogue.PlayKeeps | crogue/crogue.c:280-298 | playing any keys keeps the game invariant and never brings a dead enemy back |
| Crogue.StepNoneRevived | crogue/crogue.c:188-254 | no key brings a dead enemy back |
| Crogue.Killed | crogue/crogue.c:170 | the enemies killed are at most the enemies there are |
| Crogue.AliveDrop | crogue/crogue.c:170-171 | without revivals the drop in living enemies is exactly the number killed |
| Crogue.DefeatedAsWritten | crogue/crogue.c:276 | the final screen's "Enemies Defeated" figure as written counts from five, the size of the enemy array |
| Crogue.DefeatedCounts | crogue/crogue.c:276 | the corrected figure, counted from the enemies that spawned, is exactly the number killed during play; see also crogue/crogue.c:280-298 |
| Crogue.QuitAtStartReportsTwo | crogue/crogue.c:276 | from the fixed seed 12345 three enemies spawn, so quitting straight away reports two enemies defeated though none was killed; see also crogue/crogue.c:284-286 |
| Crogue.NextIs | crogue/crogue.c:46 | one step of the generator is the new seed modulo 2^32 |
| Crogue.KilledNone | crogue/crogue.c:170 | no enemy is killed when nothing changes |
| Rogue.LoadMap | userapp/src/bin/rogue.rs:24-42 | whatever the read sizes, the buffer ends up holding the file's first 4096 bytes, and the too-large warning is given exactly when the file fills the buffer |
| Rogue.LineEnd | userapp/src/bin/rogue.rs:58 | the index found is that of the first line feed, and there is none when none is found |
| Rogue.StripCr | userapp/src/bin/rogue.rs:58 | a line loses at most one carriage return at its end |
| Rogue.Lines | userapp/src/bin/rogue.rs:58 | no line holds a line feed |
| Rogue.LinesRoundTrip | userapp/src/bin/rogue.rs:58 | without carriage returns the lines, each given back its line feed, are the text itself, with a line feed added when the last line had none |
| Rogue.NotInSlice | userapp/src/bin/rogue.rs:58 | a character missing from a text is missing from each of its slices |
| Rogue.MaxLen | userapp/src/bin/rogue.rs:60 | the width is the length of some line and no line is longer, 0 for no lines |
| Rogue.Find | userapp/src/bin/rogue.rs:61 | `find('<')` gives the index of the first '<', and nothing when there is none |
| Rogue.Marked | userapp/src/bin/rogue.rs:58-65 | the start is the first '<' on the last line that has one, and nothing when no line has one |
| Rogue.Measure | userapp/src/bin/rogue.rs:52-67 | the height is the number of lines, the width the longest line's length, and the start the marked '<', or (0, 0) when none is marked |
| Rogue.CellAt | userapp/src/bin/rogue.rs:112-113 | a cell exists exactly when its row is a line of the map and its column falls inside that line |
| Rogue.Pred | userapp/src/bin/rogue.rs:102-104 | `height - 1` and `width - 1` are the predecessor of a positive size, and overflow, which panics in a debug build, exactly at 0 |
| Rogue.Step | userapp/src/bin/rogue.rs:93-124 | 'q' ends the game; 's' with no lines or 'd' with no columns panics; any other key moves the player to the aimed cell only when it exists and is passable, and otherwise leaves them in place |
| Rogue.EmptyMapPanics | userapp/src/bin/rogue.rs:102-104 | on a map whose lines are all empty 'd' panics, and on a map without lines 's' panics too |
| Rogue.StepIsOneCell | userapp/src/bin/rogue.rs:100-107 | a move changes one coordinate by one and stays inside the measured map |
| Rogue.StepAccepts | userapp/src/bin/rogue.rs:109-123 | a move is taken exactly when the aimed cell exists and is '.', '<', '>' or a space |
| Rogue.OtherKeysStay | userapp/src/bin/rogue.rs:106 | keys other than w, a, s, d and q leave the player where they are |
| Rogue.PlayStaysOnFloor | userapp/src/bin/rogue.rs:70-125 | the player is always at the start or on a passable cell of the map |
| Rogue.Open | userapp/src/bin/rogue.rs:24-67 | the program gives up exactly on an empty file, and otherwise measures the lines of the first 4096 bytes |
| Shell.ReadLine | userapp/src/bin/shell.rs:20-40 | a typed line holds at most 63 bytes, one short of the 64-byte buffer |
| Shell.Tokens | userapp/src/bin/shell.rs:46-54 | at most sixteen tokens are kept, each a word free of white space |
| Shell.Tokenize | userapp/src/bin/shell.rs:46-54 | the tokenizing loop keeps the first sixteen words of the line, in order, and drops the rest |
| Shell.TokensOfJoin | userapp/src/bin/shell.rs:46-54 | words joined by spaces come back whole and in order, up to the sixteenth |
| Shell.NulFrom | userapp/src/bin/shell.rs:74-77 | the scan stops at the first NUL from the offset on, or at the buffer's end when there is none |
| Shell.Entry | userapp/src/bin/shell.rs:79-84 | an entry prints at most one name, which is non-empty, free of NUL and text |
| Shell.ListNames | userapp/src/bin/shell.rs:71-93 | the listing loop prints the names of the walk over `count` entries, never reading outside the buffer |
| Shell.ReadEntry | userapp/src/bin/shell.rs:74-84 | one step of the walk finds the entry's end and what it prints |
| Shell.Assoc | userapp/src/bin/shell.rs:82 | appending names groups either way |
| Shell.NulFromAt | userapp/src/bin/shell.rs:74-77 | the scan ends at a NUL with none before it |
| Shell.ListedPacked | userapp/src/bin/shell.rs:71-93 | a buffer holding each name followed by a NUL lists back exactly those names, in order, whatever follows them |
| Shell.ListedNext | userapp/src/bin/shell.rs:86-92 | after an entry the walk goes past its NUL, and stops when that leaves the buffer |
| Shell.FirstEntry | userapp/src/bin/shell.rs:74-77 | the NUL search from the start of an entry stops exactly at the NUL that ends its name |
| Shell.ListedCons | userapp/src/bin/shell.rs:71-93 | a name found between `offset` and its NUL is printed first, followed by whatever the scan from just past that NUL prints; at the end of the buffer nothing more is printed |
| Shell.PackNonEmpty | userapp/src/bin/shell.rs:86-92 | a buffer holding at least one name is not empty |
| Shell.Fitting | userapp/src/bin/shell.rs:113-118 | `hello` keeps, in order, only the tokens that fit a 64-byte C string buffer |
| Shell.HelloArgv | userapp/src/bin/shell.rs:106-126 | `hello`'s argument vector starts with "hello.elf" and holds at most sixteen entries |
| Shell.AllFit | userapp/src/bin/shell.rs:113-118 | tokens shorter than 64 bytes and free of NUL are all kept, as typed |
| Shell.Run | userapp/src/bin/shell.rs:42-165 | a started program is given its own path as first argument and at most sixteen arguments |
| Shell.LsListsFiles | userapp/src/bin/shell.rs:62-98 | `ls` over a directory buffer laid out entry by entry lists exactly the entries' names, in order |
| Shell.LsLists | userapp/src/bin/shell.rs:62-98 | a line whose only word is `ls`, run on a non-empty directory, gives the listing (the header line, then one name per line) of exactly the names the scan of the buffer finds |
| Shell.NamedProgramRuns | userapp/src/bin/shell.rs:128-163 | a first word naming rogue, crogue, bigrogue, curses_test, fstest or mkfiles runs `<name>.elf` with only its own path as argument |
| Shell.BlankLineDoesNothing | userapp/src/bin/shell.rs:42 | an empty line or one of only white space does nothing; see also userapp/src/bin/shell.rs:56 |
| Shell.UnknownCommand | userapp/src/bin/shell.rs:164 | a first word that names no command is reported as unknown |
| Shell.HelloPassesWords | userapp/src/bin/shell.rs:103-127 | a `hello` line without NUL bytes starts the program with all its later words as arguments, since every word is shorter than the argument buffer |
| Shell.WordInLine | userapp/src/bin/shell.rs:49 | a word of a line is no longer than the line and has no character the line lacks |
| Shell.SplitInside | userapp/src/bin/shell.rs:49 | every word the split yields is no longer than the text and made of its characters |
| UserApp.Pow16 | userapp/src/main.rs:40-43 | the place values of the nybbles are positive |
| UserApp.Fixed | userapp/src/main.rs:40-43 | the numeral has exactly the requested number of digits |
| UserApp.Hex | userapp/src/main.rs:36-45 | the output is always "0x" followed by sixteen digits |
| UserApp.PutHex | userapp/src/main.rs:36-45 | the formatting loop prints "0x" and the sixteen nybbles of the value, most significant first |
| UserApp.FixedDigit | userapp/src/main.rs:40-43 | digit `i` is the nybble found by shifting right `4 * (15 - i)` bits and masking with `0xF` |
| UserApp.FixedValue | userapp/src/main.rs:36-45 | the digits read back in base 16 are the value they were written from |
| UserApp.HexRoundTrip | userapp/src/main.rs:36-45 | the sixteen digits after "0x" read back as the 64-bit value printed |
| UserApp.HexInjective | userapp/src/main.rs:36-45 | two different 64-bit values never print the same |
| UserApp.PowerSixteen | userapp/src/main.rs:40 | sixteen nybbles cover exactly the 64-bit range |
| UserApp.PowerAdd | userapp/src/main.rs:40-43 | place values multiply as their exponents add |
| UserApp.Shown | userapp/src/main.rs:82-90 | the echoed arguments are at most as many as the pointers and none holds a NUL |
| UserApp.EchoArgs | userapp/src/main.rs:82-90 | the echo loop prints "ARGS: ", each non-null argument followed by a space, and a newline |
| UserApp.SpacedAppend | userapp/src/main.rs:86-88 | one more argument appends it and a space |
| UserApp.ShownSplit | userapp/src/main.rs:83-89 | the arguments of two parts of the vector are those of each, in order |
| UserApp.NullIgnored | userapp/src/main.rs:85 | a null pointer anywhere in the vector changes nothing in the output |
| UserApp.EchoParses | userapp/src/main.rs:82-90 | the words of the output are "ARGS:" and then each non-null argument, in order, when every argument is a single word |
| UserApp.SpacedSplit | userapp/src/main.rs:86-89 | arguments each followed by a space, with a closing newline, split back into the arguments |

## Left out

**Hardware and assembly**
- UserStack.SetupUserStack: its requires `StackFits` rules out the case where `sp -= b.len() + 1` or a later `sp -=` wraps below zero (kernel/src/elf.rs:252-290), which in the source is a debug-build panic or a wrapped address. The model also treats the user address space as one flat byte map. A stack image larger than the mapped pages therefore lands below `StackBase` in the model, where the source's `write_user_bytes` stores through whatever translation is live and faults on an unmapped page. Its frame clause accordingly reaches down to `Min(StackBase, sp)` rather than to the mapped pages alone.
- Logging.Klog: `core::fmt` formatting of the message arguments is not modelled; `msg` is the bytes of the already formatted text.
- PageTable.Step, PageTable.Map4k and PageTable.Map2m: a valid entry on the walk whose address lies outside the 32-page table pool ends the walk with `WildPointer`. The source follows any valid entry as a table pointer (kernel/src/sv39.rs:79-80, 90-91, 111-112) and writes through it, for example through a 2 MiB leaf that `id_map_region` left on the walk. The model does not track memory outside the pool, so it promises nothing about that write.
- Trap.RustTrap: the bytes of the "unknown syscall" and trap reports are recorded as events only; `Sent` gives the bytes of a printed character alone.
- Device drivers are not modelled because they are volatile hardware I/O. This covers VirtIO probing and queue handling (`init`, `init_device`, `poll` in kernel/src/keyboard.rs), the GPU driver, the UART registers (its `write_str` byte translation is modelled, its reads are not), SBI, the timer, and the console and display registration.
- The framebuffer's pixel drawing (`draw_char`, `draw_cursor`, `clear_screen`) is not modelled because it needs font tables. A glyph is recorded as a `Draw` effect, and a scroll's pixel work as `ScrollPixels`.
- Assembly and control-register code is not modelled: the entry code, the trap entry, `enter_user`, the `satp` write, `sfence.vma`, and the SUM bracket in `load_user_elf`. Only the `satp` word is computed, and the address of `after_user` is a parameter.
- The timer tick's own work (`timer::on_timer`) is not modelled.

**Collaborators the kernel calls but does not define here**
- The ELF parser is a separate library. Its result is an input (`parsed`), with `None` meaning the parse failed.
- `sv39::alloc_user_page` and `sv39::root_pt` are not part of this model.
  - The frame allocator is assumed to hand out a distinct frame on each call, and only the number of frames taken is recorded.
  - Whether a root table is installed is the parameter `rootSet`.
- The kernel allocator, the system-call stubs of the C library and of the Rust user library, and the raw `ecall` wrappers are not modelled. What a system call returns is an input.
- `LogLevel` is declared outside the files modelled here. Its order, Trace 0 to Error 4, is taken from the decoding in `get_log_level`.

**Undefined or panicking arithmetic**
- ForthCore.NegateWord: `negate` of `i32::MIN` overflows the unchecked `-a`. That is the `Panicked` outcome, not an error string, and the interactive Forth program ends its session there.
- LispPrims.Add: states only that the heap grows. Its arithmetic is stated by SumAppend, and numbers are mathematical integers because C `int` overflow is undefined.
- LispPrims.Sub: states only that the heap grows. Its arithmetic is stated by SubIsAddNegated.
- LispPrims.Mul: states only that the heap grows. Its arithmetic is stated by ProductAppend and ProductZero.
- LispPrims.Div: states only that the heap grows. Its arithmetic is stated by QuotientShrinks and QuotientSkipsZero.
- Stdlib.AtoiLoop, Stdlib.AtoiDecimal, Stdlib.AtoiNonNegative, Stdlib.AtoiNegative and Stdlib.AtoiMinus state `atoi` as the mathematical value of the digits, since the C loop's overflow is undefined.
- Stdlib.Abs requires an argument other than `INT_MIN`.
- Stdlib.CallocZeroes requires that `nmemb * size` does not wrap. `Calloc` itself models the wrap.
- Stdlib.Calloc allocates through the corrected `Malloc` of the Finding on libc/src/stdlib.c:19-24, so a size that cannot be rounded up fails with NULL there.
- ElfProgram.LoadUserElf requires that `p_vaddr + p_memsz` rounded up to a page stays inside `usize`.
- Integer overflow follows a debug build, in which it panics: the test script boots the debug target (test.py:18). ForthCore.NegateWord and Rogue.Pred both end in a panic outcome.
- Crogue's C `int`s are exact integers, because no value in the game comes near the `int` range.

**Lisp interpreter**
- LispEval.EvalValid, LispEval.EvalMore and the other LispEval lemmas take the evaluator's `fuel` bound, because the C evaluator recurses without limit and some programs never finish. `None` means the fuel ran out. The model says nothing about programs that run longer than the fuel allows.
- When the pool is full, `str_alloc` returns the caller's own buffer. The model keeps symbol names as values, so a name that later aliases the reused input buffer is not modelled.
- The order in which C evaluates the arguments of one call is unspecified. The model evaluates them left to right, for example in `init_lisp` and in the reader's `quote`.
- `fgets` and `stdin` are declared but not defined here, so the read-eval-print loop takes the lines that `fgets` would return as input.
- `LispReader` does not prove that the as-written and corrected readers agree wherever the as-written one finishes. Only the two readers' separate properties are stated.
- LispPrims allocates through the corrected `Alloc` of the Finding on lisp/lisp.c:100-108, so a full arena never overwrites `nil` there. The same holds for LispEval and LispRepl.
- LispEval evaluates on the corrected `Alloc`, so its validity lemmas say nothing about the arena as written once it is full.
- LispReader reads lists with the corrected `ParseList` of the Finding on lisp/lisp.c:299-311, and allocates with the corrected `Alloc`. An unclosed list ends at the end of the line there.
- LispRepl runs the corrected reader and evaluator, so a line such as `(` finishes instead of looping.

**C library**
- Stdio.Fill is the corrected loop of the Finding on libc/src/stdio.c:202-211: a '%' that ends the format stores '%' and stops. `FillAsWritten` is the loop as written, and `FillAgrees` states where the two agree.
- Stdio.Vsnprintf runs the corrected loop. `VsnprintfAsWritten` runs the loop as written, and `VsnprintfAgrees` states where the two agree.
- Stdio.Snprintf forwards to the corrected `Vsnprintf`, so it shares that difference.
- Stdio.FillUnfold is stated of the corrected loop, so it says nothing about a '%' that ends the format.
- Stdio.FillIsPrefix is stated of the corrected loop and the corrected `printf`. As written, a format ending in '%' makes `vsnprintf` store bytes from behind the terminator.
- Stdio.VsnprintfTruncatesPrintf holds of the corrected pair only. As written, "50%", NUL, "XY" stores "50%XY", which is no prefix of any `printf` text.
- Stdio.SmallSize is stated of the corrected loop; `AsWrittenSmallSize` is its counterpart for the loop as written.
- `fflush` does nothing and is not modelled. `puts`, `putchar` and `printf` return their output as text.
- CString.StrChr converts `c` to `char`, except that the terminator is found only for `c == 0`. `StrChrWideZero` states this quirk.
- Curses does not model these functions:
  - the `printw` family, which formats through `vsnprintf`;
  - `cbreak`, `nocbreak`, `nl`, `nonl`, `raw`, `noraw`, `beep` and `flash`, which only write terminal escapes or do nothing;
  - the `stdscr` wrappers (`addch`, `move`, `refresh`, `clear`, `erase`, `clrtoeol`, `getch`, `standout`, `standend`), which only pass `stdscr` on;
  - a window's `begy`/`begx` origin, which no drawing call reads.
- Curses output is the returned escape text. The key `wgetch` reads is a parameter, `None` when the read failed.

**Applications**
- Drawing is not modelled: CRogue's `render` and `show_game_over`, the BogoHack map display and the shell's messages. Only the CRogue "Enemies Defeated" figure and the game state are modelled.
- CRogue's `read_input` ignores a failed read and uses an uninitialized byte. The model takes the bytes actually read.
- CRogue's placement loops (`do … while`) are bounded by `fuel` in `Crogue.Place`. A start position from which a loop would never find a free cell is not modelled.
- BogoHack's read errors and the failure to open the map are not modelled; they only print and return. The file arrives in reads of at most `chunk` bytes.
- Ascii.Utf8Text approximates `from_utf8(..).unwrap_or("")`: ASCII text is kept and any non-ASCII byte counts as a decoding failure, so valid multi-byte UTF-8 is treated as a failure. `Shell.Listed` skips non-ASCII names the same way.
- The shell's effects are not modelled. `execv`, `poweroff` and `readdir` become the returned `Action`, and the `readdir` buffer is an input.
- `CStrBuf::from_str` is not part of this model. Whether a token fits a 64-byte C string buffer is the predicate `FitsCStr`.
- The minimal user program's system calls and exit are not modelled, and neither is its commented-out debug output. Argument strings are given as the text up to their NUL.

**Other user programs**
- The demos and tests are not modelled: `gputest`, `fstest`, `mkfiles`, `cat`, `curses_test`, `c_hello` and the test script.
- The C library stubs `time`, `stat` and `signal` are not modelled.
- The headers only supply constants. LINES 24, COLS 80 and the header's attribute masks (`HEADER`) are taken from them. The window calls and the refresh use `HEADER` as the program does; only the Finding on libc/include/curses.h:12-17 uses the corrected masks (`FIXED`).

## Findings

| source | as written | input that shows it | evidently intended | confidence | as-written member | corrected member |
|---|---|---|---|---|---|---|
| libc/src/stdlib.c:19-24 | `malloc` rounds the size up with `(size + 7) & ~7` in `size_t` arithmetic | `malloc(SIZE_MAX)` rounds to 0, `sbrk(0)` succeeds, and a non-NULL pointer to no memory is returned | a size that cannot be rounded up fails with NULL | not executed | Stdlib.MallocWrapsAsWritten | Stdlib.MallocReserves |
| lisp/lisp.c:100-108 | once 1024 cells are used, `alloc_cell` returns `nil_cell`, and the constructors then write into it | `make_cons(x, nil)` on a full arena rewrites cell 0 into a pair whose tail is itself | a full arena leaves `nil` untouched and the constructor returns `nil` | not executed | LispCells.NilOverwritten | LispCells.NilKept |
| lisp/lisp.c:299-311 | `parse_list` loops until it sees ')', and `parse_expr` at the NUL returns `nil` without moving | the line `(` never finishes reading | the end of the line closes an open list | not executed | LispReader.OpenListNeverEnds | LispReader.UnclosedParen |
| libc/src/stdio.c:111-117 | after a '%', `printf` reads the next byte as the conversion and moves past it even when that byte is the NUL | the format "50%" prints the terminator and then the bytes stored after it | a '%' at the end of the format prints '%' and stops | not executed | Stdio.TrailingPercentOverruns | Stdio.PrintfStopsAtNul |
| libc/src/stdio.c:202-211 | in `vsnprintf`'s default case, a '%' that is the last byte of the format stores '%', and `format++` then steps past the terminator | the bytes "50%", NUL, "XY", NUL with size 32 store "50%XY" and return 5 | a '%' at the end of the format stores '%' and stops | not executed | Stdio.VsnprintfOverruns | Stdio.FillStopsAtNul |
| libc/include/curses.h:12-17 | the attribute masks are 0x01 to 0x10, inside the `A_CHARTEXT` byte that `waddch` keeps for the character | `waddch` of 'a' with `A_BOLD` set stores a plain 'q', and `mvwinch` reads 'q' back | attributes lie above the character byte | not executed | Curses.AttributeClobbersChar | Curses.InchRecoversChar |
| libc/src/curses.c:298-313 | `wclrtoeol` checks neither the cursor's row nor its column against the 24 by 80 screen array | a 30-line window from `newwin`, moved to line 25, writes past the array's last row | a cursor off the screen is refused | not executed | Curses.TallWindowOverruns | Curses.WClrToEolAgrees |
| crogue/crogue.c:276 | "Enemies Defeated" is printed as `MAX_ENEMIES - num_enemies` | from the fixed seed three enemies spawn, and quitting at once reports 2 defeated | the number of enemies killed | not executed | Crogue.QuitAtStartReportsTwo | Crogue.DefeatedCounts |

=== FILE: arith.dfy ===
/** Division facts on naturals used by the address-splitting proofs. */
module Arith {

  lemma SmallMultiple(k: int, d: int)
    requires d > 0 && -d < k * d < d
    ensures k == 0
  {
  }

  /** Quotient and remainder are determined by any decomposition `a == q * d + r`. */
  lemma DivUnique(a: int, d: int, q: int, r: int)
    requires d > 0 && 0 <= r < d && a == q * d + r
    ensures a / d == q && a % d == r
  {
    var q' := a / d;
    var r' := a % d;
    assert q' * d + r' == q * d + r;
    assert (q' - q) * d == r - r';
    SmallMultiple(q' - q, d);
  }

  /** Dividing twice is dividing by the product, and the remainder splits digit-wise. */
  lemma DivDiv(a: nat, b: nat, c: nat)
    requires b > 0 && c > 0
    ensures a / b / c == a / (b * c)
    ensures a % (b * c) == (a / b % c) * b + a % b
  {
    var q := a / b / c;
    var r1 := a % b;
    var r2 := (a / b) % c;
    assert a / b == q * c + r2;
    assert a == (a / b) * b + r1;
    assert a == q * (b * c) + (r2 * b + r1) by {
      calc {
        a;
        (q * c + r2) * b + r1;
        q * c * b + r2 * b + r1;
        q * (b * c) + (r2 * b + r1);
      }
    }
    assert r2 * b + r1 < b * c by {
      assert r2 <= c - 1;
      assert r2 * b <= (c - 1) * b;
      assert (c - 1) * b == b * c - b;
    }
    DivUnique(a, b * c, q, r2 * b + r1);
  }

  /** Multiples of `m` are closed under addition. */
  lemma AlignedAdd(x: nat, k: nat, m: nat)
    requires m > 0 && x % m == 0 && k % m == 0
    ensures (x + k) % m == 0
  {
    assert x + k == (x / m + k / m) * m;
    DivUnique(x + k, m, x / m + k / m, 0);
  }

  /** A multiple of `k * m` is a multiple of `m`. */
  lemma AlignedCoarse(x: nat, k: nat, m: nat)
    requires k > 0 && m > 0 && x % (k * m) == 0
    ensures x % m == 0
  {
    assert x == (x / (k * m) * k) * m;
    DivUnique(x, m, x / (k * m) * k, 0);
  }
}


=== FILE: ascii.dfy ===
/** Bytes as characters, shared by the C library, the interpreters and the applications. */
module Ascii {
  /** One byte: a character with a code below 256. */
  type Byte = c: char | c as int < 256

  const NUL: Byte := 0 as char

  predicate IsDigit(c: char) { '0' <= c <= '9' }

  function DigitValue(c: char): (d: nat)
    requires IsDigit(c)
    ensures d < 10
  {
    c as int - '0' as int
  }

  /** The digit character for `d`. */
  function DigitChar(d: nat): (c: Byte)
    requires d < 10
    ensures IsDigit(c) && DigitValue(c) == d
  {
    (d + '0' as int) as char
  }

  /** The C string held by a buffer: the characters before the first NUL, or all of them when there is none. */
  function UpToNul(s: string): (t: string)
    ensures |t| <= |s| && t == s[..|t|]
    ensures NUL !in t
    ensures |t| < |s| ==> s[|t|] == NUL
  {
    if |s| == 0 || s[0] == NUL then [] else [s[0]] + UpToNul(s[1..])
  }

  /** Every byte below 0x80. */
  predicate IsAscii(data: seq<Byte>)
  {
    forall i | 0 <= i < |data| :: data[i] as int < 0x80
  }

  /**
    The text `core::str::from_utf8(..).unwrap_or("")` makes of bytes: ASCII
    bytes read as themselves; any other input counts as failing the check
    and gives the empty text.
  */
  function Utf8Text(data: seq<Byte>): (s: string)
    ensures IsAscii(data) ==> s == data
    ensures !IsAscii(data) ==> s == []
  {
    if IsAscii(data) then data else []
  }
}

=== FILE: cmdline.dfy ===
/**
  The boot command line (kernel/src/boot/cmdline.rs).  The kernel keeps one
  global display mode, `Ansi` at boot.  `parse_cmdline` walks the
  whitespace-separated parameters in order and each `display=` parameter
  overwrites the mode, so the last one decides.
*/
module Cmdline {
  import opened Wrappers
  import Words

  /** `DisplayMode` (kernel/src/display/mod.rs). */
  datatype DisplayMode = Ansi | Gpu

  /** The mode before any parameter has been seen. */
  const INITIAL_MODE: DisplayMode := Ansi

  const DISPLAY_KEY: string := "display="

  /** `param.strip_prefix("display=")`. */
  function DisplayValue(param: string): (v: Option<string>)
    ensures v.Some? <==> |param| >= |DISPLAY_KEY| && param[..|DISPLAY_KEY|] == DISPLAY_KEY
    ensures v.Some? ==> param == DISPLAY_KEY + v.value
  {
    if |param| >= |DISPLAY_KEY| && param[..|DISPLAY_KEY|] == DISPLAY_KEY then
      Some(param[|DISPLAY_KEY|..])
    else
      None
  }

  /** The mode a `display=` value selects. */
  function ModeFor(v: string): DisplayMode
  {
    if v == "gpu" then Gpu else Ansi
  }

  /** The value of the last `display=` parameter, looking from the end. */
  function LastDisplay(params: seq<string>): Option<string>
  {
    if |params| == 0 then None
    else if DisplayValue(params[|params| - 1]).Some? then DisplayValue(params[|params| - 1])
    else LastDisplay(params[..|params| - 1])
  }

  /** The mode after the command line: that of the last `display=` parameter, or the mode before. */
  function Decided(params: seq<string>, before: DisplayMode): DisplayMode
  {
    match LastDisplay(params)
    case None => before
    case Some(v) => ModeFor(v)
  }

  /** `parse_cmdline`: the loop over `split_whitespace`, starting from the mode `before`. */
  method ParseCmdline(s: string, before: DisplayMode) returns (mode: DisplayMode)
    ensures mode == Decided(Words.Split(s), before)
    ensures LastDisplay(Words.Split(s)).None? ==> mode == before
  {
    var params := Words.Split(s);
    mode := before;
    var i := 0;
    while i < |params|
      invariant 0 <= i <= |params|
      invariant mode == Decided(params[..i], before)
    {
      assert params[..i + 1][..i] == params[..i];
      var v := DisplayValue(params[i]);
      if v.Some? {
        mode := ModeFor(v.value);
      }
      i := i + 1;
    }
    assert params[..i] == params;
  }

  /** A `display=v` parameter followed only by other parameters decides the mode, whatever came before. */
  lemma {:induction false} LastWins(params: seq<string>, later: seq<string>, v: string, before: DisplayMode)
    requires forall i | 0 <= i < |later| :: DisplayValue(later[i]).None?
    ensures Decided(params + [DISPLAY_KEY + v] + later, before) == ModeFor(v)
    decreases |later|
  {
    var key := DISPLAY_KEY + v;
    assert key[..|DISPLAY_KEY|] == DISPLAY_KEY;
    assert key[|DISPLAY_KEY|..] == v;
    var all := params + [key] + later;
    if |later| == 0 {
      assert all == params + [key];
      assert all[|all| - 1] == key;
    } else {
      assert all[|all| - 1] == later[|later| - 1];
      assert all[..|all| - 1] == params + [key] + later[..|later| - 1];
      LastWins(params, later[..|later| - 1], v, before);
    }
  }

  /** Parameters that are not `display=` leave the mode as it was. */
  lemma {:induction false} OthersIgnored(params: seq<string>, before: DisplayMode)
    requires forall i | 0 <= i < |params| :: DisplayValue(params[i]).None?
    ensures Decided(params, before) == before
  {
    if |params| > 0 {
      OthersIgnored(params[..|params| - 1], before);
    }
  }

  /** The global mode: `display_mode` reads it and `set_display_mode` overwrites it. */
  datatype ModeCell = ModeCell(mode: DisplayMode)

  /** `display_mode`. */
  function CurrentMode(c: ModeCell): DisplayMode
  {
    c.mode
  }

  /** `set_display_mode`: the next `display_mode` reads back what was set. */
  function SetDisplayMode(c: ModeCell, m: DisplayMode): (r: ModeCell)
    ensures CurrentMode(r) == m
  {
    ModeCell(m)
  }

  /** Examples: with no parameter the boot mode stays `Ansi`; `display=gpu` selects `Gpu`; any other value selects `Ansi`. */
  lemma Examples()
    ensures Decided([], INITIAL_MODE) == Ansi
    ensures Decided(["display=gpu"], Ansi) == Gpu
    ensures Decided(["display=gpu", "display=vga"], Ansi) == Ansi
    ensures Decided(["quiet", "display=gpu", "loglevel=3"], Ansi) == Gpu
  {
    var gpu: string := "display=gpu";
    assert gpu[..|DISPLAY_KEY|] == DISPLAY_KEY && gpu[|DISPLAY_KEY|..] == "gpu";
    var vga: string := "display=vga";
    assert vga[..|DISPLAY_KEY|] == DISPLAY_KEY && vga[|DISPLAY_KEY|..] == "vga";
    var q: string := "quiet";
    var l: string := "loglevel=3";
    assert l[..|DISPLAY_KEY|] != DISPLAY_KEY by { assert l[0] != DISPLAY_KEY[0]; }
    var ps := [q, gpu, l];
    assert ps[..2] == [q, gpu];
    assert ps[..2][..1] == [q];
    assert [gpu, vga][..1] == [gpu];
  }
}

=== FILE: crogue.dfy ===
/**
  CRogue, the dungeon game built on the C library: a walled 20 by 10 map
  with one exit, a player, up to five enemies and up to three health
  potions, all placed by a linear congruential generator and then driven
  one key at a time.
*/
module Crogue {
  import opened Wrappers
  import opened Ascii
  import Int32
  import Stdio
  import Arith

  const MAP_WIDTH: int := 20
  const MAP_HEIGHT: int := 10
  const MAX_ENEMIES: int := 5
  const MAX_ITEMS: int := 3

  // ---------------------------------------------------------------------
  // The generator
  // ---------------------------------------------------------------------

  /** The generator's state: an `unsigned int`. */
  type Seed = s: int | 0 <= s < 0x1_0000_0000

  /** The value `main` gives the generator before setting up the game. */
  const START_SEED: Seed := 12345

  /** One step of the generator, wrapping like the 32-bit `unsigned int` it is. */
  function Next(seed: Seed): Seed
  {
    (seed * 1103515245 + 12345) % Int32.MODULUS
  }

  datatype Draw = Draw(value: int, seed: Seed)

  /** `random_int`: advance the generator, then reduce its upper sixteen bits modulo `max`. */
  function RandomInt(seed: Seed, max: int): (d: Draw)
    requires max > 0
    ensures 0 <= d.value < max && d.value <= 0xFFFF
    ensures d.seed == Next(seed)
  {
    var s := Next(seed);
    Draw((s / 0x1_0000) % max, s)
  }

  /**
    The two lowest bits of the generator only count up by one modulo 4,
    since both constants are 1 modulo 4; that is why `random_int` draws
    from the upper half of the state.
  */
  lemma LowBitsCycle(seed: Seed)
    ensures Next(seed) % 4 == (seed + 1) % 4
  {
    var x := seed * 1103515245 + 12345;
    assert x == 4 * (seed * 275878811 + 3086) + seed + 1;
    var q := x / Int32.MODULUS;
    assert x == q * Int32.MODULUS + Next(seed);
    assert x == 4 * (q * 0x4000_0000) + Next(seed);
    ModFour(q * 0x4000_0000, Next(seed));
    ModFour(seed * 275878811 + 3086, seed + 1);
  }

  lemma ModFour(k: int, r: int)
    requires k >= 0 && r >= 0
    ensures (4 * k + r) % 4 == r % 4
  {
  }

  // ---------------------------------------------------------------------
  // The game state
  // ---------------------------------------------------------------------

  datatype Player = Player(x: int, y: int, hp: int, maxHp: int, attack: int)
  datatype Enemy = Enemy(x: int, y: int, hp: int, attack: int, alive: bool)
  datatype Item = Item(x: int, y: int, active: bool)

  /** `GameState`; the tiles are indexed by row, then column. */
  datatype Game = Game(
    tiles: seq<seq<char>>,
    player: Player,
    enemies: seq<Enemy>,
    items: seq<Item>,
    numEnemies: int,
    numItems: int,
    gameOver: bool,
    won: bool,
    message: string)

  const WALL: char := '#'
  const FLOOR: char := '.'
  const EXIT: char := 'X'

  const WELCOME: string := "Welcome to CRogue! WASD to move, Q to quit."
  const THANKS: string := "Thanks for playing!"
  const HELP: string := "Use WASD to move, Q to quit."
  const BUMP: string := "You bump into a wall."
  const ESCAPED: string := "You found the exit! You win!"
  const POTION: string := "You found a health potion! +10 HP"
  const DEFEATED: string := "You defeated the enemy!"
  const DIED: string := "You died!"
  const COMBAT: string := "Combat! Enemy HP: %d, Your HP: %d"

  /** A zeroed enemy or potion slot, as `memset` leaves it. */
  const NO_ENEMY: Enemy := Enemy(0, 0, 0, 0, false)
  const NO_ITEM: Item := Item(0, 0, false)

  predicate InMap(x: int, y: int)
  {
    0 <= x < MAP_WIDTH && 0 <= y < MAP_HEIGHT
  }

  predicate Border(x: int, y: int)
  {
    y == 0 || y == MAP_HEIGHT - 1 || x == 0 || x == MAP_WIDTH - 1
  }

  predicate Interior(x: int, y: int)
  {
    1 <= x < MAP_WIDTH - 1 && 1 <= y < MAP_HEIGHT - 1
  }

  predicate IsMap(t: seq<seq<char>>)
  {
    |t| == MAP_HEIGHT && forall y | 0 <= y < |t| :: |t[y]| == MAP_WIDTH
  }

  /** Every border cell is a wall. */
  predicate Walled(t: seq<seq<char>>)
    requires IsMap(t)
  {
    forall y, x | 0 <= y < MAP_HEIGHT && 0 <= x < MAP_WIDTH && Border(x, y) :: t[y][x] == WALL
  }

  /** Every cell is a wall, floor or the exit. */
  predicate Known(t: seq<seq<char>>)
    requires IsMap(t)
  {
    forall y, x | 0 <= y < MAP_HEIGHT && 0 <= x < MAP_WIDTH :: t[y][x] == WALL || t[y][x] == FLOOR || t[y][x] == EXIT
  }

  /** The fixed sizes of the structure's arrays, and the potion count within them. */
  predicate Shaped(g: Game)
  {
    IsMap(g.tiles) && |g.enemies| == MAX_ENEMIES && |g.items| == MAX_ITEMS
    && 0 <= g.numItems <= MAX_ITEMS
  }

  /** The number of living enemies. */
  function Alive(es: seq<Enemy>): (n: nat)
    ensures n <= |es|
  {
    if |es| == 0 then 0 else (if es[0].alive then 1 else 0) + Alive(es[1..])
  }

  /**
    What every reachable state keeps: the map walled and unchanged in kind,
    the player on a floor cell inside the walls, hit points never above the
    maximum, a dead player or an escape always ending the game, the enemy
    counter equal to the number of living enemies, and no enemy whose blow
    would heal.
  */
  predicate Inv(g: Game)
  {
    Shaped(g) && Grid(g.tiles) && Standing(g.tiles, g.player) && Foes(g.enemies, g.numEnemies)
    && (g.player.hp <= 0 ==> g.gameOver)
    && (g.won ==> g.gameOver)
  }

  predicate Grid(t: seq<seq<char>>)
  {
    IsMap(t) && Walled(t) && Known(t)
  }

  predicate Standing(t: seq<seq<char>>, p: Player)
    requires IsMap(t)
  {
    Interior(p.x, p.y) && t[p.y][p.x] == FLOOR && p.hp <= p.maxHp
  }

  predicate Foes(es: seq<Enemy>, count: int)
  {
    count == Alive(es) && forall i | 0 <= i < |es| :: es[i].attack >= 0
  }

  // ---------------------------------------------------------------------
  // Setting up: init_game
  // ---------------------------------------------------------------------

  /** The walled floor `init_game` draws before the exit goes in. */
  function Floor(): (t: seq<seq<char>>)
    ensures IsMap(t)
    ensures forall y, x | InMap(x, y) :: t[y][x] == (if Border(x, y) then WALL else FLOOR)
  {
    seq(MAP_HEIGHT, y => seq(MAP_WIDTH, x => if Border(x, y) then WALL else FLOOR))
  }

  /** A cell the placement loop accepts: floor, and not where the player stands. */
  predicate Free(t: seq<seq<char>>, p: Player, x: int, y: int)
    requires IsMap(t) && InMap(x, y)
  {
    !(x == p.x && y == p.y) && t[y][x] == FLOOR
  }

  datatype Spot = Spot(x: int, y: int, seed: Seed)

  /** One pass of the placement loop's body: a column in 1..18, then a row in 1..8. */
  function Pick(seed: Seed): (s: Spot)
    ensures Interior(s.x, s.y)
    ensures s.seed == Next(Next(seed))
  {
    var dx := RandomInt(seed, MAP_WIDTH - 2);
    var dy := RandomInt(dx.seed, MAP_HEIGHT - 2);
    Spot(1 + dx.value, 1 + dy.value, dy.seed)
  }

  /**
    The `do … while` placement loop, allowed at most `fuel` passes: the first
    pick that lands on a free cell, or `None` when the fuel runs out first.
  */
  function Place(t: seq<seq<char>>, p: Player, seed: Seed, fuel: nat): (r: Option<Spot>)
    requires IsMap(t)
    ensures r.Some? ==> Interior(r.value.x, r.value.y) && Free(t, p, r.value.x, r.value.y)
    decreases fuel
  {
    if fuel == 0 then None
    else
      var s := Pick(seed);
      if Free(t, p, s.x, s.y) then Some(s) else Place(t, p, s.seed, fuel - 1)
  }

  /** More fuel never changes a placement that already succeeded: the bound only cuts off loops that have not ended. */
  lemma {:induction false} PlaceMoreFuel(t: seq<seq<char>>, p: Player, seed: Seed, fuel: nat, more: nat)
    requires IsMap(t) && fuel <= more
    requires Place(t, p, seed, fuel).Some?
    ensures Place(t, p, seed, more) == Place(t, p, seed, fuel)
    decreases fuel
  {
    var s := Pick(seed);
    if !Free(t, p, s.x, s.y) {
      PlaceMoreFuel(t, p, s.seed, fuel - 1, more - 1);
    }
  }

  datatype Spots = Spots(at: seq<Spot>, seed: Seed)

  /** `count` runs of the placement loop, one after another, each starting where the generator was left. */
  function PlaceAll(t: seq<seq<char>>, p: Player, count: nat, seed: Seed, fuel: nat): (r: Option<Spots>)
    requires IsMap(t)
    ensures r.Some? ==> |r.value.at| == count
    ensures r.Some? ==> forall i | 0 <= i < count :: Interior(r.value.at[i].x, r.value.at[i].y) && Free(t, p, r.value.at[i].x, r.value.at[i].y)
  {
    if count == 0 then Some(Spots([], seed))
    else
      match PlaceAll(t, p, count - 1, seed, fuel)
      case None => None
      case Some(done) =>
        match Place(t, p, done.seed, fuel)
        case None => None
        case Some(s) => Some(Spots(done.at + [s], s.seed))
  }

  /** The enemy array: the first `|at|` slots spawned there with 10 hit points and attack 3, the rest zeroed. */
  function Spawn(at: seq<Spot>): (es: seq<Enemy>)
    requires |at| <= MAX_ENEMIES
    ensures |es| == MAX_ENEMIES && Alive(es) == |at|
    ensures forall i | 0 <= i < MAX_ENEMIES :: es[i].alive == (i < |at|) && es[i].attack >= 0
    ensures forall i | 0 <= i < |at| :: es[i].x == at[i].x && es[i].y == at[i].y && es[i].hp == 10 && es[i].attack == 3
  {
    var es := seq(MAX_ENEMIES, i requires 0 <= i < MAX_ENEMIES =>
      if i < |at| then Enemy(at[i].x, at[i].y, 10, 3, true) else NO_ENEMY);
    AliveFirst(es, |at|);
    es
  }

  /** The potion array: the first `|at|` slots active there, the rest zeroed. */
  function Stock(at: seq<Spot>): (slots: seq<Item>)
    requires |at| <= MAX_ITEMS
    ensures |slots| == MAX_ITEMS
    ensures forall i | 0 <= i < MAX_ITEMS :: slots[i].active == (i < |at|)
    ensures forall i | 0 <= i < |at| :: slots[i].x == at[i].x && slots[i].y == at[i].y
  {
    seq(MAX_ITEMS, i requires 0 <= i < MAX_ITEMS =>
      if i < |at| then Item(at[i].x, at[i].y, true) else NO_ITEM)
  }

  /** The whole map, cell by cell: walls on the border, the exit at (`ex`, `ey`), floor elsewhere. */
  predicate Layout(t: seq<seq<char>>, ex: int, ey: int)
    requires IsMap(t)
  {
    forall y, x | 0 <= y < MAP_HEIGHT && 0 <= x < MAP_WIDTH ::
      t[y][x] == (if x == ex && y == ey then EXIT else if Border(x, y) then WALL else FLOOR)
  }

  datatype Start = Start(game: Game, seed: Seed)

  /**
    The opening position: the player in columns 2..6 and rows 2..4 with 20 of
    20 hit points, the only exit in columns 15..17 and rows 6..7, three to
    five enemies and two or three potions, each on a floor cell away from the
    player, every other slot empty, and the welcome message.
  */
  predicate Placed(g: Game)
    requires Shaped(g)
  {
    && 2 <= g.player.x <= 6 && 2 <= g.player.y <= 4
    && g.player.hp == g.player.maxHp == 20 && g.player.attack == 5
    && (exists ex, ey | 15 <= ex <= 17 && 6 <= ey <= 7 :: Layout(g.tiles, ex, ey))
    && 3 <= g.numEnemies <= MAX_ENEMIES && 2 <= g.numItems <= MAX_ITEMS
    && (forall i | 0 <= i < MAX_ENEMIES :: g.enemies[i].alive == (i < g.numEnemies))
    && (forall i | 0 <= i < g.numEnemies ::
          g.enemies[i].hp == 10 && g.enemies[i].attack == 3
          && Interior(g.enemies[i].x, g.enemies[i].y) && Free(g.tiles, g.player, g.enemies[i].x, g.enemies[i].y))
    && (forall i | 0 <= i < MAX_ITEMS :: g.items[i].active == (i < g.numItems))
    && (forall i | 0 <= i < g.numItems ::
          Interior(g.items[i].x, g.items[i].y) && Free(g.tiles, g.player, g.items[i].x, g.items[i].y))
    && !g.gameOver && !g.won && g.message == WELCOME
  }

  /**
    `init_game`, with each placement loop allowed `fuel` passes (`None` when
    one runs out): the player in columns 2..6 and rows 2..4 with 20 of 20 hit
    points, the only exit in columns 15..17 and rows 6..7, three to five
    enemies and two or three potions, each on a floor cell away from the
    player, and every other slot empty.
  */
  function InitGame(seed: Seed, fuel: nat): (r: Option<Start>)
    ensures r.Some? ==> Inv(r.value.game) && Placed(r.value.game)
    ensures r.Some? ==> r.value.game.numEnemies == 3 + RandomInt(Next(Next(Next(Next(seed)))), 3).value
  {
    var dx := RandomInt(seed, 5);
    var dy := RandomInt(dx.seed, 3);
    var player := Player(2 + dx.value, 2 + dy.value, 20, 20, 5);
    var ex := RandomInt(dy.seed, 3);
    var ey := RandomInt(ex.seed, 2);
    var x, y := MAP_WIDTH - 3 - ex.value, MAP_HEIGHT - 3 - ey.value;
    var tiles := Dungeon(x, y);
    var ne := RandomInt(ey.seed, 3);
    match PlaceAll(tiles, player, 3 + ne.value, ne.seed, fuel)
    case None => None
    case Some(foes) =>
      var ni := RandomInt(foes.seed, 2);
      match PlaceAll(tiles, player, 2 + ni.value, ni.seed, fuel)
      case None => None
      case Some(potions) =>
        Some(Start(Furnish(x, y, player, foes.at, potions.at), potions.seed))
  }

  /** The opening position built from the exit, the player and the placed enemies and potions. */
  function Furnish(x: int, y: int, player: Player, foes: seq<Spot>, potions: seq<Spot>): (g: Game)
    requires 15 <= x <= 17 && 6 <= y <= 7
    requires 2 <= player.x <= 6 && 2 <= player.y <= 4
    requires player.hp == player.maxHp == 20 && player.attack == 5
    requires 3 <= |foes| <= MAX_ENEMIES && 2 <= |potions| <= MAX_ITEMS
    requires forall i | 0 <= i < |foes| :: Interior(foes[i].x, foes[i].y) && Free(Dungeon(x, y), player, foes[i].x, foes[i].y)
    requires forall i | 0 <= i < |potions| :: Interior(potions[i].x, potions[i].y) && Free(Dungeon(x, y), player, potions[i].x, potions[i].y)
    ensures Inv(g) && Placed(g) && g.numEnemies == |foes|
  {
    var g := Game(Dungeon(x, y), player, Spawn(foes), Stock(potions), |foes|, |potions|, false, false, WELCOME);
    assert Layout(g.tiles, x, y);
    g
  }

  /** The map `init_game` draws: walls round the edge, floor inside, and the exit at (`x`, `y`). */
  function Dungeon(x: int, y: int): (t: seq<seq<char>>)
    requires Interior(x, y)
    ensures IsMap(t) && Layout(t, x, y) && Walled(t) && Known(t)
  {
    var floor := Floor();
    floor[y := floor[y][x := EXIT]]
  }

  /** When exactly the first `k` enemies are alive, `k` are alive. */
  lemma {:induction false} AliveFirst(es: seq<Enemy>, k: nat)
    requires k <= |es|
    requires forall i | 0 <= i < |es| :: es[i].alive == (i < k)
    ensures Alive(es) == k
  {
    if |es| > 0 {
      AliveFirst(es[1..], if k == 0 then 0 else k - 1);
    }
  }

  // ---------------------------------------------------------------------
  // Playing: combat and process_input
  // ---------------------------------------------------------------------

  /** Replacing one enemy changes the living count by that enemy's change alone. */
  lemma {:induction false} AliveUpdate(es: seq<Enemy>, i: nat, e: Enemy)
    requires i < |es|
    ensures Alive(es[i := e]) == Alive(es) - (if es[i].alive then 1 else 0) + (if e.alive then 1 else 0)
  {
    if i > 0 {
      assert es[i := e][1..] == es[1..][i - 1 := e];
      AliveUpdate(es[1..], i - 1, e);
    } else {
      assert es[i := e][1..] == es[1..];
    }
  }

  /**
    `combat` with enemy `i`: the player strikes first; an enemy brought to
    zero or below dies and the counter drops, otherwise it strikes back and
    a player brought to zero or below ends the game.  The player never
    moves.  The library's `sprintf` stores nothing, so after an exchange
    both survive the previous message stays.
  */
  function Combat(g: Game, i: nat): (r: Game)
    requires Shaped(g) && i < MAX_ENEMIES
    ensures Shaped(r) && r.tiles == g.tiles && r.items == g.items
    ensures r.player.x == g.player.x && r.player.y == g.player.y
    ensures r.player.maxHp == g.player.maxHp && r.player.attack == g.player.attack
    ensures forall j | 0 <= j < MAX_ENEMIES && j != i :: r.enemies[j] == g.enemies[j]
    ensures r.enemies[i].hp == g.enemies[i].hp - g.player.attack
    ensures r.enemies[i].alive == (g.enemies[i].alive && r.enemies[i].hp > 0)
    ensures r.player.hp == if r.enemies[i].hp > 0 then g.player.hp - g.enemies[i].attack else g.player.hp
    ensures r.gameOver == (g.gameOver || (r.enemies[i].hp > 0 && r.player.hp <= 0)) && r.won == g.won
    ensures r.enemies[i].hp > 0 && r.player.hp > 0 ==> r.message == g.message
  {
    var e := g.enemies[i].(hp := g.enemies[i].hp - g.player.attack);
    if e.hp <= 0 then
      g.(enemies := g.enemies[i := e.(alive := false)], numEnemies := g.numEnemies - 1, message := DEFEATED)
    else
      var hit := g.(enemies := g.enemies[i := e], player := g.player.(hp := g.player.hp - e.attack));
      if hit.player.hp <= 0 then hit.(gameOver := true, message := DIED)
      else
        var args := [Stdio.Word(e.hp), Stdio.Word(hit.player.hp)];
        hit.(message := Stdio.Sprintf(g.message, COMBAT + [NUL], args).0)
  }

  /** Fighting a living enemy keeps the counter equal to the number of living enemies, and the rest of the invariant. */
  lemma CombatKeeps(g: Game, i: nat)
    requires Inv(g) && i < MAX_ENEMIES && g.enemies[i].alive
    ensures Inv(Combat(g, i))
    ensures Combat(g, i).numEnemies == g.numEnemies - (if Combat(g, i).enemies[i].alive then 0 else 1)
  {
    var e := g.enemies[i].(hp := g.enemies[i].hp - g.player.attack);
    if e.hp <= 0 {
      AliveUpdate(g.enemies, i, e.(alive := false));
    } else {
      AliveUpdate(g.enemies, i, e);
    }
  }

  /** What a key asks for. */
  datatype Command = Move(dx: int, dy: int) | Quit | Unknown

  function Decode(cmd: char): (c: Command)
    ensures c.Move? ==> (c.dx == 0 || c.dy == 0) && -1 <= c.dx + c.dy <= 1 && c.dx + c.dy != 0
    ensures c.Quit? <==> cmd == 'q' || cmd == 'Q'
    ensures c.Unknown? <==> cmd !in "wWsSaAdDqQ"
  {
    if cmd == 'w' || cmd == 'W' then Move(0, -1)
    else if cmd == 's' || cmd == 'S' then Move(0, 1)
    else if cmd == 'a' || cmd == 'A' then Move(-1, 0)
    else if cmd == 'd' || cmd == 'D' then Move(1, 0)
    else if cmd == 'q' || cmd == 'Q' then Quit
    else Unknown
  }

  /** The first living enemy standing at (`x`, `y`), looking from slot `from` on. */
  function EnemyAt(es: seq<Enemy>, x: int, y: int, from: nat): (r: Option<nat>)
    requires from <= |es|
    ensures r.Some? ==> from <= r.value < |es| && es[r.value].alive && es[r.value].x == x && es[r.value].y == y
    ensures forall j | from <= j < |es| && (r.None? || j < r.value) :: !(es[j].alive && es[j].x == x && es[j].y == y)
    decreases |es| - from
  {
    if from == |es| then None
    else if es[from].alive && es[from].x == x && es[from].y == y then Some(from)
    else EnemyAt(es, x, y, from + 1)
  }

  /** The first active potion at (`x`, `y`) among the first `count` slots, looking from slot `from` on. */
  function ItemAt(its: seq<Item>, count: nat, x: int, y: int, from: nat): (r: Option<nat>)
    requires from <= count <= |its|
    ensures r.Some? ==> from <= r.value < count && its[r.value].active && its[r.value].x == x && its[r.value].y == y
    ensures forall j | from <= j < count && (r.None? || j < r.value) :: !(its[j].active && its[j].x == x && its[j].y == y)
    decreases count - from
  {
    if from == count then None
    else if its[from].active && its[from].x == x && its[from].y == y then Some(from)
    else ItemAt(its, count, x, y, from + 1)
  }

  /**
    `process_input`: quit or complain on the keys that do not move; for a
    move, stop silently off the map, complain at a wall, win at the exit,
    fight the first living enemy on the target without moving, or move,
    drinking the first active potion there (ten hit points, capped at the
    maximum).
  */
  function ProcessInput(g: Game, cmd: char): (r: Game)
    requires Shaped(g)
    ensures Shaped(r) && r.tiles == g.tiles && r.numItems == g.numItems
  {
    match Decode(cmd)
    case Quit => g.(gameOver := true, message := THANKS)
    case Unknown => g.(message := HELP)
    case Move(dx, dy) => Walk(g, g.player.x + dx, g.player.y + dy)
  }

  /** A move towards (`x`, `y`), from the bounds check on. */
  function Walk(g: Game, x: int, y: int): (r: Game)
    requires Shaped(g)
    ensures Shaped(r) && r.tiles == g.tiles && r.numItems == g.numItems
  {
    if !InMap(x, y) then g
    else if g.tiles[y][x] == WALL then g.(message := BUMP)
    else if g.tiles[y][x] == EXIT then g.(gameOver := true, won := true, message := ESCAPED)
    else match EnemyAt(g.enemies, x, y, 0)
      case Some(i) => Combat(g, i)
      case None =>
        match ItemAt(g.items, g.numItems, x, y, 0)
        case Some(i) =>
          var hp := g.player.hp + 10;
          g.(items := g.items[i := g.items[i].(active := false)],
             player := g.player.(hp := if hp > g.player.maxHp then g.player.maxHp else hp, x := x, y := y),
             message := POTION)
        case None => g.(player := g.player.(x := x, y := y), message := [])
  }

  /** A move, wherever it leads, keeps the invariant. */
  lemma WalkKeeps(g: Game, x: int, y: int)
    requires Inv(g)
    ensures Inv(Walk(g, x, y))
  {
    if InMap(x, y) && g.tiles[y][x] != WALL && g.tiles[y][x] != EXIT {
      match EnemyAt(g.enemies, x, y, 0)
      case Some(i) => CombatKeeps(g, i);
      case None =>
    }
  }

  /** The target cell of a move. */
  function Target(g: Game, cmd: char): (t: (int, int))
    requires Decode(cmd).Move?
  {
    (g.player.x + Decode(cmd).dx, g.player.y + Decode(cmd).dy)
  }

  /** Every key keeps the invariant. */
  lemma ProcessInputKeeps(g: Game, cmd: char)
    requires Inv(g)
    ensures Inv(ProcessInput(g, cmd))
  {
    if Decode(cmd).Quit? {
      QuitEnds(g, cmd);
      EndKeeps(g, THANKS);
    } else if Decode(cmd).Unknown? {
      UnknownKeyWaits(g, cmd);
      MessageKeeps(g, HELP);
    } else {
      var (x, y) := Target(g, cmd);
      MoveWalks(g, cmd);
      WalkKeeps(g, x, y);
    }
  }

  /** Changing only the message keeps the invariant. */
  lemma MessageKeeps(g: Game, m: string)
    requires Inv(g)
    ensures Inv(g.(message := m))
  {
  }

  /** Ending the game keeps the invariant. */
  lemma EndKeeps(g: Game, m: string)
    requires Inv(g)
    ensures Inv(g.(gameOver := true, message := m))
  {
  }

  /** A move key is a walk towards its target. */
  lemma MoveWalks(g: Game, cmd: char)
    requires Shaped(g) && Decode(cmd).Move?
    ensures ProcessInput(g, cmd) == Walk(g, Target(g, cmd).0, Target(g, cmd).1)
  {
  }

  /** Keys other than the four moves and quit only change the message. */
  lemma UnknownKeyWaits(g: Game, cmd: char)
    requires Shaped(g) && cmd !in "wWsSaAdDqQ"
    ensures ProcessInput(g, cmd) == g.(message := HELP)
  {
  }

  /** Quitting ends the game without winning it. */
  lemma QuitEnds(g: Game, cmd: char)
    requires Shaped(g) && (cmd == 'q' || cmd == 'Q')
    ensures ProcessInput(g, cmd) == g.(gameOver := true, message := THANKS)
    ensures ProcessInput(g, cmd).won == g.won
  {
  }

  /** Under the invariant the walls stop every move before the map's edge, so the bounds check never fires. */
  lemma NeverOffMap(g: Game, cmd: char)
    requires Inv(g) && Decode(cmd).Move?
    ensures InMap(Target(g, cmd).0, Target(g, cmd).1)
  {
  }

  /** Walking into a wall leaves the player where they are and only changes the message. */
  lemma WallBlocks(g: Game, cmd: char)
    requires Inv(g) && Decode(cmd).Move?
    requires g.tiles[Target(g, cmd).1][Target(g, cmd).0] == WALL
    ensures ProcessInput(g, cmd) == g.(message := BUMP)
  {
  }

  /** Reaching the exit wins and ends the game, the player staying put. */
  lemma ExitWins(g: Game, cmd: char)
    requires Inv(g) && Decode(cmd).Move?
    requires g.tiles[Target(g, cmd).1][Target(g, cmd).0] == EXIT
    ensures ProcessInput(g, cmd).gameOver && ProcessInput(g, cmd).won
    ensures ProcessInput(g, cmd).player == g.player
  {
  }

  /** Moving onto a living enemy fights the first such enemy instead of moving. */
  lemma EnemyFights(g: Game, cmd: char, i: nat)
    requires Inv(g) && Decode(cmd).Move? && i < MAX_ENEMIES
    requires g.tiles[Target(g, cmd).1][Target(g, cmd).0] == FLOOR
    requires g.enemies[i].alive && (g.enemies[i].x, g.enemies[i].y) == Target(g, cmd)
    requires forall j | 0 <= j < i :: !(g.enemies[j].alive && (g.enemies[j].x, g.enemies[j].y) == Target(g, cmd))
    ensures ProcessInput(g, cmd) == Combat(g, i)
    ensures ProcessInput(g, cmd).player.x == g.player.x && ProcessInput(g, cmd).player.y == g.player.y
  {
    var t := Target(g, cmd);
    var r := EnemyAt(g.enemies, t.0, t.1, 0);
    assert r == Some(i) by {
      if r.None? || r.value != i {
        assert false;
      }
    }
  }

  /** Moving onto a potion with no enemy there drinks it: ten hit points up to the maximum, the potion gone, the player moved. */
  lemma PotionHeals(g: Game, cmd: char, i: nat)
    requires Inv(g) && Decode(cmd).Move? && i < g.numItems
    requires g.tiles[Target(g, cmd).1][Target(g, cmd).0] == FLOOR
    requires forall j | 0 <= j < MAX_ENEMIES :: !(g.enemies[j].alive && (g.enemies[j].x, g.enemies[j].y) == Target(g, cmd))
    requires g.items[i].active && (g.items[i].x, g.items[i].y) == Target(g, cmd)
    requires forall j | 0 <= j < i :: !(g.items[j].active && (g.items[j].x, g.items[j].y) == Target(g, cmd))
    ensures var r := ProcessInput(g, cmd);
      && r.player.hp == (if g.player.hp + 10 > g.player.maxHp then g.player.maxHp else g.player.hp + 10)
      && g.player.hp <= r.player.hp <= r.player.maxHp
      && !r.items[i].active && (r.player.x, r.player.y) == Target(g, cmd)
      && r.enemies == g.enemies && r.message == POTION
  {
    var t := Target(g, cmd);
    assert EnemyAt(g.enemies, t.0, t.1, 0).None?;
    var r := ItemAt(g.items, g.numItems, t.0, t.1, 0);
    assert r == Some(i) by {
      if r.None? || r.value != i {
        assert false;
      }
    }
  }

  /** The player only ever stays put or steps one cell onto the floor. */
  lemma MovesOneStep(g: Game, cmd: char)
    requires Inv(g)
    ensures var r := ProcessInput(g, cmd);
      || (r.player.x == g.player.x && r.player.y == g.player.y)
      || (Decode(cmd).Move? && (r.player.x, r.player.y) == Target(g, cmd) && g.tiles[r.player.y][r.player.x] == FLOOR)
  {
    if Decode(cmd).Quit? {
      QuitEnds(g, cmd);
    } else if Decode(cmd).Unknown? {
      UnknownKeyWaits(g, cmd);
    } else {
      var (x, y) := Target(g, cmd);
      MoveWalks(g, cmd);
      WalkStep(g, x, y);
    }
  }

  /** A move leaves the player in place or puts them on the target, which is floor. */
  lemma WalkStep(g: Game, x: int, y: int)
    requires Inv(g)
    ensures var r := Walk(g, x, y);
      || (r.player.x == g.player.x && r.player.y == g.player.y)
      || ((r.player.x, r.player.y) == (x, y) && g.tiles[y][x] == FLOOR)
  {
  }

  // ---------------------------------------------------------------------
  // The main loop and the final screen
  // ---------------------------------------------------------------------

  /** `main`'s loop: one key at a time until the game is over or the keys run out. */
  function Play(g: Game, keys: seq<char>): (r: Game)
    requires Shaped(g)
    ensures Shaped(r) && r.tiles == g.tiles
    decreases |keys|
  {
    if g.gameOver || |keys| == 0 then g else Play(ProcessInput(g, keys[0]), keys[1..])
  }

  /** No living enemy ever comes back. */
  predicate NoneRevived(before: seq<Enemy>, after: seq<Enemy>)
    requires |before| == |after|
  {
    forall i | 0 <= i < |after| :: after[i].alive ==> before[i].alive
  }

  /** Playing keeps the invariant and never brings an enemy back. */
  lemma {:induction false} PlayKeeps(g: Game, keys: seq<char>)
    requires Inv(g)
    ensures Inv(Play(g, keys)) && NoneRevived(g.enemies, Play(g, keys).enemies)
    decreases |keys|
  {
    if !g.gameOver && |keys| > 0 {
      var h := ProcessInput(g, keys[0]);
      ProcessInputKeeps(g, keys[0]);
      StepNoneRevived(g, keys[0]);
      PlayKeeps(h, keys[1..]);
    }
  }

  lemma StepNoneRevived(g: Game, cmd: char)
    requires Inv(g)
    ensures NoneRevived(g.enemies, ProcessInput(g, cmd).enemies)
  {
  }

  /** The number of enemies alive before and dead after. */
  function Killed(before: seq<Enemy>, after: seq<Enemy>): (n: nat)
    requires |before| == |after|
    ensures n <= |after|
  {
    if |before| == 0 then 0
    else (if before[0].alive && !after[0].alive then 1 else 0) + Killed(before[1..], after[1..])
  }

  /** Without revivals, the drop in the living count is exactly the number killed. */
  lemma {:induction false} AliveDrop(before: seq<Enemy>, after: seq<Enemy>)
    requires |before| == |after| && NoneRevived(before, after)
    ensures Alive(before) - Alive(after) == Killed(before, after)
  {
    if |before| > 0 {
      assert NoneRevived(before[1..], after[1..]) by {
        forall i | 0 <= i < |after| - 1 && after[1..][i].alive
          ensures before[1..][i].alive
        {
          assert after[i + 1].alive;
        }
      }
      assert after[0].alive ==> before[0].alive;
      AliveDrop(before[1..], after[1..]);
    }
  }

  /**
    The "Enemies Defeated" figure of the final screen as written: the
    difference from the array's size, though three to five enemies spawn.
  */
  function DefeatedAsWritten(g: Game): (n: int)
    ensures g.numEnemies <= MAX_ENEMIES ==> n >= 0
  {
    MAX_ENEMIES - g.numEnemies
  }

  /** The figure counted from the enemies that spawned: those alive at the start and dead at the end. */
  function Defeated(start: Game, g: Game): (n: int)
  {
    start.numEnemies - g.numEnemies
  }

  /** The corrected figure is exactly the number of enemies killed during play. */
  lemma DefeatedCounts(start: Game, keys: seq<char>)
    requires Inv(start)
    ensures Defeated(start, Play(start, keys)) == Killed(start.enemies, Play(start, keys).enemies)
  {
    PlayKeeps(start, keys);
    AliveDrop(start.enemies, Play(start, keys).enemies);
  }

  /**
    The game as shipped always starts from the same seed, which spawns
    three enemies; quitting straight away then reports two enemies
    defeated, though none was touched.
  */
  lemma QuitAtStartReportsTwo(fuel: nat)
    requires InitGame(START_SEED, fuel).Some?
    ensures var g := InitGame(START_SEED, fuel).value.game;
      var r := Play(g, "q");
      && g.numEnemies == 3 && r.gameOver
      && Killed(g.enemies, r.enemies) == 0 && Defeated(g, r) == 0
      && DefeatedAsWritten(r) == 2
  {
    NextIs(START_SEED, 3171, 3554416254);
    NextIs(3554416254, 913243862, 2802067423);
    NextIs(2802067423, 719941248, 3596950572);
    NextIs(3596950572, 924172297, 229283573);
    NextIs(229283573, 58910324, 3256818826);
    Arith.DivUnique(3256818826, 0x1_0000, 49695, 3256818826 - 49695 * 0x1_0000);
    Arith.DivUnique(49695, 3, 16565, 0);
    var g := InitGame(START_SEED, fuel).value.game;
    assert g.numEnemies == 3;
    var r := Play(g, "q");
    assert r == ProcessInput(g, 'q');
    KilledNone(g.enemies);
  }

  /** One step of the generator from its quotient and remainder. */
  lemma NextIs(seed: Seed, q: int, r: int)
    requires 0 <= r < Int32.MODULUS && seed * 1103515245 + 12345 == q * Int32.MODULUS + r
    ensures Next(seed) == r
  {
    Arith.DivUnique(seed * 1103515245 + 12345, Int32.MODULUS, q, r);
  }

  lemma {:induction false} KilledNone(es: seq<Enemy>)
    ensures Killed(es, es) == 0
  {
    if |es| > 0 {
      KilledNone(es[1..]);
    }
  }
}

=== FILE: cstring.dfy ===
/**
  The string and memory routines of the C library (libc/src/string.c).

  A buffer is the sequence of bytes from a pointer to the end of the object
  it points into; the C string it holds ends at its first NUL.  Copying
  routines take the destination buffer and give back its new contents.
  `char` is unsigned on RISC-V, so every comparison is on byte values.
*/
module CString {
  import opened Ascii
  import opened Wrappers
  import Int32
  import Numerals
  import Stdlib
  import Stdio

  type Bytes = seq<Byte>

  /** `strlen`: the index of the first NUL. */
  function StrLen(s: Bytes): (n: nat)
    requires NUL in s
    ensures n < |s| && s[n] == NUL
    ensures forall k | 0 <= k < n :: s[k] != NUL
  {
    if s[0] == NUL then 0 else 1 + StrLen(s[1..])
  }

  /** The C string a buffer holds. */
  function Text(s: Bytes): Bytes
    requires NUL in s
  {
    s[..StrLen(s)]
  }

  /** The C string is what lies before the first NUL, as every reader of a buffer takes it. */
  lemma TextIsUpToNul(s: Bytes)
    requires NUL in s
    ensures Text(s) == UpToNul(s)
  {
    var u := UpToNul(s);
    assert |u| < |s|;
    forall k | 0 <= k < |u|
      ensures s[k] != NUL
    {
      assert s[k] == u[k];
    }
    FirstNul(s, |u|);
  }

  /** The first NUL is where `strlen` stops. */
  lemma FirstNul(s: Bytes, m: nat)
    requires m < |s| && s[m] == NUL
    requires forall k | 0 <= k < m :: s[k] != NUL
    ensures StrLen(s) == m
  {
  }

  /** A string has one NUL, at its end, so `strlen` reads back the length of the text before it. */
  lemma {:induction false} StrLenOfText(t: Bytes, rest: Bytes)
    requires NUL !in t
    ensures NUL in t + [NUL] + rest
    ensures StrLen(t + [NUL] + rest) == |t| && Text(t + [NUL] + rest) == t
  {
    var s := t + [NUL] + rest;
    assert s[|t|] == NUL;
    forall k | 0 <= k < |t|
      ensures s[k] != NUL
    {
      assert s[k] == t[k];
    }
    FirstNul(s, |t|);
  }

  /**
    How many bytes a bounded routine reads before it stops: the bytes
    before the first NUL, but no more than `n`.  The buffer must hold a NUL
    or at least `n` bytes.
  */
  function Span(s: Bytes, n: nat): (k: nat)
    requires n <= |s| || NUL in s
    ensures k <= n && k <= |s|
    ensures forall j | 0 <= j < k :: s[j] != NUL
    ensures k < n ==> k < |s| && s[k] == NUL
  {
    if n == 0 || s[0] == NUL then 0
    else
      assert NUL in s ==> NUL in s[1..] by {
        if NUL in s {
          var j :| 0 <= j < |s| && s[j] == NUL;
          assert s[1..][j - 1] == NUL;
        }
      }
      1 + Span(s[1..], n - 1)
  }

  /** Below a terminated buffer's length, the span is the string or `n`, whichever is shorter. */
  lemma SpanOfString(s: Bytes, n: nat)
    requires NUL in s
    ensures Span(s, n) == if n < StrLen(s) then n else StrLen(s)
  {
    var k := Span(s, n);
    if k < n {
      assert s[k] == NUL;
    }
  }

  /** `strcpy`: the source string and its NUL, copied over the front of `dest`. */
  method StrCpy(dest: Bytes, src: Bytes) returns (r: Bytes)
    requires NUL in src && StrLen(src) < |dest|
    ensures |r| == |dest| && NUL in r
    ensures r[..StrLen(src) + 1] == src[..StrLen(src) + 1]
    ensures r[StrLen(src) + 1..] == dest[StrLen(src) + 1..]
    ensures Text(r) == Text(src)
  {
    var i := 0;
    r := dest[0 := src[0]];
    while src[i] != NUL
      invariant 0 <= i <= StrLen(src) && |r| == |dest|
      invariant r[..i + 1] == src[..i + 1]
      invariant r[i + 1..] == dest[i + 1..]
      decreases StrLen(src) - i
    {
      i := i + 1;
      r := r[i := src[i]];
    }
    assert r[i] == NUL;
    CopiedText(r, src, i);
  }

  /** Two buffers that agree up to and including the first NUL of one hold the same string. */
  lemma CopiedText(r: Bytes, src: Bytes, n: nat)
    requires NUL in src && n == StrLen(src) && n < |r| && r[..n + 1] == src[..n + 1]
    ensures NUL in r && StrLen(r) == n && Text(r) == Text(src)
  {
    assert r[n] == r[..n + 1][n] == src[n];
    forall k | 0 <= k < n
      ensures r[k] != NUL
    {
      assert r[k] == r[..n + 1][k] == src[k];
    }
    FirstNul(r, n);
  }

  /**
    `strncpy`: exactly `n` bytes of `dest` are written: the source string
    while it lasts, then NULs.  When the source string has `n` or more
    bytes, no NUL is written.
  */
  method StrNCpy(dest: Bytes, src: Bytes, n: nat) returns (r: Bytes)
    requires n <= |dest| && (n <= |src| || NUL in src)
    ensures |r| == |dest|
    ensures r[..Span(src, n)] == src[..Span(src, n)]
    ensures forall j | Span(src, n) <= j < n :: r[j] == NUL
    ensures r[n..] == dest[n..]
  {
    var k := Span(src, n);
    r := dest;
    var i := 0;
    while i < n && src[i] != NUL
      invariant 0 <= i <= k && |r| == |dest|
      invariant r[..i] == src[..i] && r[n..] == dest[n..]
    {
      r := r[i := src[i]];
      i := i + 1;
    }
    assert i == k;
    while i < n
      invariant k <= i <= n && |r| == |dest|
      invariant r[..k] == src[..k] && r[n..] == dest[n..]
      invariant forall j | k <= j < i :: r[j] == NUL
    {
      r := r[i := NUL];
      i := i + 1;
    }
  }

  /** What `strncpy` writes holds a NUL exactly when the source string is shorter than `n`. */
  lemma StrNCpyTerminates(dest: Bytes, src: Bytes, n: nat, r: Bytes)
    requires n <= |dest| && (n <= |src| || NUL in src) && |r| == |dest|
    requires r[..Span(src, n)] == src[..Span(src, n)]
    requires forall j | Span(src, n) <= j < n :: r[j] == NUL
    ensures NUL in r[..n] <==> Span(src, n) < n
  {
    var k := Span(src, n);
    if k < n {
      assert r[..n][k] == NUL;
    } else {
      forall j | 0 <= j < n
        ensures r[..n][j] != NUL
      {
        assert r[j] == r[..k][j];
      }
    }
  }

  /** Lexicographic order on byte strings: a proper prefix comes first. */
  predicate Below(a: Bytes, b: Bytes)
    decreases |a|
  {
    if |a| == 0 then |b| > 0
    else |b| > 0 && (a[0] < b[0] || (a[0] == b[0] && Below(a[1..], b[1..])))
  }

  /** `strcmp`: the difference of the first two bytes that differ or end the first string. */
  function StrCmp(s1: Bytes, s2: Bytes): (r: int)
    requires NUL in s1 && NUL in s2
    ensures -255 <= r <= 255
  {
    if s1[0] != NUL && s1[0] == s2[0] then
      StepsPastByte(s1, s2);
      StrCmp(s1[1..], s2[1..])
    else s1[0] as int - s2[0] as int
  }

  /** Past a byte that is no NUL, both buffers still hold a NUL and their strings shrink by that byte. */
  lemma StepsPastByte(s1: Bytes, s2: Bytes)
    requires NUL in s1 && NUL in s2 && s1[0] != NUL && s1[0] == s2[0]
    ensures NUL in s1[1..] && NUL in s2[1..]
    ensures Text(s1) == [s1[0]] + Text(s1[1..]) && Text(s2) == [s2[0]] + Text(s2[1..])
  {
    StepsPast(s1);
    StepsPast(s2);
  }

  lemma StepsPast(s: Bytes)
    requires NUL in s && s[0] != NUL
    ensures NUL in s[1..]
    ensures Text(s) == [s[0]] + Text(s[1..])
  {
    assert s[1..][StrLen(s) - 1] == NUL;
    assert s[..StrLen(s)] == [s[0]] + s[1..][..StrLen(s) - 1];
  }

  /** `strcmp` is 0 exactly for equal strings, and negative exactly when the first sorts below the second. */
  lemma {:induction false} StrCmpOrders(s1: Bytes, s2: Bytes)
    requires NUL in s1 && NUL in s2
    ensures StrCmp(s1, s2) == 0 <==> Text(s1) == Text(s2)
    ensures StrCmp(s1, s2) < 0 <==> Below(Text(s1), Text(s2))
    decreases |s1|
  {
    if s1[0] != NUL && s1[0] == s2[0] {
      StepsPastByte(s1, s2);
      StrCmpOrders(s1[1..], s2[1..]);
      BelowCons(s1[0], Text(s1[1..]), Text(s2[1..]));
    } else {
      FirstBytes(s1, s2);
    }
  }

  /** Equal first bytes: the order and equality are those of the rest. */
  lemma BelowCons(c: Byte, a: Bytes, b: Bytes)
    ensures Below([c] + a, [c] + b) <==> Below(a, b)
    ensures [c] + a == [c] + b <==> a == b
  {
    assert ([c] + a)[1..] == a && ([c] + b)[1..] == b;
    if [c] + a == [c] + b {
      assert a == ([c] + a)[1..];
    }
  }

  /** Where the loop stops, the first bytes of the two strings settle the answer. */
  lemma FirstBytes(s1: Bytes, s2: Bytes)
    requires NUL in s1 && NUL in s2
    requires s1[0] == NUL || s1[0] != s2[0]
    ensures s1[0] == s2[0] <==> Text(s1) == Text(s2)
    ensures s1[0] < s2[0] <==> Below(Text(s1), Text(s2))
  {
    var t1, t2 := Text(s1), Text(s2);
    if s1[0] == NUL {
      assert t1 == [];
      if s2[0] != NUL {
        assert t2[0] == s2[0];
      }
    } else {
      assert t1[0] == s1[0];
      if s2[0] != NUL {
        assert t2[0] == s2[0];
      } else {
        assert t2 == [];
      }
    }
  }

  /** `strncmp`: as `strcmp`, but 0 once `n` bytes have compared equal. */
  function StrNCmp(s1: Bytes, s2: Bytes, n: nat): (r: int)
    requires n <= |s1| || NUL in s1
    requires n <= |s2| || NUL in s2
    requires n > 0 ==> 0 < |s1| && 0 < |s2|
    ensures n == 0 ==> r == 0
    ensures -255 <= r <= 255
    decreases n
  {
    if n == 0 then 0
    else if s1[0] != NUL && s1[0] == s2[0] then
      assert NUL in s1 ==> NUL in s1[1..] by {
        if NUL in s1 {
          StepsPast(s1);
        }
      }
      assert NUL in s2 ==> NUL in s2[1..] by {
        if NUL in s2 {
          StepsPast(s2);
        }
      }
      StrNCmp(s1[1..], s2[1..], n - 1)
    else s1[0] as int - s2[0] as int
  }

  /** Once `n` exceeds the first string's length, `strncmp` is `strcmp`. */
  lemma {:induction false} StrNCmpIsStrCmp(s1: Bytes, s2: Bytes, n: nat)
    requires NUL in s1 && NUL in s2 && n > StrLen(s1)
    ensures StrNCmp(s1, s2, n) == StrCmp(s1, s2)
    decreases n
  {
    if s1[0] != NUL && s1[0] == s2[0] {
      StepsPastByte(s1, s2);
      StrNCmpIsStrCmp(s1[1..], s2[1..], n - 1);
    }
  }

  /** `strncmp` is 0 exactly when the strings agree on their first `n` bytes, up to where either ends. */
  lemma {:induction false} StrNCmpEquates(s1: Bytes, s2: Bytes, n: nat)
    requires n <= |s1| || NUL in s1
    requires n <= |s2| || NUL in s2
    requires n > 0 ==> 0 < |s1| && 0 < |s2|
    ensures StrNCmp(s1, s2, n) == 0 <==> s1[..Span(s1, n)] == s2[..Span(s2, n)]
    decreases n
  {
    if n > 0 {
      if s1[0] != NUL && s1[0] == s2[0] {
        assert NUL in s1 ==> NUL in s1[1..] by {
          if NUL in s1 {
            StepsPast(s1);
          }
        }
        assert NUL in s2 ==> NUL in s2[1..] by {
          if NUL in s2 {
            StepsPast(s2);
          }
        }
        StrNCmpEquates(s1[1..], s2[1..], n - 1);
        EquatesStep(s1, s2, n);
      } else {
        EquatesDiffer(s1, s2, n);
      }
    }
  }

  /** One equal, non-NUL byte in front changes neither side of the equivalence. */
  lemma EquatesStep(s1: Bytes, s2: Bytes, n: nat)
    requires 0 < n && 0 < |s1| && 0 < |s2| && s1[0] != NUL && s1[0] == s2[0]
    requires n <= |s1| || NUL in s1[1..]
    requires n <= |s2| || NUL in s2[1..]
    requires StrNCmp(s1[1..], s2[1..], n - 1) == 0
      <==> s1[1..][..Span(s1[1..], n - 1)] == s2[1..][..Span(s2[1..], n - 1)]
    ensures n <= |s1| || NUL in s1
    ensures n <= |s2| || NUL in s2
    ensures StrNCmp(s1, s2, n) == 0 <==> s1[..Span(s1, n)] == s2[..Span(s2, n)]
  {
    var t1, t2 := s1[1..][..Span(s1[1..], n - 1)], s2[1..][..Span(s2[1..], n - 1)];
    assert s1[..Span(s1, n)] == [s1[0]] + t1;
    assert s2[..Span(s2, n)] == [s1[0]] + t2;
    BelowCons(s1[0], t1, t2);
  }

  /** A first byte that differs, or a terminator, settles the equivalence at once. */
  lemma EquatesDiffer(s1: Bytes, s2: Bytes, n: nat)
    requires 0 < n && 0 < |s1| && 0 < |s2| && (s1[0] == NUL || s1[0] != s2[0])
    requires n <= |s1| || NUL in s1
    requires n <= |s2| || NUL in s2
    ensures StrNCmp(s1, s2, n) == 0 <==> s1[..Span(s1, n)] == s2[..Span(s2, n)]
  {
    var k1, k2 := Span(s1, n), Span(s2, n);
    if s1[0] == NUL {
      assert k1 == 0;
      if s2[0] != NUL {
        assert s2[..k2][0] == s2[0];
      }
    } else {
      assert s1[..k1][0] == s1[0];
      if k2 > 0 {
        assert s2[..k2][0] == s2[0];
      }
    }
  }

  /**
    `strchr`: the offset of the first byte equal to `(char)c`, or of the
    terminator when `c` is 0; `None` is the NULL pointer.
  */
  function StrChr(s: Bytes, c: int): (r: Option<nat>)
    requires NUL in s
    ensures r.Some? ==> r.value <= StrLen(s)
  {
    if s[0] == NUL then (if c == 0 then Some(0) else None)
    else if s[0] as int == c % 256 then Some(0)
    else
      StepsPast(s);
      match StrChr(s[1..], c)
      case None => None
      case Some(k) => Some(k + 1)
  }

  /** What `strchr` finds: the first occurrence in the string, or the terminator for 0, and NULL only when there is none. */
  lemma {:induction false} StrChrFinds(s: Bytes, c: int)
    requires NUL in s
    ensures StrChr(s, c).Some? && StrChr(s, c).value < StrLen(s) ==>
      s[StrChr(s, c).value] as int == c % 256 && forall j | 0 <= j < StrChr(s, c).value :: s[j] as int != c % 256
    ensures StrChr(s, c) == Some(StrLen(s)) <==> c == 0
    ensures StrChr(s, c).None? <==> c != 0 && forall j | 0 <= j < StrLen(s) :: s[j] as int != c % 256
    decreases |s|
  {
    if s[0] != NUL && s[0] as int != c % 256 {
      StepsPast(s);
      StrChrFinds(s[1..], c);
      assert forall j | 1 <= j < StrLen(s) :: s[j] == s[1..][j - 1];
    }
  }

  /** The terminator is found for `c == 0` only: `(char)256` is also 0, yet `strchr(s, 256)` is NULL. */
  lemma StrChrWideZero(s: Bytes)
    requires NUL in s
    ensures StrChr(s, 256) == None && StrChr(s, 0) == Some(StrLen(s))
  {
    StrChrFinds(s, 256);
    StrChrFinds(s, 0);
  }

  /** `strrchr`: the offset of the last byte equal to `(char)c`, or of the terminator when `c` is 0. */
  function StrRChr(s: Bytes, c: int): (r: Option<nat>)
    requires NUL in s
    ensures r.Some? ==> r.value <= StrLen(s)
  {
    if s[0] == NUL then (if c == 0 then Some(0) else None)
    else
      StepsPast(s);
      match StrRChr(s[1..], c)
      case Some(k) => Some(k + 1)
      case None => if s[0] as int == c % 256 then Some(0) else None
  }

  /** What `strrchr` finds: the last occurrence in the string, or the terminator for 0. */
  lemma {:induction false} StrRChrFinds(s: Bytes, c: int)
    requires NUL in s
    ensures StrRChr(s, c).Some? && StrRChr(s, c).value < StrLen(s) ==>
      c != 0 && s[StrRChr(s, c).value] as int == c % 256
      && forall j | StrRChr(s, c).value < j < StrLen(s) :: s[j] as int != c % 256
    ensures StrRChr(s, c) == Some(StrLen(s)) <==> c == 0
    ensures StrRChr(s, c).None? <==> StrChr(s, c).None?
    decreases |s|
  {
    if s[0] != NUL {
      StepsPast(s);
      StrRChrFinds(s[1..], c);
      StrChrFinds(s[1..], c);
      assert forall j | 1 <= j < StrLen(s) :: s[j] == s[1..][j - 1];
    }
  }

  /** The first occurrence never comes after the last. */
  lemma {:induction false} FirstBeforeLast(s: Bytes, c: int)
    requires NUL in s && StrChr(s, c).Some?
    ensures StrRChr(s, c).Some? && StrChr(s, c).value <= StrRChr(s, c).value
    decreases |s|
  {
    StrRChrFinds(s, c);
    if s[0] != NUL && s[0] as int != c % 256 {
      StepsPast(s);
      FirstBeforeLast(s[1..], c);
    }
  }

  /** `memcpy`: the first `n` bytes of `src` over the first `n` of `dest`. */
  method MemCpy(dest: Bytes, src: Bytes, n: nat) returns (r: Bytes)
    requires n <= |dest| && n <= |src|
    ensures |r| == |dest| && r[..n] == src[..n] && r[n..] == dest[n..]
  {
    r := dest;
    var i := 0;
    while i < n
      invariant 0 <= i <= n && |r| == |dest|
      invariant r[..i] == src[..i] && r[i..] == dest[i..]
    {
      r := r[i := src[i]];
      i := i + 1;
    }
  }

  /**
    `memmove` within one memory: the `n` bytes at `s` end up at `d` as they
    were before the call, whether or not the two ranges overlap; nothing
    else changes.  It copies upward when `d < s` and downward otherwise.
  */
  method MemMove(mem: Bytes, d: nat, s: nat, n: nat) returns (r: Bytes)
    requires d + n <= |mem| && s + n <= |mem|
    ensures |r| == |mem|
    ensures r[d..d + n] == mem[s..s + n]
    ensures forall j | 0 <= j < |mem| && !(d <= j < d + n) :: r[j] == mem[j]
  {
    r := mem;
    if d < s {
      var i := 0;
      while i < n
        invariant 0 <= i <= n && |r| == |mem|
        invariant forall a | d <= a < d + i :: r[a] == mem[a - d + s]
        invariant forall j | 0 <= j < |mem| && !(d <= j < d + i) :: r[j] == mem[j]
      {
        r := r[d + i := r[s + i]];
        i := i + 1;
      }
    } else {
      var i := n;
      while i > 0
        invariant 0 <= i <= n && |r| == |mem|
        invariant forall a | d + i <= a < d + n :: r[a] == mem[a - d + s]
        invariant forall j | 0 <= j < |mem| && !(d + i <= j < d + n) :: r[j] == mem[j]
      {
        i := i - 1;
        r := r[d + i := r[s + i]];
      }
    }
    assert r[d..d + n] == mem[s..s + n];
  }

  /** `memset`: the first `n` bytes become `(unsigned char)c`; the rest of the buffer is kept. */
  method MemSet(buf: Bytes, c: int, n: nat) returns (r: Bytes)
    requires n <= |buf|
    ensures |r| == |buf| && r[n..] == buf[n..]
    ensures forall j | 0 <= j < n :: r[j] as int == c % 256
  {
    r := buf;
    var i := 0;
    while i < n
      invariant 0 <= i <= n && |r| == |buf| && r[n..] == buf[n..]
      invariant forall j | 0 <= j < i :: r[j] as int == c % 256
    {
      r := r[i := (c % 256) as char];
      i := i + 1;
    }
  }

  /** `memcmp`: the difference of the first differing bytes among the first `n`, else 0. */
  function MemCmp(s1: Bytes, s2: Bytes, n: nat): (r: int)
    requires n <= |s1| && n <= |s2|
    ensures -255 <= r <= 255
  {
    if n == 0 then 0
    else if s1[0] != s2[0] then s1[0] as int - s2[0] as int
    else MemCmp(s1[1..], s2[1..], n - 1)
  }

  /** `memcmp` is 0 exactly for equal ranges, and negative exactly when the first range sorts below the second. */
  lemma {:induction false} MemCmpOrders(s1: Bytes, s2: Bytes, n: nat)
    requires n <= |s1| && n <= |s2|
    ensures MemCmp(s1, s2, n) == 0 <==> s1[..n] == s2[..n]
    ensures MemCmp(s1, s2, n) < 0 <==> Below(s1[..n], s2[..n])
    decreases n
  {
    if n > 0 {
      assert s1[..n] == [s1[0]] + s1[1..][..n - 1];
      assert s2[..n] == [s2[0]] + s2[1..][..n - 1];
      if s1[0] == s2[0] {
        MemCmpOrders(s1[1..], s2[1..], n - 1);
        BelowCons(s1[0], s1[1..][..n - 1], s2[1..][..n - 1]);
      } else {
        assert s1[..n][0] != s2[..n][0];
      }
    }
  }

  /** `strcat`: the source string, with its NUL, written over the destination's terminator. */
  method StrCat(dest: Bytes, src: Bytes) returns (r: Bytes)
    requires NUL in dest && NUL in src
    requires StrLen(dest) + StrLen(src) < |dest|
    ensures |r| == |dest| && NUL in r
    ensures Text(r) == Text(dest) + Text(src)
    ensures r[StrLen(dest) + StrLen(src) + 1..] == dest[StrLen(dest) + StrLen(src) + 1..]
  {
    var d := 0;
    while dest[d] != NUL
      invariant 0 <= d <= StrLen(dest)
      decreases StrLen(dest) - d
    {
      d := d + 1;
    }
    var m := StrLen(src);
    r := dest;
    var i := 0;
    r := r[d := src[0]];
    while src[i] != NUL
      invariant 0 <= i <= m && |r| == |dest|
      invariant r[..d] == dest[..d]
      invariant forall a | d <= a <= d + i :: r[a] == src[a - d]
      invariant forall a | d + i < a < |r| :: r[a] == dest[a]
      decreases m - i
    {
      i := i + 1;
      r := r[d + i := src[i]];
    }
    assert r[d..d + i + 1] == src[..i + 1];
    assert r[d + i + 1..] == dest[d + i + 1..];
    Joined(dest, src, r);
  }

  /** A buffer holding the destination's string, the source's string and a NUL, holds their concatenation. */
  lemma Joined(dest: Bytes, src: Bytes, r: Bytes)
    requires NUL in dest && NUL in src
    requires StrLen(dest) + StrLen(src) < |r|
    requires r[..StrLen(dest)] == dest[..StrLen(dest)]
    requires r[StrLen(dest)..StrLen(dest) + StrLen(src) + 1] == src[..StrLen(src) + 1]
    ensures NUL in r && Text(r) == Text(dest) + Text(src)
  {
    var a, b := StrLen(dest), StrLen(src);
    assert r[a..a + b] == r[a..a + b + 1][..b] == src[..b + 1][..b] == Text(src);
    assert r[a + b] == r[a..a + b + 1][b] == src[b];
    Appended(dest, Text(src), r);
  }

  /** `strncat`: at most `n` bytes of the source string, then a NUL, after the destination's string. */
  method StrNCat(dest: Bytes, src: Bytes, n: nat) returns (r: Bytes)
    requires NUL in dest && (n <= |src| || NUL in src)
    requires StrLen(dest) + Span(src, n) < |dest|
    ensures |r| == |dest| && NUL in r
    ensures Text(r) == Text(dest) + src[..Span(src, n)]
  {
    var d := 0;
    while dest[d] != NUL
      invariant 0 <= d <= StrLen(dest)
      decreases StrLen(dest) - d
    {
      d := d + 1;
    }
    var k := Span(src, n);
    r := dest;
    var i := 0;
    while i < n && src[i] != NUL
      invariant 0 <= i <= k && |r| == |dest|
      invariant r[..d] == dest[..d]
      invariant forall a | d <= a < d + i :: r[a] == src[a - d]
    {
      r := r[d + i := src[i]];
      i := i + 1;
    }
    assert r[d..d + i] == src[..i];
    r := r[d + i := NUL];
    Appended(dest, src[..k], r);
  }

  lemma Appended(dest: Bytes, t: Bytes, r: Bytes)
    requires NUL in dest && NUL !in t
    requires StrLen(dest) + |t| < |r|
    requires r[..StrLen(dest)] == dest[..StrLen(dest)]
    requires r[StrLen(dest)..StrLen(dest) + |t|] == t && r[StrLen(dest) + |t|] == NUL
    ensures NUL in r && Text(r) == Text(dest) + t
  {
    var a := StrLen(dest);
    var u := Text(dest) + t;
    var rest := r[a + |t| + 1..];
    assert r == r[..a] + r[a..a + |t|] + [r[a + |t|]] + rest;
    assert r == u + [NUL] + rest;
    assert NUL !in u;
    StrLenOfText(u, rest);
  }

  /** `strerror`: a fixed message for eight error numbers, else "Unknown error" and the number. */
  function StrError(errnum: int): (m: string)
    ensures 0 < |m| < 32 || !Int32.IsI32(errnum)
  {
    if errnum == 0 then "Success"
    else if errnum == 1 then "Operation not permitted"
    else if errnum == 2 then "No such file or directory"
    else if errnum == 5 then "I/O error"
    else if errnum == 9 then "Bad file descriptor"
    else if errnum == 12 then "Out of memory"
    else if errnum == 13 then "Permission denied"
    else if errnum == 22 then "Invalid argument"
    else
      if Int32.IsI32(errnum) then Numerals.DecimalShort(errnum); "Unknown error " + Numerals.Decimal(errnum)
      else "Unknown error " + Numerals.Decimal(errnum)
  }

  predicate Known(errnum: int)
  {
    errnum in {0, 1, 2, 5, 9, 12, 13, 22}
  }

  /** Every `int` error number gets a message of its own: `strerror` never gives two numbers the same text. */
  lemma StrErrorDistinguishes(e1: int, e2: int)
    requires Int32.IsI32(e1) && Int32.IsI32(e2) && e1 != e2
    ensures StrError(e1) != StrError(e2)
  {
    if !Known(e1) && !Known(e2) {
      var p := "Unknown error ";
      var d1, d2 := Numerals.Decimal(e1), Numerals.Decimal(e2);
      assert StrError(e1) == StrError(e2) ==> d1 == StrError(e1)[|p|..] == StrError(e2)[|p|..] == d2;
      Stdlib.AtoiDecimal(e1, "");
      Stdlib.AtoiDecimal(e2, "");
      assert d1 + "" == d1 && d2 + "" == d2;
    } else if Known(e1) && !Known(e2) {
      UnknownIsLong(e2);
    } else if !Known(e1) && Known(e2) {
      UnknownIsLong(e1);
    }
  }

  /** An unknown number's message starts "Unknown error ", which no fixed message does. */
  lemma UnknownIsLong(e: int)
    requires !Known(e)
    ensures StrError(e)[..14] == "Unknown error "
    ensures forall k | Known(k) :: |StrError(k)| < 14 || StrError(k)[..14] != "Unknown error "
  {
  }

  /** The message for an unknown number is exactly what `snprintf(buf, 32, "Unknown error %d", errnum)` stores. */
  lemma StrErrorIsSnprintf(errnum: int)
    requires Int32.IsI32(errnum) && !Known(errnum)
    ensures Stdio.Snprintf(true, 32, "Unknown error %d" + [NUL], [Stdio.Word(errnum)])
      == Some(Stdio.Filled(StrError(errnum) + [NUL], |StrError(errnum)|))
  {
    Stdio.SnprintfNumber("Unknown error ", errnum);
    assert "Unknown error " + "%d" + [NUL] == "Unknown error %d" + [NUL];
  }
}

=== FILE: ctype.dfy ===
/**
  Character classification and case conversion of the C library
  (libc/src/ctype.c).  Arguments are C `int`s; only the ASCII codes are
  classified, everything else is "no".
*/
module Ctype {
  import Int32

  predicate IsUpper(c: int) { 'A' as int <= c <= 'Z' as int }

  predicate IsLower(c: int) { 'a' as int <= c <= 'z' as int }

  predicate IsAlpha(c: int) { IsUpper(c) || IsLower(c) }

  predicate IsDigit(c: int) { '0' as int <= c <= '9' as int }

  predicate IsAlnum(c: int) { IsAlpha(c) || IsDigit(c) }

  /** Space, tab, line feed, carriage return, form feed and vertical tab. */
  predicate IsSpace(c: int)
  {
    c == ' ' as int || c == 9 || c == 10 || c == 13 || c == 12 || c == 11
  }

  predicate IsPrint(c: int) { 32 <= c <= 126 }

  const CASE_OFFSET: int := 'a' as int - 'A' as int

  function ToLower(c: int): (r: int)
    ensures IsUpper(c) ==> IsLower(r)
    ensures !IsUpper(c) ==> r == c
  {
    if IsUpper(c) then c + CASE_OFFSET else c
  }

  function ToUpper(c: int): (r: int)
    ensures IsLower(c) ==> IsUpper(r)
    ensures !IsLower(c) ==> r == c
  {
    if IsLower(c) then c - CASE_OFFSET else c
  }

  /** The low seven bits of `c`. */
  function ToAscii(c: int): (r: int)
    ensures 0 <= r < 128
  {
    c % 128
  }

  /** `toascii` is the mask `c & 0x7F` on the two's-complement pattern, negative codes included. */
  lemma ToAsciiIsMask(c: int)
    requires Int32.IsI32(c)
    ensures ToAscii(c) == Int32.BitAnd(c, 0x7F)
  {
    Int32.AndLow7(c);
  }

  /** Case conversion changes a character exactly when it is a letter of the other case, and keeps it a letter. */
  lemma CaseChanges(c: int)
    ensures ToLower(c) != c <==> IsUpper(c)
    ensures ToUpper(c) != c <==> IsLower(c)
    ensures IsAlpha(c) <==> IsAlpha(ToLower(c))
    ensures IsAlpha(c) <==> IsAlpha(ToUpper(c))
    ensures !IsUpper(ToLower(c)) && !IsLower(ToUpper(c))
  {
  }

  /** Both conversions are idempotent, and each undoes the other on the letters it produces. */
  lemma CaseRoundTrip(c: int)
    ensures ToLower(ToLower(c)) == ToLower(c)
    ensures ToUpper(ToUpper(c)) == ToUpper(c)
    ensures IsUpper(c) ==> ToUpper(ToLower(c)) == c
    ensures IsLower(c) ==> ToLower(ToUpper(c)) == c
  {
  }

  /** The classes nest as the C standard arranges them: letters and digits are printable, spaces other than ' ' are not. */
  lemma Classes(c: int)
    ensures IsAlnum(c) ==> IsPrint(c) && !IsSpace(c)
    ensures IsSpace(c) && IsPrint(c) <==> c == ' ' as int
    ensures !(IsUpper(c) && IsLower(c))
  {
  }
}

=== FILE: curses.dfy ===
/**
  The curses library of the C runtime (libc/src/curses.c).

  There is one screen of LINES x COLS cells shared by every window; a cell
  holds a character (a C `char`, unsigned on RISC-V), its attributes and a
  dirty flag.  A window is only a cursor, a size and the current
  attributes: every window writes into the same screen, at its own cursor.
  `wrefresh` paints the dirty cells in row-major order with ANSI escape
  sequences and marks them clean.

  A `chtype` is an `unsigned long`, 64 bits wide here.  A `WINDOW *` that
  may be NULL is an `Option<Window>`; the window a call updates is handed
  back in its result.  The bytes the library prints are returned as a
  string instead of being written.
*/
module Curses {
  import opened Wrappers
  import opened Ascii
  import Numerals
  import Int32

  /** A `chtype` is an `unsigned long`: 64 bits on RISC-V. */
  type Chtype = x: nat | x < 0x1_0000_0000_0000_0000
  /** A C `char`; unsigned on RISC-V. */
  type CChar = c: nat | c < 0x100

  const LINES: int := 24
  const COLS: int := 80
  const A_NORMAL: Chtype := 0
  const A_CHARTEXT: Chtype := 0xFF
  /** `~A_CHARTEXT`: every bit above the character byte. */
  const A_ATTRIBUTES: Chtype := 0xFFFF_FFFF_FFFF_FF00

  /* ---------------------------------------------------------------- */
  /* Bit operations on a chtype                                       */
  /* ---------------------------------------------------------------- */

  /** The width of a `chtype` in bits. */
  const WIDTH: nat := 64

  lemma Pow2Of64()
    ensures Int32.Pow2(WIDTH) == 0x1_0000_0000_0000_0000
  {
    Int32.Pow2Of32();
    Int32.Pow2Add(32, 32);
  }

  /** `x | y` */
  function Or(x: Chtype, y: Chtype): Chtype
  {
    Pow2Of64();
    Int32.BitwiseBound(Int32.OrBits, x, y, WIDTH);
    Int32.Bitwise(Int32.OrBits, x, y, WIDTH)
  }

  /** `x & y` */
  function And(x: Chtype, y: Chtype): Chtype
  {
    Pow2Of64();
    Int32.BitwiseBound(Int32.AndBits, x, y, WIDTH);
    Int32.Bitwise(Int32.AndBits, x, y, WIDTH)
  }

  /** `~x` */
  function Not(x: Chtype): Chtype
  {
    Pow2Of64();
    Int32.BitwiseBound(Int32.NotBits, x, x, WIDTH);
    Int32.Bitwise(Int32.NotBits, x, x, WIDTH)
  }

  function Bit(x: Chtype, i: nat): bool
  {
    Int32.Bit(x, i)
  }

  lemma OrBit(x: Chtype, y: Chtype, i: nat)
    requires i < 64
    ensures Bit(Or(x, y), i) == (Bit(x, i) || Bit(y, i))
  {
    Int32.BitwiseBits(Int32.OrBits, x, y, WIDTH, i);
  }

  lemma AndBit(x: Chtype, y: Chtype, i: nat)
    requires i < 64
    ensures Bit(And(x, y), i) == (Bit(x, i) && Bit(y, i))
  {
    Int32.BitwiseBits(Int32.AndBits, x, y, WIDTH, i);
  }

  lemma NotBit(x: Chtype, i: nat)
    requires i < 64
    ensures Bit(Not(x), i) == !Bit(x, i)
  {
    Int32.BitwiseBits(Int32.NotBits, x, x, WIDTH, i);
  }

  lemma ZeroBit(i: nat)
    ensures !Bit(0, i)
  {
    Int32.BitOfZero(i);
  }

  /** `0 & y == 0` */
  lemma ZeroAnd(y: Chtype)
    ensures And(0, y) == 0
  {
    forall i | 0 <= i < 64
      ensures Bit(And(0, y), i) == Bit(0, i)
    {
      AndBit(0, y, i);
      ZeroBit(i);
    }
    SameBits(And(0, y), 0);
  }

  /** Two `chtype`s are equal when their 64 bits are. */
  lemma SameBits(x: Chtype, y: Chtype)
    requires forall i | 0 <= i < 64 :: Bit(x, i) == Bit(y, i)
    ensures x == y
  {
    forall i | 0 <= i < WIDTH
      ensures Int32.Bit(x, i) == Int32.Bit(y, i)
    {
      assert Bit(x, i) == Bit(y, i);
    }
    Pow2Of64();
    Int32.BitsEqual(x, y, WIDTH);
  }

  /** `A_CHARTEXT` is the low eight bits. */
  lemma CharTextBit(i: nat)
    ensures Bit(A_CHARTEXT, i) == (i < 8)
  {
    Int32.Pow2Of8();
    Int32.LowMaskBits(8, i);
  }

  lemma AttributesMask()
    ensures Not(A_CHARTEXT) == A_ATTRIBUTES
  {
    Pow2Of64();
    Int32.NotBitsValue(0xFF, WIDTH);
  }

  /** A character has no bit above its byte. */
  lemma CharBit(c: CChar, i: nat)
    requires 8 <= i
    ensures !Bit(c, i)
  {
    Int32.Pow2Of8();
    Int32.HighBitsClear(c, 8, i);
  }

  /** The character byte of a `chtype`: the remainder modulo 256. */
  function Low(ch: Chtype): CChar
  {
    ch % 0x100
  }

  /** The remainder modulo 256 is `ch & A_CHARTEXT`. */
  lemma LowIsMask(ch: Chtype)
    ensures Low(ch) == And(ch, A_CHARTEXT)
  {
    Int32.Pow2Of8();
    Int32.AndLowMask(ch, 8, WIDTH);
  }

  /** A character as a `chtype` with no attributes. */
  function Widen(c: CChar): (ch: Chtype)
    ensures Low(ch) == c
  {
    c
  }

  /** Attributes that leave the character byte of a `chtype` alone. */
  predicate AttrsOnly(a: Chtype)
  {
    Low(a) == 0
  }

  /** Attributes that leave the character byte alone have none of its bits. */
  lemma AttrBit(a: Chtype, i: nat)
    requires AttrsOnly(a) && i < 8
    ensures !Bit(a, i)
  {
    LowIsMask(a);
    AndBit(a, A_CHARTEXT, i);
    CharTextBit(i);
    ZeroBit(i);
  }

  /** Where the five attribute bits of a `chtype` live. */
  datatype Masks = Masks(standout: Chtype, underline: Chtype, reverse: Chtype, blink: Chtype, bold: Chtype)

  /** The masks the header declares: all five inside the character byte. */
  const HEADER: Masks := Masks(0x01, 0x02, 0x04, 0x08, 0x10)

  /**
    The masks moved above the character byte: the correction of the header's
    layout, under which a stored character keeps its byte.
  */
  const FIXED_STANDOUT: Chtype := 0x1_0000
  const FIXED_UNDERLINE: Chtype := 0x2_0000
  const FIXED_REVERSE: Chtype := 0x4_0000
  const FIXED_BLINK: Chtype := 0x8_0000
  const FIXED_BOLD: Chtype := 0x20_0000
  const FIXED: Masks := Masks(FIXED_STANDOUT, FIXED_UNDERLINE, FIXED_REVERSE, FIXED_BLINK, FIXED_BOLD)

  predicate Disjoint(m: Masks)
  {
    AttrsOnly(m.standout) && AttrsOnly(m.underline) && AttrsOnly(m.reverse)
    && AttrsOnly(m.blink) && AttrsOnly(m.bold)
  }

  /** A character joined with attributes outside the character byte: the byte is the character. */
  lemma SplitChar(c: CChar, a: Chtype)
    requires AttrsOnly(a)
    ensures Low(Or(c, a)) == c
  {
    forall i | 0 <= i < 64
      ensures Bit(And(Or(c, a), A_CHARTEXT), i) == Bit(c, i)
    {
      AndBit(Or(c, a), A_CHARTEXT, i);
      OrBit(c, a, i);
      CharTextBit(i);
      if i < 8 {
        AttrBit(a, i);
      } else {
        CharBit(c, i);
      }
    }
    SameBits(And(Or(c, a), A_CHARTEXT), c);
    LowIsMask(Or(c, a));
  }

  /** A character joined with attributes outside the character byte: the rest is the attributes. */
  lemma SplitAttrs(c: CChar, a: Chtype)
    requires AttrsOnly(a)
    ensures And(Or(c, a), A_ATTRIBUTES) == a
  {
    forall i | 0 <= i < 64
      ensures Bit(And(Or(c, a), A_ATTRIBUTES), i) == Bit(a, i)
    {
      AndBit(Or(c, a), A_ATTRIBUTES, i);
      AttributesMask();
      NotBit(A_CHARTEXT, i);
      OrBit(c, a, i);
      CharTextBit(i);
      if i < 8 {
        AttrBit(a, i);
      } else {
        CharBit(c, i);
      }
    }
    SameBits(And(Or(c, a), A_ATTRIBUTES), a);
  }

  /** The byte `putchar` writes for a screen character. */
  function Out(c: CChar): (b: Byte)
    ensures b as int == c as int
  {
    (c as int) as char
  }

  const SPACE: CChar := 0x20
  const TAB: CChar := 0x09
  const NEWLINE: CChar := 0x0A
  const RETURN: CChar := 0x0D

  /* ---------------------------------------------------------------- */
  /* The screen                                                       */
  /* ---------------------------------------------------------------- */

  datatype Cell = Cell(ch: CChar, attrs: Chtype, dirty: bool)

  const BLANK: Cell := Cell(SPACE, A_NORMAL, true)

  type Screen = seq<seq<Cell>>

  predicate IsScreen(s: Screen)
  {
    |s| == LINES && forall y | 0 <= y < |s| :: |s[y]| == COLS
  }

  predicate OnScreen(y: int, x: int)
  {
    0 <= y < LINES && 0 <= x < COLS
  }

  /** Every cell a space with no attributes, waiting to be painted. */
  function Blank(): (s: Screen)
    ensures IsScreen(s)
    ensures forall y, x | OnScreen(y, x) :: s[y][x] == BLANK
  {
    seq(LINES, _ => seq(COLS, _ => BLANK))
  }

  function Put(s: Screen, y: int, x: int, c: Cell): (r: Screen)
    requires IsScreen(s) && OnScreen(y, x)
    ensures IsScreen(r) && r[y][x] == c
    ensures forall v, u | OnScreen(v, u) && (v, u) != (y, x) :: r[v][u] == s[v][u]
  {
    s[y := s[y][x := c]]
  }

  /** The same characters and attributes, whatever the dirty flags. */
  ghost predicate SameText(s: Screen, t: Screen)
    requires IsScreen(s) && IsScreen(t)
  {
    forall y, x | OnScreen(y, x) :: s[y][x].ch == t[y][x].ch && s[y][x].attrs == t[y][x].attrs
  }

  /* ---------------------------------------------------------------- */
  /* Windows                                                          */
  /* ---------------------------------------------------------------- */

  datatype Window = Window(cury: int, curx: int, maxy: int, maxx: int, begy: int, begx: int,
                           attrs: Chtype, clear: bool, leave: bool, scroll: bool)

  /** The cursor lies inside the window's own size. */
  predicate CursorIn(w: Window)
  {
    0 <= w.cury < w.maxy && 0 <= w.curx < w.maxx
  }

  /** A window no larger than the screen, as `stdscr` is. */
  predicate FitsScreen(w: Window)
  {
    w.maxy <= LINES && w.maxx <= COLS
  }

  /** `stdscr` (and `curscr`) as `initscr` sets them up. */
  const FULL: Window := Window(0, 0, LINES, COLS, 0, 0, A_NORMAL, false, false, false)

  /** What `newwin` returns; `granted` is whether `malloc` found room for the record. */
  function NewWin(nlines: int, ncols: int, beginY: int, beginX: int, granted: bool): (r: Option<Window>)
    ensures r.Some? <==> granted
    ensures r.Some? ==> (r.value.cury == 0 && r.value.curx == 0 && r.value.attrs == A_NORMAL
      && r.value.maxy == nlines && r.value.maxx == ncols && !r.value.clear)
  {
    if !granted then None
    else Some(Window(0, 0, nlines, ncols, beginY, beginX, A_NORMAL, false, false, false))
  }

  /** A window pointer: NULL, one of the two static windows, or one from `newwin`. */
  datatype Handle = NullWin | Stdscr | Curscr | Heap(id: nat)

  /** `delwin` frees only windows that `newwin` made. */
  function DelWin(h: Handle): (ret: int)
    ensures ret == 0 <==> h.Heap?
    ensures ret == 0 || ret == -1
  {
    match h
    case Heap(_) => 0
    case _ => -1
  }

  /** The outcome of a call that may move the cursor or change attributes. */
  datatype Moved = Moved(win: Option<Window>, ret: int)

  function WMove(w: Option<Window>, y: int, x: int): (r: Moved)
    ensures r.ret == 0 || r.ret == -1
    ensures r.ret == 0 ==> (r.win.Some? && w.Some? && CursorIn(r.win.value)
      && r.win.value == w.value.(cury := y, curx := x))
    ensures r.ret == -1 ==> r.win == w
    ensures r.ret == 0 <==> w.Some? && 0 <= y < w.value.maxy && 0 <= x < w.value.maxx
  {
    if w.None? || y < 0 || y >= w.value.maxy || x < 0 || x >= w.value.maxx then Moved(w, -1)
    else Moved(Some(w.value.(cury := y, curx := x)), 0)
  }

  /** One line down, unless the cursor is already on the window's last line. */
  function NextLine(w: Window): (r: Window)
    ensures r == w || r == w.(cury := w.cury + 1)
    ensures r.cury <= w.maxy - 1 || r.cury == w.cury
  {
    if w.cury < w.maxy - 1 then w.(cury := w.cury + 1) else w
  }

  /** `(x + 8) & ~7` for a non-negative column. */
  function NextTab(x: int): (t: int)
    requires 0 <= x
    ensures x < t <= x + 8 && t % 8 == 0
  {
    (x + 8) - (x + 8) % 8
  }

  /** The cursor after writing at column `x`: one to the right, wrapping at the window's width. */
  function Advance(w: Window, x: int): (r: Window)
  {
    if x >= w.maxx then NextLine(w.(curx := 0)) else w.(curx := x)
  }

  /* ---------------------------------------------------------------- */
  /* Writing characters                                               */
  /* ---------------------------------------------------------------- */

  /** The outcome of a call that may change the screen and one window. */
  datatype Done = Done(screen: Screen, win: Option<Window>, ret: int)

  /** A character that `waddch` stores rather than interprets. */
  predicate Stored(c: CChar)
  {
    c != NEWLINE && c != RETURN && c != TAB
  }

  /**
    `waddch`: the bounds test is against the screen, the wrapping against
    the window.  Line feed, carriage return and tab only move the cursor;
    any other character is stored with its own attributes and the
    window's, and marked dirty.
  */
  function WAddch(s: Screen, w: Option<Window>, ch: Chtype): (r: Done)
    requires IsScreen(s)
    ensures IsScreen(r.screen) && r.win.Some? == w.Some?
    ensures r.ret == 0 || r.ret == -1
    ensures r.ret == -1 <==> w.None? || !OnScreen(w.value.cury, w.value.curx)
    ensures r.ret == -1 ==> r.screen == s && r.win == w
  {
    if w.None? || !OnScreen(w.value.cury, w.value.curx) then Done(s, w, -1)
    else
      var win := w.value;
      var c := Low(ch);
      if Stored(c) then
        Done(Put(s, win.cury, win.curx, Stamp(win, ch)), Some(Advance(win, win.curx + 1)), 0)
      else Done(s, Some(Control(win, c)), 0)
  }

  /** The cursor movement of a line feed, a carriage return or a tab. */
  function Control(w: Window, c: CChar): (r: Window)
    requires !Stored(c) && 0 <= w.curx
    ensures r.attrs == w.attrs && r.maxy == w.maxy && r.maxx == w.maxx
  {
    if c == NEWLINE then NextLine(w.(curx := 0))
    else if c == RETURN then w.(curx := 0)
    else Advance(w, NextTab(w.curx))
  }

  /** The cell `waddch` stores for `ch` in window `w`: the character byte, both sets of attributes, dirty. */
  function Stamp(w: Window, ch: Chtype): Cell
  {
    Cell(Low(ch), Or(And(ch, A_ATTRIBUTES), w.attrs), true)
  }

  /** A stored character lands at the cursor; no other cell changes, and the cursor advances. */
  lemma WAddchStores(s: Screen, w: Window, ch: Chtype)
    requires IsScreen(s) && OnScreen(w.cury, w.curx) && Stored(Low(ch))
    ensures var r := WAddch(s, Some(w), ch);
      r.ret == 0 && r.win == Some(Advance(w, w.curx + 1)) && r.screen == Put(s, w.cury, w.curx, Stamp(w, ch))
  {
  }

  /** Line feed, carriage return and tab leave every cell as it was. */
  lemma WAddchControls(s: Screen, w: Window, ch: Chtype)
    requires IsScreen(s) && OnScreen(w.cury, w.curx) && !Stored(Low(ch))
    ensures var r := WAddch(s, Some(w), ch);
      r.ret == 0 && r.screen == s && r.win == Some(Control(w, Low(ch)))
  {
  }

  /** A cursor inside its window stays inside it, whatever is written. */
  lemma WAddchKeepsCursor(s: Screen, w: Window, ch: Chtype)
    requires IsScreen(s) && CursorIn(w)
    ensures var r := WAddch(s, Some(w), ch);
      r.win.Some? && CursorIn(r.win.value)
  {
    if !OnScreen(w.cury, w.curx) {
    } else if Stored(Low(ch)) {
      WAddchStores(s, w, ch);
      AdvanceInside(w, w.curx + 1);
    } else {
      WAddchControls(s, w, ch);
      AdvanceInside(w, NextTab(w.curx));
    }
  }

  /** Advancing to any column to the right keeps a cursor inside its window. */
  lemma AdvanceInside(w: Window, x: int)
    requires CursorIn(w) && 0 <= x
    ensures CursorIn(Advance(w, x))
  {
  }

  /** On a window no larger than the screen with its cursor inside, `waddch` never fails. */
  lemma WAddchOnScreen(s: Screen, w: Window, ch: Chtype)
    requires IsScreen(s) && CursorIn(w) && FitsScreen(w)
    ensures WAddch(s, Some(w), ch).ret == 0
  {
  }

  /** Where the cursor goes after a stored character, a line feed, a return or a tab. */
  lemma WAddchMoves(s: Screen, w: Window, ch: Chtype)
    requires IsScreen(s) && CursorIn(w) && FitsScreen(w)
    ensures var r := WAddch(s, Some(w), ch).win.value;
      var c := Low(ch);
      (c == NEWLINE ==> r.curx == 0 && r.cury == (if w.cury < w.maxy - 1 then w.cury + 1 else w.cury))
      && (c == RETURN ==> r.curx == 0 && r.cury == w.cury)
      && (c == TAB ==> (NextTab(w.curx) < w.maxx ==> r.curx == NextTab(w.curx) && r.cury == w.cury))
      && (Stored(c) && w.curx + 1 < w.maxx ==> r.curx == w.curx + 1 && r.cury == w.cury)
      && (Stored(c) && w.curx + 1 == w.maxx ==> (r.curx == 0
        && r.cury == (if w.cury < w.maxy - 1 then w.cury + 1 else w.cury)))
  {
  }

  /** `mvwaddch`: a move, then a character; a failed move writes nothing. */
  function MvwAddch(s: Screen, w: Option<Window>, y: int, x: int, ch: Chtype): (r: Done)
    requires IsScreen(s)
    ensures IsScreen(r.screen)
    ensures WMove(w, y, x).ret == -1 ==> r == Done(s, w, -1)
  {
    var m := WMove(w, y, x);
    if m.ret == -1 then Done(s, w, -1) else WAddch(s, m.win, ch)
  }

  /** `mvwinch`: the character and attributes of a cell, or a space off the screen. */
  function MvwInch(s: Screen, w: Option<Window>, y: int, x: int): (ch: Chtype)
    requires IsScreen(s)
    ensures w.None? || !OnScreen(y, x) ==> ch == Widen(SPACE)
  {
    if w.None? || !OnScreen(y, x) then Widen(SPACE)
    else Or(Widen(s[y][x].ch), s[y][x].attrs)
  }

  /** The characters of a C string held in a buffer: those before the first NUL. */
  function CharsOf(str: seq<CChar>): (t: seq<CChar>)
    ensures |t| <= |str| && t == str[..|t|] && 0 !in t
    ensures |t| < |str| ==> str[|t|] == 0
  {
    if |str| == 0 || str[0] == 0 then [] else [str[0]] + CharsOf(str[1..])
  }

  /** `waddstr`: each character through `waddch`, stopping at the first failure. */
  function WAddStr(s: Screen, w: Option<Window>, str: Option<seq<CChar>>): (r: Done)
    requires IsScreen(s)
    ensures IsScreen(r.screen)
    ensures r.ret == 0 || r.ret == -1
    ensures w.None? || str.None? ==> r == Done(s, w, -1)
  {
    if w.None? || str.None? then Done(s, w, -1) else AddAll(s, w, CharsOf(str.value))
  }

  function AddAll(s: Screen, w: Option<Window>, cs: seq<CChar>): (r: Done)
    requires IsScreen(s)
    ensures IsScreen(r.screen)
    ensures r.ret == 0 || r.ret == -1
    ensures r.win.Some? == w.Some?
    decreases |cs|
  {
    if |cs| == 0 then Done(s, w, 0)
    else
      var d := WAddch(s, w, Widen(cs[0]));
      if d.ret == -1 then Done(d.screen, d.win, -1) else AddAll(d.screen, d.win, cs[1..])
  }

  /**
    Printable text that fits before the window's right edge lands in the
    cells after the cursor, with the window's attributes, and the cursor
    ends just after it; no other cell changes.
  */
  lemma {:induction false} AddAllRow(s: Screen, w: Window, cs: seq<CChar>)
    requires IsScreen(s) && CursorIn(w) && FitsScreen(w)
    requires w.curx + |cs| < w.maxx
    requires forall k | 0 <= k < |cs| :: Stored(cs[k])
    ensures var r := AddAll(s, Some(w), cs);
      (forall a | w.curx <= a < w.curx + |cs| :: r.screen[w.cury][a] == Cell(cs[a - w.curx], w.attrs, true))
      && (forall y, x | OnScreen(y, x) && !(y == w.cury && w.curx <= x < w.curx + |cs|) :: r.screen[y][x] == s[y][x])
    decreases |cs|
  {
    if |cs| > 0 {
      var s1 := Put(s, w.cury, w.curx, Cell(cs[0], w.attrs, true));
      var w1 := w.(curx := w.curx + 1);
      AddAllStored(s, w, cs);
      AddAllRow(s1, w1, cs[1..]);
      var r := AddAll(s, Some(w), cs);
      forall a | w.curx <= a < w.curx + |cs|
        ensures r.screen[w.cury][a] == Cell(cs[a - w.curx], w.attrs, true)
      {
        if a > w.curx {
          assert cs[1..][a - w1.curx] == cs[a - w.curx];
        }
      }
    }
  }

  /** Printable text that fits before the window's right edge moves the cursor just past it and succeeds. */
  lemma {:induction false} AddAllRowCursor(s: Screen, w: Window, cs: seq<CChar>)
    requires IsScreen(s) && CursorIn(w) && FitsScreen(w)
    requires w.curx + |cs| < w.maxx
    requires forall k | 0 <= k < |cs| :: Stored(cs[k])
    ensures var r := AddAll(s, Some(w), cs);
      r.ret == 0 && r.win == Some(w.(curx := w.curx + |cs|))
    decreases |cs|
  {
    if |cs| > 0 {
      AddAllStored(s, w, cs);
      AddAllRowCursor(Put(s, w.cury, w.curx, Cell(cs[0], w.attrs, true)), w.(curx := w.curx + 1), cs[1..]);
    }
  }

  /** A stored first character short of the right edge is written at the cursor, and the rest follows from the next column. */
  lemma AddAllStored(s: Screen, w: Window, cs: seq<CChar>)
    requires IsScreen(s) && OnScreen(w.cury, w.curx) && w.curx + 1 < w.maxx && |cs| > 0 && Stored(cs[0])
    ensures AddAll(s, Some(w), cs)
      == AddAll(Put(s, w.cury, w.curx, Cell(cs[0], w.attrs, true)), Some(w.(curx := w.curx + 1)), cs[1..])
  {
    PlainStamp(w, cs[0]);
    WAddchStores(s, w, Widen(cs[0]));
  }

  /** `waddstr` of printable text that fits on the cursor's line. */
  lemma WAddStrRow(s: Screen, w: Window, cs: seq<CChar>)
    requires IsScreen(s) && CursorIn(w) && FitsScreen(w)
    requires w.curx + |cs| < w.maxx && 0 !in cs
    requires forall k | 0 <= k < |cs| :: Stored(cs[k])
    ensures var r := WAddStr(s, Some(w), Some(cs + [0]));
      r.ret == 0 && r.win == Some(w.(curx := w.curx + |cs|))
      && forall a | w.curx <= a < w.curx + |cs| :: MvwInch(r.screen, r.win, w.cury, a) == Or(cs[a - w.curx], w.attrs)
  {
    CharsOfText(cs);
    AddAllRowCursor(s, w, cs);
    AddAllRow(s, w, cs);
  }

  lemma {:induction false} CharsOfText(cs: seq<CChar>)
    requires 0 !in cs
    ensures CharsOf(cs + [0]) == cs
    decreases |cs|
  {
    if |cs| > 0 {
      assert (cs + [0])[1..] == cs[1..] + [0];
      CharsOfText(cs[1..]);
    } else {
      assert (cs + [0])[0] == 0;
    }
  }

  /* ---------------------------------------------------------------- */
  /* Attributes                                                       */
  /* ---------------------------------------------------------------- */

  /** `wstandout` with the standout mask of `m`: `HEADER` for the program as written, `FIXED` corrected. */
  function WStandout(m: Masks, w: Option<Window>): (r: Moved)
    ensures w.None? <==> r.ret == -1
    ensures r.win.Some? == w.Some?
    ensures r.win.Some? ==> w.Some? && r.win.value == AttrOn(w.value, m.standout)
  {
    if w.None? then Moved(w, -1) else Moved(Some(AttrOn(w.value, m.standout)), 0)
  }

  /** `wstandend` with the standout mask of `m`. */
  function WStandend(m: Masks, w: Option<Window>): (r: Moved)
    ensures w.None? <==> r.ret == -1
    ensures r.win.Some? == w.Some?
    ensures r.win.Some? ==> w.Some? && r.win.value == AttrOff(w.value, m.standout)
  {
    if w.None? then Moved(w, -1) else Moved(Some(AttrOff(w.value, m.standout)), 0)
  }

  /** After `wstandout` the window's attributes hold the standout mask, and the other bits are kept. */
  lemma StandoutSets(m: Masks, w: Window)
    ensures And(WStandout(m, Some(w)).win.value.attrs, m.standout) == m.standout
    ensures forall i | 0 <= i < 64 && !Bit(m.standout, i) :: Bit(WStandout(m, Some(w)).win.value.attrs, i) == Bit(w.attrs, i)
  {
    var a := Or(w.attrs, m.standout);
    forall i | 0 <= i < 64
      ensures Bit(And(a, m.standout), i) == Bit(m.standout, i)
      ensures Bit(a, i) == (Bit(w.attrs, i) || Bit(m.standout, i))
    {
      AndBit(a, m.standout, i);
      OrBit(w.attrs, m.standout, i);
    }
    SameBits(And(a, m.standout), m.standout);
  }

  /** After `wstandend` no standout bit is left, and the other bits are kept. */
  lemma StandendClears(m: Masks, w: Window)
    ensures And(WStandend(m, Some(w)).win.value.attrs, m.standout) == A_NORMAL
    ensures forall i | 0 <= i < 64 && !Bit(m.standout, i) :: Bit(WStandend(m, Some(w)).win.value.attrs, i) == Bit(w.attrs, i)
  {
    var a := And(w.attrs, Not(m.standout));
    forall i | 0 <= i < 64
      ensures Bit(And(a, m.standout), i) == Bit(0, i)
      ensures Bit(a, i) == (Bit(w.attrs, i) && !Bit(m.standout, i))
    {
      AndBit(a, m.standout, i);
      AndBit(w.attrs, Not(m.standout), i);
      NotBit(m.standout, i);
      ZeroBit(i);
    }
    SameBits(And(a, m.standout), 0);
  }

  /** `attron` on `stdscr`: the given bits are set, no others change. */
  function AttrOn(w: Window, a: Chtype): Window
  {
    w.(attrs := Or(w.attrs, a))
  }

  /** `attroff` on `stdscr`: the given bits are cleared, no others change. */
  function AttrOff(w: Window, a: Chtype): Window
  {
    w.(attrs := And(w.attrs, Not(a)))
  }

  /** `attrset` on `stdscr`. */
  function AttrSet(w: Window, a: Chtype): Window
  {
    w.(attrs := a)
  }

  /** `attrset` forgets whatever was on before. */
  lemma AttrSetForgets(w: Window, a: Chtype, b: Chtype)
    ensures AttrSet(AttrOn(w, b), a) == AttrSet(w, a) == AttrSet(AttrOff(w, b), a)
    ensures AttrSet(w, a).attrs == a
  {
  }

  /** `attron` sets exactly the given bits and leaves the others as they were. */
  lemma AttrOnSets(w: Window, a: Chtype)
    ensures var x := AttrOn(w, a).attrs;
      And(x, a) == a && And(x, Not(a)) == And(w.attrs, Not(a))
  {
    OrSets(w.attrs, a);
    OrKeeps(w.attrs, a);
  }

  /** `attroff` clears exactly the given bits and leaves the others as they were. */
  lemma AttrOffClears(w: Window, a: Chtype)
    ensures var x := AttrOff(w, a).attrs;
      And(x, a) == 0 && And(x, Not(a)) == And(w.attrs, Not(a))
  {
    AndNotClears(w.attrs, a);
    AndNotKeeps(w.attrs, a);
  }

  /** `(x | a) & a == a` */
  lemma OrSets(x: Chtype, a: Chtype)
    ensures And(Or(x, a), a) == a
  {
    forall i | 0 <= i < 64
      ensures Bit(And(Or(x, a), a), i) == Bit(a, i)
    {
      AndBit(Or(x, a), a, i);
      OrBit(x, a, i);
    }
    SameBits(And(Or(x, a), a), a);
  }

  /** `(x | a) & ~a == x & ~a` */
  lemma OrKeeps(x: Chtype, a: Chtype)
    ensures And(Or(x, a), Not(a)) == And(x, Not(a))
  {
    forall i | 0 <= i < 64
      ensures Bit(And(Or(x, a), Not(a)), i) == Bit(And(x, Not(a)), i)
    {
      AndBit(Or(x, a), Not(a), i);
      AndBit(x, Not(a), i);
      OrBit(x, a, i);
      NotBit(a, i);
    }
    SameBits(And(Or(x, a), Not(a)), And(x, Not(a)));
  }

  /** `(x & ~a) & a == 0` */
  lemma AndNotClears(x: Chtype, a: Chtype)
    ensures And(And(x, Not(a)), a) == 0
  {
    forall i | 0 <= i < 64
      ensures Bit(And(And(x, Not(a)), a), i) == Bit(0, i)
    {
      AndBit(And(x, Not(a)), a, i);
      AndBit(x, Not(a), i);
      NotBit(a, i);
      ZeroBit(i);
    }
    SameBits(And(And(x, Not(a)), a), 0);
  }

  /** `(x & ~a) & ~a == x & ~a` */
  lemma AndNotKeeps(x: Chtype, a: Chtype)
    ensures And(And(x, Not(a)), Not(a)) == And(x, Not(a))
  {
    forall i | 0 <= i < 64
      ensures Bit(And(And(x, Not(a)), Not(a)), i) == Bit(And(x, Not(a)), i)
    {
      AndBit(And(x, Not(a)), Not(a), i);
      AndBit(x, Not(a), i);
    }
    SameBits(And(And(x, Not(a)), Not(a)), And(x, Not(a)));
  }

  /** `x & ~a == x` when `x` and `a` share no bit. */
  lemma NoneToClear(x: Chtype, a: Chtype)
    requires And(x, a) == 0
    ensures And(x, Not(a)) == x
  {
    forall i | 0 <= i < 64
      ensures Bit(And(x, Not(a)), i) == Bit(x, i)
    {
      AndBit(x, Not(a), i);
      AndBit(x, a, i);
      NotBit(a, i);
      ZeroBit(i);
    }
    SameBits(And(x, Not(a)), x);
  }

  /** Turning attributes on and then off again leaves exactly the bits that were on and not among them. */
  lemma AttrOnOff(w: Window, a: Chtype)
    ensures AttrOff(AttrOn(w, a), a) == w.(attrs := And(w.attrs, Not(a)))
    ensures And(w.attrs, a) == 0 ==> AttrOff(AttrOn(w, a), a) == w
  {
    OrKeeps(w.attrs, a);
    if And(w.attrs, a) == 0 {
      NoneToClear(w.attrs, a);
    }
  }

  /* ---------------------------------------------------------------- */
  /* The attribute layout                                             */
  /* ---------------------------------------------------------------- */

  /** The header's masks all fall inside the character byte; the fixed ones all fall outside it. */
  lemma MaskLayouts()
    ensures !AttrsOnly(HEADER.standout) && !AttrsOnly(HEADER.underline) && !AttrsOnly(HEADER.reverse)
      && !AttrsOnly(HEADER.blink) && !AttrsOnly(HEADER.bold)
    ensures Disjoint(FIXED)
  {
  }

  /** `x | 0 == x` and `0 | x == x` */
  lemma OrZero(x: Chtype)
    ensures Or(x, 0) == x && Or(0, x) == x
  {
    forall i | 0 <= i < 64
      ensures Bit(Or(x, 0), i) == Bit(x, i) && Bit(Or(0, x), i) == Bit(x, i)
    {
      OrBit(x, 0, i);
      OrBit(0, x, i);
      ZeroBit(i);
    }
    SameBits(Or(x, 0), x);
    SameBits(Or(0, x), x);
  }

  /** `0x61 | 0x10 == 0x71`: bit 4, the header's bold, turns an 'a' into a 'q'. */
  lemma BoldA()
    ensures Or(0x61, HEADER.bold) == 0x71
  {
    BoldALowBits();
    forall j | 0 <= j < 7
      ensures Bit(0x71, j) == (Bit(0x61, j) || Bit(0x10, j))
    {
      assert j == 0 || j == 1 || j == 2 || j == 3 || j == 4 || j == 5 || j == 6;
    }
    SevenBitOr(0x61, 0x10, 0x71);
  }

  /** The `|` of values below 128 is settled by their seven low bits. */
  lemma SevenBitOr(x: Chtype, y: Chtype, z: Chtype)
    requires x < 0x80 && y < 0x80 && z < 0x80
    requires forall j | 0 <= j < 7 :: Bit(z, j) == (Bit(x, j) || Bit(y, j))
    ensures Or(x, y) == z
  {
    forall i | 0 <= i < 64
      ensures Bit(Or(x, y), i) == Bit(z, i)
    {
      OrBit(x, y, i);
      if i >= 7 {
        assert Int32.Pow2(7) == 0x80;
        Int32.HighBitsClear(x, 7, i);
        Int32.HighBitsClear(y, 7, i);
        Int32.HighBitsClear(z, 7, i);
      }
    }
    SameBits(Or(x, y), z);
  }

  /** The seven low bits of 'a' (0x61), of 0x10 and of 'q' (0x71), one by one. */
  lemma BoldALowBits()
    ensures Bit(0x71, 0) == (Bit(0x61, 0) || Bit(0x10, 0))
    ensures Bit(0x71, 1) == (Bit(0x61, 1) || Bit(0x10, 1))
    ensures Bit(0x71, 2) == (Bit(0x61, 2) || Bit(0x10, 2))
    ensures Bit(0x71, 3) == (Bit(0x61, 3) || Bit(0x10, 3))
    ensures Bit(0x71, 4) == (Bit(0x61, 4) || Bit(0x10, 4))
    ensures Bit(0x71, 5) == (Bit(0x61, 5) || Bit(0x10, 5))
    ensures Bit(0x71, 6) == (Bit(0x61, 6) || Bit(0x10, 6))
  {
  }

  /** A plain character is stored as itself, with the window's attributes. */
  lemma PlainStamp(w: Window, c: CChar)
    ensures Stamp(w, Widen(c)) == Cell(c, w.attrs, true)
  {
    OrZero(c);
    SplitAttrs(c, 0);
    OrZero(w.attrs);
  }

  /**
    With the header's masks, a bold 'a' written by `waddch` is stored as a
    plain 'q' (0x61 | 0x10 == 0x71), and with bold turned on in the window
    `mvwinch` reads back 'q' for an 'a'.
  */
  lemma AttributeClobbersChar(s: Screen)
    requires IsScreen(s)
    ensures var r := WAddch(s, Some(FULL), Or(0x61, HEADER.bold));
      r.screen[0][0] == Cell(0x71, A_NORMAL, true)
    ensures var w := AttrOn(FULL, HEADER.bold);
      var r := WAddch(s, Some(w), 0x61);
      Low(MvwInch(r.screen, r.win, 0, 0)) == 0x71
  {
    BoldA();
    PlainStamp(FULL, 0x71);
    WAddchStores(s, FULL, 0x71);
    OrZero(HEADER.bold);
    var w := AttrOn(FULL, HEADER.bold);
    PlainStamp(w, 0x61);
    WAddchStores(s, w, 0x61);
  }

  /**
    With attribute bits kept out of the character byte, `mvwinch` reads
    back exactly the character and attributes that `waddch` wrote, plus the
    window's, and the two separate again.
  */
  lemma InchRecoversChar(s: Screen, w: Window, c: CChar, a: Chtype)
    requires IsScreen(s) && OnScreen(w.cury, w.curx)
    requires AttrsOnly(a) && AttrsOnly(w.attrs) && Stored(c)
    ensures var r := WAddch(s, Some(w), Or(c, a));
      var got := MvwInch(r.screen, r.win, w.cury, w.curx);
      got == Or(c, Or(a, w.attrs)) && Low(got) == c && And(got, A_ATTRIBUTES) == Or(a, w.attrs)
  {
    StoresSplit(s, w, c, a);
    OrAttrs(a, w.attrs);
    SplitChar(c, Or(a, w.attrs));
    SplitAttrs(c, Or(a, w.attrs));
  }

  /** `waddch` of a character joined with attributes stores the two apart. */
  lemma StoresSplit(s: Screen, w: Window, c: CChar, a: Chtype)
    requires IsScreen(s) && OnScreen(w.cury, w.curx)
    requires AttrsOnly(a) && Stored(c)
    ensures var r := WAddch(s, Some(w), Or(c, a));
      r.win.Some? && r.screen[w.cury][w.curx] == Cell(c, Or(a, w.attrs), true)
  {
    SplitChar(c, a);
    SplitAttrs(c, a);
    WAddchStores(s, w, Or(c, a));
  }

  /** Attributes outside the character byte stay outside when joined. */
  lemma OrAttrs(a: Chtype, b: Chtype)
    requires AttrsOnly(a) && AttrsOnly(b)
    ensures AttrsOnly(Or(a, b))
  {
    forall i | 0 <= i < 64
      ensures Bit(And(Or(a, b), A_CHARTEXT), i) == Bit(0, i)
    {
      AndBit(Or(a, b), A_CHARTEXT, i);
      OrBit(a, b, i);
      CharTextBit(i);
      ZeroBit(i);
      if i < 8 {
        AttrBit(a, i);
        AttrBit(b, i);
      }
    }
    SameBits(And(Or(a, b), A_CHARTEXT), 0);
    LowIsMask(Or(a, b));
  }

  /* ---------------------------------------------------------------- */
  /* Clearing                                                         */
  /* ---------------------------------------------------------------- */

  /** `wclear` (and `werase`): every cell blank and dirty, the cursor home, the clear flag set. */
  function WClear(s: Screen, w: Option<Window>): (r: Done)
    requires IsScreen(s)
    ensures IsScreen(r.screen)
    ensures r.ret == -1 <==> w.None?
    ensures w.None? ==> r == Done(s, w, -1)
  {
    if w.None? then Done(s, w, -1)
    else Done(Blank(), Some(w.value.(cury := 0, curx := 0, clear := true)), 0)
  }

  /** After `wclear` every position reads back as a plain space and the cursor is home. */
  lemma WClearBlanks(s: Screen, w: Window)
    requires IsScreen(s)
    ensures var r := WClear(s, Some(w));
      r.win.Some? && r.win.value.cury == 0 && r.win.value.curx == 0
      && forall y, x | OnScreen(y, x) :: MvwInch(r.screen, r.win, y, x) == Widen(SPACE) && r.screen[y][x].dirty
  {
    OrZero(Widen(SPACE));
  }

  /** Row `y` from column `x` on made blank. */
  function ClearRow(s: Screen, y: int, x: int): (r: Screen)
    requires IsScreen(s) && 0 <= y < LINES && 0 <= x
  {
    s[y := seq(COLS, u requires 0 <= u < COLS => if u >= x then BLANK else s[y][u])]
  }

  /**
    `wclrtoeol` as written: it blanks the cursor's row from the cursor on,
    with no test that the row lies on the screen.  `None` is a write
    outside the screen array.
  */
  function WClrToEolAsWritten(s: Screen, w: Option<Window>): (r: Option<Done>)
    requires IsScreen(s)
  {
    if w.None? then Some(Done(s, w, -1))
    else
      var y, x := w.value.cury, w.value.curx;
      if x >= COLS then Some(Done(s, w, 0))
      else if !OnScreen(y, x) then None
      else Some(Done(ClearRow(s, y, x), w, 0))
  }

  /** `wclrtoeol` with the screen test `waddch` makes: a cursor off the screen writes nothing. */
  function WClrToEol(s: Screen, w: Option<Window>): (r: Done)
    requires IsScreen(s)
    ensures IsScreen(r.screen) && r.win == w
    ensures r.ret == 0 || r.ret == -1
    ensures r.ret == -1 ==> r.screen == s
  {
    if w.None? then Done(s, w, -1)
    else
      var y, x := w.value.cury, w.value.curx;
      if x >= COLS then Done(s, w, 0)
      else if !OnScreen(y, x) then Done(s, w, -1)
      else Done(ClearRow(s, y, x), w, 0)
  }

  /** What `wclrtoeol` clears: the rest of the cursor's row and nothing else. */
  lemma WClrToEolClears(s: Screen, w: Window)
    requires IsScreen(s) && OnScreen(w.cury, w.curx)
    ensures var r := WClrToEol(s, Some(w));
      r.ret == 0 && r.win == Some(w)
      && (forall x | w.curx <= x < COLS :: r.screen[w.cury][x] == BLANK)
      && (forall y, x | OnScreen(y, x) && !(y == w.cury && x >= w.curx) :: r.screen[y][x] == s[y][x])
  {
  }

  /** Wherever the code as written stays inside the screen array, the corrected call does the same. */
  lemma WClrToEolAgrees(s: Screen, w: Option<Window>)
    requires IsScreen(s)
    ensures WClrToEolAsWritten(s, w).Some? ==> WClrToEolAsWritten(s, w).value == WClrToEol(s, w)
    ensures WClrToEolAsWritten(s, w).None? <==> WClrToEol(s, w).ret == -1 && w.Some?
  {
  }

  /**
    A 30-line window from `newwin`, moved to line 25, makes `wclrtoeol`
    write past the 24 lines of the screen array.
  */
  lemma TallWindowOverruns(s: Screen)
    requires IsScreen(s)
    ensures var m := WMove(NewWin(30, COLS, 0, 0, true), 25, 0);
      m.ret == 0 && WClrToEolAsWritten(s, m.win).None? && WClrToEol(s, m.win) == Done(s, m.win, -1)
  {
  }

  /** `clearok`: sets the window's clear flag; turning it on marks every cell dirty. */
  function ClearOk(s: Screen, w: Option<Window>, bf: bool): (r: Done)
    requires IsScreen(s)
    ensures IsScreen(r.screen) && SameText(s, r.screen)
    ensures r.ret == -1 <==> w.None?
    ensures r.win.Some? ==> w.Some? && r.win.value == w.value.(clear := bf)
    ensures bf && r.ret == 0 ==> forall y, x | OnScreen(y, x) :: r.screen[y][x].dirty
    ensures !bf || r.ret == -1 ==> r.screen == s
  {
    if w.None? then Done(s, w, -1)
    else Done(if bf then Marked(s) else s, Some(w.value.(clear := bf)), 0)
  }

  function Marked(s: Screen): (r: Screen)
    requires IsScreen(s)
    ensures IsScreen(r)
    ensures forall y, x | OnScreen(y, x) :: r[y][x] == s[y][x].(dirty := true)
  {
    seq(LINES, y requires 0 <= y < LINES => seq(COLS, x requires 0 <= x < COLS => s[y][x].(dirty := true)))
  }

  /* ---------------------------------------------------------------- */
  /* Refreshing                                                       */
  /* ---------------------------------------------------------------- */

  const ESC: string := [27 as char]
  const CLEAR_SCREEN: string := ESC + "[2J" + ESC + "[H"
  const CURSOR_HIDE: string := ESC + "[?25l"
  const CURSOR_SHOW: string := ESC + "[?25h"
  const ATTR_NORMAL: string := ESC + "[0m"
  const ATTR_BOLD: string := ESC + "[1m"
  const ATTR_REVERSE: string := ESC + "[7m"

  /** The escape that puts the terminal cursor on line `y`, column `x` (both counted from 1 on the wire). */
  function MoveCursor(y: int, x: int): (out: string)
    ensures |out| >= 6 && out[..2] == ESC + "[" && out[|out| - 1] == 'H'
  {
    ESC + "[" + Numerals.Decimal(y + 1) + ";" + Numerals.Decimal(x + 1) + "H"
  }

  /**
    `_set_attrs` with the masks `m`: standout and reverse show as reverse
    video, bold as bold, and anything else as normal text.  The refresh
    below uses the header's masks, as the program does.
  */
  function SetAttrs(m: Masks, a: Chtype): (out: string)
    ensures out in {ATTR_REVERSE, ATTR_BOLD, ATTR_NORMAL}
  {
    if And(a, m.standout) != 0 || And(a, m.reverse) != 0 then ATTR_REVERSE
    else if And(a, m.bold) != 0 then ATTR_BOLD
    else ATTR_NORMAL
  }

  /** Which escape `SetAttrs` picks: reverse wins over bold, and plain text gets the reset. */
  lemma SetAttrsPicks(m: Masks, a: Chtype)
    ensures SetAttrs(m, a) == ATTR_REVERSE <==> And(a, m.standout) != 0 || And(a, m.reverse) != 0
    ensures SetAttrs(m, a) == ATTR_BOLD <==> And(a, m.standout) == 0 && And(a, m.reverse) == 0 && And(a, m.bold) != 0
    ensures a == A_NORMAL ==> SetAttrs(m, a) == ATTR_NORMAL
  {
    assert ATTR_REVERSE[2] == '7' && ATTR_BOLD[2] == '1' && ATTR_NORMAL[2] == '0';
    if a == A_NORMAL {
      ZeroAnd(m.standout);
      ZeroAnd(m.reverse);
      ZeroAnd(m.bold);
    }
  }

  /**
    The header's masks and the corrected ones agree on what is shown: no
    attributes give the reset, and a window in standout shows reverse video
    under either, whatever else it has set.
  */
  lemma MasksAgree(w: Window)
    ensures SetAttrs(HEADER, A_NORMAL) == SetAttrs(FIXED, A_NORMAL) == ATTR_NORMAL
    ensures SetAttrs(HEADER, WStandout(HEADER, Some(w)).win.value.attrs) == ATTR_REVERSE
    ensures SetAttrs(FIXED, WStandout(FIXED, Some(w)).win.value.attrs) == ATTR_REVERSE
  {
    SetAttrsPicks(HEADER, A_NORMAL);
    SetAttrsPicks(FIXED, A_NORMAL);
    StandoutSets(HEADER, w);
    StandoutSets(FIXED, w);
  }

  const CELLS: nat := 1920

  /** The cell at row-major index `i`. */
  function At(s: Screen, i: nat): Cell
    requires IsScreen(s) && i < CELLS
  {
    s[i / COLS][i % COLS]
  }

  ghost predicate CleanFrom(s: Screen, i: nat)
    requires IsScreen(s)
  {
    forall j | i <= j < CELLS :: !At(s, j).dirty
  }

  /** The painting loop of `wrefresh` from index `i`, with the attributes last sent; gives the bytes and the attributes in force at the end. */
  function Paint(s: Screen, i: nat, last: Chtype): (r: (string, Chtype))
    requires IsScreen(s) && i <= CELLS
    decreases CELLS - i
  {
    if i == CELLS then ("", last)
    else
      var c := At(s, i);
      if !c.dirty then Paint(s, i + 1, last)
      else
        var mode := if c.attrs != last then SetAttrs(HEADER, c.attrs) else "";
        var rest := Paint(s, i + 1, c.attrs);
        (MoveCursor(i / COLS, i % COLS) + mode + [Out(c.ch)] + rest.0, rest.1)
  }

  /** Every cell with its dirty flag cleared. */
  function Cleaned(s: Screen): (r: Screen)
    requires IsScreen(s)
    ensures IsScreen(r) && SameText(s, r) && CleanFrom(r, 0)
    ensures forall y, x | OnScreen(y, x) :: r[y][x] == s[y][x].(dirty := false)
  {
    seq(LINES, y requires 0 <= y < LINES => seq(COLS, x requires 0 <= x < COLS => s[y][x].(dirty := false)))
  }

  /** The terminal-wide state of the library. */
  datatype Term = Term(screen: Screen, initialized: bool, echo: bool, stdscr: Window, curscr: Window)

  predicate Valid(t: Term)
  {
    IsScreen(t.screen)
  }

  /** The state before any call: the static arrays and windows zeroed, echo on. */
  function Boot(): (t: Term)
    ensures Valid(t) && !t.initialized && t.echo
  {
    var zero := Window(0, 0, 0, 0, 0, 0, A_NORMAL, false, false, false);
    Term(seq(LINES, _ => seq(COLS, _ => Cell(0, A_NORMAL, false))), false, true, zero, zero)
  }

  /** The outcome of a call that may print. */
  datatype Shown = Shown(term: Term, ret: int, out: string)

  /**
    `wrefresh`: paints every dirty cell, resets the attributes if any were
    sent, puts the terminal cursor at the window's cursor, and leaves no
    cell dirty.
  */
  function WRefresh(t: Term, w: Option<Window>): (r: Shown)
    requires Valid(t)
    ensures Valid(r.term)
    ensures r.ret == -1 <==> w.None? || !t.initialized
    ensures r.ret == -1 ==> r.term == t && r.out == ""
    ensures r.ret == 0 ==> (CleanFrom(r.term.screen, 0) && SameText(t.screen, r.term.screen)
      && r.term == t.(screen := r.term.screen))
  {
    if w.None? || !t.initialized then Shown(t, -1, "")
    else
      var p := Paint(t.screen, 0, A_NORMAL);
      var reset := if p.1 != A_NORMAL then ATTR_NORMAL else "";
      Shown(t.(screen := Cleaned(t.screen)), 0, p.0 + reset + MoveCursor(w.value.cury, w.value.curx))
  }

  /** Clean cells print nothing and change no attributes. */
  lemma {:induction false} PaintClean(s: Screen, i: nat, last: Chtype)
    requires IsScreen(s) && i <= CELLS && CleanFrom(s, i)
    ensures Paint(s, i, last) == ("", last)
    decreases CELLS - i
  {
    if i < CELLS {
      PaintClean(s, i + 1, last);
    }
  }

  /** Clean cells before index `j` are skipped. */
  lemma {:induction false} PaintSkips(s: Screen, i: nat, j: nat, last: Chtype)
    requires IsScreen(s) && i <= j <= CELLS
    requires forall k | i <= k < j :: !At(s, k).dirty
    ensures Paint(s, i, last) == Paint(s, j, last)
    decreases j - i
  {
    if i < j {
      PaintSkips(s, i + 1, j, last);
    }
  }

  /** Cleaning a clean screen changes nothing. */
  lemma CleanedTwice(s: Screen)
    requires IsScreen(s)
    ensures Cleaned(Cleaned(s)) == Cleaned(s)
  {
    var c := Cleaned(s);
    forall y | 0 <= y < LINES
      ensures Cleaned(c)[y] == c[y]
    {
      assert forall x | 0 <= x < COLS :: Cleaned(c)[y][x] == c[y][x];
    }
  }

  /** A second `wrefresh` with nothing written in between only places the cursor. */
  lemma RefreshTwice(t: Term, w: Window)
    requires Valid(t) && t.initialized
    ensures var r1 := WRefresh(t, Some(w));
      var r2 := WRefresh(r1.term, Some(w));
      r2.ret == 0 && r2.term == r1.term && r2.out == MoveCursor(w.cury, w.curx)
  {
    var r1 := WRefresh(t, Some(w));
    assert r1.term.screen == Cleaned(t.screen);
    PaintClean(r1.term.screen, 0, A_NORMAL);
    CleanedTwice(t.screen);
  }

  /** The painting of a screen with a single dirty cell. */
  lemma PaintOneCell(s: Screen, i: nat)
    requires IsScreen(s) && i < CELLS
    requires forall k | 0 <= k < CELLS && k != i :: !At(s, k).dirty
    requires At(s, i).dirty
    ensures var c := At(s, i);
      Paint(s, 0, A_NORMAL)
        == (MoveCursor(i / COLS, i % COLS) + (if c.attrs == A_NORMAL then "" else SetAttrs(HEADER, c.attrs)) + [Out(c.ch)], c.attrs)
  {
    PaintSkips(s, 0, i, A_NORMAL);
    PaintLast(s, i, A_NORMAL);
  }

  /** A dirty cell with only clean cells after it: its escapes and character, and then nothing. */
  lemma PaintLast(s: Screen, i: nat, last: Chtype)
    requires IsScreen(s) && i < CELLS && At(s, i).dirty && CleanFrom(s, i + 1)
    ensures var c := At(s, i);
      Paint(s, i, last)
        == (MoveCursor(i / COLS, i % COLS) + (if c.attrs == last then "" else SetAttrs(HEADER, c.attrs)) + [Out(c.ch)], c.attrs)
  {
    var c := At(s, i);
    PaintClean(s, i + 1, c.attrs);
    var front := MoveCursor(i / COLS, i % COLS) + (if c.attrs != last then SetAttrs(HEADER, c.attrs) else "") + [Out(c.ch)];
    assert Paint(s, i, last) == (front + "", c.attrs);
    assert front + "" == front;
  }

  /**
    When a single cell is dirty, `wrefresh` sends the cursor there, the
    cell's attributes if they are not plain, the character, and then (after
    resetting non-plain attributes) the window's cursor.
  */
  lemma RefreshOneCell(t: Term, w: Window, i: nat)
    requires Valid(t) && t.initialized && i < CELLS
    requires forall k | 0 <= k < CELLS && k != i :: !At(t.screen, k).dirty
    requires At(t.screen, i).dirty
    ensures var c := At(t.screen, i);
      var plain := c.attrs == A_NORMAL;
      WRefresh(t, Some(w)).out
        == MoveCursor(i / COLS, i % COLS) + (if plain then "" else SetAttrs(HEADER, c.attrs)) + [Out(c.ch)]
           + (if plain then "" else ATTR_NORMAL) + MoveCursor(w.cury, w.curx)
  {
    PaintOneCell(t.screen, i);
  }

  /** The indices of the dirty cells from `i` on, in row-major order. */
  function DirtyFrom(s: Screen, i: nat): (d: seq<nat>)
    requires IsScreen(s) && i <= CELLS
    ensures forall k | 0 <= k < |d| :: i <= d[k] < CELLS
    decreases CELLS - i
  {
    if i == CELLS then []
    else if At(s, i).dirty then [i] + DirtyFrom(s, i + 1)
    else DirtyFrom(s, i + 1)
  }

  /** `d` lists exactly the dirty cells from `i` on, in increasing order. */
  ghost predicate ListsDirty(s: Screen, i: nat, d: seq<nat>)
    requires IsScreen(s)
  {
    && (forall k | 0 <= k < |d| :: i <= d[k] < CELLS && At(s, d[k]).dirty)
    && (forall k, l | 0 <= k < l < |d| :: d[k] < d[l])
    && (forall j | i <= j < CELLS && At(s, j).dirty :: j in d)
  }

  /** `DirtyFrom` lists exactly the dirty cells from `i` on, in increasing order. */
  lemma {:induction false} DirtyFromLists(s: Screen, i: nat)
    requires IsScreen(s) && i <= CELLS
    ensures ListsDirty(s, i, DirtyFrom(s, i))
    decreases CELLS - i
  {
    if i < CELLS {
      DirtyFromLists(s, i + 1);
      var d := DirtyFrom(s, i + 1);
      if At(s, i).dirty {
        DirtyCons(s, i, d, [i] + d);
      } else {
        DirtySkip(s, i, d);
      }
    }
  }

  lemma DirtyCons(s: Screen, i: nat, d: seq<nat>, e: seq<nat>)
    requires IsScreen(s) && i < CELLS && At(s, i).dirty && e == [i] + d
    requires ListsDirty(s, i + 1, d)
    ensures ListsDirty(s, i, e)
  {
    forall k | 0 < k < |e|
      ensures e[k] == d[k - 1]
    {
    }
  }

  lemma DirtySkip(s: Screen, i: nat, d: seq<nat>)
    requires IsScreen(s) && i < CELLS && !At(s, i).dirty
    requires ListsDirty(s, i + 1, d)
    ensures ListsDirty(s, i, d)
  {
  }

  /**
    What painting the dirty cell `j` sends when the attributes `prev` were
    sent last: the cursor moved to the cell, the cell's attributes when they
    differ from `prev`, and its character.
  */
  function Piece(s: Screen, j: nat, prev: Chtype): string
    requires IsScreen(s) && j < CELLS
  {
    var c := At(s, j);
    MoveCursor(j / COLS, j % COLS) + (if c.attrs != prev then SetAttrs(HEADER, c.attrs) else "") + [Out(c.ch)]
  }

  /**
    A piece is the cursor move to its cell, then either nothing (the
    attributes are unchanged) or one four-byte attribute escape, then the
    cell's character.
  */
  lemma PieceShape(s: Screen, j: nat, prev: Chtype)
    requires IsScreen(s) && j < CELLS
    ensures var p := Piece(s, j, prev);
      var mv := MoveCursor(j / COLS, j % COLS);
      && |mv| < |p| && p[..|mv|] == mv && p[|p| - 1] == Out(At(s, j).ch)
      && (|p| == |mv| + 1 <==> At(s, j).attrs == prev)
      && (|p| != |mv| + 1 ==> |p| == |mv| + 5 && p[|mv|..|mv| + 4] in {ATTR_REVERSE, ATTR_BOLD, ATTR_NORMAL})
  {
  }

  /** The attributes in force after painting the first `k` of the cells `d`, starting from `last`. */
  function AttrsBefore(s: Screen, d: seq<nat>, last: Chtype, k: nat): Chtype
    requires IsScreen(s) && k <= |d| && forall m | 0 <= m < |d| :: d[m] < CELLS
  {
    if k == 0 then last else At(s, d[k - 1]).attrs
  }

  /** One piece per cell of `d`, each depending only on its cell and the cell painted before it. */
  function Pieces(s: Screen, d: seq<nat>, last: Chtype): (ps: seq<string>)
    requires IsScreen(s) && forall m | 0 <= m < |d| :: d[m] < CELLS
    ensures |ps| == |d|
  {
    seq(|d|, k requires 0 <= k < |d| => Piece(s, d[k], AttrsBefore(s, d, last, k)))
  }

  function Concat(ps: seq<string>): string
  {
    if |ps| == 0 then "" else ps[0] + Concat(ps[1..])
  }

  lemma PiecesCons(s: Screen, i: nat, d: seq<nat>, last: Chtype)
    requires IsScreen(s) && i < CELLS && forall m | 0 <= m < |d| :: d[m] < CELLS
    ensures Pieces(s, [i] + d, last) == [Piece(s, i, last)] + Pieces(s, d, At(s, i).attrs)
  {
    var a := Pieces(s, [i] + d, last);
    var t := Pieces(s, d, At(s, i).attrs);
    assert a[0] == Piece(s, i, last);
    forall k | 0 < k < |a|
      ensures a[k] == t[k - 1]
    {
      PieceShift(s, i, d, last, k);
    }
    SeqCons(a, Piece(s, i, last), t);
  }

  lemma SeqCons<T>(a: seq<T>, x: T, t: seq<T>)
    requires |a| == |t| + 1 && a[0] == x
    requires forall k | 0 < k < |a| :: a[k] == t[k - 1]
    ensures a == [x] + t
  {
    assert forall k | 0 <= k < |a| :: a[k] == ([x] + t)[k];
  }

  lemma PieceShift(s: Screen, i: nat, d: seq<nat>, last: Chtype, k: nat)
    requires IsScreen(s) && i < CELLS && forall m | 0 <= m < |d| :: d[m] < CELLS
    requires 0 < k <= |d|
    ensures Pieces(s, [i] + d, last)[k] == Pieces(s, d, At(s, i).attrs)[k - 1]
  {
    assert ([i] + d)[k] == d[k - 1];
    if k > 1 {
      assert ([i] + d)[k - 1] == d[k - 2];
    }
    assert AttrsBefore(s, [i] + d, last, k) == AttrsBefore(s, d, At(s, i).attrs, k - 1);
  }

  /** The pieces of the dirty cells from `i` on, cell by cell as the loop meets them. */
  function PiecesFrom(s: Screen, i: nat, last: Chtype): seq<string>
    requires IsScreen(s) && i <= CELLS
    decreases CELLS - i
  {
    if i == CELLS then []
    else if !At(s, i).dirty then PiecesFrom(s, i + 1, last)
    else [Piece(s, i, last)] + PiecesFrom(s, i + 1, At(s, i).attrs)
  }

  /** The painting loop sends the pieces it meets, one after the other. */
  lemma {:induction false} PaintConcat(s: Screen, i: nat, last: Chtype)
    requires IsScreen(s) && i <= CELLS
    ensures Paint(s, i, last).0 == Concat(PiecesFrom(s, i, last))
    decreases CELLS - i
  {
    if i < CELLS {
      PaintConcat(s, i + 1, Next(s, i, last));
      if At(s, i).dirty {
        ConcatCons(PiecesFrom(s, i, last));
      }
    }
  }

  /** The pieces the loop meets are one per dirty cell, each depending only on its cell and the dirty cell before it. */
  lemma {:induction false} PiecesFromDirty(s: Screen, i: nat, last: Chtype)
    requires IsScreen(s) && i <= CELLS
    ensures PiecesFrom(s, i, last) == Pieces(s, DirtyFrom(s, i), last)
    decreases CELLS - i
  {
    if i < CELLS {
      PiecesFromDirty(s, i + 1, Next(s, i, last));
      if At(s, i).dirty {
        var d := DirtyFrom(s, i + 1);
        assert DirtyFrom(s, i) == [i] + d;
        PiecesCons(s, i, d, last);
      }
    } else {
      assert DirtyFrom(s, i) == [];
    }
  }

  /**
    The painting loop from index `i` sends, for each dirty cell from `i` on
    in row-major order, the cursor move to that cell, its attributes when
    they differ from those of the dirty cell before it, and its character.
  */
  lemma PaintPieces(s: Screen, i: nat, last: Chtype)
    requires IsScreen(s) && i <= CELLS
    ensures Paint(s, i, last).0 == Concat(Pieces(s, DirtyFrom(s, i), last))
  {
    PaintConcat(s, i, last);
    PiecesFromDirty(s, i, last);
  }

  /** The attributes last sent once cell `i` is painted. */
  function Next(s: Screen, i: nat, last: Chtype): Chtype
    requires IsScreen(s) && i < CELLS
  {
    if At(s, i).dirty then At(s, i).attrs else last
  }

  /** The loop ends in the attributes of the last dirty cell from `i` on, or in `last` when none is dirty. */
  lemma PaintEnding(s: Screen, i: nat, last: Chtype)
    requires IsScreen(s) && i <= CELLS
    ensures var d := DirtyFrom(s, i);
      Paint(s, i, last).1 == AttrsBefore(s, d, last, |d|)
  {
    var d := DirtyFrom(s, i);
    if |d| == 0 {
      NoneDirty(s, i);
      PaintClean(s, i, last);
    } else {
      LastDirty(s, i);
      PaintThrough(s, i, d[|d| - 1], last);
    }
  }

  /** With no dirty cell listed from `i`, none is dirty. */
  lemma NoneDirty(s: Screen, i: nat)
    requires IsScreen(s) && i <= CELLS && |DirtyFrom(s, i)| == 0
    ensures CleanFrom(s, i)
  {
    DirtyFromLists(s, i);
  }

  /** The last dirty cell listed from `i` is dirty and every cell after it is clean. */
  lemma LastDirty(s: Screen, i: nat)
    requires IsScreen(s) && i <= CELLS && |DirtyFrom(s, i)| > 0
    ensures var d := DirtyFrom(s, i);
      i <= d[|d| - 1] < CELLS && At(s, d[|d| - 1]).dirty && CleanFrom(s, d[|d| - 1] + 1)
  {
    DirtyFromLists(s, i);
    LastListed(s, i, DirtyFrom(s, i));
  }

  lemma LastListed(s: Screen, i: nat, d: seq<nat>)
    requires IsScreen(s) && |d| > 0 && ListsDirty(s, i, d)
    ensures i <= d[|d| - 1] < CELLS && At(s, d[|d| - 1]).dirty && CleanFrom(s, d[|d| - 1] + 1)
  {
    var j := d[|d| - 1];
    forall m | 0 <= m < |d| - 1
      ensures d[m] < j
    {
    }
    forall k | j < k < CELLS
      ensures !At(s, k).dirty
    {
      assert k !in d;
    }
  }

  /** Before the last dirty cell, the attributes the loop ends in do not depend on those sent so far. */
  lemma {:induction false} PaintThrough(s: Screen, i: nat, j: nat, last: Chtype)
    requires IsScreen(s) && i <= j < CELLS && At(s, j).dirty && CleanFrom(s, j + 1)
    ensures Paint(s, i, last).1 == At(s, j).attrs
    decreases j - i
  {
    if i < j {
      PaintThrough(s, i + 1, j, Next(s, i, last));
    } else {
      PaintLast(s, j, last);
    }
  }

  lemma ConcatCons(ps: seq<string>)
    requires |ps| > 0
    ensures Concat(ps) == ps[0] + Concat(ps[1..])
  {
  }

  /**
    `wrefresh` on any screen: the pieces of every dirty cell in row-major
    order, a reset when the last painted cell had attributes, and the move
    to the window's cursor.
  */
  lemma RefreshPaints(t: Term, w: Window)
    requires Valid(t) && t.initialized
    ensures var d := DirtyFrom(t.screen, 0);
      var ending := AttrsBefore(t.screen, d, A_NORMAL, |d|);
      WRefresh(t, Some(w)).out
        == Concat(Pieces(t.screen, d, A_NORMAL)) + (if ending != A_NORMAL then ATTR_NORMAL else "") + MoveCursor(w.cury, w.curx)
  {
    PaintPieces(t.screen, 0, A_NORMAL);
    PaintEnding(t.screen, 0, A_NORMAL);
  }

  /* ---------------------------------------------------------------- */
  /* Starting and ending                                              */
  /* ---------------------------------------------------------------- */

  /** `initscr`: on the first call blanks the screen, sets up both windows and clears the terminal; later calls do nothing. */
  function InitScr(t: Term): (r: Shown)
    requires Valid(t)
    ensures Valid(r.term) && r.term.initialized && r.ret == 0
    ensures t.initialized ==> r.term == t && r.out == ""
    ensures !t.initialized ==> (r.term.stdscr == FULL && r.term.curscr == FULL
      && r.out == CLEAR_SCREEN + CURSOR_HIDE
      && forall y, x | OnScreen(y, x) :: r.term.screen[y][x] == BLANK)
  {
    if t.initialized then Shown(t, 0, "")
    else Shown(Term(Blank(), true, t.echo, FULL, FULL), 0, CLEAR_SCREEN + CURSOR_HIDE)
  }

  /** A second `initscr` changes nothing and prints nothing. */
  lemma InitTwice(t: Term)
    requires Valid(t)
    ensures InitScr(InitScr(t).term) == Shown(InitScr(t).term, 0, "")
  {
  }

  /** Right after `initscr`, `stdscr` can be written anywhere on the screen and the first refresh paints all of it. */
  lemma InitReady(t: Term)
    requires Valid(t) && !t.initialized
    ensures var i := InitScr(t).term;
      CursorIn(i.stdscr) && FitsScreen(i.stdscr)
      && forall k | 0 <= k < CELLS :: At(i.screen, k) == BLANK
  {
  }

  /** `endwin`: parks the cursor on the last line and restores the terminal; refused before `initscr`. */
  function EndWin(t: Term): (r: Shown)
    requires Valid(t)
    ensures Valid(r.term) && !r.term.initialized
    ensures r.ret == -1 <==> !t.initialized
    ensures r.ret == -1 ==> r.term == t && r.out == ""
    ensures r.ret == 0 ==> r.term == t.(initialized := false)
  {
    if !t.initialized then Shown(t, -1, "")
    else Shown(t.(initialized := false), 0, MoveCursor(LINES - 1, 0) + "\n" + ATTR_NORMAL + CURSOR_SHOW)
  }

  /** After `endwin` a refresh is refused until `initscr` runs again, which then starts afresh. */
  lemma EndThenRefresh(t: Term, w: Window)
    requires Valid(t) && t.initialized
    ensures WRefresh(EndWin(t).term, Some(w)).ret == -1
    ensures InitScr(EndWin(t).term).out == CLEAR_SCREEN + CURSOR_HIDE
  {
  }

  /* ---------------------------------------------------------------- */
  /* Input                                                            */
  /* ---------------------------------------------------------------- */

  /** The outcome of `wgetch`. */
  datatype Got = Got(term: Term, win: Option<Window>, ret: int, out: string)

  /**
    `wgetch`: one byte from standard input (`None` when the read fails);
    with echo on it is also written to the window and the screen refreshed.
  */
  function WGetch(t: Term, w: Option<Window>, input: Option<CChar>): (r: Got)
    requires Valid(t)
    ensures Valid(r.term)
    ensures input.None? ==> r == Got(t, w, -1, "")
    ensures input.Some? ==> r.ret == input.value as int && 0 <= r.ret < 256
    ensures !t.echo || w.None? ==> r.term == t && r.win == w && r.out == ""
  {
    match input
    case None => Got(t, w, -1, "")
    case Some(c) =>
      if t.echo && w.Some? then
        var d := WAddch(t.screen, w, Widen(c));
        var shown := WRefresh(t.(screen := d.screen), d.win);
        Got(shown.term, d.win, c as int, shown.out)
      else Got(t, w, c as int, "")
  }

  /** An echoed key on an initialized terminal is on the screen and already painted. */
  lemma WGetchEchoes(t: Term, w: Window, c: CChar)
    requires Valid(t) && t.initialized && t.echo && OnScreen(w.cury, w.curx) && Stored(c)
    ensures var r := WGetch(t, Some(w), Some(c));
      r.term.screen[w.cury][w.curx] == Cell(c, w.attrs, false) && CleanFrom(r.term.screen, 0)
  {
    PlainStamp(w, c);
    WAddchStores(t.screen, w, Widen(c));
  }

  function SetEcho(t: Term, on: bool): (r: Term)
    ensures r.echo == on && r.(echo := t.echo) == t
  {
    t.(echo := on)
  }
}

=== FILE: elf_loader.dfy ===
/**
  The ELF64 loader `load_user_elf` (kernel/src/elf.rs).  The header and program
  headers come in already parsed (the parser is a separate library); the loader
  validates them, maps and fills every PT_LOAD segment page by page, records the
  highest segment end as the initial program break, and builds the user stack.
*/
module ElfLoader {
  import opened Wrappers
  import opened Sv39Bits
  import opened UserSpace
  import Arith
  import PageTable
  import UserStack

  // ----- one PT_LOAD segment -----

  /** The byte that belongs at offset `k` of a segment: file contents, then zeros. */
  function SegmentByte(image: seq<Byte>, offset: nat, filesz: nat, k: nat): Byte
    requires offset + filesz <= |image|
  {
    if k < filesz then image[offset + k] else 0
  }

  /** The whole segment is in memory: the file bytes, then zeros up to `memsz`. */
  ghost predicate SegmentIn(m: map<nat, Byte>, image: seq<Byte>, vaddr: nat, offset: nat, filesz: nat, memsz: nat)
    requires offset + filesz <= |image|
  {
    forall a | vaddr <= a < vaddr + memsz :: a in m && m[a] == SegmentByte(image, offset, filesz, a - vaddr)
  }

  /** Every byte of the segment that lies in `[lo, hi)` holds its intended value. */
  ghost predicate Filled(m: map<nat, Byte>, image: seq<Byte>, vaddr: nat, offset: nat, filesz: nat, memsz: nat,
                         lo: nat, hi: nat)
    requires offset + filesz <= |image|
  {
    forall a | lo <= a < hi && vaddr <= a < vaddr + memsz :: a in m && m[a] == SegmentByte(image, offset, filesz, a - vaddr)
  }

  /** How many file bytes the page loop has copied once it reaches page `cur`. */
  function Copied(vaddr: nat, filesz: nat, cur: nat): nat
  {
    if cur <= vaddr then 0 else Min(filesz, cur - vaddr)
  }

  /**
    One turn of the segment page loop: map a fresh frame at `cur`, copy the file
    bytes that belong in it, and zero the rest of the segment's memory in it.
    Afterwards the segment's bytes in this page are right, nothing outside the
    page has changed, and `copied` counts the file bytes up to the page's end.
  */
  method LoadPage(s: Space, image: seq<Byte>, vaddr: nat, offset: nat, filesz: nat, memsz: nat,
                  flags: Flags, cur: nat, copied: nat) returns (r: Space, copied': nat)
    requires offset + filesz <= |image|
    requires PageTable.PageFloor(vaddr) <= cur < vaddr + memsz && cur % SIZE_4K == 0
    requires copied == Copied(vaddr, filesz, cur)
    ensures r.pages == s.pages[cur := flags] && r.frames == s.frames + 1
    ensures copied' == Copied(vaddr, filesz, cur + SIZE_4K)
    ensures SameOutside(s.mem, r.mem, cur, cur + SIZE_4K)
    ensures Filled(r.mem, image, vaddr, offset, filesz, memsz, cur, cur + SIZE_4K)
  {
    r := MapUserPage(s, cur, flags);
    var m;
    m, copied' := FillPage(r.mem, image, vaddr, offset, filesz, memsz, cur, copied);
    r := r.(mem := m);
  }

  /** The copy and zero-fill of one freshly mapped page. */
  method FillPage(m1: map<nat, Byte>, image: seq<Byte>, vaddr: nat, offset: nat, filesz: nat, memsz: nat,
                  cur: nat, copied: nat) returns (m: map<nat, Byte>, copied': nat)
    requires offset + filesz <= |image|
    requires PageTable.PageFloor(vaddr) <= cur < vaddr + memsz && cur % SIZE_4K == 0
    requires copied == Copied(vaddr, filesz, cur)
    ensures copied' == Copied(vaddr, filesz, cur + SIZE_4K)
    ensures SameOutside(m1, m, cur, cur + SIZE_4K)
    ensures Filled(m, image, vaddr, offset, filesz, memsz, cur, cur + SIZE_4K)
  {
    PageTable.PageRounding(vaddr);
    var va0 := PageTable.PageFloor(vaddr);
    assert cur == va0 || va0 + SIZE_4K <= cur by {
      if cur != va0 { Sv39Bits.PageGap(va0, cur); }
    }
    var pageOff := if cur == va0 then vaddr - va0 else 0;
    var space := SIZE_4K - pageOff;
    var fileLeft := if filesz > copied then filesz - copied else 0;
    var chunk := Min(fileLeft, space);
    var m2;
    m2, copied' := CopyChunk(m1, image, offset, copied, chunk, cur + pageOff);
    var zeros;
    m, zeros := ZeroRest(m2, cur, pageOff, chunk, vaddr + memsz);
    ghost var w := cur + pageOff;
    assert w == (if cur <= vaddr then vaddr else cur) && w < cur + SIZE_4K;
    assert chunk == Min(if filesz > copied then filesz - copied else 0, cur + SIZE_4K - w);
    LoadPageFrame(m1, m2, m, vaddr, filesz, cur, copied, cur + pageOff, chunk, zeros);
    LoadPageBytes(m2, m, image, vaddr, offset, filesz, memsz, cur, copied, cur + pageOff, chunk, zeros);
  }

  /** Copying `file_chunk` bytes of the image into the page, when there are any. */
  method CopyChunk(m: map<nat, Byte>, image: seq<Byte>, offset: nat, copied: nat, chunk: nat, dst: nat)
    returns (m': map<nat, Byte>, copied': nat)
    requires offset + copied + chunk <= |image|
    ensures copied' == copied + chunk
    ensures Holds(m', dst, image[offset + copied .. offset + copied + chunk])
    ensures SameOutside(m, m', dst, dst + chunk)
  {
    m', copied' := m, copied;
    if chunk > 0 {
      m' := WriteBytes(m', dst, image[offset + copied .. offset + copied + chunk]);
      copied' := copied + chunk;
    }
  }

  /**
    Zeroing the rest of the segment's memory in the page at `cur`: from just
    after the copied bytes up to the segment end or the page end, whichever
    comes first.
  */
  method ZeroRest(m: map<nat, Byte>, cur: nat, pageOff: nat, chunk: nat, segEnd: nat)
    returns (m': map<nat, Byte>, zeros: nat)
    requires cur < segEnd
    ensures cur + pageOff + chunk + zeros == Max(cur + pageOff + chunk, Min(segEnd, cur + SIZE_4K))
    ensures Holds(m', cur + pageOff + chunk, Zeros(zeros))
    ensures SameOutside(m, m', cur + pageOff + chunk, cur + pageOff + chunk + zeros)
  {
    var pageEnd := cur + SIZE_4K;
    var covered := if pageEnd > segEnd then (if segEnd > cur then segEnd - cur else 0) else SIZE_4K;
    m', zeros := m, 0;
    if covered > pageOff + chunk {
      zeros := covered - (pageOff + chunk);
      m' := WriteBytes(m', cur + pageOff + chunk, Zeros(zeros));
    }
  }

  /** The copy and zero-fill of one page stay inside it, and the file count advances to the page's end. */
  lemma LoadPageFrame(m1: map<nat, Byte>, m2: map<nat, Byte>, m3: map<nat, Byte>,
                      vaddr: nat, filesz: nat, cur: nat, copied: nat, w: nat, chunk: nat, zeros: nat)
    requires copied == Copied(vaddr, filesz, cur)
    requires w == (if cur <= vaddr then vaddr else cur) && w < cur + SIZE_4K
    requires chunk == Min(if filesz > copied then filesz - copied else 0, cur + SIZE_4K - w)
    requires w + chunk + zeros <= cur + SIZE_4K
    requires SameOutside(m1, m2, w, w + chunk) && SameOutside(m2, m3, w + chunk, w + chunk + zeros)
    ensures copied + chunk == Copied(vaddr, filesz, cur + SIZE_4K)
    ensures SameOutside(m1, m3, cur, cur + SIZE_4K)
  {
    assert copied < filesz ==> w == vaddr + copied;
  }

  /** After the copy and zero-fill, the segment's bytes in the page are right. */
  lemma LoadPageBytes(m2: map<nat, Byte>, m3: map<nat, Byte>, image: seq<Byte>,
                      vaddr: nat, offset: nat, filesz: nat, memsz: nat, cur: nat, copied: nat,
                      w: nat, chunk: nat, zeros: nat)
    requires offset + filesz <= |image|
    requires copied == Copied(vaddr, filesz, cur)
    requires w == (if cur <= vaddr then vaddr else cur) && w < cur + SIZE_4K
    requires chunk == Min(if filesz > copied then filesz - copied else 0, cur + SIZE_4K - w)
    requires w + chunk + zeros == Max(w + chunk, Min(vaddr + memsz, cur + SIZE_4K))
    requires Holds(m2, w, image[offset + copied .. offset + copied + chunk])
    requires Holds(m3, w + chunk, Zeros(zeros)) && SameOutside(m2, m3, w + chunk, w + chunk + zeros)
    ensures Filled(m3, image, vaddr, offset, filesz, memsz, cur, cur + SIZE_4K)
  {
    assert copied < filesz ==> w == vaddr + copied;
    forall a | cur <= a < cur + SIZE_4K && vaddr <= a < vaddr + memsz
      ensures a in m3 && m3[a] == SegmentByte(image, offset, filesz, a - vaddr)
    {
      if a - vaddr < filesz {
        assert w <= a < w + chunk;
        assert m2[a] == image[offset + copied + (a - w)];
      } else {
        assert w + chunk <= a < w + chunk + zeros;
      }
    }
  }

  /**
    The page loop of `load_user_elf` for one PT_LOAD segment with `p_memsz > 0`.
    It maps exactly the pages from `p_vaddr` rounded down to `p_vaddr + p_memsz`
    rounded up, each to a fresh frame with `flags`; the segment's bytes are the
    file's `p_filesz` bytes followed by zeros up to `p_memsz`; memory outside the
    mapped range is untouched.
  */
  method LoadSegment(s: Space, image: seq<Byte>, vaddr: usize, offset: usize, filesz: usize, memsz: usize,
                     flags: Flags) returns (r: Space)
    requires offset + filesz <= |image|
    requires memsz > 0 && vaddr + memsz + SIZE_4K - 1 < 0x1_0000_0000_0000_0000
    ensures MappedRange(r.pages, s.pages, PageTable.PageFloor(vaddr), PageTable.PageCeil(vaddr + memsz), flags)
    ensures r.frames == s.frames + (PageTable.PageCeil(vaddr + memsz) - PageTable.PageFloor(vaddr)) / SIZE_4K
    ensures SegmentIn(r.mem, image, vaddr, offset, filesz, memsz)
    ensures SameOutside(s.mem, r.mem, PageTable.PageFloor(vaddr), PageTable.PageCeil(vaddr + memsz))
  {
    var va0: usize := vaddr - vaddr % SIZE_4K;
    var vaend: usize := (vaddr + memsz + SIZE_4K - 1) - (vaddr + memsz + SIZE_4K - 1) % SIZE_4K;
    PageTable.PageRounding(vaddr);
    PageTable.PageRounding(vaddr + memsz);
    var cur: usize := va0;
    var copied: usize := 0;
    ghost var count := 0;
    r := s;
    while cur < vaend
      invariant cur <= vaend
      invariant SegmentLoop(s, r, image, vaddr, offset, filesz, memsz, flags, cur, copied, count)
      decreases vaend - cur
    {
      assert cur + SIZE_4K <= vaend by { Sv39Bits.PageGap(cur, vaend); }
      var r', copied' := LoadPage(r, image, vaddr, offset, filesz, memsz, flags, cur, copied);
      SegmentLoopStep(s, r, r', image, vaddr, offset, filesz, memsz, flags, cur, copied, copied', count);
      r, copied := r', copied';
      cur := cur + SIZE_4K;
      count := count + 1;
    }
    SegmentDone(s, r, image, vaddr, offset, filesz, memsz, flags, copied, count);
  }

  /** When the page loop reaches the rounded-up segment end, the segment is loaded. */
  lemma SegmentDone(s: Space, r: Space, image: seq<Byte>, vaddr: nat, offset: nat, filesz: nat, memsz: nat,
                    flags: Flags, copied: nat, count: nat)
    requires offset + filesz <= |image|
    requires SegmentLoop(s, r, image, vaddr, offset, filesz, memsz, flags, PageTable.PageCeil(vaddr + memsz), copied, count)
    ensures MappedRange(r.pages, s.pages, PageTable.PageFloor(vaddr), PageTable.PageCeil(vaddr + memsz), flags)
    ensures r.frames == s.frames + (PageTable.PageCeil(vaddr + memsz) - PageTable.PageFloor(vaddr)) / SIZE_4K
    ensures SegmentIn(r.mem, image, vaddr, offset, filesz, memsz)
    ensures SameOutside(s.mem, r.mem, PageTable.PageFloor(vaddr), PageTable.PageCeil(vaddr + memsz))
  {
    var va0, vaend := PageTable.PageFloor(vaddr), PageTable.PageCeil(vaddr + memsz);
    PageTable.PageRounding(vaddr);
    PageTable.PageRounding(vaddr + memsz);
    Arith.DivUnique(vaend - va0, SIZE_4K, count, 0);
    forall a | vaddr <= a < vaddr + memsz
      ensures a in r.mem && r.mem[a] == SegmentByte(image, offset, filesz, a - vaddr)
    {
      assert va0 <= a < vaend;
    }
  }

  /** The invariant of the segment page loop once it has reached page `cur`. */
  ghost predicate SegmentLoop(s: Space, r: Space, image: seq<Byte>, vaddr: nat, offset: nat, filesz: nat, memsz: nat,
                              flags: Flags, cur: nat, copied: nat, count: nat)
    requires offset + filesz <= |image|
  {
    var va0 := PageTable.PageFloor(vaddr);
    && va0 <= cur && cur % SIZE_4K == 0 && cur == va0 + count * SIZE_4K
    && copied == Copied(vaddr, filesz, cur)
    && MappedRange(r.pages, s.pages, va0, cur, flags)
    && r.frames == s.frames + count
    && Filled(r.mem, image, vaddr, offset, filesz, memsz, va0, cur)
    && SameOutside(s.mem, r.mem, va0, cur)
  }

  /** One turn of the page loop keeps its invariant. */
  lemma SegmentLoopStep(s: Space, r: Space, r': Space, image: seq<Byte>, vaddr: nat, offset: nat, filesz: nat,
                        memsz: nat, flags: Flags, cur: nat, copied: nat, copied': nat, count: nat)
    requires offset + filesz <= |image|
    requires SegmentLoop(s, r, image, vaddr, offset, filesz, memsz, flags, cur, copied, count)
    requires r'.pages == r.pages[cur := flags] && r'.frames == r.frames + 1
    requires copied' == Copied(vaddr, filesz, cur + SIZE_4K)
    requires SameOutside(r.mem, r'.mem, cur, cur + SIZE_4K)
    requires Filled(r'.mem, image, vaddr, offset, filesz, memsz, cur, cur + SIZE_4K)
    ensures SegmentLoop(s, r', image, vaddr, offset, filesz, memsz, flags, cur + SIZE_4K, copied', count + 1)
  {
    var va0 := PageTable.PageFloor(vaddr);
    LoadSegmentStep(s, r, r', va0, cur, flags);
    LoadSegmentBytes(r.mem, r'.mem, image, vaddr, offset, filesz, memsz, va0, cur);
    Arith.AlignedAdd(cur, SIZE_4K, SIZE_4K);
    assert (count + 1) * SIZE_4K == count * SIZE_4K + SIZE_4K;
  }

  /** Maintaining the page-map and frame-keeping invariants of the segment loop. */
  lemma LoadSegmentStep(s: Space, r: Space, r': Space, va0: nat, cur: nat, flags: Flags)
    requires cur % SIZE_4K == 0 && va0 <= cur
    requires MappedRange(r.pages, s.pages, va0, cur, flags)
    requires SameOutside(s.mem, r.mem, va0, cur)
    requires r'.pages == r.pages[cur := flags] && SameOutside(r.mem, r'.mem, cur, cur + SIZE_4K)
    ensures MappedRange(r'.pages, s.pages, va0, cur + SIZE_4K, flags)
    ensures SameOutside(s.mem, r'.mem, va0, cur + SIZE_4K)
  {
    forall p | p % SIZE_4K == 0 && cur <= p < cur + SIZE_4K
      ensures p == cur
    {
      if cur < p { Sv39Bits.PageGap(cur, p); }
    }
  }

  /** Maintaining the byte invariant of the segment loop. */
  lemma LoadSegmentBytes(m: map<nat, Byte>, m': map<nat, Byte>, image: seq<Byte>, vaddr: nat, offset: nat,
                         filesz: nat, memsz: nat, va0: nat, cur: nat)
    requires offset + filesz <= |image|
    requires Filled(m, image, vaddr, offset, filesz, memsz, va0, cur)
    requires SameOutside(m, m', cur, cur + SIZE_4K)
    requires Filled(m', image, vaddr, offset, filesz, memsz, cur, cur + SIZE_4K)
    ensures Filled(m', image, vaddr, offset, filesz, memsz, va0, cur + SIZE_4K)
  {
    forall a | va0 <= a < cur + SIZE_4K && vaddr <= a < vaddr + memsz
      ensures a in m' && m'[a] == SegmentByte(image, offset, filesz, a - vaddr)
    {
      if a < cur {
        assert a in m;
      }
    }
  }
}

=== FILE: elf_program.dfy ===
/**
  `load_user_elf` as a whole (kernel/src/elf.rs): the header checks, the walk
  over the program headers that loads every PT_LOAD segment, the initial
  program break, and the user stack.

  The ELF parser is a separate library: its result comes in as
  `parsed: Option<ElfHeader>`, `None` standing for a parse failure.  Whether
  `satp` has a root page table (`root_pt()` non-null) comes in as `rootSet`.
*/
module ElfProgram {
  import opened Wrappers
  import opened Sv39Bits
  import opened UserSpace
  import PageTable
  import ElfLoader
  import UserStack

  /** `size_of::<goblin::elf::header::Header>()`: the ELF64 file header is 64 bytes. */
  const EHDR_SIZE: nat := 64
  const EI_CLASS: nat := 4
  const EI_DATA: nat := 5
  const ELFCLASS64: Byte := 2
  const ELFDATA2LSB: Byte := 1
  const EM_RISCV: nat := 243
  const PT_LOAD: nat := 1
  const ELF_MAGIC: seq<Byte> := [0x7F, 0x45, 0x4C, 0x46]

  /** The fields of a parsed program header that the loader reads. */
  datatype ProgramHeader = ProgramHeader(kind: nat, flags: bv32, offset: usize, vaddr: usize, filesz: usize, memsz: usize)

  /** The fields of a parsed ELF file: `e_ident`, `e_machine`, `e_entry` and the program headers. */
  datatype ElfHeader = ElfHeader(ident: seq<Byte>, machine: nat, entry: usize, phs: seq<ProgramHeader>)

  /** What `load_user_elf` returns on success. */
  datatype Loaded = Loaded(entry: usize, sp: nat, argc: nat, argvVa: nat, envpVa: nat, brk: nat)

  // ----- header checks -----

  /** The header checks, in the order the loader makes them. */
  function CheckHeader(len: nat, parsed: Option<ElfHeader>, rootSet: bool): (r: Result<ElfHeader, ElfLoadError>)
    requires parsed.Some? ==> |parsed.value.ident| == 16
    ensures r == Err(Short) <==> len < EHDR_SIZE
    ensures r == Err(BadMagic) <==> len >= EHDR_SIZE && (parsed.None? || parsed.value.ident[..4] != ELF_MAGIC)
    ensures r.Ok? <==> len >= EHDR_SIZE && parsed.Some? && WellFormed(parsed.value) && rootSet
    ensures r.Ok? ==> r.value == parsed.value
  {
    if len < EHDR_SIZE then Err(Short)
    else if parsed.None? then Err(BadMagic)
    else if parsed.value.ident[..4] != ELF_MAGIC then Err(BadMagic)
    else if parsed.value.ident[EI_CLASS] != ELFCLASS64 || parsed.value.ident[EI_DATA] != ELFDATA2LSB then Err(Not64LE)
    else if parsed.value.machine != EM_RISCV then Err(NotRiscv)
    else if !rootSet then Err(SatpNotSet)
    else Ok(parsed.value)
  }

  /** A little-endian ELF64 file for RISC-V. */
  predicate WellFormed(h: ElfHeader)
    requires |h.ident| == 16
  {
    && h.ident[..4] == ELF_MAGIC
    && h.ident[EI_CLASS] == ELFCLASS64 && h.ident[EI_DATA] == ELFDATA2LSB
    && h.machine == EM_RISCV
  }

  // ----- program headers -----

  predicate IsLoad(ph: ProgramHeader) { ph.kind == PT_LOAD }

  /** A PT_LOAD segment that occupies memory: the loader maps pages for it. */
  predicate Maps(ph: ProgramHeader) { IsLoad(ph) && ph.memsz > 0 }

  /** `p_offset.checked_add(p_filesz)` does not overflow and ends inside the image. */
  predicate InBounds(ph: ProgramHeader, len: nat)
  {
    ph.offset + ph.filesz < 0x1_0000_0000_0000_0000 && ph.offset + ph.filesz <= len
  }

  predicate AllInBounds(phs: seq<ProgramHeader>, len: nat)
  {
    forall j | 0 <= j < |phs| :: IsLoad(phs[j]) ==> InBounds(phs[j], len)
  }

  /** `p_vaddr + p_memsz + 4095` stays inside `usize` for every segment that is mapped. */
  predicate NoWrap(phs: seq<ProgramHeader>)
  {
    forall j | 0 <= j < |phs| :: Maps(phs[j]) ==> phs[j].vaddr + phs[j].memsz + SIZE_4K - 1 < 0x1_0000_0000_0000_0000
  }

  /** The page-rounded range a segment maps: `p_vaddr` down to `p_vaddr + p_memsz` up. */
  function SegLo(ph: ProgramHeader): nat { PageTable.PageFloor(ph.vaddr) }

  function SegHi(ph: ProgramHeader): nat { PageTable.PageCeil(ph.vaddr + ph.memsz) }

  /** `p` is one of the pages a segment maps. */
  predicate Covers(ph: ProgramHeader, p: nat)
  {
    Maps(ph) && p % SIZE_4K == 0 && SegLo(ph) <= p < SegHi(ph)
  }

  /** The flags of the last segment in `phs` that maps page `p`, if any. */
  function LastCover(phs: seq<ProgramHeader>, p: nat): Option<Flags>
    decreases |phs|
  {
    if |phs| == 0 then None
    else if Covers(phs[|phs| - 1], p) then Some(PteFlagsFromPf(phs[|phs| - 1].flags))
    else LastCover(phs[..|phs| - 1], p)
  }

  /** The address `a` lies in the page range of some mapped segment of `phs`. */
  predicate Touched(phs: seq<ProgramHeader>, a: nat)
    decreases |phs|
  {
    |phs| > 0 &&
    (Touched(phs[..|phs| - 1], a) || (Maps(phs[|phs| - 1]) && SegLo(phs[|phs| - 1]) <= a < SegHi(phs[|phs| - 1])))
  }

  /** The initial program break: the highest `p_vaddr + p_memsz` of a mapped segment, 0 if none. */
  function MaxBrk(phs: seq<ProgramHeader>): nat
    decreases |phs|
  {
    if |phs| == 0 then 0
    else
      var last := phs[|phs| - 1];
      Max(MaxBrk(phs[..|phs| - 1]), if Maps(last) then last.vaddr + last.memsz else 0)
  }

  /** Frames the segment loops take: one per mapped page. */
  function FrameCount(phs: seq<ProgramHeader>): nat
    decreases |phs|
  {
    if |phs| == 0 then 0
    else
      var last := phs[|phs| - 1];
      FrameCount(phs[..|phs| - 1]) + if Maps(last) then (SegHi(last) - SegLo(last)) / SIZE_4K else 0
  }

  /** Two segments share no page. */
  predicate Apart(a: ProgramHeader, b: ProgramHeader)
  {
    SegHi(a) <= SegLo(b) || SegHi(b) <= SegLo(a)
  }

  /** No later mapped segment shares a page with segment `j`, so its bytes are not remapped away. */
  predicate Survives(phs: seq<ProgramHeader>, j: nat)
    requires j < |phs|
  {
    forall k | j < k < |phs| :: Maps(phs[k]) ==> Apart(phs[j], phs[k])
  }

  /** The segment's bytes are in memory: the file bytes, then zeros up to `p_memsz`. */
  ghost predicate SegmentIn(m: map<nat, Byte>, image: seq<Byte>, ph: ProgramHeader)
    requires InBounds(ph, |image|)
  {
    ElfLoader.SegmentIn(m, image, ph.vaddr, ph.offset, ph.filesz, ph.memsz)
  }

  /** `pages` is `before` with the pages of `phs` added, each with the flags of the last segment mapping it. */
  ghost predicate PagesAfter(pages: map<nat, Flags>, before: map<nat, Flags>, phs: seq<ProgramHeader>)
  {
    && (forall p :: p in pages <==> p in before || LastCover(phs, p).Some?)
    && (forall p | p in pages :: pages[p] == if LastCover(phs, p).Some? then LastCover(phs, p).value else before[p])
  }

  /** `m2` keeps every byte of `m1` outside the page ranges of the segments. */
  ghost predicate SameOffSegments(m1: map<nat, Byte>, m2: map<nat, Byte>, phs: seq<ProgramHeader>)
  {
    forall a | !Touched(phs, a) :: (a in m2 <==> a in m1) && (a in m1 ==> m2[a] == m1[a])
  }

  /** The state after the program-header walk has loaded every segment of `phs`. */
  ghost predicate SegmentsLoaded(s: Space, t: Space, image: seq<Byte>, phs: seq<ProgramHeader>)
    requires AllInBounds(phs, |image|)
  {
    && PagesAfter(t.pages, s.pages, phs)
    && t.frames == s.frames + FrameCount(phs)
    && (forall j | 0 <= j < |phs| && Maps(phs[j]) && Survives(phs, j) :: SegmentIn(t.mem, image, phs[j]))
    && SameOffSegments(s.mem, t.mem, phs)
  }

  /** The break is the end of some mapped segment (or 0), and no mapped segment ends above it. */
  lemma {:induction false} MaxBrkIsMax(phs: seq<ProgramHeader>)
    ensures forall j | 0 <= j < |phs| && Maps(phs[j]) :: phs[j].vaddr + phs[j].memsz <= MaxBrk(phs)
    ensures MaxBrk(phs) == 0 || exists j | 0 <= j < |phs| :: Maps(phs[j]) && MaxBrk(phs) == phs[j].vaddr + phs[j].memsz
    decreases |phs|
  {
    if |phs| > 0 {
      var pre := phs[..|phs| - 1];
      MaxBrkIsMax(pre);
      assert forall j | 0 <= j < |pre| :: pre[j] == phs[j];
      if MaxBrk(phs) != 0 && MaxBrk(phs) == MaxBrk(pre) {
        var j :| 0 <= j < |pre| && Maps(pre[j]) && MaxBrk(pre) == pre[j].vaddr + pre[j].memsz;
        assert phs[j] == pre[j];
      }
    }
  }

  // ----- the program-header walk -----

  /**
    The loop over the program headers: segments that are not PT_LOAD are
    skipped, a PT_LOAD whose file bytes lie outside the image stops the load
    with `PhOutOfBounds`, an empty one is skipped, and every other one is
    loaded page by page while the break is raised to its end.
  */
  method LoadSegments(s: Space, image: seq<Byte>, phs: seq<ProgramHeader>) returns (ok: bool, t: Space, brk: nat)
    requires NoWrap(phs)
    ensures ok <==> AllInBounds(phs, |image|)
    ensures ok ==> brk == MaxBrk(phs) && SegmentsLoaded(s, t, image, phs)
  {
    t, brk := s, 0;
    var i := 0;
    while i < |phs|
      invariant i <= |phs| && AllInBounds(phs[..i], |image|)
      invariant brk == MaxBrk(phs[..i]) && SegmentsLoaded(s, t, image, phs[..i])
    {
      var ph := phs[i];
      assert phs[..i + 1] == phs[..i] + [ph];
      if IsLoad(ph) && !(ph.offset + ph.filesz < 0x1_0000_0000_0000_0000 && ph.offset + ph.filesz <= |image|) {
        assert !InBounds(phs[i], |image|);
        return false, t, brk;
      }
      if !IsLoad(ph) || ph.memsz == 0 {
        SkipStep(s, t, image, phs[..i], ph);
      } else {
        var flags := PteFlagsFromPf(ph.flags);
        var t' := ElfLoader.LoadSegment(t, image, ph.vaddr, ph.offset, ph.filesz, ph.memsz, flags);
        LoadStep(s, t, t', image, phs[..i], ph);
        if ph.vaddr + ph.memsz > brk {
          brk := ph.vaddr + ph.memsz;
        }
        t := t';
      }
      i := i + 1;
    }
    assert phs[..i] == phs;
    ok := true;
  }

  /** A header that maps nothing leaves the walk's state as it was. */
  lemma SkipStep(s: Space, t: Space, image: seq<Byte>, pre: seq<ProgramHeader>, ph: ProgramHeader)
    requires !Maps(ph) && AllInBounds(pre + [ph], |image|) && AllInBounds(pre, |image|)
    requires SegmentsLoaded(s, t, image, pre)
    ensures MaxBrk(pre + [ph]) == MaxBrk(pre)
    ensures SegmentsLoaded(s, t, image, pre + [ph])
  {
    var q := pre + [ph];
    assert q[..|q| - 1] == pre;
    forall p ensures LastCover(q, p) == LastCover(pre, p) { }
    forall a ensures Touched(q, a) == Touched(pre, a) { }
    forall j | 0 <= j < |q| && Maps(q[j]) && Survives(q, j)
      ensures SegmentIn(t.mem, image, q[j])
    {
      assert j < |pre| && q[j] == pre[j];
      assert Survives(pre, j) by {
        forall k | j < k < |pre| ensures Maps(pre[k]) ==> Apart(pre[j], pre[k]) {
          assert q[k] == pre[k];
        }
      }
    }
  }

  /** Loading one more segment keeps the walk's state in step with the headers seen. */
  lemma LoadStep(s: Space, t: Space, t': Space, image: seq<Byte>, pre: seq<ProgramHeader>, ph: ProgramHeader)
    requires Maps(ph) && AllInBounds(pre + [ph], |image|) && AllInBounds(pre, |image|) && InBounds(ph, |image|)
    requires SegmentsLoaded(s, t, image, pre)
    requires MappedRange(t'.pages, t.pages, SegLo(ph), SegHi(ph), PteFlagsFromPf(ph.flags))
    requires t'.frames == t.frames + (SegHi(ph) - SegLo(ph)) / SIZE_4K
    requires SegmentIn(t'.mem, image, ph)
    requires SameOutside(t.mem, t'.mem, SegLo(ph), SegHi(ph))
    ensures MaxBrk(pre + [ph]) == Max(MaxBrk(pre), ph.vaddr + ph.memsz)
    ensures SegmentsLoaded(s, t', image, pre + [ph])
  {
    var q := pre + [ph];
    assert q[..|q| - 1] == pre;
    PagesStep(t.pages, t'.pages, s.pages, pre, ph);
    BytesStep(t.mem, t'.mem, image, pre, ph);
    OffStep(s.mem, t.mem, t'.mem, pre, ph);
  }

  lemma PagesStep(pages: map<nat, Flags>, pages': map<nat, Flags>, before: map<nat, Flags>,
                  pre: seq<ProgramHeader>, ph: ProgramHeader)
    requires Maps(ph) && PagesAfter(pages, before, pre)
    requires MappedRange(pages', pages, SegLo(ph), SegHi(ph), PteFlagsFromPf(ph.flags))
    ensures PagesAfter(pages', before, pre + [ph])
  {
    var q := pre + [ph];
    assert q[..|q| - 1] == pre;
    forall p ensures LastCover(q, p) == if Covers(ph, p) then Some(PteFlagsFromPf(ph.flags)) else LastCover(pre, p) { }
  }

  lemma BytesStep(m: map<nat, Byte>, m': map<nat, Byte>, image: seq<Byte>, pre: seq<ProgramHeader>, ph: ProgramHeader)
    requires Maps(ph) && AllInBounds(pre + [ph], |image|) && AllInBounds(pre, |image|)
    requires forall j | 0 <= j < |pre| && Maps(pre[j]) && Survives(pre, j) :: SegmentIn(m, image, pre[j])
    requires InBounds(ph, |image|) && SegmentIn(m', image, ph)
    requires SameOutside(m, m', SegLo(ph), SegHi(ph))
    ensures forall j | 0 <= j < |pre + [ph]| && Maps((pre + [ph])[j]) && Survives(pre + [ph], j) ::
      SegmentIn(m', image, (pre + [ph])[j])
  {
    var q := pre + [ph];
    forall j | 0 <= j < |q| && Maps(q[j]) && Survives(q, j)
      ensures SegmentIn(m', image, q[j])
    {
      if j < |pre| {
        assert q[j] == pre[j];
        assert Survives(pre, j) by {
          forall k | j < k < |pre| ensures Maps(pre[k]) ==> Apart(pre[j], pre[k]) {
            assert q[k] == pre[k];
          }
        }
        assert Apart(pre[j], ph) by { assert q[|pre|] == ph; }
        SegmentKept(m, m', image, pre[j], SegLo(ph), SegHi(ph));
      }
    }
  }

  /** A segment whose pages lie outside `[lo, hi)` keeps its bytes. */
  lemma SegmentKept(m: map<nat, Byte>, m': map<nat, Byte>, image: seq<Byte>, ph: ProgramHeader, lo: nat, hi: nat)
    requires InBounds(ph, |image|) && SegmentIn(m, image, ph) && SameOutside(m, m', lo, hi)
    requires SegHi(ph) <= lo || hi <= SegLo(ph)
    ensures SegmentIn(m', image, ph)
  {
    PageTable.PageRounding(ph.vaddr);
    PageTable.PageRounding(ph.vaddr + ph.memsz);
    forall a | ph.vaddr <= a < ph.vaddr + ph.memsz
      ensures a in m' && m'[a] == ElfLoader.SegmentByte(image, ph.offset, ph.filesz, a - ph.vaddr)
    {
      assert a in m;
    }
  }

  lemma OffStep(m0: map<nat, Byte>, m: map<nat, Byte>, m': map<nat, Byte>, pre: seq<ProgramHeader>, ph: ProgramHeader)
    requires Maps(ph) && SameOffSegments(m0, m, pre) && SameOutside(m, m', SegLo(ph), SegHi(ph))
    ensures SameOffSegments(m0, m', pre + [ph])
  {
    var q := pre + [ph];
    assert q[..|q| - 1] == pre;
    forall a | !Touched(q, a)
      ensures (a in m' <==> a in m0) && (a in m0 ==> m'[a] == m0[a])
    {
      assert !Touched(pre, a);
    }
  }

  // ----- the whole load -----

  /** `p` is one of the pages mapped for the user stack. */
  predicate StackPage(top: nat, bytes: nat, p: nat)
    requires UserStack.StackPages(bytes) * SIZE_4K <= top
  {
    var lo := UserStack.StackBase(top, bytes);
    lo <= p < lo + UserStack.StackPages(bytes) * SIZE_4K && p % SIZE_4K == 0
  }

  /** The lowest address the stack set-up maps or writes. */
  function StackLow(top: nat, bytes: nat, sp: nat): nat
    requires UserStack.StackPages(bytes) * SIZE_4K <= top
  {
    Min(UserStack.StackBase(top, bytes), sp)
  }

  /**
    The address space `t` and the result `l` a successful `load_user_elf`
    leaves, starting from `s`: the entry point and break come from the
    headers, the stack holds argv and envp, the pages are the segments' pages
    (the last segment on a page wins) under the stack pages, one frame was taken
    per page mapped, every segment that no later mapping overwrote still holds
    its bytes, and all other memory is as before.
  */
  ghost predicate ProcessImage(s: Space, t: Space, l: Loaded, image: seq<Byte>, h: ElfHeader,
                               top: nat, bytes: nat, argv: seq<seq<Byte>>, envp: seq<seq<Byte>>)
    requires AllInBounds(h.phs, |image|) && UserStack.StackPages(bytes) * SIZE_4K <= top
  {
    var lo := StackLow(top, bytes, l.sp);
    && l.entry == h.entry && l.brk == MaxBrk(h.phs) && l.argc == |argv|
    && UserStack.StackImage(t.mem, UserStack.StackFrame(l.sp, l.envpVa, l.argvVa, l.argc), top, argv, envp)
    && FinalPages(t.pages, s.pages, h.phs, top, bytes)
    && t.frames == s.frames + FrameCount(h.phs) + UserStack.StackPages(bytes)
    && SegmentsBelowStack(t.mem, image, h.phs, lo, top)
    && SameElsewhere(s.mem, t.mem, h.phs, lo, top)
  }

  /** The segments' pages (the last segment on a page wins) with the stack pages mapped over them. */
  ghost predicate FinalPages(pages: map<nat, Flags>, before: map<nat, Flags>, phs: seq<ProgramHeader>, top: nat, bytes: nat)
    requires UserStack.StackPages(bytes) * SIZE_4K <= top
  {
    && (forall p :: p in pages <==> p in before || LastCover(phs, p).Some? || StackPage(top, bytes, p))
    && (forall p | p in pages ::
          pages[p] == if StackPage(top, bytes, p) then UserStack.STACK_FLAGS
                      else if LastCover(phs, p).Some? then LastCover(phs, p).value
                      else before[p])
  }

  /** Every segment that no later segment overwrote and that lies clear of `[lo, top)` holds its bytes. */
  ghost predicate SegmentsBelowStack(m: map<nat, Byte>, image: seq<Byte>, phs: seq<ProgramHeader>, lo: nat, top: nat)
    requires AllInBounds(phs, |image|)
  {
    forall j | 0 <= j < |phs| && Maps(phs[j]) && Survives(phs, j) && (SegHi(phs[j]) <= lo || top <= SegLo(phs[j])) ::
      SegmentIn(m, image, phs[j])
  }

  /** `m` keeps every byte of `m0` outside the segments' pages and `[lo, top)`. */
  ghost predicate SameElsewhere(m0: map<nat, Byte>, m: map<nat, Byte>, phs: seq<ProgramHeader>, lo: nat, top: nat)
  {
    forall a: nat | !Touched(phs, a) && !(lo <= a < top) :: (a in m <==> a in m0) && (a in m0 ==> m[a] == m0[a])
  }

  /**
    `load_user_elf`: check the header, load the segments, then build the
    stack.  The first failing step decides the error.  On an error the pages
    already mapped stay mapped in the kernel, but the caller drops the
    process, so no space is returned.
  */
  method LoadUserElf(s: Space, image: seq<Byte>, parsed: Option<ElfHeader>, rootSet: bool,
                     top: usize, bytes: usize, argv: seq<seq<Byte>>, envp: seq<seq<Byte>>)
    returns (r: Result<(Space, Loaded), ElfLoadError>)
    requires parsed.Some? ==> |parsed.value.ident| == 16 && NoWrap(parsed.value.phs)
    requires UserStack.StackFits(top, bytes, argv, envp)
    ensures CheckHeader(|image|, parsed, rootSet).Err? ==> r == Err(CheckHeader(|image|, parsed, rootSet).error)
    ensures CheckHeader(|image|, parsed, rootSet).Ok? && !AllInBounds(parsed.value.phs, |image|) ==> r == Err(PhOutOfBounds)
    ensures (CheckHeader(|image|, parsed, rootSet).Ok? && AllInBounds(parsed.value.phs, |image|) &&
             (|argv| > UserStack.MAX_STRINGS || |envp| > UserStack.MAX_STRINGS)) ==> r == Err(SegmentOverflow)
    ensures r.Ok? <==> CheckHeader(|image|, parsed, rootSet).Ok? && AllInBounds(parsed.value.phs, |image|) &&
                       |argv| <= UserStack.MAX_STRINGS && |envp| <= UserStack.MAX_STRINGS
    ensures r.Ok? ==> AllInBounds(parsed.value.phs, |image|) &&
                      ProcessImage(s, r.value.0, r.value.1, image, parsed.value, top, bytes, argv, envp)
  {
    var hdr := CheckHeader(|image|, parsed, rootSet);
    if hdr.Err? {
      return Err(hdr.error);
    }
    var h := hdr.value;
    var ok, t, brk := LoadSegments(s, image, h.phs);
    if !ok {
      return Err(PhOutOfBounds);
    }
    var st := UserStack.SetupUserStack(t, top, bytes, argv, envp);
    if st.Err? {
      return Err(st.error);
    }
    var u, f := st.value.0, st.value.1;
    StackOverSegments(s, t, u, f, image, h, top, bytes, argv, envp);
    r := Ok((u, Loaded(h.entry, f.sp, f.argc, f.argv, f.envp, brk)));
  }

  /** The stack set-up on top of the loaded segments gives the final process image. */
  lemma StackOverSegments(s: Space, t: Space, u: Space, f: UserStack.StackFrame, image: seq<Byte>, h: ElfHeader,
                          top: nat, bytes: nat, argv: seq<seq<Byte>>, envp: seq<seq<Byte>>)
    requires AllInBounds(h.phs, |image|) && SegmentsLoaded(s, t, image, h.phs)
    requires UserStack.StackPages(bytes) * SIZE_4K <= top
    requires UserStack.StackImage(u.mem, f, top, argv, envp)
    requires MappedRange(u.pages, t.pages, UserStack.StackBase(top, bytes),
                         UserStack.StackBase(top, bytes) + UserStack.StackPages(bytes) * SIZE_4K, UserStack.STACK_FLAGS)
    requires u.frames == t.frames + UserStack.StackPages(bytes)
    requires SameOutside(t.mem, u.mem, StackLow(top, bytes, f.sp), top)
    ensures ProcessImage(s, u, Loaded(h.entry, f.sp, f.argc, f.argv, f.envp, MaxBrk(h.phs)), image, h, top, bytes, argv, envp)
  {
    var lo := StackLow(top, bytes, f.sp);
    StackPagesOver(s.pages, t.pages, u.pages, h.phs, top, bytes);
    forall j | 0 <= j < |h.phs| && Maps(h.phs[j]) && Survives(h.phs, j) && (SegHi(h.phs[j]) <= lo || top <= SegLo(h.phs[j]))
      ensures SegmentIn(u.mem, image, h.phs[j])
    {
      SegmentKept(t.mem, u.mem, image, h.phs[j], lo, top);
    }
  }

  lemma StackPagesOver(before: map<nat, Flags>, pages: map<nat, Flags>, pages': map<nat, Flags>,
                       phs: seq<ProgramHeader>, top: nat, bytes: nat)
    requires UserStack.StackPages(bytes) * SIZE_4K <= top
    requires PagesAfter(pages, before, phs)
    requires MappedRange(pages', pages, UserStack.StackBase(top, bytes),
                         UserStack.StackBase(top, bytes) + UserStack.StackPages(bytes) * SIZE_4K, UserStack.STACK_FLAGS)
    ensures FinalPages(pages', before, phs, top, bytes)
  {
  }
}

=== FILE: fb_console.dfy ===
/**
  The framebuffer text console (kernel/src/display/fb_console.rs): a cursor
  on a grid of character cells, a blinking cursor bar, and a scroll that moves
  the pixel rows up by one text line.

  Glyph rendering (`draw_char`, `draw_cursor`, `clear_screen`) depends on the
  font tables, which are not part of this model; a glyph drawn at a cell is
  recorded as a `Draw` effect, and a scroll as a `Scroll` effect whose pixel
  work is `ScrollPixels`.  Calls made while no framebuffer is registered or
  before `init_fb_console` return at once; that is the `None` console.
*/
module FbConsole {
  import opened Ascii
  import opened Wrappers

  datatype ConsoleState = ConsoleState(
    cursorX: nat, cursorY: nat,
    widthChars: nat, heightChars: nat,
    fgColor: nat, bgColor: nat,
    cursorVisible: bool, blinkCounter: nat)

  /** What a write does to the screen besides moving the cursor. */
  datatype Effect = Draw(c: Byte, x: nat, y: nat) | Scroll

  const TAB_WIDTH: nat := 8
  const BLINK_PERIOD: nat := 30
  const BACKSPACE: Byte := '\U{8}'

  /** The cursor is on the grid and the blink counter below its period. */
  predicate Valid(s: ConsoleState)
  {
    s.cursorX < s.widthChars && s.cursorY < s.heightChars && s.blinkCounter < BLINK_PERIOD
  }

  /** Only the cursor has moved. */
  predicate SameSettings(s: ConsoleState, t: ConsoleState)
  {
    t.(cursorX := s.cursorX, cursorY := s.cursorY) == s
  }

  predicate IsPrintable(c: Byte)
  {
    32 <= c as int <= 126
  }

  /** `init_fb_console` for a framebuffer of the given pixel size and a font of the given cell size. */
  function InitFbConsole(widthPx: nat, heightPx: nat, fontWidth: nat, fontHeight: nat): (s: ConsoleState)
    requires fontWidth > 0 && fontHeight > 0
    ensures s.cursorX == 0 && s.cursorY == 0 && s.cursorVisible && s.blinkCounter == 0
    ensures s.widthChars * fontWidth <= widthPx < (s.widthChars + 1) * fontWidth
    ensures s.heightChars * fontHeight <= heightPx < (s.heightChars + 1) * fontHeight
    ensures widthPx >= fontWidth && heightPx >= fontHeight ==> Valid(s)
  {
    ConsoleState(0, 0, widthPx / fontWidth, heightPx / fontHeight, 0x00FF_FFFF, 0, true, 0)
  }

  /** The cursor part of `scroll_up`. */
  function ScrollCursor(s: ConsoleState): (t: ConsoleState)
    ensures SameSettings(s, t) && t.cursorX == s.cursorX
    ensures t.cursorY + 1 == s.cursorY || (s.cursorY == 0 && t.cursorY == 0)
  {
    if s.cursorY > 0 then s.(cursorY := s.cursorY - 1) else s
  }

  /** Column 0 of the next line, scrolling once if that line is off the bottom. */
  function NewLine(s: ConsoleState): (r: (ConsoleState, seq<Effect>))
    ensures SameSettings(s, r.0) && r.0.cursorX == 0
    ensures r.1 == [] || r.1 == [Scroll]
    ensures r.1 == [Scroll] <==> s.cursorY + 1 >= s.heightChars
    ensures r.1 == [] ==> r.0.cursorY == s.cursorY + 1
    ensures r.1 == [Scroll] ==> r.0.cursorY == s.cursorY
  {
    var t := s.(cursorX := 0, cursorY := s.cursorY + 1);
    if t.cursorY >= t.heightChars then (ScrollCursor(t), [Scroll]) else (t, [])
  }

  /** The next tab stop after column `x`. */
  function NextTab(x: nat): (n: nat)
    ensures n % TAB_WIDTH == 0 && x < n <= x + TAB_WIDTH
  {
    (x / TAB_WIDTH + 1) * TAB_WIDTH
  }

  /** `write_char_internal`: the new cursor and what was drawn, in order. */
  function WriteCharInternal(s: ConsoleState, c: Byte): (r: (ConsoleState, seq<Effect>))
    ensures SameSettings(s, r.0)
    ensures Valid(s) ==> Valid(r.0)
  {
    if c == '\n' then NewLine(s)
    else if c == '\r' then (s.(cursorX := 0), [])
    else if c == '\t' then
      var next := NextTab(s.cursorX);
      if next < s.widthChars then (s.(cursorX := next), []) else NewLine(s)
    else if c == BACKSPACE then
      if s.cursorX > 0 then
        var t := s.(cursorX := s.cursorX - 1);
        (t, [Draw(' ', t.cursorX, t.cursorY)])
      else (s, [])
    else if IsPrintable(c) then
      var t := s.(cursorX := s.cursorX + 1);
      if t.cursorX >= t.widthChars then
        var n := NewLine(t);
        (n.0, [Draw(c, s.cursorX, s.cursorY)] + n.1)
      else (t, [Draw(c, s.cursorX, s.cursorY)])
    else (s, [])
  }

  /**
    The cursor rules of `write_char_internal`: carriage return goes to column
    0; line feed goes to the next line; tab goes to the next multiple of 8
    or, past the last column, to the next line; backspace steps back and
    blanks the cell unless in column 0; a printable byte is drawn and the
    cursor advances, wrapping at the last column; every other byte is ignored.
  */
  lemma WriteCharCases(s: ConsoleState, c: Byte)
    ensures var r := WriteCharInternal(s, c);
      && (c == '\r' ==> r == (s.(cursorX := 0), []))
      && (c == '\n' ==> r == NewLine(s))
      && (c == '\t' && NextTab(s.cursorX) < s.widthChars ==> r == (s.(cursorX := NextTab(s.cursorX)), []))
      && (c == '\t' && NextTab(s.cursorX) >= s.widthChars ==> r == NewLine(s))
      && (c == BACKSPACE && s.cursorX > 0 ==> r == (s.(cursorX := s.cursorX - 1), [Draw(' ', s.cursorX - 1, s.cursorY)]))
      && (c == BACKSPACE && s.cursorX == 0 ==> r == (s, []))
      && (IsPrintable(c) ==> |r.1| > 0 && r.1[0] == Draw(c, s.cursorX, s.cursorY))
      && (IsPrintable(c) && s.cursorX + 1 < s.widthChars ==> r == (s.(cursorX := s.cursorX + 1), [Draw(c, s.cursorX, s.cursorY)]))
      && (IsPrintable(c) && s.cursorX + 1 >= s.widthChars ==> r.0 == NewLine(s).0 && r.1[1..] == NewLine(s).1)
      && (!IsPrintable(c) && c !in {'\n', '\r', '\t', BACKSPACE} ==> r == (s, []))
  {
  }

  /** `update_cursor`: one tick of the blink counter. */
  function UpdateCursor(s: ConsoleState): (t: ConsoleState)
    ensures t.(cursorVisible := s.cursorVisible, blinkCounter := s.blinkCounter) == s
    ensures t.cursorVisible != s.cursorVisible <==> s.blinkCounter + 1 >= BLINK_PERIOD
    ensures t.blinkCounter < BLINK_PERIOD
    ensures s.blinkCounter + 1 < BLINK_PERIOD ==> t.blinkCounter == s.blinkCounter + 1
  {
    var n := s.blinkCounter + 1;
    if n >= BLINK_PERIOD then s.(cursorVisible := !s.cursorVisible, blinkCounter := 0)
    else s.(blinkCounter := n)
  }

  /** `k` calls of `update_cursor`. */
  function UpdateTimes(s: ConsoleState, k: nat): ConsoleState
    decreases k
  {
    if k == 0 then s else UpdateTimes(UpdateCursor(s), k - 1)
  }

  lemma {:induction false} UpdateCounts(s: ConsoleState, k: nat)
    requires s.blinkCounter + k < BLINK_PERIOD
    ensures UpdateTimes(s, k) == s.(blinkCounter := s.blinkCounter + k)
    decreases k
  {
    if k > 0 {
      UpdateCounts(UpdateCursor(s), k - 1);
    }
  }

  /** Every 30 calls of `update_cursor` flip the cursor's visibility once and bring the counter back. */
  lemma {:induction false} BlinkPeriod(s: ConsoleState)
    requires s.blinkCounter < BLINK_PERIOD
    ensures UpdateTimes(s, BLINK_PERIOD) == s.(cursorVisible := !s.cursorVisible)
  {
    var before := BLINK_PERIOD - 1 - s.blinkCounter;
    UpdateCounts(s, before);
    var t := UpdateTimes(s, before);
    UpdateTimesSplit(s, before, BLINK_PERIOD - before);
    var u := UpdateCursor(t);
    assert u == s.(cursorVisible := !s.cursorVisible, blinkCounter := 0);
    UpdateCounts(u, s.blinkCounter);
  }

  lemma {:induction false} UpdateTimesSplit(s: ConsoleState, j: nat, k: nat)
    ensures UpdateTimes(s, j + k) == UpdateTimes(UpdateTimes(s, j), k)
    decreases j
  {
    if j > 0 {
      UpdateTimesSplit(UpdateCursor(s), j - 1, k);
    }
  }

  /** The cursor and effects after `step` on each byte in turn. */
  function Run(step: (ConsoleState, Byte) -> (ConsoleState, seq<Effect>), s: ConsoleState, bytes: seq<Byte>): (ConsoleState, seq<Effect>)
    decreases |bytes|
  {
    if |bytes| == 0 then (s, [])
    else
      var a := step(s, bytes[0]);
      var b := Run(step, a.0, bytes[1..]);
      (b.0, a.1 + b.1)
  }

  /** Running over `x + y` is running over `x`, then over `y`, whatever the step. */
  lemma {:induction false} RunAppend(step: (ConsoleState, Byte) -> (ConsoleState, seq<Effect>), s: ConsoleState, x: seq<Byte>, y: seq<Byte>)
    ensures Run(step, s, x + y).0 == Run(step, Run(step, s, x).0, y).0
    ensures Run(step, s, x + y).1 == Run(step, s, x).1 + Run(step, Run(step, s, x).0, y).1
    decreases |x|
  {
    if |x| == 0 {
      assert x + y == y;
    } else {
      var a := step(s, x[0]);
      assert (x + y)[0] == x[0];
      assert (x + y)[1..] == x[1..] + y;
      RunAppend(step, a.0, x[1..], y);
      var mid := Run(step, a.0, x[1..]);
      var rest := Run(step, mid.0, y);
      assert a.1 + (mid.1 + rest.1) == (a.1 + mid.1) + rest.1;
    }
  }

  /** `write_char_internal` on each byte in turn. */
  function WriteBytes(s: ConsoleState, bytes: seq<Byte>): (r: (ConsoleState, seq<Effect>))
  {
    Run(WriteCharInternal, s, bytes)
  }

  /** Writing any bytes keeps the cursor on the grid and changes nothing but the cursor. */
  lemma {:induction false} WriteBytesValid(s: ConsoleState, bytes: seq<Byte>)
    ensures SameSettings(s, WriteBytes(s, bytes).0)
    ensures Valid(s) ==> Valid(WriteBytes(s, bytes).0)
    decreases |bytes|
  {
    if |bytes| > 0 {
      WriteBytesValid(WriteCharInternal(s, bytes[0]).0, bytes[1..]);
    }
  }

  /** Writing `x + y` is writing `x`, then `y`. */
  lemma WriteBytesAppend(s: ConsoleState, x: seq<Byte>, y: seq<Byte>)
    ensures WriteBytes(s, x + y).0 == WriteBytes(WriteBytes(s, x).0, y).0
    ensures WriteBytes(s, x + y).1 == WriteBytes(s, x).1 + WriteBytes(WriteBytes(s, x).0, y).1
  {
    RunAppend(WriteCharInternal, s, x, y);
  }

  /** `write_str`: every byte, then one cursor update; a console that is not set up ignores it. */
  function WriteStr(con: Option<ConsoleState>, bytes: seq<Byte>): (r: (Option<ConsoleState>, seq<Effect>))
    ensures con.None? ==> r == (None, [])
    ensures con.Some? ==> r.0.Some? && r.0.value.cursorX == WriteBytes(con.value, bytes).0.cursorX
    ensures con.Some? ==> r.0.value.cursorY == WriteBytes(con.value, bytes).0.cursorY
    ensures con.Some? && Valid(con.value) ==> Valid(r.0.value)
    ensures con.Some? ==> r.0 == Some(UpdateCursor(WriteBytes(con.value, bytes).0)) && r.1 == WriteBytes(con.value, bytes).1
  {
    match con
    case None => (None, [])
    case Some(s) =>
      WriteBytesValid(s, bytes);
      var w := WriteBytes(s, bytes);
      (Some(UpdateCursor(w.0)), w.1)
  }

  /** `write_char`: one byte, then one cursor update. */
  function WriteChar(con: Option<ConsoleState>, c: Byte): (r: (Option<ConsoleState>, seq<Effect>))
    ensures r == WriteStr(con, [c])
  {
    match con
    case None => (None, [])
    case Some(s) =>
      WriteBytesOne(s, c);
      var w := WriteCharInternal(s, c);
      (Some(UpdateCursor(w.0)), w.1)
  }

  lemma WriteBytesOne(s: ConsoleState, c: Byte)
    ensures WriteBytes(s, [c]) == WriteCharInternal(s, c)
  {
    assert [c][1..] == [];
    var w := WriteCharInternal(s, c);
    assert Run(WriteCharInternal, w.0, []) == (w.0, []);
    assert w.1 + [] == w.1;
  }

  /** Backspace right after a printable byte that did not wrap puts the cursor back where it was. */
  lemma BackspaceUndoesPrintable(s: ConsoleState, c: Byte)
    requires IsPrintable(c) && s.cursorX + 1 < s.widthChars
    ensures WriteBytes(s, [c, BACKSPACE]).0 == s
    ensures WriteBytes(s, [c, BACKSPACE]).1 == [Draw(c, s.cursorX, s.cursorY), Draw(' ', s.cursorX, s.cursorY)]
  {
    WriteCharCases(s, c);
    var t := WriteCharInternal(s, c).0;
    WriteCharCases(t, BACKSPACE);
    assert [c, BACKSPACE][1..] == [BACKSPACE];
    WriteBytesOne(t, BACKSPACE);
  }

  /** A line feed on the bottom row scrolls and keeps the cursor on that row. */
  lemma NewLineAtBottom(s: ConsoleState)
    requires Valid(s) && s.cursorY == s.heightChars - 1
    ensures WriteCharInternal(s, '\n') == (s.(cursorX := 0), [Scroll])
  {
  }

  /**
    The pixel part of `scroll_up`: pixel row `y` of the new screen is pixel
    row `y + lineHeight` of the old one, and the last `lineHeight` rows are
    the background colour.  Rows are copied whole; the source's inner loop
    copies the same row pixel by pixel.
  */
  method ScrollPixels(screen: seq<seq<nat>>, lineHeight: nat, bg: nat) returns (out: seq<seq<nat>>)
    requires lineHeight <= |screen|
    requires forall y | 0 <= y < |screen| :: |screen[y]| == |screen[0]|
    ensures |out| == |screen|
    ensures forall y | 0 <= y < |screen| - lineHeight :: out[y] == screen[y + lineHeight]
    ensures forall y | |screen| - lineHeight <= y < |screen| :: out[y] == seq(|screen[0]|, _ => bg)
  {
    out := screen;
    var y := lineHeight;
    while y < |screen|
      invariant lineHeight <= y <= |screen| && |out| == |screen|
      invariant forall k | 0 <= k < y - lineHeight :: out[k] == screen[k + lineHeight]
      invariant forall k | y - lineHeight <= k < |screen| :: out[k] == screen[k]
    {
      out := out[y - lineHeight := out[y]];
      y := y + 1;
    }
    var row := seq(if |screen| == 0 then 0 else |screen[0]|, _ => bg);
    y := |screen| - lineHeight;
    while y < |screen|
      invariant |screen| - lineHeight <= y <= |screen| && |out| == |screen|
      invariant forall k | 0 <= k < |screen| - lineHeight :: out[k] == screen[k + lineHeight]
      invariant forall k | |screen| - lineHeight <= k < y :: out[k] == row
    {
      out := out[y := row];
      y := y + 1;
    }
  }
}

=== FILE: forth_core.dfy ===
/**
  The Forth stack machine of the `forth` library (forth/src/lib.rs): a stack
  of at most 64 `i32` values, words that pop their operands and push their
  result, and a line evaluator that runs whitespace-separated words until
  the first error.

  An error does not roll the stack back: operands popped before the failing
  step stay popped.  `negate` of `i32::MIN` overflows the unchecked `-a`;
  that outcome is `Panicked` here, distinct from the error strings the
  words return.
*/
module ForthCore {
  import opened Wrappers
  import Words
  import Numerals
  import Int32

  const STACK_SIZE: nat := 64

  /** A Rust `i32`. */
  type Value = v: int | Int32.IsI32(v)

  /** The error strings the interpreter returns. */
  datatype Error =
    | StackOverflow | StackUnderflow | StackEmpty | ArithmeticOverflow
    | DivisionByZero | UnknownWord | InvalidCharacterCode

  function Message(e: Error): string
  {
    match e
    case StackOverflow => "Stack overflow"
    case StackUnderflow => "Stack underflow"
    case StackEmpty => "Stack empty"
    case ArithmeticOverflow => "Arithmetic overflow"
    case DivisionByZero => "Division by zero"
    case UnknownWord => "Unknown word"
    case InvalidCharacterCode => "Invalid character code"
  }

  /** The live part of the stack, bottom first: `stack[..sp]`. */
  datatype Forth = Forth(stack: seq<Value>)

  const EMPTY: Forth := Forth([])

  predicate Valid(f: Forth)
  {
    |f.stack| <= STACK_SIZE
  }

  datatype Status = Done | Failed(error: Error) | Panicked

  /** The machine after a step and how the step ended. */
  datatype Step = Step(f: Forth, status: Status)

  function Push(f: Forth, v: Value): (r: Step)
    ensures r.status.Done? <==> |f.stack| < STACK_SIZE
    ensures r.status.Done? ==> r.f.stack == f.stack + [v]
    ensures !r.status.Done? ==> r == Step(f, Failed(StackOverflow))
  {
    if |f.stack| >= STACK_SIZE then Step(f, Failed(StackOverflow)) else Step(Forth(f.stack + [v]), Done)
  }

  function Pop(f: Forth): (r: (Forth, Result<Value, Error>))
    ensures r.1.Err? <==> |f.stack| == 0
    ensures r.1.Err? ==> r == (f, Err(StackUnderflow))
    ensures r.1.Ok? ==> f.stack == r.0.stack + [r.1.value]
  {
    if |f.stack| == 0 then (f, Err(StackUnderflow))
    else (Forth(f.stack[..|f.stack| - 1]), Ok(f.stack[|f.stack| - 1]))
  }

  function Peek(f: Forth): (r: Result<Value, Error>)
    ensures r.Err? <==> |f.stack| == 0
    ensures r.Err? ==> r.error == StackEmpty
    ensures r.Ok? ==> r.value == f.stack[|f.stack| - 1]
  {
    if |f.stack| == 0 then Err(StackEmpty) else Ok(f.stack[|f.stack| - 1])
  }

  /** A pop undoes a push that succeeded. */
  lemma PushPop(f: Forth, v: Value)
    requires |f.stack| < STACK_SIZE
    ensures Pop(Push(f, v).f) == (f, Ok(v))
  {
    assert (f.stack + [v])[..|f.stack|] == f.stack;
  }

  /** Pushing back a popped value restores the stack. */
  lemma PopPush(f: Forth)
    requires Valid(f) && |f.stack| > 0
    ensures Push(Pop(f).0, Pop(f).1.value) == Step(f, Done)
  {
    assert f.stack[..|f.stack| - 1] + [f.stack[|f.stack| - 1]] == f.stack;
  }

  function CheckedAdd(a: Value, b: Value): Option<Value>
  {
    if Int32.IsI32(a + b) then Some(a + b) else None
  }

  function CheckedSub(a: Value, b: Value): Option<Value>
  {
    if Int32.IsI32(a - b) then Some(a - b) else None
  }

  function CheckedMul(a: Value, b: Value): Option<Value>
  {
    if Int32.IsI32(a * b) then Some(a * b) else None
  }

  /** `checked_div`: `None` for a zero divisor or a quotient out of range. */
  function CheckedDiv(a: Value, b: Value): Option<Value>
  {
    if b == 0 || !Int32.IsI32(Int32.TruncDiv(a, b)) then None else Some(Int32.TruncDiv(a, b))
  }

  /** `checked_rem`: `None` for a zero divisor or when `a / b` is out of range. */
  function CheckedRem(a: Value, b: Value): Option<Value>
  {
    if b == 0 || !Int32.IsI32(Int32.TruncDiv(a, b)) then None
    else
      var r := Int32.TruncRem(a, b);
      assert Int32.IsI32(b);
      assert Int32.Abs(r) < Int32.Abs(b) <= 0x8000_0000;
      Some(r)
  }

  /** A binary word; `None` means the result does not fit an `i32`. */
  type BinOp = (Value, Value) -> Option<Value>

  /** Forth's flags: all bits set for true. */
  function Flag(b: bool): Value
  {
    if b then -1 else 0
  }

  function EqOp(a: Value, b: Value): Option<Value> { Some(Flag(a == b)) }
  function LtOp(a: Value, b: Value): Option<Value> { Some(Flag(a < b)) }
  function GtOp(a: Value, b: Value): Option<Value> { Some(Flag(a > b)) }
  function AndOp(a: Value, b: Value): Option<Value> { Some(Int32.BitAnd(a, b)) }
  function OrOp(a: Value, b: Value): Option<Value> { Some(Int32.BitOr(a, b)) }
  function XorOp(a: Value, b: Value): Option<Value> { Some(Int32.BitXor(a, b)) }

  function InvertOp(a: Value): Option<Value> { Some(Int32.BitNot(a)) }

  /** Unchecked `-a`: only `i32::MIN` overflows. */
  function NegateOp(a: Value): Option<Value>
  {
    var n: int := -(a as int);
    if Int32.IsI32(n) then Some(n) else None
  }

  /** Pop `b`, pop `a`, push `op(a, b)`; a result out of range is an overflow. */
  function Binary(f: Forth, op: BinOp): (r: Step)
    ensures Valid(f) ==> Valid(r.f)
  {
    var (f1, rb) := Pop(f);
    if rb.Err? then Step(f1, Failed(rb.error))
    else
      var (f2, ra) := Pop(f1);
      if ra.Err? then Step(f2, Failed(ra.error))
      else match op(ra.value, rb.value)
        case None => Step(f2, Failed(ArithmeticOverflow))
        case Some(v) => Push(f2, v)
  }

  /** `/` and `mod`: the divisor is popped and checked before the dividend is popped. */
  function Division(f: Forth, op: BinOp): (r: Step)
    ensures Valid(f) ==> Valid(r.f)
  {
    var (f1, rb) := Pop(f);
    if rb.Err? then Step(f1, Failed(rb.error))
    else if rb.value == 0 then Step(f1, Failed(DivisionByZero))
    else
      var (f2, ra) := Pop(f1);
      if ra.Err? then Step(f2, Failed(ra.error))
      else match op(ra.value, rb.value)
        case None => Step(f2, Failed(ArithmeticOverflow))
        case Some(v) => Push(f2, v)
  }

  /** Pop one value and push `op` of it; `None` is the unchecked overflow. */
  function Unary(f: Forth, op: Value -> Option<Value>): (r: Step)
    ensures Valid(f) ==> Valid(r.f)
  {
    var (f1, ra) := Pop(f);
    if ra.Err? then Step(f1, Failed(ra.error))
    else match op(ra.value)
      case None => Step(f1, Panicked)
      case Some(v) => Push(f1, v)
  }

  function Dup(f: Forth): (r: Step)
    ensures Valid(f) ==> Valid(r.f)
  {
    match Peek(f)
    case Err(e) => Step(f, Failed(e))
    case Ok(a) => Push(f, a)
  }

  function Drop(f: Forth): (r: Step)
    ensures Valid(f) ==> Valid(r.f)
  {
    var (f1, ra) := Pop(f);
    if ra.Err? then Step(f1, Failed(ra.error)) else Step(f1, Done)
  }

  function Swap(f: Forth): (r: Step)
    ensures Valid(f) ==> Valid(r.f)
  {
    var (f1, rb) := Pop(f);
    if rb.Err? then Step(f1, Failed(rb.error))
    else
      var (f2, ra) := Pop(f1);
      if ra.Err? then Step(f2, Failed(ra.error))
      else
        var s := Push(f2, rb.value);
        if !s.status.Done? then s else Push(s.f, ra.value)
  }

  function Over(f: Forth): (r: Step)
    ensures Valid(f) ==> Valid(r.f)
  {
    if |f.stack| < 2 then Step(f, Failed(StackUnderflow))
    else Push(f, f.stack[|f.stack| - 2])
  }

  /** `( a b c -- b c a )`, checked for depth 3 before anything is popped. */
  function Rot(f: Forth): (r: Step)
    ensures Valid(f) ==> Valid(r.f)
  {
    if |f.stack| < 3 then Step(f, Failed(StackUnderflow))
    else
      var n := |f.stack|;
      var a, b, c := f.stack[n - 3], f.stack[n - 2], f.stack[n - 1];
      var s1 := Push(Forth(f.stack[..n - 3]), b);
      var s2 := Push(s1.f, c);
      Push(s2.f, a)
  }

  /** A run of decimal digits whose value fits `i32::MAX`. */
  function Magnitude(m: string): (r: Option<nat>)
    ensures r.Some? <==> |m| > 0 && Numerals.AllDigits(m, 10) && Numerals.Value(m, 10) <= Int32.MAX
    ensures r.Some? ==> r.value == Numerals.Value(m, 10)
  {
    if |m| > 0 && Numerals.AllDigits(m, 10) && Numerals.Value(m, 10) <= Int32.MAX then Some(Numerals.Value(m, 10))
    else None
  }

  /**
    The numbers the library's `parse_number` accepts: an optional `-` and one
    or more decimal digits whose magnitude fits `i32::MAX`, plus the literal
    text of `i32::MIN`, which is special-cased.
  */
  function LibNumber(s: string): Option<Value>
  {
    if s == "-2147483648" then Some(Int32.MIN)
    else if |s| > 0 && s[0] == '-' then
      match Magnitude(s[1..])
      case None => None
      case Some(m) => Some(-(m as int))
    else match Magnitude(s)
      case None => None
      case Some(m) => Some(m)
  }

  /** `execute_word`, with the number parser of the caller's copy of the interpreter. */
  function ExecuteWordWith(parse: string -> Option<Value>, f: Forth, w: string): (r: Step)
    ensures Valid(f) ==> Valid(r.f)
  {
    if w == "+" then Binary(f, CheckedAdd)
    else if w == "-" then Binary(f, CheckedSub)
    else if w == "*" then Binary(f, CheckedMul)
    else if w == "/" then Division(f, CheckedDiv)
    else if w == "mod" then Division(f, CheckedRem)
    else if w == "dup" then Dup(f)
    else if w == "drop" then Drop(f)
    else if w == "swap" then Swap(f)
    else if w == "over" then Over(f)
    else if w == "rot" then Rot(f)
    else if w == "=" then Binary(f, EqOp)
    else if w == "<" then Binary(f, LtOp)
    else if w == ">" then Binary(f, GtOp)
    else if w == "and" then Binary(f, AndOp)
    else if w == "or" then Binary(f, OrOp)
    else if w == "xor" then Binary(f, XorOp)
    else if w == "invert" then Unary(f, InvertOp)
    else if w == "negate" then Unary(f, NegateOp)
    else if w == "true" then Push(f, -1)
    else if w == "false" then Push(f, 0)
    else if w == "" then Step(f, Done)
    else match parse(w)
      case None => Step(f, Failed(UnknownWord))
      case Some(v) => Push(f, v)
  }

  /** `Forth::execute_word` of the library. */
  function ExecuteWord(f: Forth, w: string): Step
  {
    ExecuteWordWith(LibNumber, f, w)
  }

  /** The words of a line run in order until one does not finish. */
  function EvalWords(f: Forth, ws: seq<string>): (r: Step)
    ensures Valid(f) ==> Valid(r.f)
    decreases |ws|
  {
    if |ws| == 0 then Step(f, Done)
    else
      var s := ExecuteWord(f, ws[0]);
      if !s.status.Done? then s else EvalWords(s.f, ws[1..])
  }

  /** `Forth::eval`: split the line at whitespace and run its words. */
  function EvalLine(f: Forth, line: string): Step
  {
    EvalWords(f, Words.Split(line))
  }

  /** A decimal digit as `char::to_digit(10)` accepts it. */
  predicate IsDecimal(c: char)
  {
    Numerals.DigitVal(c) < 10
  }

  /**
    `parse_number` of the library: the sign, then the digits one at a time
    with `checked_mul(10)` and `checked_add`, then `checked_neg`.
  */
  method ParseNumber(s: string) returns (r: Option<Value>)
    ensures r == LibNumber(s)
  {
    if |s| == 0 {
      return None;
    }
    if s == "-2147483648" {
      return Some(Int32.MIN);
    }
    if s[0] == '-' {
      if |s| == 1 {
        return None;
      }
      var m := Accumulate(s, 1);
      if m.None? {
        return None;
      }
      return Some(-(m.value as int));
    } else if IsDecimal(s[0]) {
      var m := Accumulate(s, 0);
      if m.None? {
        return None;
      }
      return Some(m.value);
    } else {
      assert !Numerals.AllDigits(s, 10);
      return None;
    }
  }

  /** The digit loop of `parse_number`, from index `k` on, in checked `i32` arithmetic. */
  method Accumulate(s: string, k: nat) returns (r: Option<nat>)
    requires k < |s|
    ensures r == Magnitude(s[k..])
  {
    var result := 0;
    var i := k;
    assert s[k..i] == [];
    while i < |s|
      invariant k <= i <= |s|
      invariant Numerals.AllDigits(s[k..i], 10)
      invariant result == Numerals.Value(s[k..i], 10) <= Int32.MAX
    {
      var c := s[i];
      if !IsDecimal(c) {
        NotADigit(s, k, i);
        return None;
      }
      DigitStep(s, k, i);
      if !Int32.IsI32(result * 10) || !Int32.IsI32(result * 10 + Numerals.DigitVal(c)) {
        NumberTooLong(s, k, i + 1);
        return None;
      }
      result := result * 10 + Numerals.DigitVal(c);
      i := i + 1;
    }
    assert s[k..i] == s[k..];
    return Some(result);
  }

  lemma DigitStep(s: string, k: nat, i: nat)
    requires k <= i < |s| && Numerals.AllDigits(s[k..i], 10) && IsDecimal(s[i])
    ensures Numerals.AllDigits(s[k..i + 1], 10)
    ensures Numerals.Value(s[k..i + 1], 10) == Numerals.Value(s[k..i], 10) * 10 + Numerals.DigitVal(s[i])
  {
    assert s[k..i + 1] == s[k..i] + [s[i]];
    Numerals.ValueAppend(s[k..i], s[i], 10);
  }

  lemma NotADigit(s: string, k: nat, i: nat)
    requires k <= i < |s| && !IsDecimal(s[i])
    ensures Magnitude(s[k..]).None?
  {
    assert s[k..][i - k] == s[i];
  }

  /** Once a prefix of the digits exceeds `i32::MAX`, so does the whole run, or it is no run of digits. */
  lemma NumberTooLong(s: string, k: nat, j: nat)
    requires k <= j <= |s| && Numerals.AllDigits(s[k..j], 10) && Numerals.Value(s[k..j], 10) > Int32.MAX
    ensures Magnitude(s[k..]).None?
  {
    if Numerals.AllDigits(s[k..], 10) {
      Numerals.ValuePrefix(s[k..], j - k, 10);
      assert s[k..][..j - k] == s[k..j];
    }
  }

  /** The number parser's documented valid inputs. */
  lemma LibNumberAccepts()
    ensures LibNumber("42") == Some(42) && LibNumber("0") == Some(0)
    ensures LibNumber("-42") == Some(-42) && LibNumber("-2147483648") == Some(Int32.MIN)
  {
    assert Numerals.Digits(42, 10) == "42";
    assert Numerals.Digits(0, 10) == "0";
    assert "-42"[1..] == "42";
  }

  /** The number parser's documented invalid inputs. */
  lemma LibNumberRejects()
    ensures LibNumber("abc") == None && LibNumber("12a3") == None
    ensures LibNumber("") == None && LibNumber("-") == None
  {
    assert !Numerals.AllDigits("abc", 10) by { assert Numerals.DigitVal("abc"[0]) == 10; }
    assert !Numerals.AllDigits("12a3", 10) by { assert Numerals.DigitVal("12a3"[2]) == 10; }
  }

  /** Reading back a printed magnitude gives it, as long as it fits `i32::MAX`. */
  lemma ParsePrinted(n: nat)
    ensures LibNumber(Numerals.Digits(n, 10)) == if n <= Int32.MAX then Some(n) else None
  {
    var d := Numerals.Digits(n, 10);
    assert d[0] != '-' by {
      assert Numerals.DigitVal(d[0]) < 10;
    }
  }

  /**
    Reading back a printed negative number gives it, down to `i32::MIN`,
    which only the special case lets through.
  */
  lemma ParsePrintedNegative(n: nat)
    ensures LibNumber("-" + Numerals.Digits(n, 10)) ==
      if n <= Int32.MAX then Some(-(n as int)) else if n == Int32.MAX + 1 then Some(Int32.MIN) else None
  {
    var d := Numerals.Digits(n, 10);
    var s := "-" + d;
    assert s[1..] == d;
    SpecialCaseOnlyAtMin(n);
  }

  /** `i32::MIN` with a leading zero misses the special case and overflows the magnitude. */
  lemma LeadingZeroMin()
    ensures LibNumber("-0" + Numerals.Digits(Int32.MAX + 1, 10)) == None
  {
    var d := Numerals.Digits(Int32.MAX + 1, 10);
    var s := "-0" + d;
    assert s[1..] == "0" + d;
    Numerals.LeadingZero(d, 10);
    assert s != "-2147483648" by {
      assert s[1] == '0';
    }
  }

  lemma SpecialCaseOnlyAtMin(n: nat)
    ensures "-" + Numerals.Digits(n, 10) == "-2147483648" <==> n == 2147483648
  {
    PastMaxDigits();
    var d := Numerals.Digits(n, 10);
    if "-" + d == "-2147483648" {
      assert d == ("-" + d)[1..] == "2147483648";
      assert n == Numerals.Value(d, 10) == Numerals.Value(Numerals.Digits(2147483648, 10), 10);
    }
  }

  lemma PastMaxDigits()
    ensures Numerals.Digits(2147483648, 10) == "2147483648"
  {
  }

  /** `eval` as a loop over the words of the line, stopping at the first word that does not finish. */
  method Eval(f: Forth, line: string) returns (r: Step)
    ensures r == EvalLine(f, line)
  {
    var ws := Words.Split(line);
    var cur := f;
    var i := 0;
    while i < |ws|
      invariant 0 <= i <= |ws|
      invariant EvalWords(cur, ws[i..]) == EvalWords(f, ws)
    {
      var s := ExecuteWord(cur, ws[i]);
      if !s.status.Done? {
        return s;
      }
      cur := s.f;
      i := i + 1;
    }
    return Step(cur, Done);
  }

  /**
    Running two runs of words in a row is running their concatenation: the
    second part starts from where the first left the stack, and only if the
    first finished.
  */
  lemma {:induction false} EvalAppend(f: Forth, a: seq<string>, b: seq<string>)
    ensures EvalWords(f, a + b) ==
      (var s := EvalWords(f, a); if s.status.Done? then EvalWords(s.f, b) else s)
    decreases |a|
  {
    if |a| > 0 {
      assert (a + b)[0] == a[0] && (a + b)[1..] == a[1..] + b;
      var s := ExecuteWord(f, a[0]);
      if s.status.Done? {
        EvalAppend(s.f, a[1..], b);
      }
    } else {
      assert a + b == b;
    }
  }

  lemma PopTwo(s: seq<Value>, a: Value, b: Value)
    ensures Pop(Forth(s + [a, b])) == (Forth(s + [a]), Ok(b))
    ensures Pop(Forth(s + [a])) == (Forth(s), Ok(a))
  {
    assert (s + [a, b])[..|s| + 1] == s + [a];
    assert (s + [a])[..|s|] == s;
  }

  /** A binary word replaces the top two values by its result, or drops both on overflow. */
  lemma BinaryEffect(s: seq<Value>, a: Value, b: Value, op: BinOp)
    requires |s| + 2 <= STACK_SIZE
    ensures Binary(Forth(s + [a, b]), op) ==
      match op(a, b)
      case None => Step(Forth(s), Failed(ArithmeticOverflow))
      case Some(v) => Step(Forth(s + [v]), Done)
  {
    PopTwo(s, a, b);
  }

  /** `+`, `-` and `*` are the checked `i32` operations: `( a b -- a op b )`. */
  lemma ArithmeticWords(s: seq<Value>, a: Value, b: Value)
    requires |s| + 2 <= STACK_SIZE
    ensures ExecuteWord(Forth(s + [a, b]), "+") ==
      if Int32.IsI32(a + b) then Step(Forth(s + [a + b]), Done) else Step(Forth(s), Failed(ArithmeticOverflow))
    ensures ExecuteWord(Forth(s + [a, b]), "-") ==
      if Int32.IsI32(a - b) then Step(Forth(s + [a - b]), Done) else Step(Forth(s), Failed(ArithmeticOverflow))
    ensures ExecuteWord(Forth(s + [a, b]), "*") ==
      if Int32.IsI32(a * b) then Step(Forth(s + [a * b]), Done) else Step(Forth(s), Failed(ArithmeticOverflow))
  {
    BinaryEffect(s, a, b, CheckedAdd);
    BinaryEffect(s, a, b, CheckedSub);
    BinaryEffect(s, a, b, CheckedMul);
  }

  /**
    `/` and `mod` truncate toward zero; a zero divisor is reported after it
    has been popped, with the dividend left on the stack, and only
    `i32::MIN / -1` overflows.
  */
  lemma DivisionWords(s: seq<Value>, a: Value, b: Value)
    requires |s| + 2 <= STACK_SIZE
    ensures b == 0 ==> ExecuteWord(Forth(s + [a, b]), "/") == Step(Forth(s + [a]), Failed(DivisionByZero))
    ensures b == 0 ==> ExecuteWord(Forth(s + [a, b]), "mod") == Step(Forth(s + [a]), Failed(DivisionByZero))
    ensures b != 0 && (a, b) == (Int32.MIN, -1) ==>
      ExecuteWord(Forth(s + [a, b]), "/") == Step(Forth(s), Failed(ArithmeticOverflow)) &&
      ExecuteWord(Forth(s + [a, b]), "mod") == Step(Forth(s), Failed(ArithmeticOverflow))
    ensures b != 0 && (a, b) != (Int32.MIN, -1) ==>
      ExecuteWord(Forth(s + [a, b]), "/") == Step(Forth(s + [Int32.TruncDiv(a, b)]), Done) &&
      ExecuteWord(Forth(s + [a, b]), "mod") == Step(Forth(s + [Int32.TruncRem(a, b)]), Done)
  {
    PopTwo(s, a, b);
    if b != 0 {
      Int32.DivOverflowOnlyAtMin(a, b);
    }
  }

  /** When both `/` and `mod` succeed, quotient times divisor plus remainder is the dividend. */
  lemma DivModIdentity(s: seq<Value>, a: Value, b: Value)
    requires |s| + 2 <= STACK_SIZE
    requires ExecuteWord(Forth(s + [a, b]), "/").status.Done?
    ensures ExecuteWord(Forth(s + [a, b]), "mod").status.Done?
    ensures var q := ExecuteWord(Forth(s + [a, b]), "/").f.stack[|s|];
            var r := ExecuteWord(Forth(s + [a, b]), "mod").f.stack[|s|];
            q * b + r == a && Int32.Abs(r) < Int32.Abs(b)
  {
    DivisionWords(s, a, b);
  }

  /** The stack words rearrange the top of the stack as their comments say. */
  lemma StackWords(s: seq<Value>, a: Value, b: Value, c: Value)
    requires |s| + 3 < STACK_SIZE
    ensures ExecuteWord(Forth(s + [a]), "dup") == Step(Forth(s + [a, a]), Done)
    ensures ExecuteWord(Forth(s + [a]), "drop") == Step(Forth(s), Done)
    ensures ExecuteWord(Forth(s + [a, b]), "swap") == Step(Forth(s + [b, a]), Done)
    ensures ExecuteWord(Forth(s + [a, b]), "over") == Step(Forth(s + [a, b, a]), Done)
    ensures ExecuteWord(Forth(s + [a, b, c]), "rot") == Step(Forth(s + [b, c, a]), Done)
  {
    PopTwo(s, a, b);
    assert (s + [a]) + [a] == s + [a, a];
    assert (s + [b]) + [a] == s + [b, a];
    assert (s + [a, b])[|s|] == a;
    assert (s + [a, b]) + [a] == s + [a, b, a];
    var t := s + [a, b, c];
    assert t[..|s|] == s && t[|s|] == a && t[|s| + 1] == b && t[|s| + 2] == c;
    assert s + [b] + [c] + [a] == s + [b, c, a];
  }

  /** Comparisons push Forth's flags: -1 for true, 0 for false. */
  lemma ComparisonWords(s: seq<Value>, a: Value, b: Value)
    requires |s| + 2 <= STACK_SIZE
    ensures ExecuteWord(Forth(s + [a, b]), "=") == Step(Forth(s + [if a == b then -1 else 0]), Done)
    ensures ExecuteWord(Forth(s + [a, b]), "<") == Step(Forth(s + [if a < b then -1 else 0]), Done)
    ensures ExecuteWord(Forth(s + [a, b]), ">") == Step(Forth(s + [if a > b then -1 else 0]), Done)
  {
    BinaryEffect(s, a, b, EqOp);
    BinaryEffect(s, a, b, LtOp);
    BinaryEffect(s, a, b, GtOp);
  }

  /** `invert` complements every bit, which in two's complement is `-a - 1`. */
  lemma InvertWord(s: seq<Value>, a: Value)
    requires |s| + 1 <= STACK_SIZE
    ensures ExecuteWord(Forth(s + [a]), "invert") == Step(Forth(s + [Int32.BitNot(a)]), Done)
    ensures Int32.BitNot(a) == -(a as int) - 1
  {
    assert (s + [a])[..|s|] == s;
    Int32.NotIsNegMinusOne(a);
  }

  /** `negate` pushes `-a`; its unchecked negation overflows only at `i32::MIN`. */
  lemma NegateWord(s: seq<Value>, a: Value)
    requires |s| + 1 <= STACK_SIZE
    ensures a == Int32.MIN ==> ExecuteWord(Forth(s + [a]), "negate") == Step(Forth(s), Panicked)
    ensures a != Int32.MIN ==> ExecuteWord(Forth(s + [a]), "negate") == Push(Forth(s), -a)
  {
    assert (s + [a])[..|s|] == s;
  }

  /** The words that pop two operands before they check anything. */
  const POPS_TWO: set<string> := {"+", "-", "*", "=", "<", ">", "and", "or", "xor", "swap"}

  /** The words that pop one operand before they check anything. */
  const POPS_ONE: set<string> := {"drop", "invert", "negate"}

  /**
    A word short of operands fails and leaves behind what it had already
    popped: a two-operand word on one value pops it, `/` and `mod` report a
    zero divisor before they reach the missing operand, `dup` reports an
    empty stack, while `over` and `rot` check the depth first and keep the
    stack.
  */
  lemma NoRollback(w: string, x: Value, y: Value)
    ensures w in POPS_TWO ==> ExecuteWord(EMPTY, w) == Step(EMPTY, Failed(StackUnderflow))
    ensures w in POPS_TWO ==> ExecuteWord(Forth([x]), w) == Step(EMPTY, Failed(StackUnderflow))
    ensures w in POPS_ONE ==> ExecuteWord(EMPTY, w) == Step(EMPTY, Failed(StackUnderflow))
    ensures w in {"/", "mod"} && x == 0 ==> ExecuteWord(Forth([x]), w) == Step(EMPTY, Failed(DivisionByZero))
    ensures w in {"/", "mod"} && x != 0 ==> ExecuteWord(Forth([x]), w) == Step(EMPTY, Failed(StackUnderflow))
    ensures ExecuteWord(Forth([x]), "over") == Step(Forth([x]), Failed(StackUnderflow))
    ensures ExecuteWord(Forth([x, y]), "rot") == Step(Forth([x, y]), Failed(StackUnderflow))
    ensures ExecuteWord(EMPTY, "dup") == Step(EMPTY, Failed(StackEmpty))
  {
    assert [x][..0] == [];
  }

  /** A full stack refuses a push and stays as it is. */
  lemma FullStack(f: Forth)
    requires |f.stack| == STACK_SIZE
    ensures ExecuteWord(f, "42") == Step(f, Failed(StackOverflow))
    ensures ExecuteWord(f, "true") == Step(f, Failed(StackOverflow))
    ensures ExecuteWord(f, "dup") == Step(f, Failed(StackOverflow))
  {
    LibNumberAccepts();
  }

  /** A one-digit numeral is read as its value. */
  lemma SingleDigit(n: nat)
    requires n < 10
    ensures LibNumber([Numerals.DIGITS[n]]) == Some(n)
  {
    ParsePrinted(n);
  }

  /** A one-digit word pushes its value. */
  lemma DigitWord(f: Forth, n: nat)
    requires n < 10
    ensures ExecuteWord(f, [Numerals.DIGITS[n]]) == Push(f, n)
  {
    SingleDigit(n);
  }

  /** A word that is neither defined nor a number is an error. */
  lemma UnknownWordExample()
    ensures EvalWords(EMPTY, ["notaword"]) == Step(EMPTY, Failed(UnknownWord))
  {
    assert !Numerals.AllDigits("notaword", 10) by { assert Numerals.DigitVal("notaword"[0]) == 16; }
  }
}

=== FILE: forth_repl.dfy ===
/**
  The interactive Forth program (forth/src/main.rs).  It carries its own copy
  of the interpreter, which adds the output words `.`, `.s`, `cr` and
  `emit` and uses a different number parser, and a read-evaluate loop that
  prompts with "ok ", edits a line of up to 127 bytes, handles `bye`,
  `quit` and `words` itself and reports errors as "Error: <message>".

  Output is the sequence of characters the program writes.
*/
module ForthRepl {
  import opened Wrappers
  import Words
  import Numerals
  import Int32
  import LineEditor
  import ForthCore
  import opened Ascii

  type Value = ForthCore.Value
  type Forth = ForthCore.Forth

  /**
    The number parser of the program: a `-` alone reads as 0 and the magnitude
    must fit `i32::MAX` before it is negated, so `i32::MIN` cannot be typed.
  */
  function ReplNumber(s: string): Option<Value>
  {
    if |s| == 0 then None
    else if s[0] == '-' then
      if |s| == 1 then Some(0)
      else match ForthCore.Magnitude(s[1..])
        case None => None
        case Some(m) => Some(-(m as int))
    else match ForthCore.Magnitude(s)
      case None => None
      case Some(m) => Some(m)
  }

  /** `parse_number` of the program, digit by digit in checked `i32` arithmetic. */
  method ParseNumber(s: string) returns (r: Option<Value>)
    ensures r == ReplNumber(s)
  {
    if |s| == 0 {
      return None;
    }
    if s[0] == '-' {
      if |s| == 1 {
        return Some(0);
      }
      var m := ForthCore.Accumulate(s, 1);
      if m.None? {
        return None;
      }
      return Some(-(m.value as int));
    } else if ForthCore.IsDecimal(s[0]) {
      var m := ForthCore.Accumulate(s, 0);
      if m.None? {
        return None;
      }
      return Some(m.value);
    } else {
      assert !Numerals.AllDigits(s, 10);
      return None;
    }
  }

  /** The two number parsers differ on exactly two texts: a lone `-` and `i32::MIN`. */
  lemma NumberParsersAgree(s: string)
    ensures s != "-" && s != "-2147483648" ==> ReplNumber(s) == ForthCore.LibNumber(s)
    ensures ReplNumber("-") == Some(0) && ForthCore.LibNumber("-") == None
    ensures ReplNumber("-2147483648") == None && ForthCore.LibNumber("-2147483648") == Some(Int32.MIN)
  {
    var t := "2147483648";
    ForthCore.PastMaxDigits();
    assert "-2147483648"[1..] == t;
  }

  /** The library parser reads back every printed `i32`; the program's parser all but `i32::MIN`. */
  lemma DecimalRoundTrip(v: Value)
    ensures ForthCore.LibNumber(Numerals.Decimal(v)) == Some(v)
    ensures v != Int32.MIN ==> ReplNumber(Numerals.Decimal(v)) == Some(v)
  {
    assert Int32.IsI32(v);
    if v < 0 {
      var n: nat := -(v as int);
      PrintedNegative(n);
      var d := "-" + Numerals.Digits(n, 10);
      assert Numerals.Decimal(v) == d;
      assert ForthCore.LibNumber(d) == Some(v);
    } else {
      var n: nat := v as int;
      PrintedNonNegative(n);
      var d := Numerals.Digits(n, 10);
      assert Numerals.Decimal(v) == d;
      assert ForthCore.LibNumber(d) == Some(v);
    }
  }

  lemma PrintedNonNegative(n: nat)
    requires n <= Int32.MAX
    ensures ForthCore.LibNumber(Numerals.Digits(n, 10)) == Some(n)
    ensures ReplNumber(Numerals.Digits(n, 10)) == Some(n)
  {
    ForthCore.ParsePrinted(n);
    var d := Numerals.Digits(n, 10);
    assert Numerals.DigitVal(d[0]) < 10;
  }

  lemma PrintedNegative(n: nat)
    requires 1 <= n <= Int32.MAX + 1
    ensures ForthCore.LibNumber("-" + Numerals.Digits(n, 10)) == Some(-(n as int))
    ensures n <= Int32.MAX ==> ReplNumber("-" + Numerals.Digits(n, 10)) == Some(-(n as int))
  {
    ForthCore.ParsePrintedNegative(n);
    var d := Numerals.Digits(n, 10);
    assert ("-" + d)[1..] == d;
  }

  /** The stack as `.s` prints it: each value followed by a space. */
  function Listing(stack: seq<Value>): string
    decreases |stack|
  {
    if |stack| == 0 then [] else Listing(stack[..|stack| - 1]) + Numerals.Decimal(stack[|stack| - 1]) + " "
  }

  /** A word's effect on the machine, and what it printed. */
  datatype Outcome = Outcome(step: ForthCore.Step, out: string)

  predicate IsOutputWord(w: string)
  {
    w == "." || w == ".s" || w == "cr" || w == "emit"
  }

  /** `execute_word` of the program. */
  function ExecuteWord(f: Forth, w: string): Outcome
  {
    if w == "." then
      var (f1, r) := ForthCore.Pop(f);
      if r.Err? then Outcome(ForthCore.Step(f1, ForthCore.Failed(r.error)), "")
      else Outcome(ForthCore.Step(f1, ForthCore.Done), Numerals.Decimal(r.value) + " \n")
    else if w == ".s" then
      Outcome(ForthCore.Step(f, ForthCore.Done), "<" + Numerals.Digits(|f.stack|, 10) + "> " + Listing(f.stack) + "\n")
    else if w == "cr" then
      Outcome(ForthCore.Step(f, ForthCore.Done), "\n")
    else if w == "emit" then
      var (f1, r) := ForthCore.Pop(f);
      if r.Err? then Outcome(ForthCore.Step(f1, ForthCore.Failed(r.error)), "")
      else if 0 <= r.value <= 127 then Outcome(ForthCore.Step(f1, ForthCore.Done), [r.value as char])
      else Outcome(ForthCore.Step(f1, ForthCore.Failed(ForthCore.InvalidCharacterCode)), "")
    else Outcome(ForthCore.ExecuteWordWith(ReplNumber, f, w), "")
  }

  /** Outside the output words and the one number it reads differently, the program's interpreter is the library's. */
  lemma WordsAgree(f: Forth, w: string)
    requires !IsOutputWord(w) && w != "-2147483648"
    ensures ExecuteWord(f, w) == Outcome(ForthCore.ExecuteWord(f, w), "")
  {
    NumberParsersAgree(w);
  }

  /** `.` pops exactly one value and prints it followed by a space and a newline. */
  lemma DotWord(s: seq<Value>, v: Value)
    ensures ExecuteWord(ForthCore.Forth(s + [v]), ".") ==
      Outcome(ForthCore.Step(ForthCore.Forth(s), ForthCore.Done), Numerals.Decimal(v) + " \n")
  {
    assert (s + [v])[..|s|] == s;
  }

  /** `.s` and `cr` leave the stack as it is. */
  lemma ListingWordsKeepStack(f: Forth)
    ensures ExecuteWord(f, ".s").step == ForthCore.Step(f, ForthCore.Done)
    ensures ExecuteWord(f, "cr") == Outcome(ForthCore.Step(f, ForthCore.Done), "\n")
    ensures ExecuteWord(f, ".s").out[..1] == "<"
  {
  }

  /** `emit` pops one value and prints it as a character when it is 0..127; otherwise the value is gone and the word fails. */
  lemma EmitWord(s: seq<Value>, v: Value)
    ensures 0 <= v <= 127 ==> (ExecuteWord(ForthCore.Forth(s + [v]), "emit") ==
      Outcome(ForthCore.Step(ForthCore.Forth(s), ForthCore.Done), [v as char]))
    ensures !(0 <= v <= 127) ==> (ExecuteWord(ForthCore.Forth(s + [v]), "emit") ==
      Outcome(ForthCore.Step(ForthCore.Forth(s), ForthCore.Failed(ForthCore.InvalidCharacterCode)), ""))
    ensures ExecuteWord(ForthCore.EMPTY, "emit").step.status == ForthCore.Failed(ForthCore.StackUnderflow)
  {
    assert (s + [v])[..|s|] == s;
  }

  /** The words of a line run in order until one does not finish; the output of those that ran is kept. */
  function EvalWords(f: Forth, ws: seq<string>): Outcome
    decreases |ws|
  {
    if |ws| == 0 then Outcome(ForthCore.Step(f, ForthCore.Done), "")
    else
      var o := ExecuteWord(f, ws[0]);
      if !o.step.status.Done? then o
      else
        var rest := EvalWords(o.step.f, ws[1..]);
        Outcome(rest.step, o.out + rest.out)
  }

  /** `Forth::eval` of the program. */
  method Eval(f: Forth, line: string) returns (r: Outcome)
    ensures r == EvalWords(f, Words.Split(line))
  {
    var ws := Words.Split(line);
    var cur := f;
    var out := "";
    var i := 0;
    while i < |ws|
      invariant 0 <= i <= |ws|
      invariant EvalWords(f, ws) == (var rest := EvalWords(cur, ws[i..]); Outcome(rest.step, out + rest.out))
    {
      var o := ExecuteWord(cur, ws[i]);
      assert ws[i..][0] == ws[i] && ws[i..][1..] == ws[i + 1..];
      if !o.step.status.Done? {
        return Outcome(o.step, out + o.out);
      }
      out := out + o.out;
      cur := o.step.f;
      i := i + 1;
    }
    return Outcome(ForthCore.Step(cur, ForthCore.Done), out);
  }

  /** `str::trim`: drop leading and trailing whitespace. */
  function Trim(s: string): (t: string)
    ensures |t| <= |s|
    ensures |t| > 0 ==> !Words.IsWhitespace(t[0]) && !Words.IsWhitespace(t[|t| - 1])
    decreases |s|
  {
    if |s| > 0 && Words.IsWhitespace(s[0]) then Trim(s[1..])
    else if |s| > 0 && Words.IsWhitespace(s[|s| - 1]) then Trim(s[..|s| - 1])
    else s
  }

  const BUFFER_SIZE: nat := 128
  const GOODBYE: string := "Goodbye!\n"
  const HELP: string :=
    "Available words:\n" +
    "  Arithmetic: + - * / mod\n" +
    "  Stack:      dup drop swap over rot\n" +
    "  I/O:        . .s cr emit\n" +
    "  Comparison: = < >\n" +
    "  Logical:    and or xor invert negate\n" +
    "  Constants:  true false\n" +
    "  Special:    words bye\n"

  /** The session: the machine, the output so far, and whether the program has exited. */
  datatype Session = Session(f: Forth, out: string, exited: bool)

  /** One line of the loop, after the prompt and the echo: the special commands, then evaluation. */
  function HandleLine(f: Forth, line: string): (r: Session)
    ensures Trim(line) in {"bye", "quit"} ==> r == Session(f, GOODBYE, true)
    ensures Trim(line) == "words" ==> r == Session(f, HELP, false)
  {
    if |line| == 0 then Session(f, "", false)
    else if Trim(line) == "bye" || Trim(line) == "quit" then Session(f, GOODBYE, true)
    else if Trim(line) == "words" then Session(f, HELP, false)
    else
      var o := EvalWords(f, Words.Split(line));
      match o.step.status
      case Done => Session(o.step.f, o.out, false)
      case Failed(e) => Session(o.step.f, o.out + "Error: " + ForthCore.Message(e) + "\n", false)
      case Panicked => Session(o.step.f, o.out, true)
  }

  /** The special commands are answered before evaluation and leave the stack alone. */
  lemma SpecialCommands(f: Forth, line: string)
    requires Trim(line) in {"bye", "quit", "words"}
    ensures HandleLine(f, line).f == f
    ensures HandleLine(f, line).exited <==> Trim(line) != "words"
  {
  }

  /** A line of only whitespace evaluates no words: it prints nothing and leaves the stack alone. */
  lemma BlankLineIgnored(f: Forth, line: string)
    requires Trim(line) == ""
    ensures HandleLine(f, line) == Session(f, "", false)
  {
    if |line| > 0 {
      TrimBlank(line);
      Words.BlankHasNoWords(line);
    }
  }

  /** Only whitespace trims away to nothing. */
  lemma {:induction false} TrimBlank(s: string)
    requires Trim(s) == ""
    ensures forall i | 0 <= i < |s| :: Words.IsWhitespace(s[i])
    decreases |s|
  {
    if |s| > 0 && Words.IsWhitespace(s[0]) {
      TrimBlank(s[1..]);
      assert forall i | 1 <= i < |s| :: s[i] == s[1..][i - 1];
    } else if |s| > 0 {
      TrimKeepsHead(s);
      assert false;
    }
  }

  /** Trimming keeps a first character that is not whitespace. */
  lemma {:induction false} TrimKeepsHead(s: string)
    requires |s| > 0 && !Words.IsWhitespace(s[0])
    ensures |Trim(s)| > 0
    decreases |s|
  {
    if |s| > 1 && Words.IsWhitespace(s[|s| - 1]) {
      var t := s[..|s| - 1];
      assert t[0] == s[0];
      TrimKeepsHead(t);
    }
  }

  /**
    The read-evaluate loop over the bytes typed; it stops when the input
    runs out mid-line or the program exits.  A line is decoded as UTF-8
    before it is handled, and one that does not decode is the empty line.
  */
  function Repl(s: Session, input: seq<Byte>): (r: Session)
    ensures s.exited ==> r == s
    decreases |input|
  {
    if s.exited then s
    else match LineEditor.LineOf(input, BUFFER_SIZE)
      case None => Session(s.f, s.out + "ok " + LineEditor.Echo(input, BUFFER_SIZE), false)
      case Some(l) =>
        var h := HandleLine(s.f, Utf8Text(l.text));
        Repl(Session(h.f, s.out + "ok " + l.echo + h.out, h.exited), input[l.consumed..])
  }

  /**
    A line that is not valid text is read as the empty line: the loop
    prints the prompt and the echo and nothing else, and the stack stays
    as it was.
  */
  lemma NonTextLineIgnored(s: Session, input: seq<Byte>, l: LineEditor.Line)
    requires !s.exited && LineEditor.LineOf(input, BUFFER_SIZE) == Some(l) && !IsAscii(l.text)
    ensures Repl(s, input) == Repl(Session(s.f, s.out + "ok " + l.echo, false), input[l.consumed..])
  {
    assert HandleLine(s.f, Utf8Text(l.text)) == Session(s.f, "", false);
    assert s.out + "ok " + l.echo + "" == s.out + "ok " + l.echo;
  }

  /** The loop only ever appends to its output, and once exited it stays exited. */
  lemma {:induction false} ReplAppends(s: Session, input: seq<Byte>)
    ensures |s.out| <= |Repl(s, input).out| && Repl(s, input).out[..|s.out|] == s.out
    ensures s.exited ==> Repl(s, input) == s
    decreases |input|
  {
    if !s.exited {
      match LineEditor.LineOf(input, BUFFER_SIZE)
      case None =>
      case Some(l) =>
        var h := HandleLine(s.f, Utf8Text(l.text));
        var s' := Session(h.f, s.out + "ok " + l.echo + h.out, h.exited);
        ReplAppends(s', input[l.consumed..]);
        assert s'.out[..|s.out|] == s.out;
    }
  }
}

=== FILE: int32.dfy ===
/**
  Two's-complement 32-bit integers as the Rust `i32` and the C `int` of the
  user programs see them: the range, division that truncates toward zero,
  and the bitwise operators on the 32-bit pattern of a value.
*/
module Int32 {
  import Arith

  const MIN: int := -0x8000_0000
  const MAX: int := 0x7FFF_FFFF
  const MODULUS: nat := 0x1_0000_0000

  predicate IsI32(v: int)
  {
    MIN <= v <= MAX
  }

  function Abs(x: int): nat
  {
    if x < 0 then -x else x
  }

  /** `/` of Rust and C: the quotient rounded toward zero. */
  function TruncDiv(a: int, b: int): (q: int)
    requires b != 0
    ensures Abs(b) * Abs(q) <= Abs(a) < Abs(b) * (Abs(q) + 1)
    ensures q == 0 || (q < 0 <==> (a < 0) != (b < 0))
  {
    var m := Abs(a) / Abs(b);
    DivNat(Abs(a), Abs(b));
    var q := if (a < 0) != (b < 0) then -m else m;
    assert Abs(q) == m;
    QuotientBounds(Abs(a), Abs(b), Abs(q));
    q
  }

  lemma QuotientBounds(x: nat, y: nat, n: int)
    requires y > 0 && n == x / y
    ensures y * n <= x < y * (n + 1)
  {
    DivBounds(x, y);
  }

  lemma DivNat(x: nat, y: nat)
    requires y > 0
    ensures x / y >= 0
  {
  }

  lemma DivBounds(x: nat, y: nat)
    requires y > 0
    ensures y * (x / y) <= x < y * (x / y + 1)
  {
  }

  /** `%` of Rust and C: the remainder takes the sign of the dividend. */
  function TruncRem(a: int, b: int): (r: int)
    requires b != 0
    ensures a == TruncDiv(a, b) * b + r
    ensures Abs(r) < Abs(b)
    ensures r == 0 || (r < 0 <==> a < 0)
  {
    a - TruncDiv(a, b) * b
  }

  /** The only quotient of two `i32`s that leaves the range is `MIN / -1`. */
  lemma DivOverflowOnlyAtMin(a: int, b: int)
    requires IsI32(a) && IsI32(b) && b != 0
    ensures !IsI32(TruncDiv(a, b)) <==> a == MIN && b == -1
  {
    var q := TruncDiv(a, b);
    if b == -1 {
      assert Abs(q) == Abs(a);
    } else {
      MulGrows(Abs(b), Abs(q));
      if b == 1 {
        assert q == a;
      }
    }
  }

  lemma MulGrows(k: nat, m: nat)
    requires k >= 1
    ensures m <= k * m
  {
    var j: nat := k - 1;
    assert k * m == j * m + m;
  }

  /** The 32-bit pattern of an `i32`, read as unsigned. */
  function Unsigned(v: int): (u: nat)
    requires IsI32(v)
    ensures u < MODULUS
    ensures u == v || u == v + MODULUS
  {
    if v < 0 then v + MODULUS else v
  }

  /** The `i32` whose pattern is `u`. */
  function Signed(u: nat): (v: int)
    requires u < MODULUS
    ensures IsI32(v)
    ensures v == u || v == u - MODULUS
  {
    if u > MAX then u - MODULUS else u
  }

  lemma SignedUnsigned(v: int)
    requires IsI32(v)
    ensures Signed(Unsigned(v)) == v
  {
  }

  lemma UnsignedSigned(u: nat)
    requires u < MODULUS
    ensures Unsigned(Signed(u)) == u
  {
  }

  function Pow2(n: nat): (p: nat)
    ensures p >= 1
  {
    if n == 0 then 1 else 2 * Pow2(n - 1)
  }

  /** Bit `i` of `x`. */
  function Bit(x: nat, i: nat): bool
  {
    if i == 0 then x % 2 == 1 else Bit(x / 2, i - 1)
  }

  datatype BitwiseOp = AndBits | OrBits | XorBits | NotBits

  function Apply(op: BitwiseOp, p: bool, q: bool): bool
  {
    match op
    case AndBits => p && q
    case OrBits => p || q
    case XorBits => p != q
    case NotBits => !p
  }

  /** The low `n` bits of `op` applied bit by bit to `x` and `y`. */
  function Bitwise(op: BitwiseOp, x: nat, y: nat, n: nat): nat
  {
    if n == 0 then 0
    else (if Apply(op, x % 2 == 1, y % 2 == 1) then 1 else 0) + 2 * Bitwise(op, x / 2, y / 2, n - 1)
  }

  /** The result has no bit at `n` or above. */
  lemma {:induction false} BitwiseBound(op: BitwiseOp, x: nat, y: nat, n: nat)
    ensures Bitwise(op, x, y, n) < Pow2(n)
  {
    if n > 0 {
      BitwiseBound(op, x / 2, y / 2, n - 1);
    }
  }

  /** Every bit of the result is `op` of the operands' bits, and the bits above `n` are clear. */
  lemma {:induction false} BitwiseBits(op: BitwiseOp, x: nat, y: nat, n: nat, i: nat)
    ensures Bit(Bitwise(op, x, y, n), i) == (i < n && Apply(op, Bit(x, i), Bit(y, i)))
  {
    var r := Bitwise(op, x, y, n);
    if n == 0 {
      BitOfZero(i);
    } else {
      var low := if Apply(op, x % 2 == 1, y % 2 == 1) then 1 else 0;
      var rest := Bitwise(op, x / 2, y / 2, n - 1);
      assert r == low + 2 * rest;
      assert r % 2 == low && r / 2 == rest;
      if i > 0 {
        BitwiseBits(op, x / 2, y / 2, n - 1, i - 1);
      }
    }
  }

  lemma {:induction false} BitOfZero(i: nat)
    ensures !Bit(0, i)
  {
    if i > 0 {
      BitOfZero(i - 1);
    }
  }

  /** Two numbers below `2^n` with the same low `n` bits are equal. */
  lemma {:induction false} BitsEqual(x: nat, y: nat, n: nat)
    requires x < Pow2(n) && y < Pow2(n)
    requires forall i | 0 <= i < n :: Bit(x, i) == Bit(y, i)
    ensures x == y
  {
    if n > 0 {
      assert Bit(x, 0) == Bit(y, 0);
      forall i | 0 <= i < n - 1
        ensures Bit(x / 2, i) == Bit(y / 2, i)
      {
        assert Bit(x, i + 1) == Bit(y, i + 1);
      }
      BitsEqual(x / 2, y / 2, n - 1);
    }
  }

  /** A number below `2^k` has no bit set at `k` or above. */
  lemma {:induction false} HighBitsClear(x: nat, k: nat, i: nat)
    requires x < Pow2(k) && k <= i
    ensures !Bit(x, i)
  {
    if k == 0 {
      BitOfZero(i);
    } else {
      HighBitsClear(x / 2, k - 1, i - 1);
    }
  }

  /** The mask `2^k - 1` has exactly the bits below `k` set. */
  lemma {:induction false} LowMaskBits(k: nat, i: nat)
    ensures Bit(Pow2(k) - 1, i) == (i < k)
  {
    if k == 0 {
      BitOfZero(i);
    } else if i > 0 {
      assert (Pow2(k) - 1) / 2 == Pow2(k - 1) - 1;
      LowMaskBits(k - 1, i - 1);
    }
  }

  /** Complementing the low `n` bits of `u` is subtracting it from all ones. */
  lemma {:induction false} NotBitsValue(u: nat, n: nat)
    requires u < Pow2(n)
    ensures Bitwise(NotBits, u, u, n) == Pow2(n) - 1 - u
  {
    if n > 0 {
      NotBitsValue(u / 2, n - 1);
    }
  }

  lemma Pow2Of32()
    ensures Pow2(32) == MODULUS
  {
    Pow2Of16();
    Pow2Add(16, 16);
  }

  lemma Pow2Of16()
    ensures Pow2(16) == 0x1_0000
  {
    Pow2Of8();
    Pow2Add(8, 8);
  }

  lemma Pow2Of8()
    ensures Pow2(8) == 0x100
  {
    assert Pow2(4) == 16;
    Pow2Add(4, 4);
  }

  lemma {:induction false} Pow2Add(m: nat, n: nat)
    ensures Pow2(m + n) == Pow2(m) * Pow2(n)
  {
    if m > 0 {
      Pow2Add(m - 1, n);
    }
  }

  function BitAnd(a: int, b: int): (r: int)
    requires IsI32(a) && IsI32(b)
    ensures IsI32(r)
  {
    Pow2Of32();
    BitwiseBound(AndBits, Unsigned(a), Unsigned(b), 32);
    Signed(Bitwise(AndBits, Unsigned(a), Unsigned(b), 32))
  }

  function BitOr(a: int, b: int): (r: int)
    requires IsI32(a) && IsI32(b)
    ensures IsI32(r)
  {
    Pow2Of32();
    BitwiseBound(OrBits, Unsigned(a), Unsigned(b), 32);
    Signed(Bitwise(OrBits, Unsigned(a), Unsigned(b), 32))
  }

  function BitXor(a: int, b: int): (r: int)
    requires IsI32(a) && IsI32(b)
    ensures IsI32(r)
  {
    Pow2Of32();
    BitwiseBound(XorBits, Unsigned(a), Unsigned(b), 32);
    Signed(Bitwise(XorBits, Unsigned(a), Unsigned(b), 32))
  }

  function BitNot(a: int): (r: int)
    requires IsI32(a)
    ensures IsI32(r)
  {
    Pow2Of32();
    BitwiseBound(NotBits, Unsigned(a), Unsigned(a), 32);
    Signed(Bitwise(NotBits, Unsigned(a), Unsigned(a), 32))
  }

  /** In two's complement, complementing every bit of `a` gives `-a - 1`. */
  lemma NotIsNegMinusOne(a: int)
    requires IsI32(a)
    ensures BitNot(a) == -a - 1
  {
    Pow2Of32();
    NotBitsValue(Unsigned(a), 32);
  }

  /** Masking with `2^k - 1` keeps the low `k` bits: the remainder modulo `2^k`. */
  lemma {:induction false} AndLowMask(x: nat, k: nat, n: nat)
    requires k <= n
    ensures Bitwise(AndBits, x, Pow2(k) - 1, n) == x % Pow2(k)
  {
    if k == 0 {
      AndZero(x, n);
    } else {
      var p := Pow2(k - 1);
      assert Pow2(k) - 1 == 2 * (p - 1) + 1;
      assert (Pow2(k) - 1) % 2 == 1 && (Pow2(k) - 1) / 2 == p - 1;
      AndLowMask(x / 2, k - 1, n - 1);
      Arith.DivDiv(x, 2, p);
    }
  }

  lemma {:induction false} AndZero(x: nat, n: nat)
    ensures Bitwise(AndBits, x, 0, n) == 0
  {
    if n > 0 {
      AndZero(x / 2, n - 1);
    }
  }

  /** `a & 0x7F` on an `i32` is the remainder of `a` modulo 128, for negative `a` too. */
  lemma AndLow7(a: int)
    requires IsI32(a)
    ensures BitAnd(a, 0x7F) == a % 128
  {
    Pow2Of32();
    assert Pow2(7) == 128;
    AndLowMask(Unsigned(a), 7, 32);
    assert (a + MODULUS) % 128 == a % 128;
  }
}

=== FILE: keyboard.dfy ===
/**
  Keyboard input (kernel/src/keyboard.rs): the 256-slot ring buffer that the
  keyboard driver and the serial line feed, the filter that turns a VirtIO
  input event into a byte, and the Linux keycode table.  The VirtIO device
  handling itself is not part of this model.
*/
module Keyboard {
  import opened Wrappers
  import opened Ascii

  const INPUT_BUFFER_SIZE: nat := 256
  const EV_KEY: nat := 1

  /** A ring buffer with a read and a write index; one slot always stays free. */
  datatype InputBuffer = InputBuffer(buffer: seq<Byte>, readPos: nat, writePos: nat)

  predicate Valid(b: InputBuffer)
  {
    |b.buffer| == INPUT_BUFFER_SIZE && b.readPos < INPUT_BUFFER_SIZE && b.writePos < INPUT_BUFFER_SIZE
  }

  /** The number of bytes between the read and the write index, going round the ring. */
  function Waiting(b: InputBuffer): (n: nat)
    ensures n < INPUT_BUFFER_SIZE
  {
    (b.writePos - b.readPos) % INPUT_BUFFER_SIZE
  }

  lemma WaitingCases(b: InputBuffer)
    requires Valid(b)
    ensures Waiting(b) == if b.writePos >= b.readPos then b.writePos - b.readPos else INPUT_BUFFER_SIZE - b.readPos + b.writePos
  {
  }

  /** The slot `i` places after `start`, going round the ring. */
  function Slot(start: nat, i: nat): (s: nat)
    requires start < INPUT_BUFFER_SIZE && i < INPUT_BUFFER_SIZE
    ensures s < INPUT_BUFFER_SIZE
  {
    if start + i < INPUT_BUFFER_SIZE then start + i else start + i - INPUT_BUFFER_SIZE
  }

  /** The bytes waiting to be read, oldest first. */
  function Contents(b: InputBuffer): (q: seq<Byte>)
    requires Valid(b)
    ensures |q| == Waiting(b)
  {
    seq(Waiting(b), i requires 0 <= i < Waiting(b) => b.buffer[Slot(b.readPos, i)])
  }

  /** `InputBuffer::new`. */
  function New(): (b: InputBuffer)
    ensures Valid(b) && Contents(b) == []
  {
    InputBuffer(seq(INPUT_BUFFER_SIZE, _ => NUL), 0, 0)
  }

  datatype Pushed = Pushed(buf: InputBuffer, ok: bool)

  datatype Popped = Popped(buf: InputBuffer, byte: Option<Byte>)

  /** `push`: store the byte unless the next write slot is the read slot. */
  function Push(b: InputBuffer, byte: Byte): (r: Pushed)
    requires Valid(b)
    ensures Valid(r.buf)
    ensures r.ok <==> |Contents(b)| < INPUT_BUFFER_SIZE - 1
    ensures r.ok ==> Contents(r.buf) == Contents(b) + [byte]
    ensures !r.ok ==> r.buf == b
  {
    var next := (b.writePos + 1) % INPUT_BUFFER_SIZE;
    if next == b.readPos then Pushed(b, false)
    else
      var b' := b.(buffer := b.buffer[b.writePos := byte], writePos := next);
      PushContents(b, byte);
      Pushed(b', true)
  }

  lemma PushContents(b: InputBuffer, byte: Byte)
    requires Valid(b) && (b.writePos + 1) % INPUT_BUFFER_SIZE != b.readPos
    ensures var b' := b.(buffer := b.buffer[b.writePos := byte], writePos := (b.writePos + 1) % INPUT_BUFFER_SIZE);
            Valid(b') && Contents(b') == Contents(b) + [byte]
  {
    var b' := b.(buffer := b.buffer[b.writePos := byte], writePos := (b.writePos + 1) % INPUT_BUFFER_SIZE);
    var n := Waiting(b);
    WaitingCases(b);
    WaitingCases(b');
    assert Waiting(b') == n + 1;
    forall i | 0 <= i < n ensures Contents(b')[i] == Contents(b)[i] {
      assert Slot(b.readPos, i) != b.writePos;
    }
    assert Slot(b.readPos, n) == b.writePos;
  }

  /** `pop`: the oldest byte, or `None` when the indices meet. */
  function Pop(b: InputBuffer): (r: Popped)
    requires Valid(b)
    ensures Valid(r.buf)
    ensures r.byte.None? <==> Contents(b) == []
    ensures r.byte.None? ==> r.buf == b
    ensures r.byte.Some? ==> r.byte.value == Contents(b)[0] && Contents(r.buf) == Contents(b)[1..]
  {
    if b.readPos == b.writePos then Popped(b, None)
    else
      var b' := b.(readPos := (b.readPos + 1) % INPUT_BUFFER_SIZE);
      PopContents(b);
      Popped(b', Some(b.buffer[b.readPos]))
  }

  lemma PopContents(b: InputBuffer)
    requires Valid(b) && b.readPos != b.writePos
    ensures var b' := b.(readPos := (b.readPos + 1) % INPUT_BUFFER_SIZE);
            Valid(b') && Contents(b) != [] && Contents(b)[0] == b.buffer[b.readPos] && Contents(b') == Contents(b)[1..]
  {
    var b' := b.(readPos := (b.readPos + 1) % INPUT_BUFFER_SIZE);
    WaitingCases(b);
    WaitingCases(b');
    assert Waiting(b') + 1 == Waiting(b);
    forall i | 0 <= i < Waiting(b') ensures Contents(b')[i] == Contents(b)[i + 1] {
      assert Slot(b'.readPos, i) == Slot(b.readPos, i + 1);
    }
  }

  /** `is_empty`. */
  function IsEmpty(b: InputBuffer): (r: bool)
    requires Valid(b)
    ensures r <==> Contents(b) == []
  {
    b.readPos == b.writePos
  }

  /** `len`: at most 255 bytes are ever waiting. */
  function Len(b: InputBuffer): (r: nat)
    requires Valid(b)
    ensures r == |Contents(b)| && r <= INPUT_BUFFER_SIZE - 1
  {
    WaitingCases(b);
    if b.writePos >= b.readPos then b.writePos - b.readPos
    else INPUT_BUFFER_SIZE - b.readPos + b.writePos
  }

  /** `push_input`: a byte that does not fit is dropped. */
  function PushInput(b: InputBuffer, byte: Byte): (r: InputBuffer)
    requires Valid(b)
    ensures Valid(r)
    ensures Contents(r) == if |Contents(b)| < INPUT_BUFFER_SIZE - 1 then Contents(b) + [byte] else Contents(b)
  {
    Push(b, byte).buf
  }

  // ----- a bounded queue as the reference -----

  datatype Op = PushOp(byte: Byte) | PopOp

  datatype Reply = Accepted(ok: bool) | Got(byte: Option<Byte>)

  /** A first-in first-out queue that holds at most 255 bytes. */
  function QueueStep(q: seq<Byte>, op: Op): (seq<Byte>, Reply)
  {
    match op
    case PushOp(c) => if |q| < INPUT_BUFFER_SIZE - 1 then (q + [c], Accepted(true)) else (q, Accepted(false))
    case PopOp => if |q| == 0 then (q, Got(None)) else (q[1..], Got(Some(q[0])))
  }

  function RunQueue(q: seq<Byte>, ops: seq<Op>): (seq<Byte>, seq<Reply>)
    decreases |ops|
  {
    if |ops| == 0 then (q, [])
    else
      var (q', r) := QueueStep(q, ops[0]);
      var (q'', rs) := RunQueue(q', ops[1..]);
      (q'', [r] + rs)
  }

  function BufferStep(b: InputBuffer, op: Op): (r: (InputBuffer, Reply))
    requires Valid(b)
    ensures Valid(r.0)
  {
    match op
    case PushOp(c) => var p := Push(b, c); (p.buf, Accepted(p.ok))
    case PopOp => var p := Pop(b); (p.buf, Got(p.byte))
  }

  function RunBuffer(b: InputBuffer, ops: seq<Op>): (r: (InputBuffer, seq<Reply>))
    requires Valid(b)
    ensures Valid(r.0)
    decreases |ops|
  {
    if |ops| == 0 then (b, [])
    else
      var (b', r) := BufferStep(b, ops[0]);
      var (b'', rs) := RunBuffer(b', ops[1..]);
      (b'', [r] + rs)
  }

  /**
    The ring buffer behaves as the bounded queue: every push and pop gives the
    same answer, so bytes come out in the order they went in, and the waiting
    bytes are the queue's contents.
  */
  lemma {:induction false} Fifo(b: InputBuffer, ops: seq<Op>)
    requires Valid(b)
    ensures RunBuffer(b, ops).1 == RunQueue(Contents(b), ops).1
    ensures Contents(RunBuffer(b, ops).0) == RunQueue(Contents(b), ops).0
    decreases |ops|
  {
    if |ops| > 0 {
      var (b', _) := BufferStep(b, ops[0]);
      assert Contents(b') == QueueStep(Contents(b), ops[0]).0;
      assert BufferStep(b, ops[0]).1 == QueueStep(Contents(b), ops[0]).1;
      Fifo(b', ops[1..]);
    }
  }

  // ----- events -----

  /** The fields of a `virtio_input_event` the driver reads. */
  datatype InputEvent = InputEvent(eventType: nat, code: nat, value: nat)

  /** `process_event`: only a key press of a mapped key reaches the buffer. */
  function ProcessEvent(b: InputBuffer, ev: InputEvent): (r: InputBuffer)
    requires Valid(b)
    ensures Valid(r)
    ensures Contents(r) ==
              if ev.eventType == EV_KEY && ev.value == 1 && KeycodeToAscii(ev.code).Some? && |Contents(b)| < INPUT_BUFFER_SIZE - 1
              then Contents(b) + [KeycodeToAscii(ev.code).value]
              else Contents(b)
  {
    if ev.eventType != EV_KEY || ev.value != 1 then b
    else match KeycodeToAscii(ev.code)
      case Some(c) => PushInput(b, c)
      case None => b
  }

  /** `keycode_to_ascii`: the US layout, unshifted, for the keys the table lists. */
  function KeycodeToAscii(code: nat): Option<Byte>
  {
    match code
    case 2 => Some('1') case 3 => Some('2') case 4 => Some('3') case 5 => Some('4')
    case 6 => Some('5') case 7 => Some('6') case 8 => Some('7') case 9 => Some('8')
    case 10 => Some('9') case 11 => Some('0') case 12 => Some('-') case 13 => Some('=')
    case 14 => Some(8 as char)
    case 15 => Some('\t')
    case 16 => Some('q') case 17 => Some('w') case 18 => Some('e') case 19 => Some('r')
    case 20 => Some('t') case 21 => Some('y') case 22 => Some('u') case 23 => Some('i')
    case 24 => Some('o') case 25 => Some('p') case 26 => Some('[') case 27 => Some(']')
    case 28 => Some('\n')
    case 30 => Some('a') case 31 => Some('s') case 32 => Some('d') case 33 => Some('f')
    case 34 => Some('g') case 35 => Some('h') case 36 => Some('j') case 37 => Some('k')
    case 38 => Some('l') case 39 => Some(';') case 40 => Some('\'') case 41 => Some('`')
    case 43 => Some('\\')
    case 44 => Some('z') case 45 => Some('x') case 46 => Some('c') case 47 => Some('v')
    case 48 => Some('b') case 49 => Some('n') case 50 => Some('m') case 51 => Some(',')
    case 52 => Some('.') case 53 => Some('/')
    case 57 => Some(' ')
    case 1 => Some(0x1b as char)
    case _ => None
  }

  /** The key that produces `c`, if any: the table read backwards. */
  function KeyFor(c: Byte): Option<nat>
  {
    match c
    case '1' => Some(2) case '2' => Some(3) case '3' => Some(4) case '4' => Some(5)
    case '5' => Some(6) case '6' => Some(7) case '7' => Some(8) case '8' => Some(9)
    case '9' => Some(10) case '0' => Some(11) case '-' => Some(12) case '=' => Some(13)
    case '\U{8}' => Some(14)
    case '\t' => Some(15)
    case 'q' => Some(16) case 'w' => Some(17) case 'e' => Some(18) case 'r' => Some(19)
    case 't' => Some(20) case 'y' => Some(21) case 'u' => Some(22) case 'i' => Some(23)
    case 'o' => Some(24) case 'p' => Some(25) case '[' => Some(26) case ']' => Some(27)
    case '\n' => Some(28)
    case 'a' => Some(30) case 's' => Some(31) case 'd' => Some(32) case 'f' => Some(33)
    case 'g' => Some(34) case 'h' => Some(35) case 'j' => Some(36) case 'k' => Some(37)
    case 'l' => Some(38) case ';' => Some(39) case '\'' => Some(40) case '`' => Some(41)
    case '\\' => Some(43)
    case 'z' => Some(44) case 'x' => Some(45) case 'c' => Some(46) case 'v' => Some(47)
    case 'b' => Some(48) case 'n' => Some(49) case 'm' => Some(50) case ',' => Some(51)
    case '.' => Some(52) case '/' => Some(53)
    case ' ' => Some(57)
    case '\U{1B}' => Some(1)
    case _ => None
  }

  /** Every mapped key has its own byte, and letters come out lower-case only. */
  lemma KeymapInjective(code: nat)
    requires KeycodeToAscii(code).Some?
    ensures KeyFor(KeycodeToAscii(code).value) == Some(code)
    ensures !('A' <= KeycodeToAscii(code).value <= 'Z')
  {
  }

  /** The table read backwards gives back the byte. */
  lemma KeymapSurjective(c: Byte)
    requires KeyFor(c).Some?
    ensures KeycodeToAscii(KeyFor(c).value) == Some(c)
  {
  }

  /** Enter, Backspace, Space and Escape. */
  lemma KeymapControls()
    ensures KeycodeToAscii(28) == Some('\n') && KeycodeToAscii(14) == Some(8 as char)
    ensures KeycodeToAscii(57) == Some(' ') && KeycodeToAscii(1) == Some(0x1b as char)
    ensures KeycodeToAscii(0).None? && KeycodeToAscii(29).None? && KeycodeToAscii(42).None?
  {
  }
}

=== FILE: line_editor.dfy ===
/**
  The console line editor that the shell (userapp/src/bin/shell.rs) and the
  Forth program (forth/src/main.rs) both carry: bytes are read one at a time
  into a fixed buffer, backspace or DEL removes the last byte, carriage
  return or line feed ends the line, and bytes that do not fit are dropped.
  Every accepted byte is echoed, a deletion echoes "\b \b", and the end of
  the line echoes a line feed.

  Input arrives as a sequence of key bytes.  When the sequence holds no line
  terminator the source keeps waiting for more; here that is `None`.
*/
module LineEditor {
  import opened Wrappers
  import opened Ascii

  const BACKSPACE: Byte := 8 as char
  const DEL: Byte := 127 as char
  const ERASE: seq<Byte> := [BACKSPACE, ' ', BACKSPACE]

  predicate IsTerminator(k: Byte)
  {
    k == '\r' || k == '\n'
  }

  predicate IsDelete(k: Byte)
  {
    k == BACKSPACE || k == DEL
  }

  /** A byte that is stored when there is room. */
  predicate IsPlain(k: Byte)
  {
    !IsTerminator(k) && !IsDelete(k)
  }

  /** The line and the echo after one key that is no terminator; the buffer holds `size - 1` bytes at most. */
  function Key(line: seq<Byte>, k: Byte, size: nat): (r: (seq<Byte>, seq<Byte>))
  {
    if IsDelete(k) then
      if |line| > 0 then (line[..|line| - 1], ERASE) else (line, [])
    else if |line| < size - 1 then (line + [k], [k])
    else (line, [])
  }

  /** The buffer contents after the keys, none of which is a terminator. */
  function Edited(keys: seq<Byte>, size: nat): (line: seq<Byte>)
    decreases |keys|
  {
    if |keys| == 0 then [] else Key(Edited(keys[..|keys| - 1], size), keys[|keys| - 1], size).0
  }

  /** What the keys echo. */
  function Echo(keys: seq<Byte>, size: nat): seq<Byte>
    decreases |keys|
  {
    if |keys| == 0 then []
    else Echo(keys[..|keys| - 1], size) + Key(Edited(keys[..|keys| - 1], size), keys[|keys| - 1], size).1
  }

  /** The index of the first line terminator. */
  function FirstTerminator(input: seq<Byte>): (r: Option<nat>)
    ensures r.Some? ==> r.value < |input| && IsTerminator(input[r.value])
    ensures r.Some? ==> forall i | 0 <= i < r.value :: !IsTerminator(input[i])
    ensures r.None? ==> forall i | 0 <= i < |input| :: !IsTerminator(input[i])
  {
    if |input| == 0 then None
    else if IsTerminator(input[0]) then Some(0)
    else match FirstTerminator(input[1..])
      case None => None
      case Some(t) => Some(t + 1)
  }

  /** A finished line: its bytes, the echo, and how many input bytes it used up. */
  datatype Line = Line(text: seq<Byte>, echo: seq<Byte>, consumed: nat)

  function LineOf(input: seq<Byte>, size: nat): Option<Line>
  {
    match FirstTerminator(input)
    case None => None
    case Some(t) => Some(Line(Edited(input[..t], size), Echo(input[..t], size) + ['\n'], t + 1))
  }

  /** `read_line` over a buffer of `size` bytes, reading `input` until a terminator. */
  method ReadLine(input: seq<Byte>, size: nat) returns (r: Option<Line>)
    requires size >= 1
    ensures r == LineOf(input, size)
  {
    var line: seq<Byte> := [];
    var echo: seq<Byte> := [];
    var i := 0;
    while i < |input|
      invariant 0 <= i <= |input|
      invariant forall j | 0 <= j < i :: !IsTerminator(input[j])
      invariant line == Edited(input[..i], size)
      invariant echo == Echo(input[..i], size)
    {
      var ch := input[i];
      if IsTerminator(ch) {
        FirstTerminatorAt(input, i);
        return Some(Line(line, echo + ['\n'], i + 1));
      } else if IsDelete(ch) {
        if |line| > 0 {
          line := line[..|line| - 1];
          echo := echo + ERASE;
        }
      } else if |line| < size - 1 {
        line := line + [ch];
        echo := echo + [ch];
      }
      assert input[..i + 1][..i] == input[..i];
      i := i + 1;
    }
    NoTerminator(input);
    return None;
  }

  lemma {:induction false} FirstTerminatorAt(input: seq<Byte>, t: nat)
    requires t < |input| && IsTerminator(input[t])
    requires forall j | 0 <= j < t :: !IsTerminator(input[j])
    ensures FirstTerminator(input) == Some(t)
  {
    if t > 0 {
      FirstTerminatorAt(input[1..], t - 1);
    }
  }

  lemma NoTerminator(input: seq<Byte>)
    requires forall j | 0 <= j < |input| :: !IsTerminator(input[j])
    ensures FirstTerminator(input) == None
  {
  }

  /** The buffer never holds more than `size - 1` bytes. */
  lemma {:induction false} EditedFits(keys: seq<Byte>, size: nat)
    requires size >= 1
    ensures |Edited(keys, size)| <= size - 1
    decreases |keys|
  {
    if |keys| > 0 {
      EditedFits(keys[..|keys| - 1], size);
    }
  }

  /** Text without control bytes that fits is stored and echoed as typed. */
  lemma {:induction false} TypedText(keys: seq<Byte>, size: nat)
    requires |keys| <= size - 1
    requires forall i | 0 <= i < |keys| :: IsPlain(keys[i])
    ensures Edited(keys, size) == keys
    ensures Echo(keys, size) == keys
    decreases |keys|
  {
    if |keys| > 0 {
      var p := keys[..|keys| - 1];
      TypedText(p, size);
      assert p + [keys[|keys| - 1]] == keys;
    }
  }

  /** A byte typed and then deleted leaves the buffer as it was, when there was room for it. */
  lemma BackspaceCancels(keys: seq<Byte>, c: Byte, d: Byte, size: nat)
    requires IsPlain(c) && IsDelete(d)
    requires |Edited(keys, size)| < size - 1
    ensures Edited(keys + [c, d], size) == Edited(keys, size)
  {
    assert (keys + [c, d])[..|keys| + 1] == keys + [c];
    assert (keys + [c])[..|keys|] == keys;
    var e := Edited(keys, size);
    assert (e + [c])[..|e|] == e;
  }

  /** Once the buffer is full, further plain bytes are neither stored nor echoed. */
  lemma FullDrops(keys: seq<Byte>, c: Byte, size: nat)
    requires IsPlain(c) && |Edited(keys, size)| >= size - 1
    ensures Edited(keys + [c], size) == Edited(keys, size)
    ensures Echo(keys + [c], size) == Echo(keys, size)
  {
    assert (keys + [c])[..|keys|] == keys;
  }

  /** A deletion on an empty buffer does nothing and echoes nothing. */
  lemma DeleteOnEmpty(keys: seq<Byte>, d: Byte, size: nat)
    requires IsDelete(d) && |Edited(keys, size)| == 0
    ensures Edited(keys + [d], size) == []
    ensures Echo(keys + [d], size) == Echo(keys, size)
  {
    assert (keys + [d])[..|keys|] == keys;
  }
}

=== FILE: lisp_cells.dfy ===
/**
  The memory of the Lisp interpreter (lisp/lisp.c): a bump-allocated arena
  of 1024 cells, 128 environment slots, and a string pool of 8192 bytes.

  A cell pointer is its index in the arena.  `nil` is cell 0 and `t` is
  cell 1, the first two cells `init_lisp` allocates.  Environment entries are
  written once and never changed, so an environment is the chain of its
  bindings as a value, nearest first; only the number of slots used is state.
  What the interpreter prints goes to `out`.
*/
module LispCells {
  const MAX_CELLS: nat := 1024
  const MAX_ENV: nat := 128
  const STRING_POOL_SIZE: nat := 8192

  type Ptr = nat

  const NIL: Ptr := 0
  const T: Ptr := 1

  datatype Prim = CarPrim | CdrPrim | ConsPrim | AtomPrim | EqPrim | AddPrim | SubPrim | MulPrim | DivPrim

  datatype Binding = Binding(symbol: Ptr, value: Ptr)

  /** An environment: its bindings, nearest first; `[]` is the NULL environment. */
  type Env = seq<Binding>

  datatype Cell =
    | NilCell
    | Num(n: int)
    | Symbol(name: string)
    | Pair(car: Ptr, cdr: Ptr)
    | Lambda(params: Ptr, body: Ptr, env: Env)
    | Primitive(prim: Prim)

  datatype Heap = Heap(cells: seq<Cell>, envSlots: nat, global: Env, strings: nat, out: string)

  const OUT_OF_MEMORY: string := "ERROR: Out of memory\n"
  const OUT_OF_ENV: string := "ERROR: Out of environment slots\n"
  const OUT_OF_STRINGS: string := "ERROR: Out of string memory\n"

  /** The cell a pointer names; pointers the interpreter holds always name an allocated cell. */
  function At(h: Heap, p: Ptr): Cell
  {
    if p < |h.cells| then h.cells[p] else NilCell
  }

  /**
    `alloc_cell`, with exhaustion handled as the constructors evidently
    intend: when all 1024 cells are in use nothing is written and the
    result is `nil`.
  */
  function Alloc(h: Heap, c: Cell): (r: (Heap, Ptr))
    ensures |h.cells| < MAX_CELLS ==> r.0.cells == h.cells + [c] && r.1 == |h.cells| && r.0.out == h.out
    ensures |h.cells| >= MAX_CELLS ==> r.0.cells == h.cells && r.1 == NIL && r.0.out == h.out + OUT_OF_MEMORY
    ensures r.0.envSlots == h.envSlots && r.0.global == h.global && r.0.strings == h.strings
  {
    if |h.cells| >= MAX_CELLS then (h.(out := h.out + OUT_OF_MEMORY), NIL)
    else (h.(cells := h.cells + [c]), |h.cells|)
  }

  /**
    `alloc_cell` followed by a constructor's writes, as the C code does it:
    when the arena is full, `alloc_cell` returns `nil_cell` and the
    constructor then overwrites the `nil` cell with the new contents.
  */
  function AllocAsWritten(h: Heap, c: Cell): (r: (Heap, Ptr))
  {
    if |h.cells| >= MAX_CELLS then (h.(cells := h.cells[NIL := c], out := h.out + OUT_OF_MEMORY), NIL)
    else (h.(cells := h.cells + [c]), |h.cells|)
  }

  /** Every reference in a cell points to an older cell. */
  predicate RefsBelow(c: Cell, i: nat)
  {
    match c
    case Pair(a, d) => a < i && d < i
    case Lambda(p, b, env) => p < i && b < i && EnvBelow(env, i)
    case _ => true
  }

  predicate EnvBelow(env: Env, bound: nat)
  {
    forall k | 0 <= k < |env| :: env[k].symbol < bound && env[k].value < bound
  }

  /**
    The heap invariant: `nil` and `t` are where `init_lisp` put them, every
    cell refers only to older cells (so every list is finite), and the global
    environment refers to allocated cells.
  */
  predicate Valid(h: Heap)
  {
    2 <= |h.cells| <= MAX_CELLS
    && h.cells[NIL] == NilCell && h.cells[T] == Symbol("t")
    && (forall i | 0 <= i < |h.cells| :: RefsBelow(h.cells[i], i))
    && EnvBelow(h.global, |h.cells|)
    && h.envSlots <= MAX_ENV
  }

  /** The heap only grows: cells are appended and never rewritten. */
  predicate Grows(h: Heap, h': Heap)
  {
    |h.cells| <= |h'.cells| && h'.cells[..|h.cells|] == h.cells && h.envSlots <= h'.envSlots && h.strings <= h'.strings
    && |h.out| <= |h'.out| && h'.out[..|h.out|] == h.out
  }

  lemma GrowsRefl(h: Heap)
    ensures Grows(h, h)
  {
    assert h.cells[..|h.cells|] == h.cells;
    assert h.out[..|h.out|] == h.out;
  }

  lemma GrowsTransitive(h1: Heap, h2: Heap, h3: Heap)
    requires Grows(h1, h2) && Grows(h2, h3)
    ensures Grows(h1, h3)
  {
    assert h3.cells[..|h1.cells|] == h3.cells[..|h2.cells|][..|h1.cells|];
    assert h3.out[..|h1.out|] == h3.out[..|h2.out|][..|h1.out|];
  }

  /** Allocating a cell whose references are allocated keeps the heap valid and only grows it. */
  lemma AllocValid(h: Heap, c: Cell)
    requires Valid(h) && RefsBelow(c, |h.cells|)
    ensures Valid(Alloc(h, c).0) && Grows(h, Alloc(h, c).0)
    ensures Alloc(h, c).1 < |Alloc(h, c).0.cells|
  {
    var h' := Alloc(h, c).0;
    if |h.cells| < MAX_CELLS {
      assert h'.cells[..|h.cells|] == h.cells;
      forall i | 0 <= i < |h'.cells|
        ensures RefsBelow(h'.cells[i], i)
      {
        if i < |h.cells| {
          assert h'.cells[i] == h.cells[i];
        }
      }
    } else {
      assert h'.cells[..|h.cells|] == h.cells;
    }
    assert h'.out[..|h.out|] == h.out;
  }

  /**
    As written, a constructor called on a full arena rewrites `nil`:
    `make_cons(x, nil)` turns cell 0 into a pair whose tail is itself, so
    `nil` is no longer empty and the list it heads never ends.
  */
  lemma NilOverwritten(h: Heap, x: Ptr)
    requires Valid(h) && |h.cells| == MAX_CELLS
    ensures var (h', p) := AllocAsWritten(h, Pair(x, NIL));
      p == NIL && At(h', NIL) == Pair(x, NIL) && !Valid(h')
  {
    var h' := AllocAsWritten(h, Pair(x, NIL)).0;
    assert !RefsBelow(h'.cells[0], 0);
  }

  /** The corrected allocator leaves `nil` alone on a full arena. */
  lemma NilKept(h: Heap, c: Cell)
    requires Valid(h) && |h.cells| == MAX_CELLS
    ensures At(Alloc(h, c).0, NIL) == NilCell && Alloc(h, c).1 == NIL
  {
  }

  /** `str_alloc`: the pool cursor moves by `len + 1` when the copy fits below the last byte; otherwise an error is printed. */
  function StrAlloc(h: Heap, s: string): (r: Heap)
    ensures h.strings + |s| + 1 < STRING_POOL_SIZE ==> r == h.(strings := h.strings + |s| + 1)
    ensures h.strings + |s| + 1 >= STRING_POOL_SIZE ==> r == h.(out := h.out + OUT_OF_STRINGS)
  {
    if h.strings + |s| + 1 >= STRING_POOL_SIZE then h.(out := h.out + OUT_OF_STRINGS)
    else h.(strings := h.strings + |s| + 1)
  }

  /** `env_extend`: a new binding in front of `parent`, or `parent` itself once the 128 slots are used. */
  function EnvExtend(h: Heap, symbol: Ptr, value: Ptr, parent: Env): (r: (Heap, Env))
    ensures h.envSlots < MAX_ENV ==> r.1 == [Binding(symbol, value)] + parent && r.0 == h.(envSlots := h.envSlots + 1)
    ensures h.envSlots >= MAX_ENV ==> r.1 == parent && r.0 == h.(out := h.out + OUT_OF_ENV)
  {
    if h.envSlots >= MAX_ENV then (h.(out := h.out + OUT_OF_ENV), parent)
    else (h.(envSlots := h.envSlots + 1), [Binding(symbol, value)] + parent)
  }

  /** Whether a binding is for the symbol `name`: its key must be a symbol cell with that name. */
  predicate Binds(h: Heap, b: Binding, name: string)
  {
    At(h, b.symbol).Symbol? && At(h, b.symbol).name == name
  }

  /** `env_lookup`: the value of the nearest binding for `name`, or `nil`. */
  function Lookup(h: Heap, name: string, env: Env): (r: Ptr)
    ensures (forall k | 0 <= k < |env| :: !Binds(h, env[k], name)) ==> r == NIL
  {
    if |env| == 0 then NIL
    else if Binds(h, env[0], name) then env[0].value
    else Lookup(h, name, env[1..])
  }

  /** The lookup finds the first binding for the name, whatever comes after it. */
  lemma {:induction false} LookupNearest(h: Heap, name: string, env: Env, k: nat)
    requires k < |env| && Binds(h, env[k], name)
    requires forall j | 0 <= j < k :: !Binds(h, env[j], name)
    ensures Lookup(h, name, env) == env[k].value
  {
    if k > 0 {
      LookupNearest(h, name, env[1..], k - 1);
    }
  }

  /** A new binding shadows every older one for the same name and hides nothing else. */
  lemma LookupExtended(h: Heap, name: string, b: Binding, env: Env)
    ensures Binds(h, b, name) ==> Lookup(h, name, [b] + env) == b.value
    ensures !Binds(h, b, name) ==> Lookup(h, name, [b] + env) == Lookup(h, name, env)
  {
    assert ([b] + env)[1..] == env;
  }

  /** The cells of a list, following `cdr` while the cell is a pair; each step goes to an older cell. */
  function Items(h: Heap, p: Ptr): seq<Ptr>
    decreases p
  {
    match At(h, p)
    case Pair(a, d) => if d < p then [a] + Items(h, d) else [a]
    case _ => []
  }

  /** A list headed by a pair whose tail is older: its head, then the items of its tail. */
  lemma ItemsOfPair(h: Heap, p: Ptr)
    requires At(h, p).Pair? && At(h, p).cdr < p
    ensures Items(h, p) == [At(h, p).car] + Items(h, At(h, p).cdr)
  {
  }

  /** A non-empty list starts at a pair, and its first item is that pair's head. */
  lemma ItemsHead(h: Heap, p: Ptr)
    requires |Items(h, p)| > 0
    ensures At(h, p).Pair? && Items(h, p)[0] == At(h, p).car
  {
  }
}

=== FILE: lisp_eval.dfy ===
/**
  The evaluator of the Lisp interpreter (lisp/lisp.c): `eval`, `eval_list`
  and `apply`, with the special forms `quote`, `if`, `lambda` and `define`.

  The C `eval` recurses without bound, and some programs never finish, so
  the model takes a `fuel` argument: every nested `eval` spends one unit,
  and `None` means the fuel ran out before the value was known.  A closure
  keeps the environment it was made in, as a value; `define` extends the
  global environment, which `eval` never reads (it looks symbols up in the
  environment it was given).
*/
module LispEval {
  import opened Wrappers
  import opened LispCells
  import LispPrims

  /** What an evaluation leaves: the heap after it and the value's cell. */
  datatype Out = Out(h: Heap, v: Ptr)

  /** `args->car` behind the C code's `args && args->type == CELL_CONS` test, `nil` otherwise. */
  function Head(h: Heap, p: Ptr): Ptr
  {
    if At(h, p).Pair? then At(h, p).car else NIL
  }

  function Tail(h: Heap, p: Ptr): Ptr
  {
    if At(h, p).Pair? then At(h, p).cdr else NIL
  }

  /** A special form is recognised by the operator being a symbol with that name. */
  predicate IsForm(h: Heap, op: Ptr, name: string)
  {
    At(h, op).Symbol? && At(h, op).name == name
  }

  /** `eval`: the self-evaluating cells, symbol lookup, and the lists. */
  function Eval(h: Heap, env: Env, e: Ptr, fuel: nat): Option<Out>
    decreases fuel, 0, 0
  {
    if fuel == 0 then None
    else
      match At(h, e)
      case Symbol(name) => Some(Out(h, Lookup(h, name, env)))
      case Pair(op, args) => EvalPair(h, env, op, args, fuel - 1)
      case _ => Some(Out(h, e))
  }

  /** A list: one of the four special forms, else a function call. */
  function EvalPair(h: Heap, env: Env, op: Ptr, args: Ptr, fuel: nat): Option<Out>
    decreases fuel, 3, 0
  {
    if IsForm(h, op, "quote") then Some(Out(h, Head(h, args)))
    else if IsForm(h, op, "if") then EvalIf(h, env, args, fuel)
    else if IsForm(h, op, "lambda") then Some(MakeLambda(h, env, args))
    else if IsForm(h, op, "define") then EvalDefine(h, env, args, fuel)
    else EvalCall(h, env, op, args, fuel)
  }

  /**
    `(if c a b)`: the condition is evaluated first; without a then-part the
    result is `nil`; otherwise `a` when the condition's value is not the
    `nil` cell, else `b`, which is `nil` when missing.
  */
  function EvalIf(h: Heap, env: Env, args: Ptr, fuel: nat): Option<Out>
    decreases fuel, 2, 0
  {
    if !At(h, args).Pair? then Some(Out(h, NIL))
    else
      match Eval(h, env, Head(h, args), fuel)
      case None => None
      case Some(c) =>
        var rest := Tail(c.h, args);
        if !At(c.h, rest).Pair? then Some(Out(c.h, NIL))
        else
          var branch := if At(c.h, c.v).NilCell? then Head(c.h, Tail(c.h, rest)) else Head(c.h, rest);
          Eval(c.h, env, branch, fuel)
  }

  /** `(lambda params body)`: a closure over the current environment; `nil` when a part is missing. */
  function MakeLambda(h: Heap, env: Env, args: Ptr): Out
  {
    if !At(h, args).Pair? || !At(h, Tail(h, args)).Pair? then Out(h, NIL)
    else
      var c := Alloc(h, Lambda(Head(h, args), Head(h, Tail(h, args)), env));
      Out(c.0, c.1)
  }

  /** `(define x e)`: the value of `e`, bound to `x` in front of the global environment. */
  function EvalDefine(h: Heap, env: Env, args: Ptr, fuel: nat): Option<Out>
    decreases fuel, 2, 0
  {
    if !At(h, args).Pair? || !At(h, Tail(h, args)).Pair? then Some(Out(h, NIL))
    else
      match Eval(h, env, Head(h, Tail(h, args)), fuel)
      case None => None
      case Some(v) =>
        var g := EnvExtend(v.h, Head(h, args), v.v, v.h.global);
        Some(Out(g.0.(global := g.1), v.v))
  }

  /** A call: the operator, then the arguments left to right, then `apply`. */
  function EvalCall(h: Heap, env: Env, op: Ptr, args: Ptr, fuel: nat): Option<Out>
    decreases fuel, 2, 0
  {
    match Eval(h, env, op, fuel)
    case None => None
    case Some(f) =>
      match EvalList(f.h, env, args, fuel)
      case None => None
      case Some(a) => ApplyFn(a.h, f.v, a.v, fuel)
  }

  /**
    `eval_list`: a new list of the values of the elements; `nil` for `nil`,
    and an improper tail is kept as it is, unevaluated.
  */
  function EvalList(h: Heap, env: Env, list: Ptr, fuel: nat): Option<Out>
    decreases fuel, 1, list
  {
    match At(h, list)
    case NilCell => Some(Out(h, NIL))
    case Pair(a, d) =>
      if d >= list then None
      else
        (match Eval(h, env, a, fuel)
         case None => None
         case Some(x) =>
           (match EvalList(x.h, env, d, fuel)
            case None => None
            case Some(y) =>
              var c := Alloc(y.h, Pair(x.v, y.v));
              Some(Out(c.0, c.1))))
    case _ => Some(Out(h, list))
  }

  /**
    `apply`: a primitive gets the argument list; a closure binds its
    parameters to the arguments and evaluates its body; anything else gives
    `nil`.
  */
  function ApplyFn(h: Heap, fn: Ptr, args: Ptr, fuel: nat): Option<Out>
    decreases fuel, 1, 0
  {
    match At(h, fn)
    case Primitive(p) =>
      var r := LispPrims.Apply(h, p, args);
      Some(Out(r.0, r.1))
    case Lambda(params, body, cenv) =>
      var b := Bind(h, Items(h, params), Items(h, args), cenv);
      Eval(b.0, b.1, body, fuel)
    case _ => Some(Out(h, NIL))
  }

  /** The binding loop of `apply`: one `env_extend` per parameter while both lists last. */
  function Bind(h: Heap, params: seq<Ptr>, args: seq<Ptr>, env: Env): (Heap, Env)
    decreases |params|
  {
    if |params| == 0 || |args| == 0 then (h, env)
    else
      var e := EnvExtend(h, params[0], args[0], env);
      Bind(e.0, params[1..], args[1..], e.1)
  }

  /** An evaluation can start from a valid heap, with an environment and an expression that name allocated cells. */
  predicate Ready(h: Heap, env: Env, e: Ptr)
  {
    Valid(h) && EnvBelow(env, |h.cells|) && e < |h.cells|
  }

  /** A finished evaluation keeps the heap valid, only grows it, and yields an allocated cell. */
  predicate Sound(h: Heap, r: Option<Out>)
  {
    r.Some? ==> Valid(r.value.h) && Grows(h, r.value.h) && r.value.v < |r.value.h.cells|
  }

  /** Evaluation never breaks the heap: whatever it allocates refers to allocated cells. */
  lemma {:induction false} EvalValid(h: Heap, env: Env, e: Ptr, fuel: nat)
    requires Ready(h, env, e)
    ensures Sound(h, Eval(h, env, e, fuel))
    decreases fuel, 0, 0
  {
    if fuel > 0 {
      PartsBelow(h, e);
      match At(h, e)
      case Symbol(name) =>
        LookupBelow(h, name, env);
        GrowsRefl(h);
      case Pair(op, args) =>
        EvalPairValid(h, env, op, args, fuel - 1);
      case _ =>
        GrowsRefl(h);
    }
  }

  lemma {:induction false} EvalPairValid(h: Heap, env: Env, op: Ptr, args: Ptr, fuel: nat)
    requires Ready(h, env, op) && args < |h.cells|
    ensures Sound(h, EvalPair(h, env, op, args, fuel))
    decreases fuel, 3, 0
  {
    if IsForm(h, op, "quote") {
      PartsBelow(h, args);
      GrowsRefl(h);
    } else if IsForm(h, op, "if") {
      EvalIfValid(h, env, args, fuel);
    } else if IsForm(h, op, "lambda") {
      MakeLambdaValid(h, env, args);
    } else if IsForm(h, op, "define") {
      EvalDefineValid(h, env, args, fuel);
    } else {
      EvalCallValid(h, env, op, args, fuel);
    }
  }

  lemma {:induction false} EvalIfValid(h: Heap, env: Env, args: Ptr, fuel: nat)
    requires Ready(h, env, args)
    ensures Sound(h, EvalIf(h, env, args, fuel))
    decreases fuel, 2, 0
  {
    if !At(h, args).Pair? {
      GrowsRefl(h);
    } else {
      PartsBelow(h, args);
      EvalValid(h, env, Head(h, args), fuel);
      var r := Eval(h, env, Head(h, args), fuel);
      if r.Some? {
        var c := r.value;
        EnvBelowMono(env, |h.cells|, |c.h.cells|);
        PartsBelow(c.h, args);
        var rest := Tail(c.h, args);
        if !At(c.h, rest).Pair? {
          assert EvalIf(h, env, args, fuel) == Some(Out(c.h, NIL));
        } else {
          PartsBelow(c.h, rest);
          PartsBelow(c.h, Tail(c.h, rest));
          var branch := if At(c.h, c.v).NilCell? then Head(c.h, Tail(c.h, rest)) else Head(c.h, rest);
          assert EvalIf(h, env, args, fuel) == Eval(c.h, env, branch, fuel);
          EvalValid(c.h, env, branch, fuel);
          SoundThen(h, c.h, Eval(c.h, env, branch, fuel));
        }
      }
    }
  }

  lemma MakeLambdaValid(h: Heap, env: Env, args: Ptr)
    requires Ready(h, env, args)
    ensures Sound(h, Some(MakeLambda(h, env, args)))
  {
    PartsBelow(h, args);
    if !At(h, args).Pair? || !At(h, Tail(h, args)).Pair? {
      GrowsRefl(h);
    } else {
      PartsBelow(h, Tail(h, args));
      AllocValid(h, Lambda(Head(h, args), Head(h, Tail(h, args)), env));
    }
  }

  lemma {:induction false} EvalDefineValid(h: Heap, env: Env, args: Ptr, fuel: nat)
    requires Ready(h, env, args)
    ensures Sound(h, EvalDefine(h, env, args, fuel))
    decreases fuel, 2, 0
  {
    PartsBelow(h, args);
    if !At(h, args).Pair? || !At(h, Tail(h, args)).Pair? {
      GrowsRefl(h);
    } else {
      PartsBelow(h, Tail(h, args));
      EvalValid(h, env, Head(h, Tail(h, args)), fuel);
      var r := Eval(h, env, Head(h, Tail(h, args)), fuel);
      if r.Some? {
        var v := r.value;
        ExtendGlobalValid(v.h, Head(h, args), v.v);
        var g := EnvExtend(v.h, Head(h, args), v.v, v.h.global);
        GrowsTransitive(h, v.h, g.0.(global := g.1));
      }
    }
  }

  lemma {:induction false} EvalCallValid(h: Heap, env: Env, op: Ptr, args: Ptr, fuel: nat)
    requires Ready(h, env, op) && args < |h.cells|
    ensures Sound(h, EvalCall(h, env, op, args, fuel))
    decreases fuel, 2, 0
  {
    EvalValid(h, env, op, fuel);
    var rf := Eval(h, env, op, fuel);
    if rf.Some? {
      var f := rf.value;
      EnvBelowMono(env, |h.cells|, |f.h.cells|);
      EvalListValid(f.h, env, args, fuel);
      var ra := EvalList(f.h, env, args, fuel);
      if ra.Some? {
        var a := ra.value;
        ApplyFnValid(a.h, f.v, a.v, fuel);
        SoundThen(f.h, a.h, ApplyFn(a.h, f.v, a.v, fuel));
        SoundThen(h, f.h, ApplyFn(a.h, f.v, a.v, fuel));
      }
    }
  }

  lemma {:induction false} EvalListValid(h: Heap, env: Env, list: Ptr, fuel: nat)
    requires Ready(h, env, list)
    ensures Sound(h, EvalList(h, env, list, fuel))
    decreases fuel, 1, list
  {
    PartsBelow(h, list);
    match At(h, list)
    case Pair(a, d) =>
      EvalValid(h, env, a, fuel);
      var rx := Eval(h, env, a, fuel);
      if rx.Some? {
        var x := rx.value;
        EnvBelowMono(env, |h.cells|, |x.h.cells|);
        EvalListValid(x.h, env, d, fuel);
        var ry := EvalList(x.h, env, d, fuel);
        if ry.Some? {
          var y := ry.value;
          AllocValid(y.h, Pair(x.v, y.v));
          GrowsTransitive(h, x.h, y.h);
          GrowsTransitive(h, y.h, Alloc(y.h, Pair(x.v, y.v)).0);
        }
      }
    case _ =>
      GrowsRefl(h);
  }

  lemma {:induction false} ApplyFnValid(h: Heap, fn: Ptr, args: Ptr, fuel: nat)
    requires Valid(h) && fn < |h.cells| && args < |h.cells|
    ensures Sound(h, ApplyFn(h, fn, args, fuel))
    decreases fuel, 1, 0
  {
    match At(h, fn)
    case Primitive(p) =>
      LispPrims.ApplyValid(h, p, args);
    case Lambda(params, body, cenv) =>
      assert RefsBelow(h.cells[fn], fn);
      ItemsBelow(h, params);
      ItemsBelow(h, args);
      BindValid(h, Items(h, params), Items(h, args), cenv);
      var b := Bind(h, Items(h, params), Items(h, args), cenv);
      EvalValid(b.0, b.1, body, fuel);
      SoundThen(h, b.0, Eval(b.0, b.1, body, fuel));
    case _ =>
      GrowsRefl(h);
  }

  /** Binding parameters takes environment slots but no cells. */
  lemma {:induction false} BindValid(h: Heap, params: seq<Ptr>, args: seq<Ptr>, env: Env)
    requires Valid(h) && EnvBelow(env, |h.cells|)
    requires forall k | 0 <= k < |params| :: params[k] < |h.cells|
    requires forall k | 0 <= k < |args| :: args[k] < |h.cells|
    ensures var b := Bind(h, params, args, env);
      Valid(b.0) && Grows(h, b.0) && |b.0.cells| == |h.cells| && EnvBelow(b.1, |h.cells|)
    decreases |params|
  {
    if |params| == 0 || |args| == 0 {
      GrowsRefl(h);
    } else {
      var e := EnvExtend(h, params[0], args[0], env);
      assert Grows(h, e.0) by {
        assert e.0.cells[..|h.cells|] == h.cells;
        assert e.0.out[..|h.out|] == h.out;
      }
      BindValid(e.0, params[1..], args[1..], e.1);
      GrowsTransitive(h, e.0, Bind(e.0, params[1..], args[1..], e.1).0);
    }
  }

  lemma ExtendGlobalValid(h: Heap, symbol: Ptr, value: Ptr)
    requires Valid(h) && symbol < |h.cells| && value < |h.cells|
    ensures var g := EnvExtend(h, symbol, value, h.global);
      Valid(g.0.(global := g.1)) && Grows(h, g.0.(global := g.1))
  {
    var g := EnvExtend(h, symbol, value, h.global);
    var h' := g.0.(global := g.1);
    assert h'.cells[..|h.cells|] == h.cells;
    assert h'.out[..|h.out|] == h.out;
  }

  lemma SoundThen(h: Heap, m: Heap, r: Option<Out>)
    requires Grows(h, m) && Sound(m, r)
    ensures Sound(h, r)
  {
    if r.Some? {
      GrowsTransitive(h, m, r.value.h);
    }
  }

  lemma EnvBelowMono(env: Env, n: nat, m: nat)
    requires EnvBelow(env, n) && n <= m
    ensures EnvBelow(env, m)
  {
  }

  /** In a valid heap the parts of an allocated cell are older cells. */
  lemma PartsBelow(h: Heap, p: Ptr)
    requires Valid(h) && p < |h.cells|
    ensures Head(h, p) < |h.cells| && Tail(h, p) < |h.cells|
    ensures At(h, p).Pair? ==> At(h, p).car < p && At(h, p).cdr < p
  {
    assert RefsBelow(h.cells[p], p);
  }

  lemma {:induction false} LookupBelow(h: Heap, name: string, env: Env)
    requires Valid(h) && EnvBelow(env, |h.cells|)
    ensures Lookup(h, name, env) < |h.cells|
  {
    if |env| > 0 && !Binds(h, env[0], name) {
      LookupBelow(h, name, env[1..]);
    }
  }

  lemma {:induction false} ItemsBelow(h: Heap, p: Ptr)
    requires Valid(h)
    ensures forall k | 0 <= k < |Items(h, p)| :: Items(h, p)[k] < |h.cells|
    decreases p
  {
    if p < |h.cells| && At(h, p).Pair? {
      PartsBelow(h, p);
      ItemsBelow(h, At(h, p).cdr);
    }
  }

  /** Cells already allocated read the same after the heap has grown. */
  lemma GrowsAt(h: Heap, h': Heap, p: Ptr)
    requires Grows(h, h') && p < |h.cells|
    ensures At(h', p) == At(h, p)
  {
    assert h'.cells[p] == h'.cells[..|h.cells|][p];
  }

  /** `nil`, numbers, closures and primitives evaluate to themselves and allocate nothing. */
  lemma SelfEvaluating(h: Heap, env: Env, e: Ptr, fuel: nat)
    requires fuel > 0
    requires At(h, e).NilCell? || At(h, e).Num? || At(h, e).Lambda? || At(h, e).Primitive?
    ensures Eval(h, env, e, fuel) == Some(Out(h, e))
  {
  }

  /** A symbol evaluates to its nearest binding in the environment it is evaluated in, and allocates nothing. */
  lemma SymbolLooksUp(h: Heap, env: Env, e: Ptr, fuel: nat, k: nat)
    requires fuel > 0 && At(h, e).Symbol?
    requires k < |env| && Binds(h, env[k], At(h, e).name)
    requires forall j | 0 <= j < k :: !Binds(h, env[j], At(h, e).name)
    ensures Eval(h, env, e, fuel) == Some(Out(h, env[k].value))
  {
    LookupNearest(h, At(h, e).name, env, k);
  }

  /** `(quote x)` evaluates to `x` itself, unevaluated, and allocates nothing. */
  lemma QuoteReturnsArgument(h: Heap, env: Env, e: Ptr, fuel: nat, x: Ptr)
    requires fuel > 0
    requires |Items(h, e)| >= 2 && Items(h, e)[1] == x && IsForm(h, Items(h, e)[0], "quote")
    ensures Eval(h, env, e, fuel) == Some(Out(h, x))
  {
    var args := At(h, e).cdr;
    assert At(h, args).Pair? && At(h, args).car == x;
  }

  /**
    `(if c a b)`: the condition is evaluated first; the result is that of
    `a` when the condition's value is not the `nil` cell and that of `b`
    when it is.  Nothing else is evaluated.
  */
  lemma {:induction false} IfPicksBranch(h: Heap, env: Env, e: Ptr, fuel: nat, c: Ptr, a: Ptr, b: Ptr)
    requires Ready(h, env, e) && fuel > 0
    requires |Items(h, e)| >= 4 && IsForm(h, Items(h, e)[0], "if")
    requires Items(h, e)[1] == c && Items(h, e)[2] == a && Items(h, e)[3] == b
    ensures var rc := Eval(h, env, c, fuel - 1);
      && (rc.None? ==> Eval(h, env, e, fuel).None?)
      && (rc.Some? && !At(rc.value.h, rc.value.v).NilCell? ==> Eval(h, env, e, fuel) == Eval(rc.value.h, env, a, fuel - 1))
      && (rc.Some? && At(rc.value.h, rc.value.v).NilCell? ==> Eval(h, env, e, fuel) == Eval(rc.value.h, env, b, fuel - 1))
  {
    var args := IfShape(h, e);
    var rest := At(h, args).cdr;
    var rest2 := At(h, rest).cdr;
    assert At(h, rest2).Pair? && At(h, rest2).car == b;
    assert Eval(h, env, e, fuel) == EvalIf(h, env, args, fuel - 1);
    var rc := Eval(h, env, c, fuel - 1);
    if rc.Some? {
      var ch := rc.value.h;
      PartsBelow(h, args);
      EvalValid(h, env, c, fuel - 1);
      GrowsAt(h, ch, args);
      GrowsAt(h, ch, rest);
      GrowsAt(h, ch, rest2);
    }
  }

  /** `(if c a)` without an else-part gives `nil` when the condition's value is `nil`. */
  lemma {:induction false} IfWithoutElse(h: Heap, env: Env, e: Ptr, fuel: nat, c: Ptr, a: Ptr)
    requires Valid(h) && EnvBelow(env, |h.cells|) && e < |h.cells| && fuel > 1
    requires |Items(h, e)| == 3 && IsForm(h, Items(h, e)[0], "if")
    requires Items(h, e)[1] == c && Items(h, e)[2] == a
    requires Eval(h, env, c, fuel - 1).Some? && At(Eval(h, env, c, fuel - 1).value.h, Eval(h, env, c, fuel - 1).value.v).NilCell?
    ensures Eval(h, env, e, fuel) == Some(Out(Eval(h, env, c, fuel - 1).value.h, NIL))
  {
    var args := FormShape(h, e);
    var rest := At(h, args).cdr;
    var rest2 := At(h, rest).cdr;
    assert !At(h, rest2).Pair? by {
      PartsBelow(h, rest);
      assert Items(h, rest) == [a] + Items(h, rest2);
    }
    assert Eval(h, env, e, fuel) == EvalIf(h, env, args, fuel - 1);
    var ch := Eval(h, env, c, fuel - 1).value.h;
    PartsBelow(h, args);
    EvalValid(h, env, c, fuel - 1);
    GrowsAt(h, ch, args);
    GrowsAt(h, ch, rest);
    PartsBelow(h, rest);
    GrowsAt(h, ch, rest2);
    assert Head(ch, Tail(ch, rest)) == NIL;
    assert At(ch, NIL).NilCell?;
  }

  /** The three pairs of `(if c a ...)`: the argument list is returned. */
  lemma IfShape(h: Heap, e: Ptr) returns (args: Ptr)
    requires Valid(h) && e < |h.cells|
    requires |Items(h, e)| >= 4
    ensures At(h, e).Pair? && At(h, e).cdr == args && args < e
    ensures At(h, args).Pair? && At(h, args).car == Items(h, e)[1]
    ensures At(h, At(h, args).cdr).Pair? && At(h, At(h, args).cdr).car == Items(h, e)[2]
    ensures var rest := At(h, args).cdr; At(h, At(h, rest).cdr).Pair? && At(h, At(h, rest).cdr).car == Items(h, e)[3]
  {
    args := At(h, e).cdr;
    PartsBelow(h, e);
    PartsBelow(h, args);
    var rest := At(h, args).cdr;
    PartsBelow(h, rest);
    ItemsOfPair(h, e);
    ItemsOfPair(h, args);
    ItemsHead(h, rest);
    ItemsOfPair(h, rest);
    ItemsHead(h, At(h, rest).cdr);
  }

  /** The two pairs of a form with at least two arguments: the argument list is returned. */
  lemma FormShape(h: Heap, e: Ptr) returns (args: Ptr)
    requires Valid(h) && e < |h.cells|
    requires |Items(h, e)| >= 3
    ensures At(h, e).Pair? && At(h, e).cdr == args && args < e
    ensures At(h, args).Pair? && At(h, args).car == Items(h, e)[1]
    ensures At(h, At(h, args).cdr).Pair? && At(h, At(h, args).cdr).car == Items(h, e)[2]
    ensures At(h, args).cdr < args
  {
    args := At(h, e).cdr;
    PartsBelow(h, e);
    PartsBelow(h, args);
    ItemsOfPair(h, e);
    ItemsHead(h, args);
    ItemsOfPair(h, args);
    ItemsHead(h, At(h, args).cdr);
  }

  /**
    `(define x e)`: the value of `e` is the result, and it is bound to `x` in
    front of the global environment, so a later lookup of `x` there finds it
    before any older binding; with no environment slot left the global
    environment stays as it was.
  */
  lemma {:induction false} DefineBinds(h: Heap, env: Env, e: Ptr, fuel: nat, x: Ptr, ex: Ptr)
    requires Ready(h, env, e) && fuel > 0
    requires |Items(h, e)| >= 3 && IsForm(h, Items(h, e)[0], "define")
    requires Items(h, e)[1] == x && Items(h, e)[2] == ex
    requires Eval(h, env, ex, fuel - 1).Some?
    ensures var v := Eval(h, env, ex, fuel - 1).value;
      var r := Eval(h, env, e, fuel);
      && r.Some? && r.value.v == v.v
      && (v.h.envSlots < MAX_ENV ==> r.value.h.global == [Binding(x, v.v)] + v.h.global)
      && (v.h.envSlots < MAX_ENV && At(h, x).Symbol? ==> Lookup(r.value.h, At(h, x).name, r.value.h.global) == v.v)
      && (v.h.envSlots >= MAX_ENV ==> r.value.h.global == v.h.global)
  {
    var args := FormShape(h, e);
    assert Eval(h, env, e, fuel) == EvalDefine(h, env, args, fuel - 1);
    var v := Eval(h, env, ex, fuel - 1).value;
    var r := Eval(h, env, e, fuel).value;
    if v.h.envSlots < MAX_ENV {
      PartsBelow(h, args);
      EvalValid(h, env, ex, fuel - 1);
      GrowsAt(h, v.h, x);
      assert At(r.h, x) == At(h, x);
      if At(h, x).Symbol? {
        LookupExtended(r.h, At(h, x).name, Binding(x, v.v), v.h.global);
      }
    }
  }

  /** The bindings `apply` makes for parameters and arguments taken pairwise, up to the shorter list, first pair first. */
  function Pairs(params: seq<Ptr>, args: seq<Ptr>): (r: seq<Binding>)
    ensures |r| == if |params| < |args| then |params| else |args|
    ensures forall k | 0 <= k < |r| :: r[k] == Binding(params[k], args[k])
  {
    if |params| == 0 || |args| == 0 then [] else [Binding(params[0], args[0])] + Pairs(params[1..], args[1..])
  }

  function Reversed(s: seq<Binding>): (r: seq<Binding>)
    ensures |r| == |s|
    ensures forall k | 0 <= k < |s| :: r[k] == s[|s| - 1 - k]
  {
    if |s| == 0 then [] else Reversed(s[1..]) + [s[0]]
  }

  function Min(a: nat, b: nat): nat
  {
    if a < b then a else b
  }

  /**
    The binding loop of `apply` puts one binding per parameter-argument pair
    in front of the closure's environment, so the last pair ends up nearest;
    once the environment slots run out the remaining pairs are dropped.
    No cell is allocated.
  */
  lemma {:induction false} BindPrepends(h: Heap, params: seq<Ptr>, args: seq<Ptr>, env: Env)
    requires h.envSlots <= MAX_ENV
    ensures var m := Min(|Pairs(params, args)|, MAX_ENV - h.envSlots);
      var b := Bind(h, params, args, env);
      b.1 == Reversed(Pairs(params, args)[..m]) + env && b.0.envSlots == h.envSlots + m && b.0.cells == h.cells
    decreases |params|
  {
    var ps := Pairs(params, args);
    var m := Min(|ps|, MAX_ENV - h.envSlots);
    if |params| == 0 || |args| == 0 {
      assert ps[..m] == [];
    } else {
      var e := EnvExtend(h, params[0], args[0], env);
      BindPrepends(e.0, params[1..], args[1..], e.1);
      var rest := Pairs(params[1..], args[1..]);
      assert ps == [Binding(params[0], args[0])] + rest;
      if h.envSlots < MAX_ENV {
        TakeCons(Binding(params[0], args[0]), rest, m - 1);
        ReversedCons(Binding(params[0], args[0]), rest[..m - 1]);
      } else {
        assert ps[..m] == [] && rest[..0] == [];
      }
    }
  }

  lemma TakeCons(x: Binding, t: seq<Binding>, n: nat)
    requires n <= |t|
    ensures ([x] + t)[..n + 1] == [x] + t[..n]
  {
  }

  lemma ReversedCons(x: Binding, t: seq<Binding>)
    ensures Reversed([x] + t) == Reversed(t) + [x]
  {
    assert ([x] + t)[1..] == t;
  }

  /** A closure is applied by evaluating its body in its own environment extended with the parameter bindings. */
  lemma ApplyClosure(h: Heap, fn: Ptr, args: Ptr, fuel: nat)
    requires At(h, fn).Lambda? && h.envSlots <= MAX_ENV
    ensures var l := At(h, fn);
      var ps := Pairs(Items(h, l.params), Items(h, args));
      var b := Bind(h, Items(h, l.params), Items(h, args), l.env);
      ApplyFn(h, fn, args, fuel) == Eval(b.0, Reversed(ps[..Min(|ps|, MAX_ENV - h.envSlots)]) + l.env, l.body, fuel)
      && b.0.cells == h.cells
  {
    var l := At(h, fn);
    BindPrepends(h, Items(h, l.params), Items(h, args), l.env);
  }

  /** `((lambda (x) x) v)` gives `v`, and takes one environment slot. */
  lemma {:induction false} IdentityClosure(h: Heap, fn: Ptr, args: Ptr, fuel: nat, p: Ptr, a: Ptr)
    requires fuel > 0 && h.envSlots < MAX_ENV
    requires At(h, fn).Lambda? && Items(h, At(h, fn).params) == [p] && Items(h, args) == [a]
    requires At(h, p).Symbol? && At(h, At(h, fn).body) == At(h, p)
    ensures ApplyFn(h, fn, args, fuel) == Some(Out(h.(envSlots := h.envSlots + 1), a))
  {
    var l := At(h, fn);
    var h' := h.(envSlots := h.envSlots + 1);
    BindOne(h, p, a, l.env);
    assert ApplyFn(h, fn, args, fuel) == Eval(h', [Binding(p, a)] + l.env, l.body, fuel);
    LookupExtended(h', At(h, p).name, Binding(p, a), l.env);
  }

  lemma BindOne(h: Heap, p: Ptr, a: Ptr, env: Env)
    requires h.envSlots < MAX_ENV
    ensures Bind(h, [p], [a], env) == (h.(envSlots := h.envSlots + 1), [Binding(p, a)] + env)
  {
    assert [p][1..] == [];
  }

  /** More fuel never changes a finished evaluation: fuel only bounds the depth, it does not change the meaning. */
  lemma {:induction false} EvalMore(h: Heap, env: Env, e: Ptr, fuel: nat, more: nat)
    requires fuel <= more && Eval(h, env, e, fuel).Some?
    ensures Eval(h, env, e, more) == Eval(h, env, e, fuel)
    decreases fuel, 0, 0
  {
    match At(h, e)
    case Pair(op, args) => EvalPairMore(h, env, op, args, fuel - 1, more - 1);
    case _ =>
  }

  lemma {:induction false} EvalPairMore(h: Heap, env: Env, op: Ptr, args: Ptr, fuel: nat, more: nat)
    requires fuel <= more && EvalPair(h, env, op, args, fuel).Some?
    ensures EvalPair(h, env, op, args, more) == EvalPair(h, env, op, args, fuel)
    decreases fuel, 3, 0
  {
    if IsForm(h, op, "quote") {
    } else if IsForm(h, op, "if") {
      EvalIfMore(h, env, args, fuel, more);
    } else if IsForm(h, op, "lambda") {
    } else if IsForm(h, op, "define") {
      EvalDefineMore(h, env, args, fuel, more);
    } else {
      EvalCallMore(h, env, op, args, fuel, more);
    }
  }

  lemma {:induction false} EvalIfMore(h: Heap, env: Env, args: Ptr, fuel: nat, more: nat)
    requires fuel <= more && EvalIf(h, env, args, fuel).Some?
    ensures EvalIf(h, env, args, more) == EvalIf(h, env, args, fuel)
    decreases fuel, 2, 0
  {
    if At(h, args).Pair? {
      EvalMore(h, env, Head(h, args), fuel, more);
      var c := Eval(h, env, Head(h, args), fuel).value;
      var rest := Tail(c.h, args);
      if At(c.h, rest).Pair? {
        var branch := if At(c.h, c.v).NilCell? then Head(c.h, Tail(c.h, rest)) else Head(c.h, rest);
        EvalMore(c.h, env, branch, fuel, more);
      }
    }
  }

  lemma {:induction false} EvalDefineMore(h: Heap, env: Env, args: Ptr, fuel: nat, more: nat)
    requires fuel <= more && EvalDefine(h, env, args, fuel).Some?
    ensures EvalDefine(h, env, args, more) == EvalDefine(h, env, args, fuel)
    decreases fuel, 2, 0
  {
    if At(h, args).Pair? && At(h, Tail(h, args)).Pair? {
      EvalMore(h, env, Head(h, Tail(h, args)), fuel, more);
    }
  }

  lemma {:induction false} EvalCallMore(h: Heap, env: Env, op: Ptr, args: Ptr, fuel: nat, more: nat)
    requires fuel <= more && EvalCall(h, env, op, args, fuel).Some?
    ensures EvalCall(h, env, op, args, more) == EvalCall(h, env, op, args, fuel)
    decreases fuel, 2, 0
  {
    EvalMore(h, env, op, fuel, more);
    var f := Eval(h, env, op, fuel).value;
    EvalListMore(f.h, env, args, fuel, more);
    var a := EvalList(f.h, env, args, fuel).value;
    ApplyFnMore(a.h, f.v, a.v, fuel, more);
  }

  lemma {:induction false} EvalListMore(h: Heap, env: Env, list: Ptr, fuel: nat, more: nat)
    requires fuel <= more && EvalList(h, env, list, fuel).Some?
    ensures EvalList(h, env, list, more) == EvalList(h, env, list, fuel)
    decreases fuel, 1, list
  {
    match At(h, list)
    case Pair(a, d) =>
      EvalMore(h, env, a, fuel, more);
      var x := Eval(h, env, a, fuel).value;
      EvalListMore(x.h, env, d, fuel, more);
    case _ =>
  }

  lemma {:induction false} ApplyFnMore(h: Heap, fn: Ptr, args: Ptr, fuel: nat, more: nat)
    requires fuel <= more && ApplyFn(h, fn, args, fuel).Some?
    ensures ApplyFn(h, fn, args, more) == ApplyFn(h, fn, args, fuel)
    decreases fuel, 1, 0
  {
    match At(h, fn)
    case Lambda(params, body, cenv) =>
      var b := Bind(h, Items(h, params), Items(h, args), cenv);
      EvalMore(b.0, b.1, body, fuel, more);
    case _ =>
  }
}

=== FILE: lisp_prims.dfy ===
/**
  The primitive functions of the Lisp interpreter (lisp/lisp.c): `car`,
  `cdr`, `cons`, `atom`, `eq` and the arithmetic `+ - * /`.  Each receives
  its evaluated arguments as one list.  Numbers are mathematical integers:
  where the C `int` arithmetic would overflow its behaviour is undefined.
*/
module LispPrims {
  import Int32
  import opened Wrappers
  import opened LispCells

  /** The first argument: the `car` of the argument list, if it is a pair. */
  function First(h: Heap, args: Ptr): Option<Ptr>
  {
    match At(h, args)
    case Pair(a, _) => Some(a)
    case _ => None
  }

  /** The second argument, if the argument list has a pair in second place. */
  function Second(h: Heap, args: Ptr): Option<Ptr>
  {
    match At(h, args)
    case Pair(_, d) => (match At(h, d) case Pair(b, _) => Some(b) case _ => None)
    case _ => None
  }

  /** `prim_car`: the head of the first argument, `nil` when it is not a pair. */
  function Car(h: Heap, args: Ptr): (r: Ptr)
    ensures First(h, args).Some? && At(h, First(h, args).value).Pair? ==> r == At(h, First(h, args).value).car
    ensures First(h, args).None? || !At(h, First(h, args).value).Pair? ==> r == NIL
  {
    match First(h, args)
    case None => NIL
    case Some(a) => if At(h, a).Pair? then At(h, a).car else NIL
  }

  /** `prim_cdr`: the tail of the first argument, `nil` when it is not a pair. */
  function Cdr(h: Heap, args: Ptr): (r: Ptr)
    ensures First(h, args).Some? && At(h, First(h, args).value).Pair? ==> r == At(h, First(h, args).value).cdr
    ensures First(h, args).None? || !At(h, First(h, args).value).Pair? ==> r == NIL
  {
    match First(h, args)
    case None => NIL
    case Some(a) => if At(h, a).Pair? then At(h, a).cdr else NIL
  }

  /** `make_num`. */
  function MakeNum(h: Heap, n: int): (r: (Heap, Ptr))
    ensures Grows(h, r.0)
  {
    AllocGrows(h, Num(n));
    Alloc(h, Num(n))
  }

  /** `prim_cons`: a new pair of the first two arguments; `nil` with fewer than two. */
  function Cons(h: Heap, args: Ptr): (r: (Heap, Ptr))
    ensures First(h, args).None? || Second(h, args).None? ==> r == (h, NIL)
    ensures Grows(h, r.0)
  {
    match (First(h, args), Second(h, args))
    case (Some(a), Some(b)) => AllocGrows(h, Pair(a, b)); Alloc(h, Pair(a, b))
    case _ => (h, NIL)
  }

  /** `prim_atom`: `t` when the first argument is not a pair. */
  function Atom(h: Heap, args: Ptr): (r: Ptr)
    ensures r == T <==> First(h, args).Some? && !At(h, First(h, args).value).Pair?
    ensures r == T || r == NIL
  {
    match First(h, args)
    case None => NIL
    case Some(a) => if At(h, a).Pair? then NIL else T
  }

  /**
    `prim_eq`: numbers by value, symbols by name, any two `nil` cells are
    equal, and pairs, lambdas and primitives only to themselves.
  */
  function Eq(h: Heap, args: Ptr): (r: Ptr)
    ensures r == T || r == NIL
  {
    match (First(h, args), Second(h, args))
    case (Some(a), Some(b)) =>
      (match (At(h, a), At(h, b))
       case (Num(m), Num(n)) => if m == n then T else NIL
       case (Symbol(x), Symbol(y)) => if x == y then T else NIL
       case (NilCell, NilCell) => T
       case (Pair(_, _), Pair(_, _)) => if a == b then T else NIL
       case (Lambda(_, _, _), Lambda(_, _, _)) => if a == b then T else NIL
       case (Primitive(_), Primitive(_)) => if a == b then T else NIL
       case _ => NIL)
    case _ => NIL
  }

  /** The numbers among the cells, in order; other cells are skipped. */
  function Numbers(h: Heap, items: seq<Ptr>): (ns: seq<int>)
    ensures |ns| <= |items|
  {
    if |items| == 0 then []
    else (if At(h, items[0]).Num? then [At(h, items[0]).n] else []) + Numbers(h, items[1..])
  }

  function Sum(ns: seq<int>): int
  {
    if |ns| == 0 then 0 else ns[0] + Sum(ns[1..])
  }

  function Product(ns: seq<int>): int
  {
    if |ns| == 0 then 1 else ns[0] * Product(ns[1..])
  }

  /** `/` applied left to right, skipping zero divisors. */
  function Quotient(acc: int, ns: seq<int>): int
    decreases |ns|
  {
    if |ns| == 0 then acc
    else if ns[0] == 0 then Quotient(acc, ns[1..])
    else Quotient(Int32.TruncDiv(acc, ns[0]), ns[1..])
  }

  /** `prim_add`. */
  function Add(h: Heap, args: Ptr): (r: (Heap, Ptr))
    ensures Grows(h, r.0)
  {
    MakeNum(h, Sum(Numbers(h, Items(h, args))))
  }

  /** `prim_mul`. */
  function Mul(h: Heap, args: Ptr): (r: (Heap, Ptr))
    ensures Grows(h, r.0)
  {
    MakeNum(h, Product(Numbers(h, Items(h, args))))
  }

  /** What `prim_sub` computes: 0 without a leading number, the negation of a lone number, else the first minus the numbers that follow. */
  function Difference(h: Heap, args: Ptr): int
  {
    match First(h, args)
    case None => 0
    case Some(a) =>
      if !At(h, a).Num? then 0
      else
        var rest := At(h, args).cdr;
        if At(h, rest).NilCell? then -At(h, a).n
        else At(h, a).n - Sum(Numbers(h, Items(h, rest)))
  }

  /** `prim_sub`. */
  function Sub(h: Heap, args: Ptr): (r: (Heap, Ptr))
    ensures Grows(h, r.0)
  {
    MakeNum(h, Difference(h, args))
  }

  /** What `prim_div` computes: 0 without a leading number, else the first divided by each following nonzero number in turn. */
  function Ratio(h: Heap, args: Ptr): int
  {
    match First(h, args)
    case None => 0
    case Some(a) =>
      if !At(h, a).Num? then 0
      else Quotient(At(h, a).n, Numbers(h, Items(h, At(h, args).cdr)))
  }

  /** `prim_div`. */
  function Div(h: Heap, args: Ptr): (r: (Heap, Ptr))
    ensures Grows(h, r.0)
  {
    MakeNum(h, Ratio(h, args))
  }

  /** A primitive applied to its argument list. */
  function Apply(h: Heap, p: Prim, args: Ptr): (r: (Heap, Ptr))
    ensures Grows(h, r.0)
  {
    match p
    case CarPrim => (h, Car(h, args))
    case CdrPrim => (h, Cdr(h, args))
    case ConsPrim => (Cons(h, args))
    case AtomPrim => (h, Atom(h, args))
    case EqPrim => (h, Eq(h, args))
    case AddPrim => (Add(h, args))
    case SubPrim => (Sub(h, args))
    case MulPrim => (Mul(h, args))
    case DivPrim => (Div(h, args))
  }

  lemma AllocGrows(h: Heap, c: Cell)
    ensures Grows(h, Alloc(h, c).0)
  {
    var h' := Alloc(h, c).0;
    assert h'.cells[..|h.cells|] == h.cells;
    assert h'.out[..|h.out|] == h.out;
  }

  /** Over a valid heap, a primitive keeps the heap valid and returns an allocated cell. */
  lemma ApplyValid(h: Heap, p: Prim, args: Ptr)
    requires Valid(h) && args < |h.cells|
    ensures Valid(Apply(h, p, args).0) && Apply(h, p, args).1 < |Apply(h, p, args).0.cells|
  {
    match p
    case ConsPrim =>
      if First(h, args).Some? && Second(h, args).Some? {
        AllocValid(h, Pair(First(h, args).value, Second(h, args).value));
      }
    case CarPrim =>
    case CdrPrim =>
    case AtomPrim =>
    case EqPrim =>
    case AddPrim => AllocValid(h, Num(Sum(Numbers(h, Items(h, args)))));
    case MulPrim => AllocValid(h, Num(Product(Numbers(h, Items(h, args)))));
    case SubPrim => AllocValid(h, Num(Difference(h, args)));
    case DivPrim => AllocValid(h, Num(Ratio(h, args)));
  }

  /** `car` and `cdr` of a pair `cons` has just built give back the two arguments `cons` was given. */
  lemma ConsCarCdr(h: Heap, args: Ptr, list: Ptr)
    requires |h.cells| < MAX_CELLS
    requires First(h, args).Some? && Second(h, args).Some?
    requires First(Cons(h, args).0, list) == Some(Cons(h, args).1)
    ensures Car(Cons(h, args).0, list) == First(h, args).value
    ensures Cdr(Cons(h, args).0, list) == Second(h, args).value
    ensures Atom(Cons(h, args).0, list) == NIL
  {
    var (h', p) := Cons(h, args);
    assert At(h', p) == Pair(First(h, args).value, Second(h, args).value);
  }

  /** `eq` holds of any value and itself. */
  lemma EqReflexive(h: Heap, args: Ptr)
    requires First(h, args).Some? && First(h, args) == Second(h, args)
    ensures Eq(h, args) == T
  {
  }

  /** `eq` does not depend on the order of its two arguments. */
  lemma EqSymmetric(h: Heap, args: Ptr, swapped: Ptr)
    requires First(h, args).Some? && Second(h, args).Some?
    requires First(h, swapped) == Second(h, args) && Second(h, swapped) == First(h, args)
    ensures Eq(h, args) == Eq(h, swapped)
  {
  }

  lemma {:induction false} SumAppend(a: seq<int>, b: seq<int>)
    ensures Sum(a + b) == Sum(a) + Sum(b)
  {
    if |a| > 0 {
      assert (a + b)[1..] == a[1..] + b;
      SumAppend(a[1..], b);
    } else {
      assert a + b == b;
    }
  }

  /** The product of two runs of numbers is the product of their products. */
  lemma {:induction false} ProductAppend(a: seq<int>, b: seq<int>)
    ensures Product(a + b) == Product(a) * Product(b)
  {
    if |a| > 0 {
      assert (a + b)[1..] == a[1..] + b;
      ProductAppend(a[1..], b);
      MulAssociates(a[0], Product(a[1..]), Product(b));
    } else {
      assert a + b == b;
    }
  }

  lemma MulAssociates(x: int, y: int, z: int)
    ensures x * (y * z) == (x * y) * z
  {
  }

  /** A zero among the numbers makes the product zero, whatever the others are. */
  lemma {:induction false} ProductZero(ns: seq<int>)
    ensures (exists i | 0 <= i < |ns| :: ns[i] == 0) ==> Product(ns) == 0
    ensures (forall i | 0 <= i < |ns| :: ns[i] != 0) ==> Product(ns) != 0
  {
    if |ns| > 0 {
      ProductZero(ns[1..]);
      assert forall i | 1 <= i < |ns| :: ns[i] == ns[1..][i - 1];
      if ns[0] != 0 && Product(ns[1..]) != 0 {
        NonZeroProduct(ns[0], Product(ns[1..]));
      }
    }
  }

  lemma NonZeroProduct(x: int, y: int)
    requires x != 0 && y != 0
    ensures x * y != 0
  {
  }

  /** `(- x y ...)` is `x` less `(+ y ...)`: what `-` takes away is exactly what `+` adds up. */
  lemma SubIsAddNegated(h: Heap, args: Ptr)
    requires |h.cells| < MAX_CELLS
    requires First(h, args).Some? && At(h, First(h, args).value).Num?
    requires !At(h, At(h, args).cdr).NilCell?
    ensures var rest := At(h, args).cdr;
      At(Sub(h, args).0, Sub(h, args).1).n + At(Add(h, rest).0, Add(h, rest).1).n == At(h, First(h, args).value).n
  {
  }

  /** Integer division never makes a number larger, so `/` ends no further from 0 than it started. */
  lemma {:induction false} QuotientShrinks(acc: int, ns: seq<int>)
    ensures Int32.Abs(Quotient(acc, ns)) <= Int32.Abs(acc)
    decreases |ns|
  {
    if |ns| > 0 {
      if ns[0] == 0 {
        QuotientShrinks(acc, ns[1..]);
      } else {
        var q := Int32.TruncDiv(acc, ns[0]);
        Int32.MulGrows(Int32.Abs(ns[0]), Int32.Abs(q));
        QuotientShrinks(q, ns[1..]);
      }
    }
  }

  /** A zero divisor is skipped: dividing by `0` leaves the running value as it was. */
  lemma QuotientSkipsZero(acc: int, ns: seq<int>)
    ensures Quotient(acc, [0] + ns) == Quotient(acc, ns)
  {
    assert ([0] + ns)[1..] == ns;
  }
}

=== FILE: lisp_reader.dfy ===
/**
  The reader of the Lisp interpreter (lisp/lisp.c): `skip_whitespace`,
  `parse_atom`, `parse_expr` and `parse_list` over one input line.

  The C reader walks a 256-byte buffer that `fgets` filled and that ends in
  a NUL; here the line is a string, `Ch` reads NUL at and past its end, and
  the cursor is an explicit argument and result.
*/
module LispReader {
  import Ctype
  import Int32
  import Numerals
  import Stdlib
  import opened Wrappers
  import opened LispCells
  import LispPrims

  /** The size of `input_buf`; `fgets` leaves at most 255 characters before the NUL. */
  const MAX_INPUT: nat := 256
  /** `parse_atom` copies at most 63 characters into its 64-byte token buffer. */
  const TOKEN_MAX: nat := 63
  const NUL: char := 0 as char

  /** The cell read and the cursor after it. */
  datatype Read = Read(h: Heap, p: Ptr, pos: nat)

  /** The buffer character at `pos`: NUL from the end of the line on. */
  function Ch(line: string, pos: nat): char
  {
    if pos < |line| then line[pos] else NUL
  }

  predicate IsSpace(c: char)
  {
    Ctype.IsSpace(c as int)
  }

  /** `skip_whitespace`: the first position at or after `pos` that holds no white space. */
  function SkipSpace(line: string, pos: nat): (q: nat)
    ensures pos <= q
    ensures pos <= |line| ==> q <= |line|
    ensures q < MAX_INPUT ==> !IsSpace(Ch(line, q))
    ensures forall k | pos <= k < q :: IsSpace(Ch(line, k))
    decreases MAX_INPUT - pos
  {
    if pos < MAX_INPUT && IsSpace(Ch(line, pos)) then SkipSpace(line, pos + 1) else pos
  }

  /** A character `parse_atom` copies: anything but white space, a parenthesis or NUL. */
  predicate InToken(c: char)
  {
    !IsSpace(c) && c != '(' && c != ')' && c != NUL
  }

  /** The rest of a token from its `n`-th character on. */
  function TokenFrom(line: string, pos: nat, n: nat): (t: string)
    requires n <= TOKEN_MAX
    ensures |t| <= TOKEN_MAX - n
    ensures |t| > 0 ==> pos + n + |t| <= |line|
    ensures forall k | 0 <= k < |t| :: pos + n + k < |line| && t[k] == line[pos + n + k] && InToken(t[k])
    ensures |t| == TOKEN_MAX - n || pos + n + |t| >= MAX_INPUT || !InToken(Ch(line, pos + n + |t|))
    decreases TOKEN_MAX - n
  {
    if n < TOKEN_MAX && pos + n < MAX_INPUT && InToken(Ch(line, pos + n)) then
      [Ch(line, pos + n)] + TokenFrom(line, pos, n + 1)
    else []
  }

  /** The token `parse_atom` copies from `pos`: at most 63 characters, ending before white space, a parenthesis or the end. */
  function Token(line: string, pos: nat): (t: string)
    ensures |t| <= TOKEN_MAX
    ensures |t| > 0 ==> pos + |t| <= |line|
    ensures forall k | 0 <= k < |t| :: pos + k < |line| && t[k] == line[pos + k] && InToken(t[k])
    ensures |t| == TOKEN_MAX || pos + |t| >= MAX_INPUT || !InToken(Ch(line, pos + |t|))
  {
    TokenFrom(line, pos, 0)
  }

  /** Where the digits of a numeral start: after a leading sign, if any. */
  function DigitsStart(t: string): nat
  {
    if |t| > 0 && (t[0] == '-' || t[0] == '+') then 1 else 0
  }

  /** `parse_atom`'s `is_num`: an optional sign and at least one digit, nothing else. */
  predicate IsNumeral(t: string)
  {
    |t| > DigitsStart(t) && forall j | DigitsStart(t) <= j < |t| :: Ctype.IsDigit(t[j] as int)
  }

  /**
    `parse_atom`: a numeral becomes a number, `nil` and `t` the two fixed
    cells, anything else a new symbol whose name is copied into the string
    pool first.  No token at all reads as `nil` and consumes nothing.
  */
  function ParseAtom(h: Heap, line: string, pos: nat): (r: Read)
    ensures r.pos == pos + |Token(line, pos)|
  {
    var t := Token(line, pos);
    if |t| == 0 then Read(h, NIL, pos)
    else if IsNumeral(t) then
      var (h', p) := LispPrims.MakeNum(h, Stdlib.Atoi(t));
      Read(h', p, pos + |t|)
    else if t == "nil" then Read(h, NIL, pos + |t|)
    else if t == "t" then Read(h, T, pos + |t|)
    else
      var h1 := StrAlloc(h, t);
      var (h', p) := Alloc(h1, Symbol(t));
      Read(h', p, pos + |t|)
  }

  /** `'x` becomes `(quote x)`: the symbol, then the one-element tail, then the list. */
  function Quoted(r: Read): (q: Read)
    ensures q.pos == r.pos
  {
    var quote := Alloc(r.h, Symbol("quote"));
    var tail := Alloc(quote.0, Pair(r.p, NIL));
    var list := Alloc(tail.0, Pair(quote.1, tail.1));
    Read(list.0, list.1, r.pos)
  }

  /** The reader stops at the end of the line or of the buffer. */
  predicate AtEnd(line: string, q: nat)
  {
    q >= MAX_INPUT || Ch(line, q) == NUL
  }

  /**
    `parse_expr`: an expression after optional white space.  At the end of
    the line, and at a `)` it does not consume, the result is `nil`.  It
    consumes input whenever anything but white space, the end or a `)` is
    ahead.
  */
  function ParseExpr(h: Heap, line: string, pos: nat): (r: Read)
    requires |line| < MAX_INPUT && pos <= |line|
    ensures pos <= r.pos <= |line|
    ensures !AtEnd(line, SkipSpace(line, pos)) && Ch(line, SkipSpace(line, pos)) != ')' ==> r.pos > SkipSpace(line, pos)
    decreases |line| - pos, 0
  {
    var q := SkipSpace(line, pos);
    if AtEnd(line, q) then Read(h, NIL, q)
    else if Ch(line, q) == '(' then ParseList(h, line, q + 1)
    else if Ch(line, q) == ')' then Read(h, NIL, q)
    else if Ch(line, q) == '\'' then Quoted(ParseExpr(h, line, q + 1))
    else ParseAtom(h, line, q)
  }

  /**
    `parse_list` after its `(`: the elements up to the matching `)`.  The
    end of the line closes every list still open; this is the one place
    where the model departs from the C code (see `ParseListAsWritten`).
  */
  function ParseList(h: Heap, line: string, pos: nat): (r: Read)
    requires |line| < MAX_INPUT && pos <= |line|
    ensures pos <= r.pos <= |line|
    decreases |line| - pos, 1
  {
    var q := SkipSpace(line, pos);
    if Ch(line, q) == ')' then Read(h, NIL, q + 1)
    else if AtEnd(line, q) then Read(h, NIL, q)
    else
      var car := ParseExpr(h, line, q);
      var cdr := ParseList(car.h, line, car.pos);
      var (h', p) := Alloc(cdr.h, Pair(car.p, cdr.p));
      Read(h', p, cdr.pos)
  }

  /** `parse_list` as written: at the end of the line `parse_expr` reads `nil` without moving, and the list goes on. */
  function ParseListAsWritten(h: Heap, line: string, pos: nat, fuel: nat): Option<Read>
    decreases fuel
  {
    if fuel == 0 then None
    else
      var q := SkipSpace(line, pos);
      if Ch(line, q) == ')' then Some(Read(h, NIL, q + 1))
      else
        match ParseExprAsWritten(h, line, q, fuel - 1)
        case None => None
        case Some(car) =>
          match ParseListAsWritten(car.h, line, car.pos, fuel - 1)
          case None => None
          case Some(cdr) =>
            var (h', p) := Alloc(cdr.h, Pair(car.p, cdr.p));
            Some(Read(h', p, cdr.pos))
  }

  /** `parse_expr` as written, with a recursion budget; `None` when the budget runs out. */
  function ParseExprAsWritten(h: Heap, line: string, pos: nat, fuel: nat): Option<Read>
    decreases fuel
  {
    if fuel == 0 then None
    else
      var q := SkipSpace(line, pos);
      if AtEnd(line, q) then Some(Read(h, NIL, q))
      else if Ch(line, q) == '(' then ParseListAsWritten(h, line, q + 1, fuel - 1)
      else if Ch(line, q) == ')' then Some(Read(h, NIL, q))
      else if Ch(line, q) == '\'' then
        match ParseExprAsWritten(h, line, q + 1, fuel - 1)
        case None => None
        case Some(r) => Some(Quoted(r))
      else Some(ParseAtom(h, line, q))
  }

  /**
    As written, a list still open at the end of the line is never finished:
    every step reads `nil` at the NUL without moving, so no recursion budget
    is enough (the C reader recurses until its stack overflows).
  */
  lemma {:induction false} OpenListNeverEnds(h: Heap, line: string, pos: nat, fuel: nat)
    requires |line| < MAX_INPUT && pos <= |line|
    requires Ch(line, SkipSpace(line, pos)) == NUL
    ensures ParseListAsWritten(h, line, pos, fuel) == None
    decreases fuel
  {
    if fuel > 0 {
      var q := SkipSpace(line, pos);
      assert SkipSpace(line, q) == q;
      if fuel > 1 {
        assert ParseExprAsWritten(h, line, q, fuel - 1) == Some(Read(h, NIL, q));
      }
      OpenListNeverEnds(h, line, q, fuel - 1);
    }
  }

  /** The line `(` is never read to its end by the reader as written, but reads as `nil` with the end of line as its `)`. */
  lemma UnclosedParen(h: Heap, fuel: nat)
    ensures ParseExprAsWritten(h, "(", 0, fuel) == None
    ensures ParseExpr(h, "(", 0) == Read(h, NIL, 1)
  {
    assert SkipSpace("(", 0) == 0;
    assert SkipSpace("(", 1) == 1;
    if fuel > 0 {
      OpenListNeverEnds(h, "(", 1, fuel - 1);
    }
  }

  /** Reading only allocates: over a valid heap the heap stays valid, only grows, and the cell read is allocated. */
  lemma {:induction false} ExprValid(h: Heap, line: string, pos: nat)
    requires |line| < MAX_INPUT && pos <= |line| && Valid(h)
    ensures var r := ParseExpr(h, line, pos);
      Valid(r.h) && Grows(h, r.h) && r.p < |r.h.cells|
    decreases |line| - pos, 0
  {
    var q := SkipSpace(line, pos);
    if AtEnd(line, q) || Ch(line, q) == ')' {
      ReadsNothing(h, line, pos);
      GrowsRefl(h);
    } else if Ch(line, q) == '(' {
      ReadsList(h, line, pos);
      ListValid(h, line, q + 1);
    } else if Ch(line, q) == '\'' {
      ExprValid(h, line, q + 1);
      var r := ParseExpr(h, line, q + 1);
      QuotedValid(r);
      GrowsTransitive(h, r.h, Quoted(r).h);
      ReadsQuote(h, line, pos);
    } else {
      ReadsAtom(h, line, pos);
      AtomValid(h, line, q);
    }
  }

  lemma {:induction false} ListValid(h: Heap, line: string, pos: nat)
    requires |line| < MAX_INPUT && pos <= |line| && Valid(h)
    ensures var r := ParseList(h, line, pos);
      Valid(r.h) && Grows(h, r.h) && r.p < |r.h.cells|
    decreases |line| - pos, 1
  {
    var q := SkipSpace(line, pos);
    if Ch(line, q) == ')' || AtEnd(line, q) {
      GrowsRefl(h);
    } else {
      ExprValid(h, line, q);
      var car := ParseExpr(h, line, q);
      ListValid(car.h, line, car.pos);
      var cdr := ParseList(car.h, line, car.pos);
      GrowsTransitive(h, car.h, cdr.h);
      AllocValid(cdr.h, Pair(car.p, cdr.p));
      GrowsTransitive(h, cdr.h, Alloc(cdr.h, Pair(car.p, cdr.p)).0);
    }
  }

  /** At the end of the line, or at a `)`, the reader reads `nil` and allocates nothing. */
  lemma ReadsNothing(h: Heap, line: string, pos: nat)
    requires |line| < MAX_INPUT && pos <= |line|
    requires AtEnd(line, SkipSpace(line, pos)) || Ch(line, SkipSpace(line, pos)) == ')'
    ensures ParseExpr(h, line, pos) == Read(h, NIL, SkipSpace(line, pos))
  {
  }

  /** An opening parenthesis starts a list. */
  lemma ReadsList(h: Heap, line: string, pos: nat)
    requires |line| < MAX_INPUT && pos <= |line|
    requires Ch(line, SkipSpace(line, pos)) == '('
    ensures ParseExpr(h, line, pos) == ParseList(h, line, SkipSpace(line, pos) + 1)
  {
  }

  /** Anything else starts an atom. */
  lemma ReadsAtom(h: Heap, line: string, pos: nat)
    requires |line| < MAX_INPUT && pos <= |line|
    requires var c := Ch(line, SkipSpace(line, pos));
      !AtEnd(line, SkipSpace(line, pos)) && c != '(' && c != ')' && c != '\''
    ensures ParseExpr(h, line, pos) == ParseAtom(h, line, SkipSpace(line, pos))
  {
  }

  /** A quote mark reads the expression after it and wraps it as `(quote x)`. */
  lemma ReadsQuote(h: Heap, line: string, pos: nat)
    requires |line| < MAX_INPUT && pos <= |line|
    requires !AtEnd(line, SkipSpace(line, pos)) && Ch(line, SkipSpace(line, pos)) == '\''
    ensures ParseExpr(h, line, pos) == Quoted(ParseExpr(h, line, SkipSpace(line, pos) + 1))
  {
  }

  lemma AtomValid(h: Heap, line: string, pos: nat)
    requires Valid(h)
    ensures var r := ParseAtom(h, line, pos);
      Valid(r.h) && Grows(h, r.h) && r.p < |r.h.cells|
  {
    var t := Token(line, pos);
    if |t| == 0 || (!IsNumeral(t) && (t == "nil" || t == "t")) {
      GrowsRefl(h);
    } else if IsNumeral(t) {
      AllocValid(h, Num(Stdlib.Atoi(t)));
    } else {
      var h1 := StrAlloc(h, t);
      assert Grows(h, h1) by {
        assert h1.cells[..|h.cells|] == h.cells;
        assert h1.out[..|h.out|] == h.out;
      }
      AllocValid(h1, Symbol(t));
      GrowsTransitive(h, h1, Alloc(h1, Symbol(t)).0);
    }
  }

  lemma QuotedValid(r: Read)
    requires Valid(r.h) && r.p < |r.h.cells|
    ensures Valid(Quoted(r).h) && Grows(r.h, Quoted(r).h) && Quoted(r).p < |Quoted(r).h.cells|
  {
    var quote := Alloc(r.h, Symbol("quote"));
    AllocValid(r.h, Symbol("quote"));
    var tail := Alloc(quote.0, Pair(r.p, NIL));
    AllocValid(quote.0, Pair(r.p, NIL));
    AllocValid(tail.0, Pair(quote.1, tail.1));
    GrowsTransitive(r.h, quote.0, tail.0);
    GrowsTransitive(r.h, tail.0, Alloc(tail.0, Pair(quote.1, tail.1)).0);
  }

  /** A whole short line of token characters is read as one token. */
  lemma TokenWhole(line: string)
    requires |line| <= TOKEN_MAX
    requires forall k | 0 <= k < |line| :: InToken(line[k])
    ensures Token(line, 0) == line
  {
    var t := Token(line, 0);
    assert |t| == |line|;
  }

  /** Every number a cell holds, printed in decimal, reads back as a new cell with that number. */
  lemma ReadNumber(h: Heap, n: int)
    requires Int32.IsI32(n) && |h.cells| < MAX_CELLS
    ensures var line := Numerals.Decimal(n);
      |line| < MAX_INPUT &&
      var r := ParseExpr(h, line, 0);
      At(r.h, r.p) == Num(n) && r.pos == |line| && r.h.out == h.out && r.h.global == h.global
  {
    var line := Numerals.Decimal(n);
    DecimalIsNumeral(n);
    ReadNumeral(h, line);
    Stdlib.AtoiDecimal(n, "");
    assert line + "" == line;
  }

  lemma DecimalIsNumeral(n: int)
    requires Int32.IsI32(n)
    ensures var line := Numerals.Decimal(n);
      0 < |line| <= TOKEN_MAX && IsNumeral(line) && (forall k | 0 <= k < |line| :: InToken(line[k]))
  {
    var line := Numerals.Decimal(n);
    Numerals.DecimalShort(n);
    assert forall k | 0 <= k < |line| :: InToken(line[k]);
  }

  /** A line that is one numeral reads as a new number cell holding its `atoi` value. */
  lemma ReadNumeral(h: Heap, line: string)
    requires 0 < |line| <= TOKEN_MAX && |h.cells| < MAX_CELLS
    requires IsNumeral(line) && forall k | 0 <= k < |line| :: InToken(line[k])
    ensures var r := ParseExpr(h, line, 0);
      At(r.h, r.p) == Num(Stdlib.Atoi(line)) && r.pos == |line| && r.h.out == h.out && r.h.global == h.global
  {
    TokenWhole(line);
    assert SkipSpace(line, 0) == 0;
    assert line[0] == '-' || line[0] == '+' || Ctype.IsDigit(line[0] as int);
    ReadsAtom(h, line, 0);
  }

  /** A symbol name that is no numeral, `nil` or `t` reads back as a new symbol with that name. */
  lemma ReadSymbol(h: Heap, name: string)
    requires 0 < |name| <= TOKEN_MAX && |h.cells| < MAX_CELLS
    requires forall k | 0 <= k < |name| :: InToken(name[k])
    requires !IsNumeral(name) && name != "nil" && name != "t" && name[0] != '\''
    ensures var r := ParseExpr(h, name, 0);
      At(r.h, r.p) == Symbol(name) && r.pos == |name|
  {
    TokenWhole(name);
    assert SkipSpace(name, 0) == 0;
    ReadsAtom(h, name, 0);
  }

  /** The rest of a short line made only of token characters is read as one token. */
  lemma TokenRest(line: string, pos: nat)
    requires pos <= |line| < MAX_INPUT && |line| - pos <= TOKEN_MAX
    requires forall k | pos <= k < |line| :: InToken(line[k])
    ensures Token(line, pos) == line[pos..]
  {
    var t := Token(line, pos);
    assert |t| == |line| - pos;
  }

  /** `'x` for a symbol name `x` reads as the two-element list `(quote x)`. */
  lemma ReadQuoted(h: Heap, name: string)
    requires 0 < |h.cells| && h.cells[NIL] == NilCell && 0 < |name| < TOKEN_MAX && |h.cells| + 4 <= MAX_CELLS && h.strings + |name| + 1 < STRING_POOL_SIZE
    requires forall k | 0 <= k < |name| :: InToken(name[k])
    requires !IsNumeral(name) && name != "nil" && name != "t" && name[0] != '\''
    ensures var r := ParseExpr(h, "'" + name, 0);
      var items := Items(r.h, r.p);
      |items| == 2 && At(r.h, items[0]) == Symbol("quote") && At(r.h, items[1]) == Symbol(name)
      && r.pos == |name| + 1 && |r.h.cells| == |h.cells| + 4 && r.h.out == h.out && r.h.global == h.global
  {
    var line := "'" + name;
    assert SkipSpace(line, 0) == 0;
    ReadsQuote(h, line, 0);
    ReadAfterQuote(h, name);
    var x := ParseExpr(h, line, 1);
    assert At(x.h, NIL) == NilCell && At(x.h, x.p) == Symbol(name);
    QuotedItems(x);
  }

  lemma ReadAfterQuote(h: Heap, name: string)
    requires 0 < |name| < TOKEN_MAX && |h.cells| < MAX_CELLS && h.strings + |name| + 1 < STRING_POOL_SIZE
    requires forall k | 0 <= k < |name| :: InToken(name[k])
    requires !IsNumeral(name) && name != "nil" && name != "t" && name[0] != '\''
    ensures var x := ParseExpr(h, "'" + name, 1);
      x.h.cells == h.cells + [Symbol(name)] && x.p == |h.cells| && x.pos == |name| + 1
      && x.h.out == h.out && x.h.global == h.global
  {
    var line := "'" + name;
    assert line[1] == name[0];
    assert SkipSpace(line, 1) == 1;
    ReadsAtom(h, line, 1);
    TokenRest(line, 1);
    assert line[1..] == name;
  }

  /** `Quoted` lays out the symbol `quote`, the tail and the list, so the list's items are `quote` and the quoted cell. */
  lemma QuotedItems(x: Read)
    requires At(x.h, NIL) == NilCell && x.p < |x.h.cells| && |x.h.cells| + 3 <= MAX_CELLS
    ensures var r := Quoted(x);
      var items := Items(r.h, r.p);
      |items| == 2 && At(r.h, items[0]) == Symbol("quote") && items[1] == x.p && At(r.h, x.p) == At(x.h, x.p)
      && |r.h.cells| == |x.h.cells| + 3 && r.h.out == x.h.out && r.h.global == x.h.global
  {
    var quote := Alloc(x.h, Symbol("quote"));
    var tail := Alloc(quote.0, Pair(x.p, NIL));
    var list := Alloc(tail.0, Pair(quote.1, tail.1));
    assert At(list.0, tail.1) == Pair(x.p, NIL) && 0 < tail.1 < list.1;
    assert Items(list.0, tail.1) == [x.p];
  }
}

=== FILE: lisp_repl.dfy ===
/**
  The printer, the start-up and the read-eval-print loop of the Lisp
  interpreter (lisp/lisp.c): `print_cell`, `init_lisp` and `repl`.

  The loop reads its input with `fgets`; here the input is the sequence of
  strings those calls return, each at most 255 characters long, and the end
  of the sequence is end of file.  Everything the interpreter prints is
  appended to the heap's output.
*/
module LispRepl {
  import Ascii
  import Numerals
  import Int32
  import opened Wrappers
  import opened LispCells
  import opened LispReader
  import opened LispEval

  /** `print_cell`: the printed form of the cell at `p`. */
  function Print(h: Heap, p: Ptr): string
    decreases p, 0
  {
    match At(h, p)
    case NilCell => "nil"
    case Num(n) => Numerals.Decimal(n)
    case Symbol(name) => name
    case Pair(a, d) => "(" + (if a < p then Print(h, a) else "") + (if d < p then PrintRest(h, d) else ")")
    case Lambda(_, _, _) => "<lambda>"
    case Primitive(_) => "<primitive>"
  }

  /** The rest of a list after its first element: ` x` per further element, ` . y` before a tail that is not `nil`, then `)`. */
  function PrintRest(h: Heap, d: Ptr): string
    decreases d, 1
  {
    match At(h, d)
    case Pair(a, d2) => " " + (if a < d then Print(h, a) else "") + (if d2 < d then PrintRest(h, d2) else ")")
    case NilCell => ")"
    case _ => " . " + Print(h, d) + ")"
  }

  /** The elements of a list printed one after the other, separated by single spaces. */
  function Spaced(h: Heap, items: seq<Ptr>): string
  {
    if |items| == 0 then ""
    else if |items| == 1 then Print(h, items[0])
    else Print(h, items[0]) + " " + Spaced(h, items[1..])
  }

  /** A list that ends in the `nil` cell, each of its pairs referring to older cells as in every valid heap. */
  predicate Proper(h: Heap, p: Ptr)
    decreases p
  {
    match At(h, p)
    case NilCell => true
    case Pair(a, d) => a < p && d < p && Proper(h, d)
    case _ => false
  }

  /** A proper list prints as its elements, separated by spaces, inside parentheses. */
  lemma PrintProperList(h: Heap, p: Ptr)
    requires At(h, p).Pair? && Proper(h, p)
    ensures Print(h, p) == "(" + Spaced(h, Items(h, p)) + ")"
  {
    var a := At(h, p).car;
    var d := At(h, p).cdr;
    PrintPair(h, p);
    PrintRestProper(h, d);
    ItemsOfPair(h, p);
    if At(h, d).NilCell? {
      assert Items(h, d) == [];
      assert Spaced(h, [a]) == Print(h, a);
    } else {
      SpacedCons(h, a, Items(h, d));
      Regroup("(", Print(h, a), Spaced(h, Items(h, d)));
    }
  }

  lemma PrintPair(h: Heap, p: Ptr)
    requires At(h, p).Pair? && At(h, p).car < p && At(h, p).cdr < p
    ensures Print(h, p) == "(" + Print(h, At(h, p).car) + PrintRest(h, At(h, p).cdr)
  {
  }

  lemma Regroup(open: string, x: string, y: string)
    ensures open + x + (" " + y + ")") == open + (x + " " + y) + ")"
  {
  }

  lemma SpacedCons(h: Heap, a: Ptr, rest: seq<Ptr>)
    requires |rest| > 0
    ensures Spaced(h, [a] + rest) == Print(h, a) + " " + Spaced(h, rest)
  {
    assert ([a] + rest)[1..] == rest;
  }

  lemma {:induction false} PrintRestProper(h: Heap, d: Ptr)
    requires Proper(h, d)
    ensures PrintRest(h, d) == (if At(h, d).NilCell? then "" else " " + Spaced(h, Items(h, d))) + ")"
    decreases d
  {
    if At(h, d).Pair? {
      var a := At(h, d).car;
      var d2 := At(h, d).cdr;
      var x := Print(h, a);
      assert PrintRest(h, d) == " " + x + PrintRest(h, d2);
      PrintRestProper(h, d2);
      ItemsOfPair(h, d);
      if At(h, d2).NilCell? {
        assert Items(h, d2) == [];
        assert Spaced(h, [a]) == x;
      } else {
        SpacedCons(h, a, Items(h, d2));
        Regroup(" ", x, Spaced(h, Items(h, d2)));
      }
    }
  }

  /** The state before `init_lisp`: nothing allocated, nothing printed. */
  const EMPTY: Heap := Heap([], 0, [], 0, "")

  /** One line of `init_lisp`'s set-up: a symbol, a primitive, and a binding of the one to the other in the global environment. */
  function Install(h: Heap, name: string, prim: Prim): Heap
  {
    var s := Alloc(h, Symbol(name));
    var c := Alloc(s.0, Primitive(prim));
    var g := EnvExtend(c.0, s.1, c.1, c.0.global);
    g.0.(global := g.1)
  }

  /** The primitives `init_lisp` installs, in its order. */
  const PRIMITIVES: seq<(string, Prim)> :=
    [("car", CarPrim), ("cdr", CdrPrim), ("cons", ConsPrim), ("atom", AtomPrim), ("eq", EqPrim),
     ("+", AddPrim), ("-", SubPrim), ("*", MulPrim), ("/", DivPrim)]

  function InstallAll(h: Heap, prims: seq<(string, Prim)>): Heap
    decreases |prims|
  {
    if |prims| == 0 then h else InstallAll(Install(h, prims[0].0, prims[0].1), prims[1..])
  }

  /** The heap after `make_nil` and `make_symbol("t")`. */
  const BOOT: Heap := Heap([NilCell, Symbol("t")], 0, [], 0, "")

  /** `init_lisp`: `nil`, then `t`, then the nine primitives in the source's order. */
  function InitLisp(): Heap
  {
    InstallAll(Alloc(Alloc(EMPTY, NilCell).0, Symbol("t")).0, PRIMITIVES)
  }

  /** Allocating `nil` and then the symbol `t` on the empty heap puts them in cells 0 and 1 and does nothing else. */
  lemma BootAllocated()
    ensures Alloc(Alloc(EMPTY, NilCell).0, Symbol("t")).0 == BOOT
  {
  }

  lemma InstallSame(a: Heap, b: Heap, ps: seq<(string, Prim)>)
    requires a == b
    ensures InstallAll(a, ps) == InstallAll(b, ps)
  {
  }

  /** `init_lisp` is the installation of the nine primitives over the boot heap. */
  lemma InitIsInstalled()
    ensures InitLisp() == InstallAll(BOOT, PRIMITIVES)
  {
    BootAllocated();
    InstallSame(Alloc(Alloc(EMPTY, NilCell).0, Symbol("t")).0, BOOT, PRIMITIVES);
  }

  /** Installing a primitive takes two cells and one environment slot, and binds the name in front of the global environment. */
  lemma InstallStep(h: Heap, name: string, prim: Prim)
    requires |h.cells| + 2 <= MAX_CELLS && h.envSlots < MAX_ENV
    ensures var n := |h.cells|;
      Install(h, name, prim) == h.(cells := h.cells + [Symbol(name), Primitive(prim)],
                                   global := [Binding(n, n + 1)] + h.global, envSlots := h.envSlots + 1)
  {
    assert h.cells + [Symbol(name)] + [Primitive(prim)] == h.cells + [Symbol(name), Primitive(prim)];
  }

  /** The cells installing `prims` lays out: each name, then its primitive. */
  function Laid(prims: seq<(string, Prim)>): (r: seq<Cell>)
    ensures |r| == 2 * |prims|
    ensures forall k | 0 <= k < |r| :: r[k].Primitive? || r[k].Symbol?
  {
    if |prims| == 0 then [] else [Symbol(prims[0].0), Primitive(prims[0].1)] + Laid(prims[1..])
  }

  /** Only the names installed are laid out as symbols. */
  lemma {:induction false} LaidNames(prims: seq<(string, Prim)>, name: string)
    requires forall j | 0 <= j < |prims| :: prims[j].0 != name
    ensures Symbol(name) !in Laid(prims)
  {
    if |prims| > 0 {
      LaidNames(prims[1..], name);
    }
  }

  /** The bindings installing `prims` from cell `n` on makes, the last one first. */
  function Bound(n: nat, prims: seq<(string, Prim)>): (r: Env)
    ensures |r| == |prims|
    ensures forall k | 0 <= k < |r| :: n <= r[k].symbol && r[k].value == r[k].symbol + 1 < n + 2 * |prims|
    decreases |prims|
  {
    if |prims| == 0 then [] else Bound(n + 2, prims[1..]) + [Binding(n, n + 1)]
  }

  lemma {:induction false} InstallAllIs(h: Heap, prims: seq<(string, Prim)>)
    requires |h.cells| + 2 * |prims| <= MAX_CELLS && h.envSlots + |prims| <= MAX_ENV
    ensures InstallAll(h, prims) ==
      h.(cells := h.cells + Laid(prims), global := Bound(|h.cells|, prims) + h.global, envSlots := h.envSlots + |prims|)
    decreases |prims|
  {
    if |prims| == 0 {
      assert h.cells + [] == h.cells && [] + h.global == h.global;
    } else {
      var n := |h.cells|;
      InstallStep(h, prims[0].0, prims[0].1);
      var h1 := Install(h, prims[0].0, prims[0].1);
      InstallAllIs(h1, prims[1..]);
      assert h1.cells + Laid(prims[1..]) == h.cells + Laid(prims);
      assert Bound(n + 2, prims[1..]) + h1.global == Bound(n, prims) + h.global;
    }
  }

  /** Installing primitives over the boot heap gives a valid heap laid out as `nil`, `t`, then each name and its primitive. */
  lemma {:induction false} Installed(ps: seq<(string, Prim)>)
    requires 2 + 2 * |ps| <= MAX_CELLS && |ps| <= MAX_ENV
    ensures var h := InstallAll(BOOT, ps);
      && Valid(h) && |h.cells| == 2 + 2 * |ps| && h.envSlots == |ps| && h.strings == 0 && h.out == ""
      && h.cells == [NilCell, Symbol("t")] + Laid(ps) && h.global == Bound(2, ps)
  {
    InstallAllIs(BOOT, ps);
    var h := InstallAll(BOOT, ps);
    assert Bound(2, ps) + [] == Bound(2, ps);
    forall i | 0 <= i < |h.cells|
      ensures RefsBelow(h.cells[i], i)
    {
      if i >= 2 {
        assert h.cells[i] == Laid(ps)[i - 2];
      }
    }
  }

  /** When no installed name is `t`, no binding of the installed heap's global environment is for `t`. */
  lemma {:induction false} InstalledWithout(ps: seq<(string, Prim)>)
    requires 2 + 2 * |ps| <= MAX_CELLS && |ps| <= MAX_ENV
    requires forall j | 0 <= j < |ps| :: ps[j].0 != "t"
    ensures var h := InstallAll(BOOT, ps); forall k | 0 <= k < |h.global| :: !Binds(h, h.global[k], "t")
  {
    Installed(ps);
    LaidNames(ps, "t");
    forall k | 0 <= k < |InstallAll(BOOT, ps).global| {
      InstalledEntry(ps, k);
    }
  }

  lemma {:induction false} InstalledEntry(ps: seq<(string, Prim)>, k: nat)
    requires 2 + 2 * |ps| <= MAX_CELLS && |ps| <= MAX_ENV
    requires Symbol("t") !in Laid(ps)
    requires k < |ps|
    ensures var h := InstallAll(BOOT, ps); k < |h.global| && !Binds(h, h.global[k], "t")
  {
    Installed(ps);
    var h := InstallAll(BOOT, ps);
    var i := h.global[k].symbol;
    assert h.cells[i] == Laid(ps)[i - 2];
  }

  /**
    After `init_lisp` the heap is valid: `nil` and `t`, then the nine
    primitives' names and cells; nine environment slots are used, each
    binding a primitive's name; no string memory is used and nothing is
    printed.
  */
  lemma InitLayout()
    ensures var h := InitLisp();
      && Valid(h) && |h.cells| == 20 && h.envSlots == 9 && h.strings == 0 && h.out == ""
      && h.cells == [NilCell, Symbol("t")] + Laid(PRIMITIVES) && h.global == Bound(2, PRIMITIVES)
  {
    InitIsInstalled();
    Installed(PRIMITIVES);
  }

  /** No primitive is called `t`: in the initial environment `t` is unbound, so it evaluates to `nil`, not to itself. */
  lemma TUnbound()
    ensures var h := InitLisp(); forall k | 0 <= k < |h.global| :: !Binds(h, h.global[k], "t")
  {
    InitIsInstalled();
    NoPrimitiveIsT();
    InstalledWithout(PRIMITIVES);
  }

  lemma NoPrimitiveIsT()
    ensures forall j | 0 <= j < |PRIMITIVES| :: PRIMITIVES[j].0 != "t"
  {
  }

  const BANNER: string := "BogoLISP v0.1\n" + "Type expressions to evaluate, or 'quit' to exit\n" + "\n"
  const PROMPT: string := "lisp> "
  const GOODBYE: string := "Goodbye!\n"

  /** The line `repl` works on: the buffer's string without one trailing newline. */
  function Entered(chunk: string): (text: string)
    ensures |text| <= |chunk|
  {
    var s := Ascii.UpToNul(chunk);
    if |s| > 0 && s[|s| - 1] == '\n' then s[..|s| - 1] else s
  }

  /** The two words that end the loop. */
  predicate Quits(text: string)
  {
    text == "quit" || text == "exit"
  }

  /** Appends to what the interpreter has printed. */
  function Say(h: Heap, s: string): (h': Heap)
    ensures h'.cells == h.cells && h'.global == h.global && h'.out == h.out + s
  {
    h.(out := h.out + s)
  }

  /**
    One turn of `repl` on a nonempty line: read one expression from the
    start of the line, evaluate it in the global environment, print the
    result and a newline.  `None` when evaluation runs out of fuel.
  */
  function Respond(h: Heap, text: string, fuel: nat): Option<Heap>
    requires |text| < MAX_INPUT
  {
    var e := ParseExpr(h, text, 0);
    match Eval(e.h, e.h.global, e.p, fuel)
    case None => None
    case Some(o) => Some(Say(o.h, Print(o.h, o.v) + "\n"))
  }

  /**
    The loop of `repl` over the chunks successive `fgets` calls return, the
    end of the sequence being end of file: a prompt before each read;
    `quit`, `exit` or end of file prints the farewell and stops; an empty
    line is skipped.
  */
  function Session(h: Heap, chunks: seq<string>, fuel: nat): Option<Heap>
    requires forall i | 0 <= i < |chunks| :: |chunks[i]| < MAX_INPUT
    decreases |chunks|
  {
    var h1 := Say(h, PROMPT);
    if |chunks| == 0 then Some(Say(h1, GOODBYE))
    else
      var text := Entered(chunks[0]);
      if Quits(text) then Some(Say(h1, GOODBYE))
      else if text == "" then Session(h1, chunks[1..], fuel)
      else
        match Respond(h1, text, fuel)
        case None => None
        case Some(h2) => Session(h2, chunks[1..], fuel)
  }

  /** `main`: `init_lisp`, the banner, then the loop; the result is everything printed. */
  function Repl(chunks: seq<string>, fuel: nat): Option<string>
    requires forall i | 0 <= i < |chunks| :: |chunks[i]| < MAX_INPUT
  {
    match Session(Say(InitLisp(), BANNER), chunks, fuel)
    case None => None
    case Some(h) => Some(h.out)
  }

  predicate EndsWith(s: string, suffix: string)
  {
    |suffix| <= |s| && s[|s| - |suffix|..] == suffix
  }

  /** A chunk holding neither NUL nor a newline is the line itself, with or without the newline `fgets` keeps. */
  lemma EnteredChomps(line: string)
    requires forall k | 0 <= k < |line| :: line[k] != NUL && line[k] != '\n'
    ensures Entered(line) == line && Entered(line + "\n") == line
  {
    var u := Ascii.UpToNul(line + "\n");
    assert u == line + "\n";
    assert u[..|u| - 1] == line;
  }

  /** Printing keeps the heap valid and only adds to the output. */
  lemma SayValid(h: Heap, s: string)
    requires Valid(h)
    ensures Valid(Say(h, s)) && Grows(h, Say(h, s))
  {
    var h' := Say(h, s);
    assert h'.cells[..|h.cells|] == h.cells;
    assert h'.out[..|h.out|] == h.out;
  }

  /** A turn keeps the heap valid, and only adds cells and output. */
  lemma RespondValid(h: Heap, text: string, fuel: nat)
    requires Valid(h) && |text| < MAX_INPUT
    ensures var r := Respond(h, text, fuel); r.Some? ==> Valid(r.value) && Grows(h, r.value)
  {
    var e := ParseExpr(h, text, 0);
    ExprValid(h, text, 0);
    EvalValid(e.h, e.h.global, e.p, fuel);
    var r := Eval(e.h, e.h.global, e.p, fuel);
    if r.Some? {
      GrowsTransitive(h, e.h, r.value.h);
      SayValid(r.value.h, Print(r.value.h, r.value.v) + "\n");
      GrowsTransitive(h, r.value.h, Respond(h, text, fuel).value);
    }
  }

  /** Whatever the input, a finished session keeps the heap valid, begins with a prompt and ends with the farewell. */
  lemma {:induction false} SessionFrames(h: Heap, chunks: seq<string>, fuel: nat)
    requires Valid(h) && forall i | 0 <= i < |chunks| :: |chunks[i]| < MAX_INPUT
    ensures var r := Session(h, chunks, fuel);
      r.Some? ==> Valid(r.value) && Grows(Say(h, PROMPT), r.value) && EndsWith(r.value.out, GOODBYE)
    decreases |chunks|
  {
    var h1 := Say(h, PROMPT);
    SayValid(h, PROMPT);
    var r := Session(h, chunks, fuel);
    if |chunks| == 0 || Quits(Entered(chunks[0])) {
      SayValid(h1, GOODBYE);
    } else if Entered(chunks[0]) == "" {
      SessionFrames(h1, chunks[1..], fuel);
      SayValid(h1, PROMPT);
      if r.Some? {
        GrowsTransitive(h1, Say(h1, PROMPT), r.value);
      }
    } else {
      var text := Entered(chunks[0]);
      RespondValid(h1, text, fuel);
      if Respond(h1, text, fuel).Some? {
        var h2 := Respond(h1, text, fuel).value;
        SessionFrames(h2, chunks[1..], fuel);
        SayValid(h2, PROMPT);
        if r.Some? {
          GrowsTransitive(h1, h2, Say(h2, PROMPT));
          GrowsTransitive(h1, Say(h2, PROMPT), r.value);
        }
      }
    }
  }

  /** Everything the interpreter prints starts with the banner and the first prompt and ends with the farewell. */
  lemma ReplFrames(chunks: seq<string>, fuel: nat)
    requires forall i | 0 <= i < |chunks| :: |chunks[i]| < MAX_INPUT
    ensures var out := Repl(chunks, fuel);
      out.Some? ==>
        |BANNER + PROMPT| <= |out.value| && out.value[..|BANNER + PROMPT|] == BANNER + PROMPT && EndsWith(out.value, GOODBYE)
  {
    InitFacts();
    var h0 := Say(InitLisp(), BANNER);
    SayValid(InitLisp(), BANNER);
    SessionFrames(h0, chunks, fuel);
    assert Say(h0, PROMPT).out == BANNER + PROMPT;
  }

  /** End of file, or `quit` or `exit` on the first line, ends the session at once, whatever follows. */
  lemma ReplStops(chunks: seq<string>, fuel: nat)
    requires forall i | 0 <= i < |chunks| :: |chunks[i]| < MAX_INPUT
    requires |chunks| == 0 || Quits(Entered(chunks[0]))
    ensures Repl(chunks, fuel) == Some(BANNER + PROMPT + GOODBYE)
  {
    InitFacts();
    var h0 := Say(InitLisp(), BANNER);
    SessionStops(h0, chunks, fuel);
    EmptyThen(InitLisp().out, BANNER, PROMPT, GOODBYE);
  }

  lemma EmptyThen(e: string, a: string, b: string, c: string)
    requires e == ""
    ensures (e + a) + (b + c) == a + b + c
  {
  }

  lemma SessionStops(h: Heap, chunks: seq<string>, fuel: nat)
    requires forall i | 0 <= i < |chunks| :: |chunks[i]| < MAX_INPUT
    requires |chunks| == 0 || Quits(Entered(chunks[0]))
    ensures Session(h, chunks, fuel) == Some(Say(h, PROMPT + GOODBYE))
  {
    SayTwice(h, PROMPT, GOODBYE);
  }

  function Prompts(n: nat): (s: string)
    ensures |s| == n * |PROMPT|
  {
    if n == 0 then "" else PROMPT + Prompts(n - 1)
  }

  /** Empty lines only print a prompt each: no expression is read and the heap is left as it was. */
  lemma {:induction false} SkipsBlanks(h: Heap, blanks: seq<string>, rest: seq<string>, fuel: nat)
    requires forall i | 0 <= i < |blanks| :: |blanks[i]| < MAX_INPUT && Entered(blanks[i]) == ""
    requires forall i | 0 <= i < |rest| :: |rest[i]| < MAX_INPUT
    ensures Session(h, blanks + rest, fuel) == Session(Say(h, Prompts(|blanks|)), rest, fuel)
    decreases |blanks|
  {
    if |blanks| == 0 {
      assert blanks + rest == rest;
      assert Say(h, Prompts(0)) == h;
    } else {
      assert (blanks + rest)[1..] == blanks[1..] + rest;
      SkipsBlank(h, blanks + rest, fuel);
      SkipsBlanks(Say(h, PROMPT), blanks[1..], rest, fuel);
      SayTwice(h, PROMPT, Prompts(|blanks| - 1));
    }
  }

  lemma SkipsBlank(h: Heap, chunks: seq<string>, fuel: nat)
    requires forall i | 0 <= i < |chunks| :: |chunks[i]| < MAX_INPUT
    requires |chunks| > 0 && Entered(chunks[0]) == ""
    ensures Session(h, chunks, fuel) == Session(Say(h, PROMPT), chunks[1..], fuel)
  {
  }

  lemma SayTwice(h: Heap, a: string, b: string)
    ensures Say(Say(h, a), b) == Say(h, a + b)
  {
    assert h.out + a + b == h.out + (a + b);
  }

  /** After `init_lisp`: a valid heap of twenty cells, nothing printed. */
  lemma InitFacts()
    ensures var h := InitLisp(); Valid(h) && |h.cells| == 20 && h.strings == 0 && h.out == ""
  {
    InitLayout();
  }

  /** A session of one line that is neither a quit word nor empty: one turn, then end of file. */
  lemma SessionOne(h: Heap, line: string, fuel: nat)
    requires |line| < MAX_INPUT && Entered(line) == line && line != "" && !Quits(line)
    requires Respond(Say(h, PROMPT), line, fuel).Some?
    ensures Session(h, [line], fuel) == Some(Say(Respond(Say(h, PROMPT), line, fuel).value, PROMPT + GOODBYE))
  {
    var h2 := Respond(Say(h, PROMPT), line, fuel).value;
    assert [line][1..] == [];
    SessionStops(h2, [], fuel);
  }

  /** A line holding a number in decimal prints that number back. */
  lemma RespondNumber(h: Heap, n: int, fuel: nat)
    requires Int32.IsI32(n) && |h.cells| < MAX_CELLS && fuel > 0
    ensures |Numerals.Decimal(n)| < MAX_INPUT
    ensures var r := Respond(h, Numerals.Decimal(n), fuel);
      r.Some? && r.value.out == h.out + (Numerals.Decimal(n) + "\n")
  {
    ReadNumber(h, n);
    var e := ParseExpr(h, Numerals.Decimal(n), 0);
    SelfEvaluating(e.h, e.h.global, e.p, fuel);
  }

  /** `t` is read as the fixed cell `t`, which is a symbol bound to nothing: it evaluates to, and prints as, `nil`. */
  lemma RespondT(h: Heap, fuel: nat)
    requires Valid(h) && fuel > 0
    requires forall k | 0 <= k < |h.global| :: !Binds(h, h.global[k], "t")
    ensures Respond(h, "t", fuel) == Some(Say(h, "nil\n"))
  {
    TokenWhole("t");
    assert SkipSpace("t", 0) == 0;
    ReadsAtom(h, "t", 0);
    assert ParseExpr(h, "t", 0) == Read(h, T, 1);
    assert Eval(h, h.global, T, fuel) == Some(Out(h, NIL));
    assert Print(h, NIL) + "\n" == "nil\n";
  }

  /** A quoted symbol evaluates to the symbol, which prints as its name. */
  lemma RespondQuote(h: Heap, name: string, fuel: nat)
    requires Valid(h) && |h.cells| + 4 <= MAX_CELLS && h.strings + |name| + 1 < STRING_POOL_SIZE && fuel > 0
    requires 0 < |name| < TOKEN_MAX && forall k | 0 <= k < |name| :: InToken(name[k])
    requires !IsNumeral(name) && name != "nil" && name != "t" && name[0] != '\''
    ensures var r := Respond(h, "'" + name, fuel); r.Some? && r.value.out == h.out + (name + "\n")
  {
    ReadQuoted(h, name);
    var e := ParseExpr(h, "'" + name, 0);
    var items := Items(e.h, e.p);
    QuoteReturnsArgument(e.h, e.h.global, e.p, fuel, items[1]);
  }

  /** The heap the first line is read into: `init_lisp`'s, with the banner and the first prompt printed. */
  function FirstTurn(): (h: Heap)
    ensures Valid(h) && |h.cells| == 20 && h.strings == 0 && h.out == BANNER + PROMPT
    ensures forall k | 0 <= k < |h.global| :: !Binds(h, h.global[k], "t")
  {
    InitFacts();
    TUnbound();
    GreetKeeps(InitLisp());
    Say(Say(InitLisp(), BANNER), PROMPT)
  }

  /** Printing the banner and the prompt keeps a fresh heap valid and leaves `t` unbound. */
  lemma GreetKeeps(h: Heap)
    requires Valid(h) && |h.cells| == 20 && h.strings == 0 && h.out == ""
    requires forall k | 0 <= k < |h.global| :: !Binds(h, h.global[k], "t")
    ensures var g := Say(Say(h, BANNER), PROMPT);
      && Valid(g) && |g.cells| == 20 && g.strings == 0 && g.out == BANNER + PROMPT
      && forall k | 0 <= k < |g.global| :: !Binds(g, g.global[k], "t")
  {
    SayValid(h, BANNER);
    SayValid(Say(h, BANNER), PROMPT);
  }

  /** A single line that is neither a quit word nor empty: the banner, the prompt, what the line's turn prints, the prompt again and the farewell. */
  lemma ReplPrints(line: string, fuel: nat, shown: string)
    requires |line| < MAX_INPUT && Entered(line) == line && line != "" && !Quits(line)
    requires var r := Respond(FirstTurn(), line, fuel); r.Some? && r.value.out == FirstTurn().out + shown
    ensures Repl([line], fuel) == Some(BANNER + PROMPT + shown + PROMPT + GOODBYE)
  {
    SessionOne(Say(InitLisp(), BANNER), line, fuel);
    var h2 := Respond(FirstTurn(), line, fuel).value;
    assert Say(h2, PROMPT + GOODBYE).out == BANNER + PROMPT + shown + PROMPT + GOODBYE;
  }

  /** A number typed at the first prompt is printed back as typed. */
  lemma ReplNumber(n: int, fuel: nat)
    requires Int32.IsI32(n) && fuel > 0
    ensures |Numerals.Decimal(n)| < MAX_INPUT
    ensures Repl([Numerals.Decimal(n)], fuel) == Some(BANNER + PROMPT + (Numerals.Decimal(n) + "\n") + PROMPT + GOODBYE)
  {
    var line := Numerals.Decimal(n);
    NumberLine(n);
    RespondNumber(FirstTurn(), n, fuel);
    ReplPrints(line, fuel, line + "\n");
  }

  /** `t` typed at the first prompt prints `nil`: no primitive is named `t`. */
  lemma ReplT(fuel: nat)
    requires fuel > 0
    ensures Repl(["t"], fuel) == Some(BANNER + PROMPT + "nil\n" + PROMPT + GOODBYE)
  {
    LineT();
    FirstTurnT(fuel);
    ReplPrints("t", fuel, "nil\n");
  }

  /** The turn of the line `t` at the first prompt prints `nil`. */
  lemma FirstTurnT(fuel: nat)
    requires fuel > 0
    ensures var r := Respond(FirstTurn(), "t", fuel); r.Some? && r.value.out == FirstTurn().out + "nil\n"
  {
    RespondT(FirstTurn(), fuel);
  }

  /** `t` is a line `repl` evaluates: short, kept whole, and not a quit word. */
  lemma LineT()
    ensures |"t"| < MAX_INPUT && Entered("t") == "t" && "t" != "" && !Quits("t")
  {
    EnteredChomps("t");
  }

  /** A quoted symbol typed at the first prompt prints the symbol's name. */
  lemma ReplQuote(name: string, fuel: nat)
    requires 0 < |name| < TOKEN_MAX && forall k | 0 <= k < |name| :: InToken(name[k])
    requires !IsNumeral(name) && name != "nil" && name != "t" && name[0] != '\''
    requires fuel > 0
    ensures Repl(["'" + name], fuel) == Some(BANNER + PROMPT + (name + "\n") + PROMPT + GOODBYE)
  {
    QuoteLine(name);
    RespondQuote(FirstTurn(), name, fuel);
    ReplPrints("'" + name, fuel, name + "\n");
  }

  lemma NumberLine(n: int)
    requires Int32.IsI32(n)
    ensures var line := Numerals.Decimal(n);
      |line| < MAX_INPUT && Entered(line) == line && line != "" && !Quits(line)
  {
    var line := Numerals.Decimal(n);
    Numerals.DecimalShort(n);
    EnteredChomps(line);
    assert line[0] != 'q' && line[0] != 'e';
  }

  lemma QuoteLine(name: string)
    requires 0 < |name| < TOKEN_MAX && forall k | 0 <= k < |name| :: InToken(name[k])
    ensures var line := "'" + name;
      |line| < MAX_INPUT && Entered(line) == line && line != "" && !Quits(line)
  {
    var line := "'" + name;
    assert forall k | 1 <= k < |line| :: line[k] == name[k - 1];
    EnteredChomps(line);
  }
}

=== FILE: logging.dfy ===
/**
  The kernel log filter (kernel/src/logging.rs).  One byte holds the
  threshold, `Info` at boot; a message is printed when its level is at or
  above the threshold.  `LogLevel` itself is declared in the `uapi` crate,
  outside the files this model covers; its discriminants are the ranks
  0..4 that `get_log_level` decodes.
*/
module Logging {
  import opened Ascii
  import Uart

  datatype LogLevel = Trace | Debug | Info | Warn | Error

  /** The levels from least to most severe. */
  const LEVELS: seq<LogLevel> := [Trace, Debug, Info, Warn, Error]

  /** `level as u8`. */
  function Rank(l: LogLevel): (r: nat)
    ensures r < |LEVELS| && LEVELS[r] == l
  {
    match l
    case Trace => 0
    case Debug => 1
    case Info => 2
    case Warn => 3
    case Error => 4
  }

  /** `l` comes no earlier than `t` in the severity order. */
  predicate AtLeast(l: LogLevel, t: LogLevel)
  {
    exists i, j | 0 <= j <= i < |LEVELS| :: LEVELS[i] == l && LEVELS[j] == t
  }

  /** The threshold at boot: `LogLevel::Info as u8`. */
  const DEFAULT_THRESHOLD: nat := 2

  /** `get_log_level`: decode the stored byte. */
  function GetLogLevel(stored: nat): (l: LogLevel)
    requires stored < 256
    ensures stored < |LEVELS| ==> l == LEVELS[stored]
    ensures stored >= |LEVELS| - 1 ==> l == Error
  {
    match stored
    case 0 => Trace
    case 1 => Debug
    case 2 => Info
    case 3 => Warn
    case _ => Error
  }

  /** `set_log_level`: the byte to store. */
  function SetLogLevel(l: LogLevel): (stored: nat)
    ensures stored < |LEVELS|
    ensures GetLogLevel(stored) == l
  {
    Rank(l)
  }

  /** `should_log`. */
  predicate ShouldLog(stored: nat, l: LogLevel)
  {
    Rank(l) >= stored
  }

  /** For every threshold `set_log_level` can store, the filter passes exactly the levels at or above it. */
  lemma FilterAgrees(t: LogLevel, l: LogLevel)
    ensures ShouldLog(SetLogLevel(t), l) <==> AtLeast(l, t)
  {
    if ShouldLog(SetLogLevel(t), l) {
      assert LEVELS[Rank(l)] == l && LEVELS[Rank(t)] == t;
    }
    if AtLeast(l, t) {
      var i, j :| 0 <= j <= i < |LEVELS| && LEVELS[i] == l && LEVELS[j] == t;
      LevelsDistinct(i, Rank(l));
      LevelsDistinct(j, Rank(t));
    }
  }

  lemma LevelsDistinct(i: nat, j: nat)
    requires i < |LEVELS| && j < |LEVELS| && LEVELS[i] == LEVELS[j]
    ensures i == j
  {
  }

  /** Raising a message's level never suppresses it. */
  lemma ShouldLogMonotone(stored: nat, a: LogLevel, b: LogLevel)
    requires AtLeast(b, a)
    ensures ShouldLog(stored, a) ==> ShouldLog(stored, b)
  {
    var i, j :| 0 <= j <= i < |LEVELS| && LEVELS[i] == b && LEVELS[j] == a;
    LevelsDistinct(i, Rank(b));
    LevelsDistinct(j, Rank(a));
  }

  /** At boot, trace and debug messages are suppressed and the rest pass. */
  lemma DefaultFilter(l: LogLevel)
    ensures GetLogLevel(DEFAULT_THRESHOLD) == Info
    ensures ShouldLog(DEFAULT_THRESHOLD, l) <==> l in {Info, Warn, Error}
  {
  }

  /** The tag `klog!` prints before the message. */
  function Tag(l: LogLevel): (s: string)
    ensures |s| == 8 && s[0] == '['
  {
    match l
    case Trace => "[TRACE] "
    case Debug => "[DEBUG] "
    case Info => "[INFO]  "
    case Warn => "[WARN]  "
    case Error => "[ERROR] "
  }

  /**
    What `klog!` sends to the UART for a message whose formatted text has
    the bytes `msg`.  Each of its three writes goes through the UART's
    `write_str`, which turns every newline into a carriage return and a
    newline, so the closing "\r\n" leaves as "\r\r\n".
  */
  function Klog(stored: nat, l: LogLevel, msg: seq<Byte>): (out: string)
    ensures |out| == 0 <==> !ShouldLog(stored, l)
    ensures ShouldLog(stored, l) ==> |out| == 8 + |msg| + Uart.Newlines(msg) + 3
    ensures ShouldLog(stored, l) ==> out[..8] == Tag(l) && out[|out| - 3..] == "\r\r\n"
    ensures ShouldLog(stored, l) && Uart.LF !in msg ==> out[8..8 + |msg|] == msg
  {
    if ShouldLog(stored, l) then
      KlogParts(msg);
      Tag(l) + Uart.WriteStr(msg) + Uart.WriteStr("\r\n")
    else ""
  }

  lemma KlogParts(msg: seq<Byte>)
    ensures Uart.WriteStr("\r\n") == "\r\r\n"
    ensures Uart.LF !in msg ==> Uart.WriteStr(msg) == msg
  {
    assert Uart.WriteStr("\r\n") == ['\r'] + Uart.WriteStr("\n");
    assert Uart.WriteStr("\n") == "\r\n" + Uart.WriteStr("");
    if Uart.LF !in msg {
      Uart.WriteStrPlain(msg);
    }
  }

  /**
    A logged message can be read back from its line: between the tag and
    the line end, dropping each carriage return that precedes a newline
    gives the message, as long as the message held no carriage return.
  */
  lemma KlogShowsMessage(stored: nat, l: LogLevel, msg: seq<Byte>)
    requires ShouldLog(stored, l) && Uart.CR !in msg
    ensures var out := Klog(stored, l, msg);
      |out| >= 11 && Uart.DropCr(out[8..|out| - 3]) == msg
  {
    var out := Klog(stored, l, msg);
    KlogParts(msg);
    assert out[8..|out| - 3] == Uart.WriteStr(msg);
    Uart.WriteStrRoundTrip(msg);
  }

  /** The tags differ, so the level of a printed line can be read back from it. */
  lemma TagsDistinct(a: LogLevel, b: LogLevel)
    requires a != b
    ensures Tag(a) != Tag(b)
  {
    assert Tag(a)[1] != Tag(b)[1];
  }
}

=== FILE: numerals.dfy ===
/**
  Positional numerals in bases up to 16 with the digit set "0123456789abcdef",
  shared by the C library's `num_to_str` and `atoi`, the Forth number parser
  and printer, and the applications' formatters.
*/
module Numerals {
  import Arith

  const DIGITS: string := "0123456789abcdef"

  /** The value of a digit character; 16 for a character that is no digit at all. */
  function DigitVal(c: char): (d: nat)
    ensures d <= 16
  {
    if '0' <= c <= '9' then c as int - '0' as int
    else if 'a' <= c <= 'f' then c as int - 'a' as int + 10
    else 16
  }

  lemma DigitOfVal(c: char)
    requires DigitVal(c) < 16
    ensures DIGITS[DigitVal(c)] == c
  {
  }

  lemma DigitValOfDigit(d: nat)
    requires d < 16
    ensures DigitVal(DIGITS[d]) == d
  {
  }

  predicate AllDigits(s: string, base: nat)
  {
    forall i | 0 <= i < |s| :: DigitVal(s[i]) < base
  }

  /** The value of a numeral, most significant digit first. */
  function Value(s: string, base: nat): nat
    requires AllDigits(s, base)
    decreases |s|
  {
    if |s| == 0 then 0 else Value(s[..|s| - 1], base) * base + DigitVal(s[|s| - 1])
  }

  /** Canonical: non-empty, and no leading zero unless the numeral is "0". */
  predicate Canonical(s: string)
  {
    |s| > 0 && (|s| > 1 ==> s[0] != '0')
  }

  /** The canonical numeral of `n`. */
  function Digits(n: nat, base: nat): (s: string)
    requires 2 <= base <= 16
    ensures AllDigits(s, base) && Canonical(s)
    ensures Value(s, base) == n
    decreases n
  {
    if n < base then
      DigitValOfDigit(n);
      assert [DIGITS[n]][..0] == [];
      [DIGITS[n]]
    else
      DivMod(n, base);
      var q, d := n / base, n % base;
      var p := Digits(q, base);
      DigitValOfDigit(d);
      ValueAppend(p, DIGITS[d], base);
      p + [DIGITS[d]]
  }

  lemma DivMod(n: nat, base: nat)
    requires 2 <= base <= n
    ensures n == (n / base) * base + n % base && n % base < base
    ensures 1 <= n / base < n
  {
  }

  lemma {:induction false} ValuePositive(s: string, base: nat)
    requires 2 <= base <= 16
    requires AllDigits(s, base) && |s| > 0 && s[0] != '0'
    ensures Value(s, base) > 0
    decreases |s|
  {
    if |s| > 1 {
      var p := s[..|s| - 1];
      assert p[0] == s[0];
      ValuePositive(p, base);
      var v := Value(p, base);
      assert Value(s, base) == v * base + DigitVal(s[|s| - 1]);
      MulAtLeast(v, base);
    } else {
      DigitOfVal(s[0]);
    }
  }

  /** Every canonical numeral is the one `Digits` produces for its value. */
  lemma {:induction false} DigitsOfValue(s: string, base: nat)
    requires 2 <= base <= 16
    requires AllDigits(s, base) && Canonical(s)
    ensures Digits(Value(s, base), base) == s
    decreases |s|
  {
    var d := DigitVal(s[|s| - 1]);
    var p := s[..|s| - 1];
    DigitOfVal(s[|s| - 1]);
    assert s == p + [DIGITS[d]];
    if |s| == 1 {
      assert p == [];
      assert Value(s, base) == d;
    } else {
      assert p[0] == s[0];
      ValuePositive(p, base);
      var q := Value(p, base);
      var n := Value(s, base);
      assert n == q * base + d;
      DigitsStep(n, q, d, base);
      DigitsOfValue(p, base);
    }
  }

  lemma DigitsStep(n: nat, q: nat, d: nat, base: nat)
    requires 2 <= base <= 16 && 1 <= q && d < base && n == q * base + d
    ensures Digits(n, base) == Digits(q, base) + [DIGITS[d]]
  {
    QuotRem(q, d, base);
  }

  lemma Grow(v: nat, base: nat, d: nat)
    requires base >= 1
    ensures v <= v * base + d
  {
    var w: nat := base - 1;
    assert v * base == v * w + v;
  }

  lemma MulAtLeast(v: nat, base: nat)
    requires v >= 1
    ensures v * base >= base
  {
    var w: nat := v - 1;
    assert v * base == w * base + base;
  }

  lemma QuotRem(q: nat, d: nat, base: nat)
    requires 2 <= base && 1 <= q && d < base
    ensures q * base + d >= base
    ensures (q * base + d) / base == q && (q * base + d) % base == d
  {
    Arith.DivUnique(q * base + d, base, q, d);
  }

  /** Appending a digit multiplies by the base and adds it. */
  lemma ValueAppend(s: string, c: char, base: nat)
    requires AllDigits(s, base) && DigitVal(c) < base
    ensures AllDigits(s + [c], base)
    ensures Value(s + [c], base) == Value(s, base) * base + DigitVal(c)
  {
    assert (s + [c])[..|s|] == s;
  }

  /** Appending a digit never lowers the value. */
  lemma {:induction false} ValueMonotone(s: string, c: char, base: nat)
    requires 1 <= base && AllDigits(s, base) && DigitVal(c) < base
    ensures Value(s, base) <= Value(s + [c], base)
  {
    ValueAppend(s, c, base);
    var v := Value(s, base);
    Grow(v, base, DigitVal(c));
  }

  /** A prefix of a numeral is a numeral of no greater value. */
  lemma {:induction false} ValuePrefix(s: string, j: nat, base: nat)
    requires 1 <= base && AllDigits(s, base) && j <= |s|
    ensures AllDigits(s[..j], base)
    ensures Value(s[..j], base) <= Value(s, base)
    decreases |s| - j
  {
    if j < |s| {
      var p := s[..|s| - 1];
      assert p[..j] == s[..j];
      ValuePrefix(p, j, base);
      ValueMonotone(p, s[|s| - 1], base);
      assert p + [s[|s| - 1]] == s;
    } else {
      assert s[..j] == s;
    }
  }

  /** A leading zero does not change the value. */
  lemma {:induction false} LeadingZero(s: string, base: nat)
    requires 2 <= base && AllDigits(s, base)
    ensures AllDigits("0" + s, base)
    ensures Value("0" + s, base) == Value(s, base)
    decreases |s|
  {
    if |s| > 0 {
      var p := s[..|s| - 1];
      LeadingZero(p, base);
      assert ("0" + s)[..|s|] == "0" + p;
    } else {
      assert "0" + s == "0";
    }
  }

  /** A signed integer in decimal, as `%d` and Rust's `{}` print it: a `-` only for negatives. */
  function Decimal(n: int): string
  {
    if n < 0 then "-" + Digits(-n, 10) else Digits(n, 10)
  }

  function Power(base: nat, k: nat): nat
  {
    if k == 0 then 1 else base * Power(base, k - 1)
  }

  /** A number below `base^k` has at most `k` digits. */
  lemma {:induction false} DigitsLength(m: nat, base: nat, k: nat)
    requires 2 <= base <= 16 && 1 <= k && m < Power(base, k)
    ensures |Digits(m, base)| <= k
    decreases k
  {
    if m >= base {
      DivMod(m, base);
      var p := Power(base, k - 1);
      DivBelow(m, base, p);
      DigitsLength(m / base, base, k - 1);
    }
  }

  lemma DivBelow(m: nat, base: nat, p: nat)
    requires 0 < base && m < base * p
    ensures m / base < p
  {
  }

  /** A 32-bit `int` prints in at most 11 characters, its sign included. */
  lemma DecimalShort(n: int)
    requires -0x8000_0000 <= n < 0x8000_0000
    ensures 0 < |Decimal(n)| <= 11
    ensures forall k | 0 <= k < |Decimal(n)| :: '0' <= Decimal(n)[k] <= '9' || (k == 0 && Decimal(n)[k] == '-')
  {
    assert Power(10, 10) == 10_000_000_000;
    var m: nat := if n < 0 then -n else n;
    DigitsLength(m, 10, 10);
    var d := Digits(m, 10);
    assert forall k | 0 <= k < |d| :: '0' <= d[k] <= '9' by {
      forall k | 0 <= k < |d| ensures '0' <= d[k] <= '9' {
        assert DigitVal(d[k]) < 10;
      }
    }
  }
}

=== FILE: page_table.dfy ===
/**
  The Sv39 page-table manager of kernel/src/sv39.rs.  Table pages come from a
  fixed pool of 32 pages of 512 entries; a table is named by its pool slot, and
  a pointer entry holds the physical address `base + slot * 4096` of its slot.
  A walk that meets a valid entry whose address lies outside the pool would
  dereference memory the model does not track, and is reported as `WildPointer`.
*/
module PageTable {
  import opened Wrappers
  import opened Sv39Bits
  import Arith

  const POOL_PAGES: nat := 32
  const ENTRIES: nat := 512

  /** The pool `PT_POOL` at physical address `base` and the bump cursor `PT_CUR`. */
  datatype Arena = Arena(base: nat, pages: seq<seq<nat>>, cur: nat)

  datatype PtError =
    | OutOfPtPages      // the "Out of PT pages" assertion of alloc_pt_page
    | Misaligned        // the alignment assertion of map_2m
    | WildPointer(addr: nat)

  /** What the hardware resolves an address to: the physical address and the leaf's flags. */
  datatype Leaf = Leaf(pa: nat, flags: Flags)

  ghost predicate Shape(a: Arena)
  {
    && a.base % SIZE_4K == 0
    && a.base + POOL_PAGES * SIZE_4K <= PA_LIMIT
    && |a.pages| == POOL_PAGES
    && (forall s | 0 <= s < POOL_PAGES :: |a.pages[s]| == ENTRIES)
    && a.cur <= POOL_PAGES
  }

  function SlotAddr(a: Arena, s: nat): nat
  {
    a.base + s * SIZE_4K
  }

  predicate InPool(a: Arena, addr: nat)
  {
    a.base <= addr < a.base + POOL_PAGES * SIZE_4K
  }

  /** A valid entry whose address is one of the pool's pages is followed as a table pointer. */
  predicate IsPtr(a: Arena, e: nat)
  {
    IsValid(e) && InPool(a, PteTarget(e))
  }

  function Child(a: Arena, e: nat): (s: nat)
    requires IsPtr(a, e)
    ensures s < POOL_PAGES
  {
    (PteTarget(e) - a.base) / SIZE_4K
  }

  /** The entry `alloc_pt_page` + the walk write for a freshly allocated slot. */
  function PointerTo(a: Arena, s: nat): nat
  {
    MakePte(SlotAddr(a, s), PTE_V)
  }

  lemma PointerToDecodes(a: Arena, s: nat)
    requires Shape(a) && s < POOL_PAGES
    ensures IsPtr(a, PointerTo(a, s)) && !IsLeaf(PointerTo(a, s))
    ensures Child(a, PointerTo(a, s)) == s
  {
    PteRoundTrip(SlotAddr(a, s), PTE_V);
    assert SlotAddr(a, s) % SIZE_4K == 0;
    Arith.DivUnique(s * SIZE_4K, SIZE_4K, s, 0);
  }

  function Zeroed(): (t: seq<nat>)
    ensures |t| == ENTRIES && forall j | 0 <= j < ENTRIES :: t[j] == 0
  {
    seq(ENTRIES, _ => 0)
  }

  lemma ZeroNotValid()
    ensures !IsValid(0)
  {
  }

  /**
    `alloc_pt_page`: hands out the slot under the cursor, zeroed, and advances the
    cursor by one; once all 32 slots are used it fails.
  */
  function AllocPtPage(a: Arena): (r: Result<(Arena, nat), PtError>)
    requires Shape(a)
    ensures r.Err? <==> a.cur == POOL_PAGES
    ensures r.Err? ==> r.error == OutOfPtPages
    ensures r.Ok? ==>
      var (a', s) := r.value;
      && s == a.cur && a'.cur == a.cur + 1 && a'.base == a.base && Shape(a')
      && (forall j | 0 <= j < ENTRIES :: a'.pages[s][j] == 0)
      && (forall t | 0 <= t < POOL_PAGES && t != s :: a'.pages[t] == a.pages[t])
  {
    if a.cur >= POOL_PAGES then Err(OutOfPtPages)
    else Ok((a.(pages := a.pages[a.cur := Zeroed()], cur := a.cur + 1), a.cur))
  }

  function WriteEntry(a: Arena, t: nat, j: nat, e: nat): (a': Arena)
    requires Shape(a) && t < POOL_PAGES && j < ENTRIES
    ensures Shape(a') && a'.base == a.base && a'.cur == a.cur
  {
    var row: seq<nat> := a.pages[t][j := e];
    a.(pages := a.pages[t := row])
  }

  /**
    One level of the walk in `map_4k` / `map_2m`: entry `j` of table `t` is
    followed if valid; otherwise a fresh table is allocated and a pointer to it
    (flags V only) is written into the entry.
  */
  function Step(a: Arena, t: nat, j: nat): (r: Result<(Arena, nat), PtError>)
    requires Shape(a) && t < POOL_PAGES && j < ENTRIES
    ensures r.Ok? ==> Shape(r.value.0) && r.value.0.base == a.base && r.value.1 < POOL_PAGES
    ensures r.Ok? ==> a.cur <= r.value.0.cur <= a.cur + 1
    ensures r.Ok? && IsValid(a.pages[t][j]) ==> r.value.0 == a
    ensures r.Err? ==> (r.error == OutOfPtPages) == !IsValid(a.pages[t][j])
    ensures !IsValid(a.pages[t][j]) ==> (r.Err? <==> a.cur == POOL_PAGES)
    ensures r.Err? && r.error != OutOfPtPages ==>
      r.error == WildPointer(PteTarget(a.pages[t][j])) && !InPool(a, PteTarget(a.pages[t][j]))
  {
    var e := a.pages[t][j];
    if !IsValid(e) then
      var p :- AllocPtPage(a);
      Ok((WriteEntry(p.0, t, j, PointerTo(p.0, p.1)), p.1))
    else if InPool(a, PteTarget(e)) then
      Ok((a, Child(a, e)))
    else
      Err(WildPointer(PteTarget(e)))
  }

  /** `map_4k`: walk or create the level-2 and level-1 tables, then write the leaf at level 0. */
  function Map4k(a: Arena, root: nat, va: usize, pa: usize, flags: Flags): (r: Result<Arena, PtError>)
    requires Shape(a) && root < POOL_PAGES
    ensures r.Ok? ==> Shape(r.value) && r.value.base == a.base
    ensures r.Ok? ==> a.cur <= r.value.cur <= a.cur + 2
  {
    var s2 :- Step(a, root, Vpn(va, 2));
    var s1 :- Step(s2.0, s2.1, Vpn(va, 1));
    Ok(WriteEntry(s1.0, s1.1, Vpn(va, 0), MakePte(pa, flags)))
  }

  /** `map_2m`: both addresses must be 2 MiB aligned; the leaf is written at level 1. */
  function Map2m(a: Arena, root: nat, va: usize, pa: usize, flags: Flags): (r: Result<Arena, PtError>)
    requires Shape(a) && root < POOL_PAGES
    ensures (va % SIZE_2M != 0 || pa % SIZE_2M != 0) <==> r == Err(Misaligned)
    ensures r.Err? && r.error != Misaligned ==> r.error == OutOfPtPages || r.error.WildPointer?
    ensures r.Ok? ==> Shape(r.value) && r.value.base == a.base
    ensures r.Ok? ==> a.cur <= r.value.cur <= a.cur + 1
  {
    if va % SIZE_2M != 0 || pa % SIZE_2M != 0 then Err(Misaligned)
    else
      var s2 :- Step(a, root, Vpn(va, 2));
      Ok(WriteEntry(s2.0, s2.1, Vpn(va, 1), MakePte(pa, flags)))
  }

  // ----- The walk as the hardware sees it -----

  /** The table that entry `j` of table `t` leads to, when it is a pool pointer. */
  function Follow(a: Arena, t: nat, j: nat): (r: Option<nat>)
    requires Shape(a) && t < POOL_PAGES && j < ENTRIES
    ensures r.Some? ==> r.value < POOL_PAGES
  {
    var e := a.pages[t][j];
    if IsPtr(a, e) then Some(Child(a, e)) else None
  }

  /** The table reached at `level` when walking `va` from `root` through pool pointers. */
  function TableAt(a: Arena, root: nat, va: nat, level: nat): (r: Option<nat>)
    requires Shape(a) && root < POOL_PAGES && level <= 2
    ensures r.Some? ==> r.value < POOL_PAGES
  {
    if level == 2 then Some(root)
    else
      var t1 := Follow(a, root, Vpn(va, 2));
      if level == 1 || t1.None? then t1 else Follow(a, t1.value, Vpn(va, 1))
  }

  /** The entry the walk of `va` reads at `level`, if it gets that far. */
  function EntryAt(a: Arena, root: nat, va: nat, level: nat): Option<nat>
    requires Shape(a) && root < POOL_PAGES && level <= 2
  {
    var t := TableAt(a, root, va, level);
    if t.None? then None else Some(a.pages[t.value][Vpn(va, level)])
  }

  function PageSize(level: nat): nat
    requires level <= 2
  {
    if level == 0 then SIZE_4K else if level == 1 then SIZE_2M else SIZE_1G
  }

  /** A leaf at `level` maps a page of that level's size; a misaligned superpage faults. */
  function LeafOf(e: nat, va: nat, level: nat): Option<Leaf>
    requires level <= 2
  {
    if PteTarget(e) % PageSize(level) != 0 then None
    else Some(Leaf(PteTarget(e) + va % PageSize(level), PteFlags(e)))
  }

  /** What the entry read at `level` makes of `va`, given what the next level would. */
  function Resolve(e: Option<nat>, va: nat, level: nat, below: Option<Leaf>): Option<Leaf>
    requires level <= 2
  {
    if e.None? || !IsValid(e.value) then None
    else if IsLeaf(e.value) then LeafOf(e.value, va, level)
    else below
  }

  /**
    Sv39 translation of `va` under the tree rooted at slot `root`: invalid entries
    fault, a leaf at any level ends the walk, and a non-leaf entry is followed when
    it points into the pool.
  */
  function Translate(a: Arena, root: nat, va: nat): Option<Leaf>
    requires Shape(a) && root < POOL_PAGES
  {
    Resolve(EntryAt(a, root, va, 2), va, 2,
      Resolve(EntryAt(a, root, va, 1), va, 1,
        Resolve(EntryAt(a, root, va, 0), va, 0, None)))
  }

  /** Entry `j` of table `t` is read by the walk of `va`. */
  ghost predicate OnPath(a: Arena, root: nat, va: nat, t: nat, j: nat)
    requires Shape(a) && root < POOL_PAGES
  {
    || (t == root && Vpn(va, 2) == j)
    || (TableAt(a, root, va, 1) == Some(t) && Vpn(va, 1) == j)
    || (TableAt(a, root, va, 0) == Some(t) && Vpn(va, 0) == j)
  }

  // ----- Well-formed trees -----

  /** Entry `j` of allocated table `s`, if a pool pointer, is a non-leaf to an allocated non-root table. */
  ghost predicate PtrOk(a: Arena, root: nat, s: nat, j: nat)
    requires Shape(a) && s < POOL_PAGES && j < ENTRIES
  {
    IsPtr(a, a.pages[s][j]) ==>
      && !IsLeaf(a.pages[s][j])
      && Child(a, a.pages[s][j]) < a.cur
      && Child(a, a.pages[s][j]) != root
  }

  /** Two pool pointers to the same table are the same entry. */
  ghost predicate Distinct(a: Arena, s1: nat, j1: nat, s2: nat, j2: nat)
    requires Shape(a) && s1 < POOL_PAGES && j1 < ENTRIES && s2 < POOL_PAGES && j2 < ENTRIES
  {
    (IsPtr(a, a.pages[s1][j1]) && IsPtr(a, a.pages[s2][j2])
      && Child(a, a.pages[s1][j1]) == Child(a, a.pages[s2][j2]))
    ==> s1 == s2 && j1 == j2
  }

  /**
    The pool holds a tree rooted at `root`: every pointer in an allocated table is a
    non-leaf that points to another allocated table other than the root, and no
    table is pointed to twice.
  */
  ghost predicate Wf(a: Arena, root: nat)
  {
    && Shape(a) && root < a.cur
    && (forall s, j | 0 <= s < a.cur && 0 <= j < ENTRIES :: PtrOk(a, root, s, j))
    && (forall s1, j1, s2, j2 |
          0 <= s1 < a.cur && 0 <= j1 < ENTRIES && 0 <= s2 < a.cur && 0 <= j2 < ENTRIES ::
          Distinct(a, s1, j1, s2, j2))
  }

  /** A leaf that is not itself a pool pointer keeps the tree a tree. */
  ghost predicate LeafOk(a: Arena, pa: nat, flags: Flags)
  {
    !IsPtr(a, MakePte(pa, flags))
  }

  /** Flags that make an entry a valid leaf. */
  predicate LeafFlags(f: Flags)
  {
    f & PTE_V != 0 && f & (PTE_R | PTE_W | PTE_X) != 0
  }

  // ----- Frame lemmas -----

  /** Writing an entry the walk of `va` does not read leaves that walk unchanged. */
  lemma WriteFrame(a: Arena, root: nat, va: nat, t: nat, j: nat, e: nat)
    requires Shape(a) && root < POOL_PAGES && t < POOL_PAGES && j < ENTRIES
    requires !OnPath(a, root, va, t, j)
    ensures forall l | 0 <= l <= 2 ::
      && TableAt(WriteEntry(a, t, j, e), root, va, l) == TableAt(a, root, va, l)
      && EntryAt(WriteEntry(a, t, j, e), root, va, l) == EntryAt(a, root, va, l)
    ensures Translate(WriteEntry(a, t, j, e), root, va) == Translate(a, root, va)
  {
    var a' := WriteEntry(a, t, j, e);
    WriteOtherEntry(a, t, j, e, root, Vpn(va, 2));
    assert TableAt(a', root, va, 1) == TableAt(a, root, va, 1);
    if TableAt(a, root, va, 1).Some? {
      var t1 := TableAt(a, root, va, 1).value;
      WriteOtherEntry(a, t, j, e, t1, Vpn(va, 1));
    }
    assert TableAt(a', root, va, 0) == TableAt(a, root, va, 0);
  }

  /** A write to one entry leaves the pointer in every other entry as it was. */
  lemma WriteOtherEntry(a: Arena, t: nat, j: nat, e: nat, u: nat, k: nat)
    requires Shape(a) && t < POOL_PAGES && j < ENTRIES && u < POOL_PAGES && k < ENTRIES
    requires u != t || k != j
    ensures Follow(WriteEntry(a, t, j, e), u, k) == Follow(a, u, k)
  {
    assert WriteEntry(a, t, j, e).pages[u][k] == a.pages[u][k];
  }

  /** In a well-formed pool every table below the root on a walk is allocated and not the root. */
  lemma PathAllocated(a: Arena, root: nat, va: nat, l: nat)
    requires Wf(a, root) && l < 2
    requires TableAt(a, root, va, l).Some?
    ensures TableAt(a, root, va, l).value < a.cur
    ensures TableAt(a, root, va, l).value != root
  {
    assert PtrOk(a, root, root, Vpn(va, 2));
    if l == 0 {
      var t1 := TableAt(a, root, va, 1).value;
      assert PtrOk(a, root, t1, Vpn(va, 1));
    }
  }

  /** Allocating a page changes no walk. */
  lemma AllocFrame(a: Arena, root: nat, va: nat)
    requires Wf(a, root) && AllocPtPage(a).Ok?
    ensures forall l | 0 <= l <= 2 ::
      && TableAt(AllocPtPage(a).value.0, root, va, l) == TableAt(a, root, va, l)
      && EntryAt(AllocPtPage(a).value.0, root, va, l) == EntryAt(a, root, va, l)
    ensures Translate(AllocPtPage(a).value.0, root, va) == Translate(a, root, va)
  {
    var a' := AllocPtPage(a).value.0;
    assert a'.pages[root] == a.pages[root];
    if TableAt(a, root, va, 1).Some? {
      PathAllocated(a, root, va, 1);
      var t1 := TableAt(a, root, va, 1).value;
      assert a'.pages[t1] == a.pages[t1];
    }
    if TableAt(a, root, va, 0).Some? {
      PathAllocated(a, root, va, 0);
      var t0 := TableAt(a, root, va, 0).value;
      assert a'.pages[t0] == a.pages[t0];
    }
    assert TableAt(a', root, va, 1) == TableAt(a, root, va, 1);
    assert TableAt(a', root, va, 0) == TableAt(a, root, va, 0);
  }

  /** Every entry read by the walk of a mapped address is valid. */
  lemma MappedPathValid(a: Arena, root: nat, va: nat, t: nat, j: nat)
    requires Wf(a, root) && Translate(a, root, va).Some?
    requires t < POOL_PAGES && j < ENTRIES && OnPath(a, root, va, t, j)
    ensures IsValid(a.pages[t][j])
  {
    assert PtrOk(a, root, root, Vpn(va, 2));
    if TableAt(a, root, va, 1).Some? {
      var t1 := TableAt(a, root, va, 1).value;
      PathAllocated(a, root, va, 1);
      assert PtrOk(a, root, t1, Vpn(va, 1));
    }
  }

  // ----- Keeping the tree well formed -----

  lemma WfAlloc(a: Arena, root: nat)
    requires Wf(a, root) && AllocPtPage(a).Ok?
    ensures var a' := AllocPtPage(a).value.0;
      && Wf(a', root)
      && forall s, j | 0 <= s < a'.cur && 0 <= j < ENTRIES && IsPtr(a', a'.pages[s][j]) ::
           s < a.cur && Child(a', a'.pages[s][j]) < a.cur
  {
    var a' := AllocPtPage(a).value.0;
    var n := a.cur;
    ZeroNotValid();
    forall s, j | 0 <= s < a'.cur && 0 <= j < ENTRIES
      ensures IsPtr(a', a'.pages[s][j]) ==> s < n && a'.pages[s][j] == a.pages[s][j]
    {
    }
    forall s, j | 0 <= s < a'.cur && 0 <= j < ENTRIES
      ensures PtrOk(a', root, s, j)
      ensures IsPtr(a', a'.pages[s][j]) ==> Child(a', a'.pages[s][j]) < a.cur
    {
      if IsPtr(a', a'.pages[s][j]) {
        assert PtrOk(a, root, s, j);
      }
    }
    forall s1, j1, s2, j2 |
      0 <= s1 < a'.cur && 0 <= j1 < ENTRIES && 0 <= s2 < a'.cur && 0 <= j2 < ENTRIES
      ensures Distinct(a', s1, j1, s2, j2)
    {
      if IsPtr(a', a'.pages[s1][j1]) && IsPtr(a', a'.pages[s2][j2]) {
        assert Distinct(a, s1, j1, s2, j2);
      }
    }
  }

  lemma WfLink(a: Arena, root: nat, t: nat, j: nat, n: nat)
    requires Wf(a, root) && t < a.cur && j < ENTRIES && n < a.cur && n != root
    requires !IsValid(a.pages[t][j])
    requires forall s, k | 0 <= s < a.cur && 0 <= k < ENTRIES && IsPtr(a, a.pages[s][k]) ::
               Child(a, a.pages[s][k]) != n
    ensures var a' := WriteEntry(a, t, j, PointerTo(a, n));
      && Wf(a', root)
      && IsPtr(a', a'.pages[t][j]) && Child(a', a'.pages[t][j]) == n
  {
    var a' := WriteEntry(a, t, j, PointerTo(a, n));
    PointerToDecodes(a, n);
    assert a'.pages[t][j] == PointerTo(a, n);
    forall s, k | 0 <= s < a'.cur && 0 <= k < ENTRIES
      ensures PtrOk(a', root, s, k)
    {
      if s != t || k != j {
        assert a'.pages[s][k] == a.pages[s][k];
        assert PtrOk(a, root, s, k);
      }
    }
    forall s1, k1, s2, k2 |
      0 <= s1 < a'.cur && 0 <= k1 < ENTRIES && 0 <= s2 < a'.cur && 0 <= k2 < ENTRIES
      ensures Distinct(a', s1, k1, s2, k2)
    {
      WfLinkDistinct(a, root, t, j, n, s1, k1, s2, k2);
    }
  }

  lemma WfLinkDistinct(a: Arena, root: nat, t: nat, j: nat, n: nat, s1: nat, k1: nat, s2: nat, k2: nat)
    requires Wf(a, root) && t < a.cur && j < ENTRIES && n < a.cur
    requires forall s, k | 0 <= s < a.cur && 0 <= k < ENTRIES && IsPtr(a, a.pages[s][k]) ::
               Child(a, a.pages[s][k]) != n
    requires s1 < a.cur && k1 < ENTRIES && s2 < a.cur && k2 < ENTRIES
    ensures Distinct(WriteEntry(a, t, j, PointerTo(a, n)), s1, k1, s2, k2)
  {
    var a' := WriteEntry(a, t, j, PointerTo(a, n));
    PointerToDecodes(a, n);
    var new1 := s1 == t && k1 == j;
    var new2 := s2 == t && k2 == j;
    if !new1 && !new2 {
      assert a'.pages[s1][k1] == a.pages[s1][k1] && a'.pages[s2][k2] == a.pages[s2][k2];
      assert Distinct(a, s1, k1, s2, k2);
    } else if !new1 {
      assert a'.pages[s1][k1] == a.pages[s1][k1];
      assert a'.pages[s2][k2] == PointerTo(a, n);
    } else if !new2 {
      assert a'.pages[s2][k2] == a.pages[s2][k2];
      assert a'.pages[s1][k1] == PointerTo(a, n);
    }
  }

  lemma WfLeaf(a: Arena, root: nat, t: nat, j: nat, pa: nat, flags: Flags)
    requires Wf(a, root) && t < POOL_PAGES && j < ENTRIES && LeafOk(a, pa, flags)
    ensures Wf(WriteEntry(a, t, j, MakePte(pa, flags)), root)
  {
    var a' := WriteEntry(a, t, j, MakePte(pa, flags));
    forall s, k | 0 <= s < a'.cur && 0 <= k < ENTRIES
      ensures IsPtr(a', a'.pages[s][k]) ==> a'.pages[s][k] == a.pages[s][k]
      ensures PtrOk(a', root, s, k)
    {
      assert PtrOk(a, root, s, k);
    }
    forall s1, k1, s2, k2 |
      0 <= s1 < a'.cur && 0 <= k1 < ENTRIES && 0 <= s2 < a'.cur && 0 <= k2 < ENTRIES
      ensures Distinct(a', s1, k1, s2, k2)
    {
      assert Distinct(a, s1, k1, s2, k2);
    }
  }

  /** One walk step keeps the tree well formed and leaves a pointer to the returned table. */
  lemma StepFacts(a: Arena, root: nat, t: nat, j: nat)
    requires Wf(a, root) && t < a.cur && j < ENTRIES && Step(a, t, j).Ok?
    ensures var (a', s) := Step(a, t, j).value;
      && Wf(a', root)
      && Follow(a', t, j) == Some(s)
      && s < a'.cur && s != root
      && (forall u | 0 <= u < a.cur && u != t :: a'.pages[u] == a.pages[u])
  {
    var e := a.pages[t][j];
    if !IsValid(e) {
      var a1 := AllocPtPage(a).value.0;
      WfAlloc(a, root);
      WfLink(a1, root, t, j, a.cur);
    } else {
      assert PtrOk(a, root, t, j);
    }
  }

  /** A walk step changes the translation of no address that was already mapped. */
  lemma StepPreservesMapped(a: Arena, root: nat, t: nat, j: nat, v: nat)
    requires Wf(a, root) && t < a.cur && j < ENTRIES && Step(a, t, j).Ok?
    requires Translate(a, root, v).Some?
    ensures Translate(Step(a, t, j).value.0, root, v) == Translate(a, root, v)
  {
    if !IsValid(a.pages[t][j]) {
      var a1 := AllocPtPage(a).value.0;
      AllocFrame(a, root, v);
      WfAlloc(a, root);
      assert a1.pages[t][j] == a.pages[t][j];
      if OnPath(a1, root, v, t, j) {
        MappedPathValid(a1, root, v, t, j);
      }
      WriteFrame(a1, root, v, t, j, PointerTo(a1, a.cur));
    }
  }

  /** The leaf entry of one 4 KiB page is read by the walk of no other page. */
  lemma PathsDisjoint0(a: Arena, root: nat, va: nat, v: nat)
    requires Wf(a, root) && TableAt(a, root, va, 0).Some?
    requires VpnIndices(v) != VpnIndices(va)
    ensures !OnPath(a, root, v, TableAt(a, root, va, 0).value, Vpn(va, 0))
  {
    var t0 := TableAt(a, root, va, 0).value;
    var t1 := TableAt(a, root, va, 1).value;
    PathAllocated(a, root, va, 0);
    PathAllocated(a, root, va, 1);
    assert Distinct(a, root, Vpn(v, 2), t1, Vpn(va, 1));
    if TableAt(a, root, v, 1).Some? {
      var u1 := TableAt(a, root, v, 1).value;
      PathAllocated(a, root, v, 1);
      assert Distinct(a, u1, Vpn(v, 1), t1, Vpn(va, 1));
      assert Distinct(a, root, Vpn(v, 2), root, Vpn(va, 2));
    }
  }

  /** The level-1 entry of one 2 MiB region is read by the walk of no address outside it. */
  lemma PathsDisjoint1(a: Arena, root: nat, va: nat, v: nat)
    requires Wf(a, root) && TableAt(a, root, va, 1).Some?
    requires Vpn(v, 2) != Vpn(va, 2) || Vpn(v, 1) != Vpn(va, 1)
    ensures !OnPath(a, root, v, TableAt(a, root, va, 1).value, Vpn(va, 1))
  {
    var t1 := TableAt(a, root, va, 1).value;
    PathAllocated(a, root, va, 1);
    assert Distinct(a, root, Vpn(v, 2), root, Vpn(va, 2));
    if TableAt(a, root, v, 1).Some? {
      var u1 := TableAt(a, root, v, 1).value;
      PathAllocated(a, root, v, 1);
      assert Distinct(a, u1, Vpn(v, 1), root, Vpn(va, 2));
    }
  }

  // ----- map_4k -----

  /** Walks of addresses with the same VPN digits read the same entries. */
  lemma SameVpnSameWalk(a: Arena, root: nat, va: nat, v: nat)
    requires Shape(a) && root < POOL_PAGES
    requires VpnIndices(v) == VpnIndices(va)
    ensures forall l | 0 <= l <= 2 :: EntryAt(a, root, v, l) == EntryAt(a, root, va, l)
  {
    assert Vpn(v, 0) == Vpn(va, 0) && Vpn(v, 1) == Vpn(va, 1) && Vpn(v, 2) == Vpn(va, 2);
  }

  /** The two walk steps of `map_4k`, before the leaf write. */
  lemma Map4kSteps(a: Arena, root: nat, va: usize, pa: usize, flags: Flags)
    returns (a1: Arena, t1: nat, t0: nat)
    requires Wf(a, root) && Map4k(a, root, va, pa, flags).Ok?
    ensures Wf(a1, root) && a1.base == a.base
    ensures t1 != root && t0 != root && t1 < a1.cur && t0 < a1.cur
    ensures Map4k(a, root, va, pa, flags).value == WriteEntry(a1, t0, Vpn(va, 0), MakePte(pa, flags))
    ensures Follow(a1, root, Vpn(va, 2)) == Some(t1) && Follow(a1, t1, Vpn(va, 1)) == Some(t0)
    ensures Step(a, root, Vpn(va, 2)).Ok?
    ensures Step(Step(a, root, Vpn(va, 2)).value.0, t1, Vpn(va, 1)) == Ok((a1, t0))
    ensures a1.pages[root] == Step(a, root, Vpn(va, 2)).value.0.pages[root]
  {
    var i2, i1 := Vpn(va, 2), Vpn(va, 1);
    var r2 := Step(a, root, i2).value;
    var a2 := r2.0;
    t1 := r2.1;
    StepFacts(a, root, root, i2);
    var r1 := Step(a2, t1, i1).value;
    a1 := r1.0;
    t0 := r1.1;
    StepFacts(a2, root, t1, i1);
    assert a1.pages[root] == a2.pages[root];
    FollowSamePage(a2, a1, root, i2);
  }

  /** The intermediate state of `map_4k` just before the leaf write. */
  lemma Map4kWalk(a: Arena, root: nat, va: usize, pa: usize, flags: Flags)
    returns (a1: Arena, t1: nat, t0: nat)
    requires Wf(a, root) && Map4k(a, root, va, pa, flags).Ok?
    ensures Wf(a1, root) && a1.base == a.base
    ensures t1 != root && t0 != root && t0 != t1 && t1 < a1.cur && t0 < a1.cur
    ensures Map4k(a, root, va, pa, flags).value == WriteEntry(a1, t0, Vpn(va, 0), MakePte(pa, flags))
    ensures Follow(a1, root, Vpn(va, 2)) == Some(t1) && Follow(a1, t1, Vpn(va, 1)) == Some(t0)
    ensures TableAt(a1, root, va, 1) == Some(t1) && TableAt(a1, root, va, 0) == Some(t0)
    ensures Step(a, root, Vpn(va, 2)).Ok?
    ensures Step(Step(a, root, Vpn(va, 2)).value.0, t1, Vpn(va, 1)) == Ok((a1, t0))
    ensures a1.pages[root] == Step(a, root, Vpn(va, 2)).value.0.pages[root]
  {
    a1, t1, t0 := Map4kSteps(a, root, va, pa, flags);
    assert Distinct(a1, root, Vpn(va, 2), t1, Vpn(va, 1));
    PathAllocated(a1, root, va, 0);
  }

  /**
    `map_4k` installs `(ppn(pa) << 10) | flags` as the level-0 entry on the walk of
    `va`, and a level-2 entry it had to create carries V alone.
  */
  lemma Map4kInstallsLeaf(a: Arena, root: nat, va: usize, pa: usize, flags: Flags)
    requires Wf(a, root) && Map4k(a, root, va, pa, flags).Ok?
    ensures EntryAt(Map4k(a, root, va, pa, flags).value, root, va, 0) == Some(MakePte(pa, flags))
    ensures var e2 := Map4k(a, root, va, pa, flags).value.pages[root][Vpn(va, 2)];
      !IsValid(a.pages[root][Vpn(va, 2)]) ==> PteFlags(e2) == PTE_V
  {
    Map4kPath(a, root, va, pa, flags);
    if !IsValid(a.pages[root][Vpn(va, 2)]) {
      PteFlagsOfMake(SlotAddr(AllocPtPage(a).value.0, a.cur), PTE_V);
    }
  }

  /** `map_4k` keeps the tree well formed when the new leaf is not itself a pool pointer. */
  lemma Map4kKeepsWf(a: Arena, root: nat, va: usize, pa: usize, flags: Flags)
    requires Wf(a, root) && Map4k(a, root, va, pa, flags).Ok? && LeafOk(a, pa, flags)
    ensures Wf(Map4k(a, root, va, pa, flags).value, root)
  {
    var a1, t1, t0 := Map4kWalk(a, root, va, pa, flags);
    WfLeaf(a1, root, t0, Vpn(va, 0), pa, flags);
  }

  /** After `map_4k` the walk of `va` passes two table pointers and ends at the new leaf. */
  lemma Map4kPath(a: Arena, root: nat, va: usize, pa: usize, flags: Flags)
    requires Wf(a, root) && Map4k(a, root, va, pa, flags).Ok?
    ensures var a' := Map4k(a, root, va, pa, flags).value;
      && EntryAt(a', root, va, 2).Some? && IsValid(EntryAt(a', root, va, 2).value) && !IsLeaf(EntryAt(a', root, va, 2).value)
      && EntryAt(a', root, va, 1).Some? && IsValid(EntryAt(a', root, va, 1).value) && !IsLeaf(EntryAt(a', root, va, 1).value)
      && EntryAt(a', root, va, 0) == Some(MakePte(pa, flags))
  {
    var a1, t1, t0 := Map4kWalk(a, root, va, pa, flags);
    var a' := Map4k(a, root, va, pa, flags).value;
    assert a'.pages[root] == a1.pages[root];
    assert a'.pages[t1] == a1.pages[t1];
    assert PtrOk(a1, root, root, Vpn(va, 2));
    assert PtrOk(a1, root, t1, Vpn(va, 1));
    FollowSamePage(a1, a', root, Vpn(va, 2));
    FollowSamePage(a1, a', t1, Vpn(va, 1));
  }

  /** Following an entry depends only on the table holding it and on where the pool lies. */
  lemma FollowSamePage(a: Arena, b: Arena, t: nat, j: nat)
    requires Shape(a) && Shape(b) && t < POOL_PAGES && j < ENTRIES
    requires a.base == b.base && a.pages[t] == b.pages[t]
    ensures Follow(a, t, j) == Follow(b, t, j)
  {
  }

  /**
    After `map_4k`, every address in the page of `va` translates into the page of
    `pa` with the given flags when they describe a valid leaf, and faults otherwise.
  */
  lemma Map4kTranslate(a: Arena, root: nat, va: usize, pa: usize, flags: Flags, v: nat)
    requires Wf(a, root) && Map4k(a, root, va, pa, flags).Ok?
    requires pa < PA_LIMIT && VpnIndices(v) == VpnIndices(va)
    ensures Translate(Map4k(a, root, va, pa, flags).value, root, v)
         == if LeafFlags(flags) then Some(Leaf(pa - pa % SIZE_4K + v % SIZE_4K, flags)) else None
  {
    var a' := Map4k(a, root, va, pa, flags).value;
    Map4kPath(a, root, va, pa, flags);
    PteRoundTrip(pa, flags);
    SameVpnSameWalk(a', root, va, v);
    assert Translate(a', root, v) == Resolve(Some(MakePte(pa, flags)), v, 0, None);
  }

  /** `map_4k` leaves the translation of every other mapped page as it was. */
  lemma Map4kFrame(a: Arena, root: nat, va: usize, pa: usize, flags: Flags, v: nat)
    requires Wf(a, root) && Map4k(a, root, va, pa, flags).Ok?
    requires VpnIndices(v) != VpnIndices(va) && Translate(a, root, v).Some?
    ensures Translate(Map4k(a, root, va, pa, flags).value, root, v) == Translate(a, root, v)
  {
    var i2, i1 := Vpn(va, 2), Vpn(va, 1);
    var r2 := Step(a, root, i2).value;
    StepFacts(a, root, root, i2);
    StepPreservesMapped(a, root, root, i2, v);
    var r1 := Step(r2.0, r2.1, i1).value;
    StepFacts(r2.0, root, r2.1, i1);
    StepPreservesMapped(r2.0, root, r2.1, i1, v);
    var a1, t1, t0 := Map4kWalk(a, root, va, pa, flags);
    assert a1 == r1.0 && t0 == r1.1;
    PathsDisjoint0(a1, root, va, v);
    WriteFrame(a1, root, v, t0, Vpn(va, 0), MakePte(pa, flags));
  }

  /** A walk whose level-2 and level-1 entries are already valid allocates nothing. */
  lemma Map4kReusesTables(a: Arena, root: nat, va: usize, pa: usize, flags: Flags)
    requires Wf(a, root) && Map4k(a, root, va, pa, flags).Ok?
    requires IsValid(a.pages[root][Vpn(va, 2)])
    requires TableAt(a, root, va, 1).Some? && IsValid(EntryAt(a, root, va, 1).value)
    ensures Map4k(a, root, va, pa, flags).value.cur == a.cur
  {
  }

  /** Rewriting an entry with the value it holds changes nothing. */
  lemma WriteSame(a: Arena, t: nat, j: nat)
    requires Shape(a) && t < POOL_PAGES && j < ENTRIES
    ensures WriteEntry(a, t, j, a.pages[t][j]) == a
  {
    assert a.pages[t][j := a.pages[t][j]] == a.pages[t];
    assert a.pages[t := a.pages[t]] == a.pages;
  }

  /** Over a walk whose tables already exist, `map_4k` is a single leaf write. */
  lemma Map4kOverExisting(a: Arena, root: nat, va: usize, pa: usize, flags: Flags, t1: nat, t0: nat)
    requires Shape(a) && root < POOL_PAGES
    requires Follow(a, root, Vpn(va, 2)) == Some(t1) && Follow(a, t1, Vpn(va, 1)) == Some(t0)
    ensures Map4k(a, root, va, pa, flags) == Ok(WriteEntry(a, t0, Vpn(va, 0), MakePte(pa, flags)))
  {
    assert Step(a, root, Vpn(va, 2)) == Ok((a, t1));
    assert Step(a, t1, Vpn(va, 1)) == Ok((a, t0));
  }

  /** Repeating `map_4k` with the same arguments allocates nothing and changes nothing. */
  lemma Map4kIdempotent(a: Arena, root: nat, va: usize, pa: usize, flags: Flags)
    requires Wf(a, root) && Map4k(a, root, va, pa, flags).Ok?
    ensures Map4k(Map4k(a, root, va, pa, flags).value, root, va, pa, flags)
         == Map4k(a, root, va, pa, flags)
  {
    var a1, t1, t0 := Map4kWalk(a, root, va, pa, flags);
    var e := MakePte(pa, flags);
    WriteOtherEntry(a1, t0, Vpn(va, 0), e, root, Vpn(va, 2));
    WriteOtherEntry(a1, t0, Vpn(va, 0), e, t1, Vpn(va, 1));
    var a' := WriteEntry(a1, t0, Vpn(va, 0), e);
    Map4kOverExisting(a', root, va, pa, flags, t1, t0);
    WriteRead(a1, t0, Vpn(va, 0), e);
    WriteSame(a', t0, Vpn(va, 0));
  }

  /** The written entry reads back. */
  lemma WriteRead(a: Arena, t: nat, j: nat, e: nat)
    requires Shape(a) && t < POOL_PAGES && j < ENTRIES
    ensures WriteEntry(a, t, j, e).pages[t][j] == e
  {
  }

  // ----- map_2m -----

  /** The intermediate state of `map_2m` just before the leaf write. */
  lemma Map2mWalk(a: Arena, root: nat, va: usize, pa: usize, flags: Flags)
    returns (a1: Arena, t1: nat)
    requires Wf(a, root) && Map2m(a, root, va, pa, flags).Ok?
    ensures va % SIZE_2M == 0 && pa % SIZE_2M == 0
    ensures Wf(a1, root) && a1.base == a.base && t1 != root && t1 < a1.cur
    ensures Map2m(a, root, va, pa, flags).value == WriteEntry(a1, t1, Vpn(va, 1), MakePte(pa, flags))
    ensures Step(a, root, Vpn(va, 2)) == Ok((a1, t1))
    ensures Follow(a1, root, Vpn(va, 2)) == Some(t1) && TableAt(a1, root, va, 1) == Some(t1)
  {
    var r2 := Step(a, root, Vpn(va, 2)).value;
    a1, t1 := r2.0, r2.1;
    StepFacts(a, root, root, Vpn(va, 2));
  }

  /** `map_2m` installs a superpage leaf as the level-1 entry on the walk of `va`. */
  lemma Map2mInstallsLeaf(a: Arena, root: nat, va: usize, pa: usize, flags: Flags)
    requires Wf(a, root) && Map2m(a, root, va, pa, flags).Ok?
    ensures EntryAt(Map2m(a, root, va, pa, flags).value, root, va, 1) == Some(MakePte(pa, flags))
  {
    var a1, t1 := Map2mWalk(a, root, va, pa, flags);
    var a' := Map2m(a, root, va, pa, flags).value;
    assert a'.pages[root] == a1.pages[root];
    assert TableAt(a', root, va, 1) == Some(t1);
  }

  /** `map_2m` keeps the tree well formed when the new leaf is not itself a pool pointer. */
  lemma Map2mKeepsWf(a: Arena, root: nat, va: usize, pa: usize, flags: Flags)
    requires Wf(a, root) && Map2m(a, root, va, pa, flags).Ok? && LeafOk(a, pa, flags)
    ensures Wf(Map2m(a, root, va, pa, flags).value, root)
  {
    var a1, t1 := Map2mWalk(a, root, va, pa, flags);
    WfLeaf(a1, root, t1, Vpn(va, 1), pa, flags);
  }

  /**
    After `map_2m`, every address of the 2 MiB region of `va` translates to the same
    offset in the 2 MiB region at `pa` when the flags make a leaf, and faults when
    they lack V.
  */
  lemma Map2mTranslate(a: Arena, root: nat, va: usize, pa: usize, flags: Flags, v: nat)
    requires Wf(a, root) && Map2m(a, root, va, pa, flags).Ok?
    requires pa < PA_LIMIT && Vpn(v, 2) == Vpn(va, 2) && Vpn(v, 1) == Vpn(va, 1)
    ensures LeafFlags(flags) ==>
      Translate(Map2m(a, root, va, pa, flags).value, root, v) == Some(Leaf(pa + v % SIZE_2M, flags))
    ensures flags & PTE_V == 0 ==> Translate(Map2m(a, root, va, pa, flags).value, root, v) == None
  {
    var a' := Map2m(a, root, va, pa, flags).value;
    var leaf := MakePte(pa, flags);
    Map2mPath(a, root, va, pa, flags, v);
    LevelOneWalk(a', root, v, leaf);
    assert pa % SIZE_2M == 0;
    SuperLeaf(pa, flags, v, Resolve(EntryAt(a', root, v, 0), v, 0, None));
  }

  /** A 2 MiB leaf entry for an aligned `pa` resolves to `pa` plus the offset in the region. */
  lemma SuperLeaf(pa: nat, flags: Flags, v: nat, below: Option<Leaf>)
    requires pa < PA_LIMIT && pa % SIZE_2M == 0
    ensures LeafFlags(flags) ==> Resolve(Some(MakePte(pa, flags)), v, 1, below) == Some(Leaf(pa + v % SIZE_2M, flags))
    ensures flags & PTE_V == 0 ==> Resolve(Some(MakePte(pa, flags)), v, 1, below) == None
  {
    PteRoundTrip(pa, flags);
    Arith.AlignedCoarse(pa, 512, SIZE_4K);
    ResolveLeaf(MakePte(pa, flags), v, 1, below, pa, flags);
  }

  /** An entry for a page base and flags resolves to that page when the flags make a leaf, and faults when they are not valid. */
  lemma ResolveLeaf(e: nat, va: nat, level: nat, below: Option<Leaf>, pa: nat, flags: Flags)
    requires level <= 2 && PteTarget(e) == pa && PteFlags(e) == flags && pa % PageSize(level) == 0
    ensures LeafFlags(flags) ==> Resolve(Some(e), va, level, below) == Some(Leaf(pa + va % PageSize(level), flags))
    ensures flags & PTE_V == 0 ==> Resolve(Some(e), va, level, below) == None
  {
  }

  /** After `map_2m`, the walk of an address in the region passes a table pointer and reaches the new leaf. */
  lemma Map2mPath(a: Arena, root: nat, va: usize, pa: usize, flags: Flags, v: nat)
    requires Wf(a, root) && Map2m(a, root, va, pa, flags).Ok?
    requires Vpn(v, 2) == Vpn(va, 2) && Vpn(v, 1) == Vpn(va, 1)
    ensures var a' := Map2m(a, root, va, pa, flags).value;
      && EntryAt(a', root, v, 2).Some? && IsValid(EntryAt(a', root, v, 2).value) && !IsLeaf(EntryAt(a', root, v, 2).value)
      && EntryAt(a', root, v, 1) == Some(MakePte(pa, flags))
  {
    var a1, t1 := Map2mWalk(a, root, va, pa, flags);
    var a' := Map2m(a, root, va, pa, flags).value;
    assert a'.pages[root] == a1.pages[root];
    assert PtrOk(a1, root, root, Vpn(va, 2));
    var e2 := a1.pages[root][Vpn(va, 2)];
    assert EntryAt(a', root, v, 2) == Some(e2) && IsValid(e2) && !IsLeaf(e2);
    FollowSamePage(a1, a', root, Vpn(va, 2));
    assert TableAt(a', root, v, 1) == Some(t1);
  }

  /** A walk that passes a table pointer at level 2 resolves at level 1. */
  lemma LevelOneWalk(a: Arena, root: nat, v: nat, leaf: nat)
    requires Shape(a) && root < POOL_PAGES
    requires EntryAt(a, root, v, 2).Some? && IsValid(EntryAt(a, root, v, 2).value) && !IsLeaf(EntryAt(a, root, v, 2).value)
    requires EntryAt(a, root, v, 1) == Some(leaf)
    ensures Translate(a, root, v) == Resolve(Some(leaf), v, 1, Resolve(EntryAt(a, root, v, 0), v, 0, None))
  {
  }

  /** `map_2m` leaves the translation of every mapped address outside that region as it was. */
  lemma Map2mFrame(a: Arena, root: nat, va: usize, pa: usize, flags: Flags, v: nat)
    requires Wf(a, root) && Map2m(a, root, va, pa, flags).Ok?
    requires (Vpn(v, 2) != Vpn(va, 2) || Vpn(v, 1) != Vpn(va, 1)) && Translate(a, root, v).Some?
    ensures Translate(Map2m(a, root, va, pa, flags).value, root, v) == Translate(a, root, v)
  {
    StepFacts(a, root, root, Vpn(va, 2));
    StepPreservesMapped(a, root, root, Vpn(va, 2), v);
    var a1, t1 := Map2mWalk(a, root, va, pa, flags);
    PathsDisjoint1(a1, root, va, v);
    WriteFrame(a1, root, v, t1, Vpn(va, 1), MakePte(pa, flags));
  }

  // ----- id_map_region -----

  /** `x & !(4096 - 1)`: the start of the page holding `x`. */
  function PageFloor(x: nat): nat
  {
    x - x % SIZE_4K
  }

  /** `(x + 4095) & !(4096 - 1)`: `x` rounded up to a page boundary. */
  function PageCeil(x: nat): nat
  {
    PageFloor(x + SIZE_4K - 1)
  }

  /** Page rounding of an address, as the loader's masks compute it. */
  lemma PageRounding(x: nat)
    ensures PageFloor(x) % SIZE_4K == 0
    ensures PageFloor(x) <= x < PageFloor(x) + SIZE_4K
    ensures PageCeil(x) % SIZE_4K == 0
    ensures x <= PageCeil(x) < x + SIZE_4K
  {
    Arith.DivUnique(PageFloor(x), SIZE_4K, x / SIZE_4K, 0);
    var y := x + SIZE_4K - 1;
    Arith.DivUnique(PageFloor(y), SIZE_4K, y / SIZE_4K, 0);
  }

  /**
    The flags `id_map_region` gives the page of `v`: the superpage flags when the
    whole 2 MiB region around `v` lies inside `[lo, end)`, the 4 KiB flags otherwise.
  */
  function IdMapFlags(lo: nat, end: nat, v: nat, f2m: Flags, f4k: Flags): Flags
  {
    if RegionInside(lo, end, v) then f2m else f4k
  }

  /** The 2 MiB region around `v` lies wholly inside `[lo, end)`. */
  predicate RegionInside(lo: nat, end: nat, v: nat)
  {
    lo <= v - v % SIZE_2M && v - v % SIZE_2M + SIZE_2M <= end
  }

  /**
    No leaf `id_map_region` writes for `[lo, end)` points into the pool: inside the
    range, pool addresses sit only in regions mapped by superpages and never on a
    2 MiB boundary.
  */
  ghost predicate PoolApart(a: Arena, lo: nat, end: nat)
  {
    forall x: nat | InPool(a, x) && lo <= x < end :: x % SIZE_2M != 0 && RegionInside(lo, end, x)
  }

  /**
    `a` grew from `a0` into a tree that maps every address of `[lo, va)` to itself
    with the flags `id_map_region` chooses, and translates every other address of
    the Sv39 span that `a0` mapped exactly as `a0` did.
  */
  ghost predicate IdMapped(a0: Arena, a: Arena, root: nat, lo: nat, end: nat, va: nat, f2m: Flags, f4k: Flags)
  {
    && Wf(a0, root) && Wf(a, root) && a.base == a0.base
    && (forall v: nat | lo <= v < va :: Translate(a, root, v) == Some(Leaf(v, IdMapFlags(lo, end, v, f2m, f4k))))
    && (forall v: nat | v < SV39_SPAN && (v < lo || end <= v) && Translate(a0, root, v).Some? ::
          Translate(a, root, v) == Translate(a0, root, v))
  }

  /** An identity leaf inside the range never points into the pool, so it is no table pointer. */
  lemma IdLeafOk(a0: Arena, a: Arena, lo: nat, end: nat, va: nat, flags: Flags)
    requires a.base == a0.base && PoolApart(a0, lo, end)
    requires lo <= va < end <= SV39_SPAN && va % SIZE_4K == 0
    requires va % SIZE_2M == 0 || !RegionInside(lo, end, va)
    ensures LeafOk(a, va, flags)
  {
    PteRoundTrip(va, flags);
    assert !InPool(a0, va);
  }

  /** The three parts of the identity-map invariant, given one by one. */
  lemma IdMappedIntro(a0: Arena, a: Arena, root: nat, lo: nat, end: nat, va: nat, f2m: Flags, f4k: Flags)
    requires Wf(a0, root) && Wf(a, root) && a.base == a0.base
    requires forall v: nat | lo <= v < va :: Translate(a, root, v) == Some(Leaf(v, IdMapFlags(lo, end, v, f2m, f4k)))
    requires forall v: nat | v < SV39_SPAN && (v < lo || end <= v) && Translate(a0, root, v).Some? ::
      Translate(a, root, v) == Translate(a0, root, v)
    ensures IdMapped(a0, a, root, lo, end, va, f2m, f4k)
  {
  }

  /** One 4 KiB step of `id_map_region` extends the identity map by one page. */
  lemma IdMap4kStep(a0: Arena, a: Arena, root: nat, lo: nat, end: nat, va: usize, f2m: Flags, f4k: Flags)
    requires IdMapped(a0, a, root, lo, end, va, f2m, f4k)
    requires lo <= va && va + SIZE_4K <= end <= SV39_SPAN && va % SIZE_4K == 0
    requires LeafFlags(f4k) && PoolApart(a0, lo, end) && !RegionInside(lo, end, va)
    requires Map4k(a, root, va, va, f4k).Ok?
    ensures IdMapped(a0, Map4k(a, root, va, va, f4k).value, root, lo, end, va + SIZE_4K, f2m, f4k)
  {
    var a' := Map4k(a, root, va, va, f4k).value;
    IdLeafOk(a0, a, lo, end, va, f4k);
    Map4kKeepsWf(a, root, va, va, f4k);
    IdMap4kCoversAll(a0, a, root, lo, end, va, f2m, f4k);
    IdMap4kKeeps(a0, a, root, lo, end, va, f2m, f4k);
    IdMappedIntro(a0, a', root, lo, end, va + SIZE_4K, f2m, f4k);
  }

  /** After a 4 KiB step, every address up to the end of the new page maps to itself. */
  lemma IdMap4kCoversAll(a0: Arena, a: Arena, root: nat, lo: nat, end: nat, va: usize, f2m: Flags, f4k: Flags)
    requires IdMapped(a0, a, root, lo, end, va, f2m, f4k)
    requires lo <= va && va + SIZE_4K <= end <= SV39_SPAN && va % SIZE_4K == 0
    requires LeafFlags(f4k) && PoolApart(a0, lo, end) && !RegionInside(lo, end, va)
    requires Map4k(a, root, va, va, f4k).Ok?
    ensures forall v: nat | lo <= v < va + SIZE_4K ::
      Translate(Map4k(a, root, va, va, f4k).value, root, v) == Some(Leaf(v, IdMapFlags(lo, end, v, f2m, f4k)))
  {
    forall v: nat | lo <= v < va + SIZE_4K
      ensures Translate(Map4k(a, root, va, va, f4k).value, root, v) == Some(Leaf(v, IdMapFlags(lo, end, v, f2m, f4k)))
    {
      IdMap4kCovers(a0, a, root, lo, end, va, f2m, f4k, v);
    }
  }

  /** A 4 KiB step of `id_map_region` keeps every translation outside the range. */
  lemma IdMap4kKeeps(a0: Arena, a: Arena, root: nat, lo: nat, end: nat, va: usize, f2m: Flags, f4k: Flags)
    requires IdMapped(a0, a, root, lo, end, va, f2m, f4k)
    requires lo <= va && va + SIZE_4K <= end <= SV39_SPAN && va % SIZE_4K == 0
    requires Map4k(a, root, va, va, f4k).Ok?
    ensures forall v: nat | v < SV39_SPAN && (v < lo || end <= v) && Translate(a0, root, v).Some? ::
      Translate(Map4k(a, root, va, va, f4k).value, root, v) == Translate(a0, root, v)
  {
    forall v: nat | v < SV39_SPAN && (v < lo || end <= v) && Translate(a0, root, v).Some?
      ensures Translate(Map4k(a, root, va, va, f4k).value, root, v) == Translate(a0, root, v)
    {
      OtherPageOtherVpn(v, va);
      Map4kFrame(a, root, va, va, f4k, v);
    }
  }

  /** After a 4 KiB step, each address up to the end of the new page maps to itself. */
  lemma IdMap4kCovers(a0: Arena, a: Arena, root: nat, lo: nat, end: nat, va: usize, f2m: Flags, f4k: Flags, v: nat)
    requires IdMapped(a0, a, root, lo, end, va, f2m, f4k)
    requires lo <= va && va + SIZE_4K <= end <= SV39_SPAN && va % SIZE_4K == 0
    requires LeafFlags(f4k) && !RegionInside(lo, end, va)
    requires Map4k(a, root, va, va, f4k).Ok? && lo <= v < va + SIZE_4K
    ensures Translate(Map4k(a, root, va, va, f4k).value, root, v) == Some(Leaf(v, IdMapFlags(lo, end, v, f2m, f4k)))
  {
    if v < va {
      OtherPageOtherVpn(v, va);
      Map4kFrame(a, root, va, va, f4k, v);
    } else {
      InPage(v, va);
      SamePageSameVpn(v, va);
      Map4kTranslate(a, root, va, va, f4k, v);
      assert v == (v / SIZE_2M) * SIZE_2M + v % SIZE_2M;
      assert va == (va / SIZE_2M) * SIZE_2M + va % SIZE_2M;
      assert IdMapFlags(lo, end, v, f2m, f4k) == f4k;
    }
  }

  /** One 2 MiB step of `id_map_region` extends the identity map by one region. */
  lemma IdMap2mStep(a0: Arena, a: Arena, root: nat, lo: nat, end: nat, va: usize, f2m: Flags, f4k: Flags)
    requires IdMapped(a0, a, root, lo, end, va, f2m, f4k)
    requires lo <= va && va + SIZE_2M <= end <= SV39_SPAN && va % SIZE_2M == 0
    requires LeafFlags(f2m) && PoolApart(a0, lo, end)
    requires Map2m(a, root, va, va, f2m).Ok?
    ensures IdMapped(a0, Map2m(a, root, va, va, f2m).value, root, lo, end, va + SIZE_2M, f2m, f4k)
  {
    var a' := Map2m(a, root, va, va, f2m).value;
    Arith.AlignedCoarse(va, 512, SIZE_4K);
    IdLeafOk(a0, a, lo, end, va, f2m);
    Map2mKeepsWf(a, root, va, va, f2m);
    IdMap2mCoversAll(a0, a, root, lo, end, va, f2m, f4k);
    IdMap2mKeeps(a0, a, root, lo, end, va, f2m, f4k);
    IdMappedIntro(a0, a', root, lo, end, va + SIZE_2M, f2m, f4k);
  }

  /** After a 2 MiB step, every address up to the end of the new region maps to itself. */
  lemma IdMap2mCoversAll(a0: Arena, a: Arena, root: nat, lo: nat, end: nat, va: usize, f2m: Flags, f4k: Flags)
    requires IdMapped(a0, a, root, lo, end, va, f2m, f4k)
    requires lo <= va && va + SIZE_2M <= end <= SV39_SPAN && va % SIZE_2M == 0
    requires LeafFlags(f2m) && PoolApart(a0, lo, end)
    requires Map2m(a, root, va, va, f2m).Ok?
    ensures forall v: nat | lo <= v < va + SIZE_2M ::
      Translate(Map2m(a, root, va, va, f2m).value, root, v) == Some(Leaf(v, IdMapFlags(lo, end, v, f2m, f4k)))
  {
    forall v: nat | lo <= v < va + SIZE_2M
      ensures Translate(Map2m(a, root, va, va, f2m).value, root, v) == Some(Leaf(v, IdMapFlags(lo, end, v, f2m, f4k)))
    {
      IdMap2mCovers(a0, a, root, lo, end, va, f2m, f4k, v);
    }
  }

  /** A 2 MiB step of `id_map_region` keeps every translation outside the range. */
  lemma IdMap2mKeeps(a0: Arena, a: Arena, root: nat, lo: nat, end: nat, va: usize, f2m: Flags, f4k: Flags)
    requires IdMapped(a0, a, root, lo, end, va, f2m, f4k)
    requires lo <= va && va + SIZE_2M <= end <= SV39_SPAN && va % SIZE_2M == 0
    requires Map2m(a, root, va, va, f2m).Ok?
    ensures forall v: nat | v < SV39_SPAN && (v < lo || end <= v) && Translate(a0, root, v).Some? ::
      Translate(Map2m(a, root, va, va, f2m).value, root, v) == Translate(a0, root, v)
  {
    forall v: nat | v < SV39_SPAN && (v < lo || end <= v) && Translate(a0, root, v).Some?
      ensures Translate(Map2m(a, root, va, va, f2m).value, root, v) == Translate(a0, root, v)
    {
      OtherRegionOtherVpn(v, va);
      Map2mFrame(a, root, va, va, f2m, v);
    }
  }

  /** After a 2 MiB step, each address up to the end of the new region maps to itself. */
  lemma IdMap2mCovers(a0: Arena, a: Arena, root: nat, lo: nat, end: nat, va: usize, f2m: Flags, f4k: Flags, v: nat)
    requires IdMapped(a0, a, root, lo, end, va, f2m, f4k)
    requires lo <= va && va + SIZE_2M <= end <= SV39_SPAN && va % SIZE_2M == 0
    requires LeafFlags(f2m) && Map2m(a, root, va, va, f2m).Ok? && lo <= v < va + SIZE_2M
    ensures Translate(Map2m(a, root, va, va, f2m).value, root, v) == Some(Leaf(v, IdMapFlags(lo, end, v, f2m, f4k)))
  {
    if v < va {
      OtherRegionOtherVpn(v, va);
      Map2mFrame(a, root, va, va, f2m, v);
    } else {
      InRegion(v, va);
      SameRegionSameVpn(v, va);
      Map2mTranslate(a, root, va, va, f2m, v);
      assert v - v % SIZE_2M == va;
    }
  }

  /** The conditions under which `id_map_region` is proved to build an identity map. */
  ghost predicate IdMapGood(a0: Arena, root: nat, lo: nat, end: nat, f2m: Flags, f4k: Flags)
  {
    Wf(a0, root) && LeafFlags(f2m) && LeafFlags(f4k) && end <= SV39_SPAN && PoolApart(a0, lo, end)
  }

  /**
    The head loop of `id_map_region`: 4 KiB pages from `lo` until the end or the
    first 2 MiB boundary.
  */
  method IdMapHead(a0: Arena, root: nat, lo: usize, end: usize, f2m: Flags, f4k: Flags)
    returns (r: Result<(Arena, usize), PtError>)
    requires Shape(a0) && root < POOL_PAGES
    requires lo <= end && lo % SIZE_4K == 0 && end % SIZE_4K == 0
    ensures r.Ok? ==> Shape(r.value.0) && r.value.0.base == a0.base
    ensures r.Ok? ==> lo <= r.value.1 <= end && r.value.1 % SIZE_4K == 0
    ensures r.Ok? ==> r.value.1 == end || r.value.1 % SIZE_2M == 0
    ensures r.Ok? && IdMapGood(a0, root, lo, end, f2m, f4k) ==>
      IdMapped(a0, r.value.0, root, lo, end, r.value.1, f2m, f4k)
  {
    ghost var good := IdMapGood(a0, root, lo, end, f2m, f4k);
    var cur, va := a0, lo;
    while va < end && va % SIZE_2M != 0
      invariant Shape(cur) && cur.base == a0.base
      invariant lo <= va <= end && va % SIZE_4K == 0
      invariant lo % SIZE_2M == 0 ==> va == lo
      invariant lo % SIZE_2M != 0 ==> va <= lo - lo % SIZE_2M + SIZE_2M
      invariant good ==> IdMapped(a0, cur, root, lo, end, va, f2m, f4k)
    {
      var step := Map4k(cur, root, va, va, f4k);
      if step.Err? {
        return Err(step.error);
      }
      HeadPage(lo, va);
      PageGap(va, end);
      Arith.AlignedAdd(va, SIZE_4K, SIZE_4K);
      if good {
        IdMap4kStep(a0, cur, root, lo, end, va, f2m, f4k);
      }
      cur, va := step.value, va + SIZE_4K;
    }
    return Ok((cur, va));
  }

  /** The middle loop of `id_map_region`: 2 MiB superpages while a whole region fits. */
  method IdMapBody(a0: Arena, a: Arena, root: nat, lo: nat, start: usize, end: usize, f2m: Flags, f4k: Flags)
    returns (r: Result<(Arena, usize), PtError>)
    requires Shape(a) && root < POOL_PAGES
    requires lo <= start <= end && start % SIZE_4K == 0 && (start == end || start % SIZE_2M == 0)
    ensures r.Ok? ==> Shape(r.value.0) && r.value.0.base == a.base
    ensures r.Ok? ==> start <= r.value.1 <= end && r.value.1 % SIZE_4K == 0
    ensures r.Ok? ==> end < r.value.1 + SIZE_2M && (r.value.1 == end || r.value.1 % SIZE_2M == 0)
    ensures r.Ok? && IdMapGood(a0, root, lo, end, f2m, f4k) && IdMapped(a0, a, root, lo, end, start, f2m, f4k) ==>
      IdMapped(a0, r.value.0, root, lo, end, r.value.1, f2m, f4k)
  {
    ghost var good := IdMapGood(a0, root, lo, end, f2m, f4k) && IdMapped(a0, a, root, lo, end, start, f2m, f4k);
    var cur, va := a, start;
    while va + SIZE_2M <= end
      invariant Shape(cur) && cur.base == a.base
      invariant start <= va <= end && va % SIZE_4K == 0
      invariant va == end || va % SIZE_2M == 0
      invariant good ==> IdMapped(a0, cur, root, lo, end, va, f2m, f4k)
    {
      var step := Map2m(cur, root, va, va, f2m);
      if step.Err? {
        return Err(step.error);
      }
      Arith.AlignedAdd(va, SIZE_2M, SIZE_2M);
      Arith.AlignedCoarse(va + SIZE_2M, 512, SIZE_4K);
      if good {
        IdMap2mStep(a0, cur, root, lo, end, va, f2m, f4k);
      }
      cur, va := step.value, va + SIZE_2M;
    }
    return Ok((cur, va));
  }

  /** The tail loop of `id_map_region`: 4 KiB pages from the last 2 MiB boundary to the end. */
  method IdMapTail(a0: Arena, a: Arena, root: nat, lo: nat, start: usize, end: usize, f2m: Flags, f4k: Flags)
    returns (r: Result<Arena, PtError>)
    requires Shape(a) && root < POOL_PAGES
    requires lo <= start <= end && start % SIZE_4K == 0 && end % SIZE_4K == 0
    requires end < start + SIZE_2M && (start == end || start % SIZE_2M == 0)
    ensures r.Ok? ==> Shape(r.value) && r.value.base == a.base
    ensures r.Ok? && IdMapGood(a0, root, lo, end, f2m, f4k) && IdMapped(a0, a, root, lo, end, start, f2m, f4k) ==>
      IdMapped(a0, r.value, root, lo, end, end, f2m, f4k)
  {
    ghost var good := IdMapGood(a0, root, lo, end, f2m, f4k) && IdMapped(a0, a, root, lo, end, start, f2m, f4k);
    var cur, va := a, start;
    while va < end
      invariant Shape(cur) && cur.base == a.base
      invariant start <= va <= end && va % SIZE_4K == 0
      invariant good ==> IdMapped(a0, cur, root, lo, end, va, f2m, f4k)
    {
      var step := Map4k(cur, root, va, va, f4k);
      if step.Err? {
        return Err(step.error);
      }
      BoundaryBelow(start, va);
      PageGap(va, end);
      Arith.AlignedAdd(va, SIZE_4K, SIZE_4K);
      if good {
        IdMap4kStep(a0, cur, root, lo, end, va, f2m, f4k);
      }
      cur, va := step.value, va + SIZE_4K;
    }
    return Ok(cur);
  }

  /**
    `id_map_region`: identity-maps `[base, base + len)` rounded out to whole pages,
    with 4 KiB pages up to the first 2 MiB boundary, 2 MiB superpages while a whole
    region fits, and 4 KiB pages for the tail.  When the tree is well formed, both
    flag sets make leaves, the range lies in the Sv39 span and the pool's own pages
    are outside it, every address of the range then translates to itself and every
    other mapped address of the span is left as it was.
  */
  method IdMapRegion(a: Arena, root: nat, base: usize, len: usize, f2m: Flags, f4k: Flags)
    returns (r: Result<Arena, PtError>)
    requires Shape(a) && root < POOL_PAGES
    requires base + len + SIZE_4K - 1 < 0x1_0000_0000_0000_0000
    ensures r.Ok? ==> Shape(r.value) && r.value.base == a.base
    ensures var lo, end := PageFloor(base), PageCeil(base + len);
      r.Ok? && Wf(a, root) && LeafFlags(f2m) && LeafFlags(f4k) && end <= SV39_SPAN && PoolApart(a, lo, end) ==>
        && Wf(r.value, root)
        && (forall v: nat | lo <= v < end :: Translate(r.value, root, v) == Some(Leaf(v, IdMapFlags(lo, end, v, f2m, f4k))))
        && (forall v: nat | v < SV39_SPAN && (v < lo || end <= v) && Translate(a, root, v).Some? ::
              Translate(r.value, root, v) == Translate(a, root, v))
  {
    var lo, end := PageFloor(base), PageCeil(base + len);
    Arith.DivUnique(lo, SIZE_4K, base / SIZE_4K, 0);
    Arith.DivUnique(end, SIZE_4K, (base + len + SIZE_4K - 1) / SIZE_4K, 0);
    var head :- IdMapHead(a, root, lo, end, f2m, f4k);
    var body :- IdMapBody(a, head.0, root, lo, head.1, end, f2m, f4k);
    r := IdMapTail(a, body.0, root, lo, body.1, end, f2m, f4k);
  }

  // ----- enable_sv39 -----

  /** A fresh pool's first table is a well-formed empty tree. */
  lemma FreshRootWf(a: Arena)
    requires Shape(a) && a.cur == 0
    ensures AllocPtPage(a).Ok? && Wf(AllocPtPage(a).value.0, 0)
  {
    var a' := AllocPtPage(a).value.0;
    ZeroNotValid();
    forall s, j | 0 <= s < a'.cur && 0 <= j < ENTRIES
      ensures PtrOk(a', 0, s, j)
    {
      assert a'.pages[s][j] == 0;
    }
    forall s1, j1, s2, j2 |
      0 <= s1 < a'.cur && 0 <= j1 < ENTRIES && 0 <= s2 < a'.cur && 0 <= j2 < ENTRIES
      ensures Distinct(a', s1, j1, s2, j2)
    {
      assert a'.pages[s1][j1] == 0;
    }
  }

  /** DRAM starts and ends on page boundaries. */
  lemma DramPages()
    ensures PageFloor(DRAM_BASE) == DRAM_BASE
    ensures PageCeil(DRAM_BASE + DRAM_SIZE) == DRAM_BASE + DRAM_SIZE
  {
    Arith.DivUnique(DRAM_BASE, SIZE_4K, 0x8_0000, 0);
    Arith.DivUnique(DRAM_BASE + DRAM_SIZE + SIZE_4K - 1, SIZE_4K, 0x8_8000, SIZE_4K - 1);
  }

  /**
    Where the kernel's table pool may sit: inside DRAM only within superpage-mapped
    regions and off every 2 MiB boundary, and not on the UART page.
  */
  ghost predicate KernelPoolOk(a: Arena)
  {
    PoolApart(a, DRAM_BASE, DRAM_BASE + DRAM_SIZE) && !InPool(a, UART0)
  }

  /**
    Mapping the UART page over the identity-mapped DRAM keeps DRAM mapped and maps
    the UART page to itself, read-write.
  */
  lemma UartMapKeepsDram(a: Arena, root: nat)
    requires Wf(a, root) && !InPool(a, UART0) && Map4k(a, root, UART0, UART0, RW).Ok?
    requires forall v: nat | DRAM_BASE <= v < DRAM_BASE + DRAM_SIZE :: Translate(a, root, v) == Some(Leaf(v, RWX))
    ensures var a' := Map4k(a, root, UART0, UART0, RW).value;
      && Wf(a', root)
      && (forall v: nat | DRAM_BASE <= v < DRAM_BASE + DRAM_SIZE :: Translate(a', root, v) == Some(Leaf(v, RWX)))
      && (forall v: nat | UART0 <= v < UART0 + SIZE_4K :: Translate(a', root, v) == Some(Leaf(v, RW)))
  {
    var a' := Map4k(a, root, UART0, UART0, RW).value;
    PteRoundTrip(UART0, RW);
    assert LeafOk(a, UART0, RW);
    Map4kKeepsWf(a, root, UART0, UART0, RW);
    forall v: nat | DRAM_BASE <= v < DRAM_BASE + DRAM_SIZE
      ensures Translate(a', root, v) == Some(Leaf(v, RWX))
    {
      OtherPageOtherVpn(v, UART0);
      Map4kFrame(a, root, UART0, UART0, RW, v);
    }
    forall v: nat | UART0 <= v < UART0 + SIZE_4K
      ensures Translate(a', root, v) == Some(Leaf(v, RW))
    {
      InPage(v, UART0);
      SamePageSameVpn(v, UART0);
      Map4kTranslate(a, root, UART0, UART0, RW, v);
    }
  }

  /**
    `enable_sv39`: allocate the root table, identity-map the 128 MiB of DRAM with
    RWX, map the UART page RW, and build the `satp` value (mode Sv39, ASID 0, PPN of
    the root).  Started on the fresh pool, the resulting tree maps every DRAM
    address and every address of the UART page to itself.
  */
  method EnableSv39(a: Arena) returns (r: Result<(Arena, nat, usize), PtError>)
    requires Shape(a)
    ensures r.Ok? ==> Shape(r.value.0) && r.value.0.base == a.base && r.value.1 == a.cur
    ensures r.Ok? ==> var satp := r.value.2;
      && satp / 0x1000_0000_0000_0000 == SATP_MODE_SV39
      && (satp / 0x1000_0000_0000) % 0x1_0000 == 0
      && satp % 0x1000_0000_0000 == Ppn(SlotAddr(a, a.cur)) % 0x1000_0000_0000
    ensures r.Ok? && a.cur == 0 && KernelPoolOk(a) ==>
      var (a', root, _) := r.value;
      && Wf(a', root)
      && (forall v: nat | DRAM_BASE <= v < DRAM_BASE + DRAM_SIZE :: Translate(a', root, v) == Some(Leaf(v, RWX)))
      && (forall v: nat | UART0 <= v < UART0 + SIZE_4K :: Translate(a', root, v) == Some(Leaf(v, RW)))
  {
    var p :- AllocPtPage(a);
    var a1, root := p.0, p.1;
    var a2 :- IdMapRegion(a1, root, DRAM_BASE, DRAM_SIZE, RWX, RWX);
    var a3 :- Map4k(a2, root, UART0, UART0, RW);
    assert SlotAddr(a3, root) == SlotAddr(a, a.cur);
    var satp := SatpBits(0, SlotAddr(a3, root));
    r := Ok((a3, root, satp));
    if a.cur == 0 && KernelPoolOk(a) {
      FreshRootWf(a);
      forall x: nat | InPool(a1, x) && DRAM_BASE <= x < DRAM_BASE + DRAM_SIZE
        ensures x % SIZE_2M != 0 && RegionInside(DRAM_BASE, DRAM_BASE + DRAM_SIZE, x)
      {
        assert InPool(a, x);
      }
      DramPages();
      assert Wf(a2, root);
      forall v: nat | DRAM_BASE <= v < DRAM_BASE + DRAM_SIZE
        ensures Translate(a2, root, v) == Some(Leaf(v, RWX))
      {
        assert Translate(a2, root, v) == Some(Leaf(v, IdMapFlags(DRAM_BASE, DRAM_BASE + DRAM_SIZE, v, RWX, RWX)));
      }
      assert InPool(a2, UART0) == InPool(a, UART0);
      UartMapKeepsDram(a2, root);
    }
  }
}


=== FILE: ramfs.dfy ===
/**
  The built-in read-only file table (kernel/src/fs.rs): a fixed list of
  named byte strings searched front to back.
*/
module Ramfs {
  import opened Wrappers
  import opened Ascii

  datatype File = File(name: string, data: seq<Byte>)

  const HELLO_TXT: seq<Byte> := "Hello from RAMFS!\n"
  const ETC_MOTD: seq<Byte> := "Welcome to BogoKernel.\n"

  /** `FILES`. */
  const FILES: seq<File> := [File("hello.txt", HELLO_TXT), File("etc/motd", ETC_MOTD)]

  /** The index of the first file in `files` called `name`. */
  function FindFrom(files: seq<File>, name: string): (r: Option<nat>)
    ensures r.Some? ==> r.value < |files| && files[r.value].name == name
    ensures r.Some? ==> forall j | 0 <= j < r.value :: files[j].name != name
    ensures r.None? <==> forall j | 0 <= j < |files| :: files[j].name != name
  {
    if |files| == 0 then None
    else if files[0].name == name then Some(0)
    else match FindFrom(files[1..], name)
      case None => None
      case Some(k) => Some(k + 1)
  }

  /** `lookup`: the first file with the given name. */
  function Lookup(name: string): (r: Option<File>)
    ensures r.Some? ==> r.value in FILES && r.value.name == name
    ensures r.None? <==> forall f | f in FILES :: f.name != name
  {
    match FindFrom(FILES, name)
    case None => None
    case Some(i) => Some(FILES[i])
  }

  /** No two files share a name, so the first match is the only one. */
  lemma NamesDistinct()
    ensures forall i, j | 0 <= i < j < |FILES| :: FILES[i].name != FILES[j].name
  {
    assert FILES[0].name[0] != FILES[1].name[0];
  }

  /** Any file of the table is what looking up its name gives. */
  lemma LookupFindsEach(f: File)
    requires f in FILES
    ensures Lookup(f.name) == Some(f)
  {
    NamesDistinct();
  }

  /** The two embedded files and their contents; other names are not found. */
  lemma LookupExamples()
    ensures Lookup("hello.txt") == Some(File("hello.txt", "Hello from RAMFS!\n"))
    ensures Lookup("etc/motd") == Some(File("etc/motd", "Welcome to BogoKernel.\n"))
    ensures Lookup("motd") == None
  {
    LookupFindsEach(FILES[0]);
    LookupFindsEach(FILES[1]);
    assert FILES[0].name != "motd" && FILES[1].name != "motd";
  }
}

=== FILE: rogue.dfy ===
/**
  BogoHack, the Rust dungeon walker: it reads the map file "dungeon.map"
  into a 4096-byte buffer, measures it, starts the player on the last
  line's '<', and moves one cell per key onto the cells the collision rule
  lets through.
*/
module Rogue {
  import opened Wrappers
  import opened Ascii

  /** The size of the buffer the map is read into. */
  const BUFFER: nat := 4096

  /** `usize::MAX` on the 64-bit target. */
  const USIZE_MAX: nat := 0xFFFF_FFFF_FFFF_FFFF

  function Min(a: nat, b: nat): nat
  {
    if a < b then a else b
  }

  // ---------------------------------------------------------------------
  // Reading the map
  // ---------------------------------------------------------------------

  datatype Loaded = Loaded(data: seq<Byte>, truncated: bool)

  /**
    The reading loop, against a file whose every read hands over at most
    `chunk` bytes (and never more than fit or than are left): whatever the
    chunk size, the buffer ends up holding the file's first 4096 bytes, and
    the "truncated" warning is given exactly when the buffer fills up.
  */
  method LoadMap(file: seq<Byte>, chunk: nat) returns (r: Loaded)
    requires chunk >= 1
    ensures r.data == file[..Min(|file|, BUFFER)]
    ensures r.truncated <==> |file| >= BUFFER
  {
    var data: seq<Byte> := [];
    var offset := 0;
    while true
      invariant offset <= BUFFER && offset <= |file|
      invariant data == file[..offset]
      decreases BUFFER - offset
    {
      if offset >= BUFFER {
        return Loaded(data, true);
      }
      var n := Min(chunk, Min(BUFFER - offset, |file| - offset));
      if n == 0 {
        return Loaded(data, false);
      }
      data := data + file[offset..offset + n];
      offset := offset + n;
    }
  }

  // ---------------------------------------------------------------------
  // str::lines
  // ---------------------------------------------------------------------

  /** The index of the first line feed. */
  function LineEnd(s: string): (r: Option<nat>)
    ensures r.Some? ==> r.value < |s| && s[r.value] == '\n' && '\n' !in s[..r.value]
    ensures r.None? ==> '\n' !in s
  {
    if |s| == 0 then None
    else if s[0] == '\n' then Some(0)
    else match LineEnd(s[1..])
      case None => None
      case Some(i) =>
        assert s[..i + 1] == [s[0]] + s[1..][..i];
        Some(i + 1)
  }

  /** A line ended by a line feed loses one carriage return before it. */
  function StripCr(line: string): (l: string)
    ensures l == line || (line == l + "\r")
  {
    if |line| > 0 && line[|line| - 1] == '\r' then line[..|line| - 1] else line
  }

  /**
    `str::lines`: the text cut after each line feed, the line feed (and a
    carriage return before it) dropped; a last line without a line feed is
    kept as it is, and an empty tail yields no line.
  */
  function Lines(s: string): (ls: seq<string>)
    ensures forall i | 0 <= i < |ls| :: '\n' !in ls[i]
    decreases |s|
  {
    if |s| == 0 then []
    else match LineEnd(s)
      case None => [s]
      case Some(i) => [StripCr(s[..i])] + Lines(s[i + 1..])
  }

  /** Lines glued back with line feeds. */
  function Unlines(ls: seq<string>): string
  {
    if |ls| == 0 then [] else ls[0] + "\n" + Unlines(ls[1..])
  }

  /**
    Without carriage returns nothing is lost: the lines, each given back its
    line feed, are the text itself, with a line feed added when the last
    line had none.
  */
  lemma {:induction false} LinesRoundTrip(s: string)
    requires '\r' !in s
    ensures Unlines(Lines(s)) == s + (if |s| > 0 && s[|s| - 1] != '\n' then "\n" else "")
    decreases |s|
  {
    if |s| > 0 {
      match LineEnd(s)
      case None =>
        assert Unlines(Lines(s)) == s + "\n" + [];
      case Some(i) =>
        var head, tail := s[..i], s[i + 1..];
        NotInSlice(s, '\r', 0, i);
        NotInSlice(s, '\r', i + 1, |s|);
        assert StripCr(head) == head;
        LinesRoundTrip(tail);
        assert s == head + "\n" + tail;
        assert Unlines(Lines(s)) == head + "\n" + Unlines(Lines(tail));
        if |tail| > 0 {
          assert tail[|tail| - 1] == s[|s| - 1];
        }
    }
  }

  lemma NotInSlice(s: string, c: char, a: nat, b: nat)
    requires a <= b <= |s| && c !in s
    ensures c !in s[a..b]
  {
  }

  // ---------------------------------------------------------------------
  // Measuring the map
  // ---------------------------------------------------------------------

  /** The length of the longest line, 0 for no lines. */
  function MaxLen(ls: seq<string>): (m: nat)
    ensures forall i | 0 <= i < |ls| :: |ls[i]| <= m
    ensures |ls| == 0 ==> m == 0
    ensures |ls| > 0 ==> exists i | 0 <= i < |ls| :: |ls[i]| == m
  {
    if |ls| == 0 then 0
    else
      var m := MaxLen(ls[..|ls| - 1]);
      if |ls[|ls| - 1]| > m then |ls[|ls| - 1]| else m
  }

  /** The index of the first '<' in a line. */
  function Find(line: string, c: char): (r: Option<nat>)
    ensures r.Some? ==> r.value < |line| && line[r.value] == c && c !in line[..r.value]
    ensures r.None? ==> c !in line
  {
    if |line| == 0 then None
    else if line[0] == c then Some(0)
    else match Find(line[1..], c)
      case None => None
      case Some(i) =>
        assert line[..i + 1] == [line[0]] + line[1..][..i];
        Some(i + 1)
  }

  datatype Pos = Pos(x: nat, y: nat)

  /** The start the map marks: the first '<' on the last line that has one. */
  function Marked(ls: seq<string>): (r: Option<Pos>)
    ensures r.Some? ==> r.value.y < |ls| && Find(ls[r.value.y], '<') == Some(r.value.x)
    ensures r.Some? ==> forall y | r.value.y < y < |ls| :: '<' !in ls[y]
    ensures r.None? ==> forall y | 0 <= y < |ls| :: '<' !in ls[y]
  {
    if |ls| == 0 then None
    else match Find(ls[|ls| - 1], '<')
      case Some(x) => Some(Pos(x, |ls| - 1))
      case None => Marked(ls[..|ls| - 1])
  }

  datatype Survey = Survey(start: Pos, width: nat, height: nat)

  /**
    The measuring loop: the height is the number of lines, the width the
    longest line's length, and the start the marked '<', or (0, 0) when the
    map marks none.
  */
  method Measure(ls: seq<string>) returns (r: Survey)
    ensures r.height == |ls| && r.width == MaxLen(ls)
    ensures r.start == (if Marked(ls).Some? then Marked(ls).value else Pos(0, 0))
  {
    var px, py := 0, 0;
    var rows, cols := 0, 0;
    var y := 0;
    while y < |ls|
      invariant 0 <= y <= |ls|
      invariant rows == y && cols == MaxLen(ls[..y])
      invariant Pos(px, py) == (if Marked(ls[..y]).Some? then Marked(ls[..y]).value else Pos(0, 0))
    {
      var line := ls[y];
      assert ls[..y + 1][..y] == ls[..y];
      rows := y + 1;
      if |line| > cols {
        cols := |line|;
      }
      var found := Find(line, '<');
      if found.Some? {
        px, py := found.value, y;
      }
      y := y + 1;
    }
    assert ls[..y] == ls;
    return Survey(Pos(px, py), cols, rows);
  }

  // ---------------------------------------------------------------------
  // Moving
  // ---------------------------------------------------------------------

  /** The cells a move may end on. */
  predicate Passable(c: char)
  {
    c == '.' || c == '<' || c == '>' || c == ' '
  }

  /** `lines().nth(y)` then `chars().nth(x)`. */
  function CellAt(ls: seq<string>, p: Pos): (r: Option<char>)
    ensures r.Some? <==> p.y < |ls| && p.x < |ls[p.y]|
  {
    if p.y < |ls| && p.x < |ls[p.y]| then Some(ls[p.y][p.x]) else None
  }

  /** `n - 1` on a `usize` in a debug build: at 0 the subtraction overflows and the program panics (`None`). */
  function Pred(n: nat): (r: Option<nat>)
    ensures r.None? <==> n == 0
    ensures r.Some? ==> r.value + 1 == n
  {
    if n == 0 then None else Some(n - 1)
  }

  /**
    The cell a key asks for: one step, kept inside the map's rows and
    columns; `None` when the bound check itself panics.
  */
  function Aim(s: Survey, p: Pos, key: Byte): (q: Option<Pos>)
  {
    if key == 'w' then Some(if p.y > 0 then p.(y := p.y - 1) else p)
    else if key == 's' then
      var last :- Pred(s.height);
      Some(if p.y < last then p.(y := p.y + 1) else p)
    else if key == 'a' then Some(if p.x > 0 then p.(x := p.x - 1) else p)
    else if key == 'd' then
      var last :- Pred(s.width);
      Some(if p.x < last then p.(x := p.x + 1) else p)
    else Some(p)
  }

  /** What one key does to the game: the player's new position, the end of the game, or a panic. */
  datatype Turn = Continue(p: Pos) | Quit | Panicked

  /**
    One key of the game loop: 'q' ends it; 's' on a map without lines and
    'd' on a map whose lines are all empty panic; any other key moves the
    player to the aimed cell when that cell exists and is passable, and
    leaves them in place otherwise.
  */
  function Step(ls: seq<string>, s: Survey, p: Pos, key: Byte): (r: Turn)
    ensures r.Quit? <==> key == 'q'
    ensures r.Panicked? <==> (key == 's' && s.height == 0) || (key == 'd' && s.width == 0)
    ensures r.Continue? ==> Aim(s, p, key).Some? && (r.p == p || r.p == Aim(s, p, key).value)
    ensures r.Continue? && r.p != p ==> CellAt(ls, r.p).Some? && Passable(CellAt(ls, r.p).value)
  {
    if key == 'q' then Quit
    else
      match Aim(s, p, key)
      case None => Panicked
      case Some(q) =>
        match CellAt(ls, q)
        case Some(c) => if Passable(c) then Continue(q) else Continue(p)
        case None => Continue(p)
  }

  /** A move changes one coordinate by one, and stays inside the measured map. */
  lemma StepIsOneCell(ls: seq<string>, s: Survey, p: Pos, key: Byte)
    requires s.height == |ls| && s.width == MaxLen(ls)
    requires Step(ls, s, p, key).Continue? && Step(ls, s, p, key).p != p
    ensures var q := Step(ls, s, p, key).p;
      (q.x == p.x && (q.y == p.y + 1 || q.y + 1 == p.y)) || (q.y == p.y && (q.x == p.x + 1 || q.x + 1 == p.x))
    ensures var q := Step(ls, s, p, key).p;
      q.x < s.width && q.y < s.height
  {
  }

  /** A move is taken exactly when the aimed cell exists and is passable. */
  lemma StepAccepts(ls: seq<string>, s: Survey, p: Pos, key: Byte, q: Pos)
    requires key != 'q' && Aim(s, p, key) == Some(q) && q != p
    ensures Step(ls, s, p, key) == Continue(q)
      <==> CellAt(ls, q).Some? && Passable(CellAt(ls, q).value)
  {
  }

  /** Keys other than w, a, s, d and q leave the player where they are. */
  lemma OtherKeysStay(ls: seq<string>, s: Survey, p: Pos, key: Byte)
    requires key !in "wasdq"
    ensures Step(ls, s, p, key) == Continue(p)
  {
  }

  /** The game loop over the keys read: the position when the keys run out, or how the game ended. */
  function Play(ls: seq<string>, s: Survey, p: Pos, keys: seq<Byte>): (r: Turn)
    decreases |keys|
  {
    if |keys| == 0 then Continue(p)
    else match Step(ls, s, p, keys[0])
      case Continue(q) => Play(ls, s, q, keys[1..])
      case other => other
  }

  /** The player is always at the start or on a passable cell of the map. */
  lemma {:induction false} PlayStaysOnFloor(ls: seq<string>, s: Survey, p: Pos, keys: seq<Byte>)
    requires p == s.start || (CellAt(ls, p).Some? && Passable(CellAt(ls, p).value))
    ensures Play(ls, s, p, keys).Continue? ==> var q := Play(ls, s, p, keys).p;
      q == s.start || (CellAt(ls, q).Some? && Passable(CellAt(ls, q).value))
    decreases |keys|
  {
    if |keys| > 0 && Step(ls, s, p, keys[0]).Continue? {
      PlayStaysOnFloor(ls, s, Step(ls, s, p, keys[0]).p, keys[1..]);
    }
  }

  /** On a map whose lines are all empty 'd' panics, and on a map without lines 's' does too. */
  lemma EmptyMapPanics(ls: seq<string>, s: Survey, p: Pos)
    requires s.height == |ls| && s.width == MaxLen(ls)
    requires forall y | 0 <= y < |ls| :: |ls[y]| == 0
    ensures Step(ls, s, p, 'd') == Panicked
    ensures |ls| == 0 ==> Step(ls, s, p, 's') == Panicked
  {
  }

  /** The whole program before the first key: read, give up on an empty file, cut into lines, measure. */
  method Open(file: seq<Byte>, chunk: nat) returns (r: Option<(seq<string>, Survey)>)
    requires chunk >= 1
    ensures r.None? <==> |file| == 0
    ensures r.Some? ==> r.value.0 == Lines(Utf8Text(file[..Min(|file|, BUFFER)]))
    ensures r.Some? ==> r.value.1.height == |r.value.0| && r.value.1.width == MaxLen(r.value.0)
  {
    var loaded := LoadMap(file, chunk);
    if |loaded.data| == 0 {
      return None;
    }
    var ls := Lines(Utf8Text(loaded.data));
    var s := Measure(ls);
    return Some((ls, s));
  }
}

=== FILE: shell.dfy ===
/**
  BogoShell: read a line of at most 63 bytes with the console line editor,
  cut it into at most 16 words, and act on the first word: print help, list
  the writable file system, power off, or run a program with an argument
  vector.
*/
module Shell {
  import opened Wrappers
  import opened Ascii
  import LineEditor
  import Words

  /** The line buffer; it holds one byte less. */
  const LINE_BUFFER: nat := 64
  /** The token array. */
  const MAX_TOKENS: nat := 16
  /** The bytes of one argument buffer, NUL included. */
  const CSTR_BUFFER: nat := 64

  function Min(a: nat, b: nat): nat
  {
    if a < b then a else b
  }

  // ---------------------------------------------------------------------
  // Reading and cutting a line
  // ---------------------------------------------------------------------

  /** The next line typed, when the input holds a terminator. */
  function ReadLine(input: seq<Byte>): (r: Option<LineEditor.Line>)
    ensures r.Some? ==> |r.value.text| <= LINE_BUFFER - 1
  {
    var r := LineEditor.LineOf(input, LINE_BUFFER);
    if r.Some? then
      LineEditor.EditedFits(input[..LineEditor.FirstTerminator(input).value], LINE_BUFFER);
      r
    else r
  }

  /** The first `MAX_TOKENS` words of the text, in order; later ones are dropped. */
  function Tokens(text: string): (ts: seq<string>)
    ensures |ts| <= MAX_TOKENS
    ensures forall i | 0 <= i < |ts| :: Words.IsWord(ts[i])
  {
    var ws := Words.Split(text);
    ws[..Min(|ws|, MAX_TOKENS)]
  }

  /** The tokenizing loop: it stores each word while the array has room. */
  method Tokenize(text: string) returns (tokens: seq<string>)
    ensures tokens == Tokens(text)
  {
    var ws := Words.Split(text);
    tokens := [];
    var i := 0;
    while i < |ws|
      invariant 0 <= i <= |ws|
      invariant tokens == ws[..Min(i, MAX_TOKENS)]
    {
      if |tokens| < MAX_TOKENS {
        tokens := tokens + [ws[i]];
      }
      i := i + 1;
    }
  }

  /** Up to sixteen words joined by spaces come back whole and in order; from the seventeenth on they are dropped. */
  lemma TokensOfJoin(ws: seq<string>)
    requires forall i | 0 <= i < |ws| :: Words.IsWord(ws[i])
    ensures Tokens(Words.Join(ws)) == ws[..Min(|ws|, MAX_TOKENS)]
    ensures |ws| <= MAX_TOKENS ==> Tokens(Words.Join(ws)) == ws
  {
    Words.SplitJoin(ws);
  }

  // ---------------------------------------------------------------------
  // Listing the writable file system
  // ---------------------------------------------------------------------

  /** The first NUL at or after `from`, or the buffer's length when there is none. */
  function NulFrom(buf: seq<Byte>, from: nat): (e: nat)
    requires from <= |buf|
    ensures from <= e <= |buf|
    ensures forall k | from <= k < e :: buf[k] != NUL
    ensures e < |buf| ==> buf[e] == NUL
    decreases |buf| - from
  {
    if from == |buf| || buf[from] == NUL then from else NulFrom(buf, from + 1)
  }

  /**
    What the `ls` walk prints from a `readdir` buffer holding `count`
    entries: each entry runs from `offset` to the next NUL; it is printed
    when it is not empty, its NUL lies inside the buffer and it reads as
    text; the walk stops after `count` entries or when the next entry would
    start past the buffer.
  */
  function Listed(buf: seq<Byte>, offset: nat, count: nat): (names: seq<seq<Byte>>)
    requires offset <= |buf|
    decreases count
  {
    if count == 0 then []
    else
      var end := NulFrom(buf, offset);
      if end + 1 >= |buf| then Entry(buf, offset) else Entry(buf, offset) + Listed(buf, end + 1, count - 1)
  }

  /** What one entry prints: its name, when that is not empty, ends inside the buffer and is text. */
  function Entry(buf: seq<Byte>, offset: nat): (here: seq<seq<Byte>>)
    requires offset <= |buf|
    ensures |here| <= 1
    ensures |here| == 1 ==> |here[0]| > 0 && NUL !in here[0] && IsAscii(here[0])
  {
    var end := NulFrom(buf, offset);
    if offset < end < |buf| && IsAscii(buf[offset..end]) then [buf[offset..end]] else []
  }

  /** The listing loop, never reading outside the buffer. */
  method ListNames(buf: seq<Byte>, count: nat) returns (names: seq<seq<Byte>>)
    ensures names == Listed(buf, 0, count)
  {
    names := [];
    var offset: nat := 0;
    var left: nat := count;
    while left > 0
      invariant offset <= |buf|
      invariant names + Listed(buf, offset, left) == Listed(buf, 0, count)
    {
      var here, end := ReadEntry(buf, offset);
      ListStep(buf, count, names, offset, left, here, end);
      if end + 1 >= |buf| {
        return names + here;
      }
      names, offset, left := names + here, end + 1, left - 1;
    }
  }

  /** One turn of the walk keeps the names printed so far followed by those still to come. */
  lemma ListStep(buf: seq<Byte>, count: nat, names: seq<seq<Byte>>, offset: nat, left: nat, here: seq<seq<Byte>>, end: nat)
    requires offset <= |buf| && left > 0 && names + Listed(buf, offset, left) == Listed(buf, 0, count)
    requires end == NulFrom(buf, offset) && here == Entry(buf, offset)
    ensures end + 1 >= |buf| ==> names + here == Listed(buf, 0, count)
    ensures end + 1 < |buf| ==> (names + here) + Listed(buf, end + 1, left - 1) == Listed(buf, 0, count)
  {
    ListedNext(buf, offset, left, end, left - 1);
    if end + 1 < |buf| {
      Assoc(names, here, Listed(buf, end + 1, left - 1));
    } else {
      assert here + [] == here;
    }
  }

  /** One entry of the walk: the scan to its NUL and what it prints. */
  method ReadEntry(buf: seq<Byte>, offset: nat) returns (here: seq<seq<Byte>>, end: nat)
    requires offset <= |buf|
    ensures end == NulFrom(buf, offset) && here == Entry(buf, offset)
  {
    end := offset;
    while end < |buf| && buf[end] != NUL
      invariant offset <= end <= |buf|
      invariant NulFrom(buf, end) == NulFrom(buf, offset)
    {
      end := end + 1;
    }
    here := [];
    if end > offset && end < |buf| && IsAscii(buf[offset..end]) {
      here := [buf[offset..end]];
    }
  }

  lemma Assoc<T>(a: seq<T>, b: seq<T>, c: seq<T>)
    ensures a + (b + c) == (a + b) + c
  {
  }

  /** Names laid out one after another, each followed by its NUL, as a directory listing writes them. */
  function Pack(names: seq<seq<Byte>>): seq<Byte>
  {
    if |names| == 0 then [] else names[0] + [NUL] + Pack(names[1..])
  }

  /** The first NUL from `from` on is the one at `e` when none comes before it. */
  lemma {:induction false} NulFromAt(buf: seq<Byte>, from: nat, e: nat)
    requires from <= e < |buf| && buf[e] == NUL
    requires forall k | from <= k < e :: buf[k] != NUL
    ensures NulFrom(buf, from) == e
    decreases e - from
  {
    if from < e {
      NulFromAt(buf, from + 1, e);
    }
  }

  /**
    A buffer holding, from `offset` on, the names laid out by `Pack` lists back
    exactly those names, whatever comes before or after them.
  */
  lemma {:induction false} ListedPacked(names: seq<seq<Byte>>, buf: seq<Byte>, offset: nat)
    requires AllNames(names)
    requires offset + |Pack(names)| <= |buf| && buf[offset..offset + |Pack(names)|] == Pack(names)
    ensures Listed(buf, offset, |names|) == names
    decreases |names|
  {
    if |names| > 0 {
      var n, ns := names[0], names[1..];
      var e := offset + |n|;
      PackSplit(names, buf, offset);
      FirstEntry(buf, offset, n);
      ListedPacked(ns, buf, e + 1);
      if e + 1 >= |buf| {
        assert ns == [] by {
          if |ns| > 0 {
            PackNonEmpty(ns);
          }
        }
      }
      ListedCons(buf, offset, e, n, ns);
    }
  }

  /** The first name of a packed run, its NUL, and the packed run of the others, located in the buffer. */
  lemma PackSplit(names: seq<seq<Byte>>, buf: seq<Byte>, offset: nat)
    requires |names| > 0
    requires offset + |Pack(names)| <= |buf| && buf[offset..offset + |Pack(names)|] == Pack(names)
    ensures var n, e, p := names[0], offset + |names[0]|, Pack(names[1..]);
      && e + 1 + |p| <= |buf|
      && buf[offset..e] == n && buf[e] == NUL && buf[e + 1..e + 1 + |p|] == p
      && names == [n] + names[1..]
  {
    var n, p := names[0], Pack(names[1..]);
    var e := offset + |n|;
    var all := Pack(names);
    assert all == n + [NUL] + p;
    forall k | 0 <= k < |n| ensures buf[offset + k] == n[k] {
      assert buf[offset + k] == all[k];
    }
    assert buf[offset..e] == n;
    assert buf[e] == all[|n|];
    forall k | 0 <= k < |p| ensures buf[e + 1 + k] == p[k] {
      assert buf[e + 1 + k] == all[|n| + 1 + k];
    }
    assert buf[e + 1..e + 1 + |p|] == p;
  }

  /** One step of the walk, the entry's end and the remaining count given by name. */
  lemma ListedNext(buf: seq<Byte>, offset: nat, count: nat, end: nat, more: nat)
    requires offset <= |buf| && end == NulFrom(buf, offset) && count == more + 1
    ensures Listed(buf, offset, count) == Entry(buf, offset) + (if end + 1 >= |buf| then [] else Listed(buf, end + 1, more))
  {
  }

  /** The NUL right after a name without NUL is the first one from the name's start. */
  lemma FirstEntry(buf: seq<Byte>, offset: nat, n: seq<Byte>)
    requires offset + |n| < |buf| && buf[offset..offset + |n|] == n && buf[offset + |n|] == NUL
    requires NUL !in n
    ensures NulFrom(buf, offset) == offset + |n|
  {
    var e := offset + |n|;
    forall k | offset <= k < e ensures buf[k] != NUL {
      assert buf[k] == n[k - offset];
    }
    NulFromAt(buf, offset, e);
  }

  /**
    A non-empty text name ending at the first NUL inside the buffer is listed
    first, followed by whatever the rest of the buffer lists.
  */
  lemma ListedCons(buf: seq<Byte>, offset: nat, end: nat, n: seq<Byte>, ns: seq<seq<Byte>>)
    requires offset < end < |buf| && NulFrom(buf, offset) == end
    requires buf[offset..end] == n && IsAscii(n)
    requires end + 1 < |buf| ==> Listed(buf, end + 1, |ns|) == ns
    requires end + 1 >= |buf| ==> ns == []
    ensures Listed(buf, offset, |ns| + 1) == [n] + ns
  {
    assert Entry(buf, offset) == [n];
  }

  lemma PackNonEmpty(ns: seq<seq<Byte>>)
    requires |ns| > 0
    ensures |Pack(ns)| > 0
  {
  }

  // ---------------------------------------------------------------------
  // Acting on a line
  // ---------------------------------------------------------------------

  /** The programs the shell starts by name, with no arguments. */
  const PROGRAMS: seq<string> := ["rogue", "crogue", "bigrogue", "curses_test", "fstest", "mkfiles"]

  /** What `readdir` gave back: the buffer and the entry count, or a failure. */
  datatype Dir = Dir(buf: seq<Byte>, count: nat) | DirError

  datatype Action =
    | Nothing
    | Help
    | ListEmpty
    | ListFiles(names: seq<seq<Byte>>)
    | ListError
    | Shutdown
    | Exec(path: string, argv: seq<string>)
    | Unknown(cmd: string)

  /**
    `CStrBuf::<64>::from_str`: the text and its NUL must fit in the 64-byte
    buffer, and the text must hold no NUL of its own.
  */
  predicate FitsCStr(t: string)
  {
    |t| < CSTR_BUFFER && NUL !in t
  }

  /** The arguments kept for `hello`: each later token that fits an argument buffer, in order. */
  function Fitting(ts: seq<string>): (kept: seq<string>)
    ensures |kept| <= |ts|
    ensures forall i | 0 <= i < |kept| :: FitsCStr(kept[i]) && kept[i] in ts
  {
    if |ts| == 0 then []
    else (if FitsCStr(ts[0]) then [ts[0]] else []) + Fitting(ts[1..])
  }

  /** `hello`'s argument vector: the program's name, then the fitting tokens after the command. */
  function HelloArgv(tokens: seq<string>): (argv: seq<string>)
    requires 0 < |tokens| <= MAX_TOKENS
    ensures 1 <= |argv| <= MAX_TOKENS && argv[0] == "hello.elf"
  {
    ["hello.elf"] + Fitting(tokens[1..])
  }

  /** Tokens free of NUL all fit, so `hello` passes every token after the command on, as typed. */
  lemma {:induction false} AllFit(ts: seq<string>)
    requires forall i | 0 <= i < |ts| :: |ts[i]| < CSTR_BUFFER && NUL !in ts[i]
    ensures Fitting(ts) == ts
  {
    if |ts| > 0 {
      AllFit(ts[1..]);
    }
  }

  /**
    One line of the shell: an empty line, or one with no words, does
    nothing; otherwise the first word picks the action and an unknown word
    is reported.
  */
  function Run(line: seq<Byte>, dir: Dir): (a: Action)
    requires |line| <= LINE_BUFFER - 1
    ensures a.Exec? ==> 1 <= |a.argv| <= MAX_TOKENS && a.path == a.argv[0]
  {
    if |line| == 0 then Nothing
    else
      var tokens := Tokens(Utf8Text(line));
      if |tokens| == 0 then Nothing
      else
        var cmd := tokens[0];
        if cmd == "help" then Help
        else if cmd == "ls" then
          match dir
          case DirError => ListError
          case Dir(buf, count) =>
            if count == 0 then ListEmpty else ListFiles(Listed(buf, 0, count))
        else if cmd == "shutdown" then Shutdown
        else if cmd == "hello" then Exec("hello.elf", HelloArgv(tokens))
        else if cmd in PROGRAMS then Exec(cmd + ".elf", [cmd + ".elf"])
        else Unknown(cmd)
  }

  /**
    `ls` over a directory buffer laid out entry by entry lists exactly the
    entries' names, in order.
  */
  lemma LsListsFiles(names: seq<seq<Byte>>, rest: seq<Byte>)
    requires 0 < |names|
    requires forall i | 0 <= i < |names| :: |names[i]| > 0 && NUL !in names[i] && IsAscii(names[i])
    ensures Run("ls", Dir(Pack(names) + rest, |names|)) == ListFiles(names)
  {
    ListedFrom(names, rest);
    LsTokens();
    LsLists("ls", Dir(Pack(names) + rest, |names|));
  }

  /** A buffer that starts with packed entries lists exactly their names. */
  lemma ListedFrom(names: seq<seq<Byte>>, rest: seq<Byte>)
    requires forall i | 0 <= i < |names| :: |names[i]| > 0 && NUL !in names[i] && IsAscii(names[i])
    ensures Listed(Pack(names) + rest, 0, |names|) == names
  {
    var buf := Pack(names) + rest;
    NamesAll(names);
    assert buf[0..|Pack(names)|] == Pack(names);
    ListedPacked(names, buf, 0);
  }

  /** Every name can be listed: it is not empty, has no NUL and is text. */
  predicate AllNames(names: seq<seq<Byte>>)
    decreases |names|
  {
    |names| > 0 ==> |names[0]| > 0 && NUL !in names[0] && IsAscii(names[0]) && AllNames(names[1..])
  }

  lemma {:induction false} NamesAll(names: seq<seq<Byte>>)
    requires forall i | 0 <= i < |names| :: |names[i]| > 0 && NUL !in names[i] && IsAscii(names[i])
    ensures AllNames(names)
    decreases |names|
  {
    if |names| > 0 {
      NamesAll(names[1..]);
    }
  }

  /** `ls` over a readable, non-empty directory lists the names its buffer holds. */
  lemma LsLists(line: seq<Byte>, dir: Dir)
    requires |line| <= LINE_BUFFER - 1 && Tokens(Utf8Text(line)) == ["ls"]
    requires dir.Dir? && dir.count > 0
    ensures Run(line, dir) == ListFiles(Listed(dir.buf, 0, dir.count))
  {
  }

  /** The line `ls` is the one word `ls`. */
  lemma LsTokens()
    ensures Tokens(Utf8Text("ls")) == ["ls"]
  {
    var ls: seq<Byte> := "ls";
    assert IsAscii(ls);
    assert Utf8Text(ls) == "ls";
    assert Words.IsWord("ls");
    Words.SplitJoin(["ls"]);
    assert Words.Join(["ls"]) == "ls";
  }

  /** A first word naming one of the built-in programs runs `<name>.elf` with only its own path as argument. */
  lemma NamedProgramRuns(line: seq<Byte>, dir: Dir)
    requires |line| <= LINE_BUFFER - 1
    requires |Tokens(Utf8Text(line))| > 0 && Tokens(Utf8Text(line))[0] in PROGRAMS
    ensures var cmd := Tokens(Utf8Text(line))[0];
      Run(line, dir) == Exec(cmd + ".elf", [cmd + ".elf"])
  {
  }

  /** A line of only white space does nothing. */
  lemma BlankLineDoesNothing(line: seq<Byte>, dir: Dir)
    requires |line| <= LINE_BUFFER - 1
    requires forall i | 0 <= i < |line| :: Words.IsWhitespace(line[i])
    ensures Run(line, dir) == Nothing
  {
    if IsAscii(line) {
      Words.BlankHasNoWords(line);
    }
  }

  /** A first word that names no command is reported as unknown. */
  lemma UnknownCommand(line: seq<Byte>, dir: Dir)
    requires |line| <= LINE_BUFFER - 1
    requires |Tokens(Utf8Text(line))| > 0
    requires Tokens(Utf8Text(line))[0] !in ["help", "ls", "shutdown", "hello"] + PROGRAMS
    ensures Run(line, dir) == Unknown(Tokens(Utf8Text(line))[0])
  {
  }

  /**
    Every word of a typed line is shorter than the argument buffer, so a
    `hello` line without NUL bytes starts the program with all its later
    words as arguments.
  */
  lemma HelloPassesWords(line: seq<Byte>, dir: Dir)
    requires |line| <= LINE_BUFFER - 1 && IsAscii(line) && NUL !in line
    requires |Tokens(line)| > 0 && Tokens(line)[0] == "hello"
    ensures Run(line, dir) == Exec("hello.elf", ["hello.elf"] + Tokens(line)[1..])
  {
    var ts := Tokens(line);
    forall i | 1 <= i < |ts|
      ensures |ts[i]| < CSTR_BUFFER && NUL !in ts[i]
    {
      WordInLine(line, ts[i]);
    }
    assert forall i | 0 <= i < |ts[1..]| :: ts[1..][i] == ts[i + 1];
    AllFit(ts[1..]);
  }

  /** A word of a text is no longer than the text and has no character the text lacks. */
  lemma WordInLine(line: string, w: string)
    requires w in Tokens(line)
    ensures |w| <= |line| && forall k | 0 <= k < |w| :: w[k] in line
  {
    var ws := Words.Split(line);
    assert w in ws;
    SplitInside(line, w);
  }

  lemma {:induction false} SplitInside(s: string, w: string)
    requires w in Words.Split(s)
    ensures |w| <= |s| && forall k | 0 <= k < |w| :: w[k] in s
    decreases |s|
  {
    if |s| > 0 {
      if Words.IsWhitespace(s[0]) {
        SplitInside(s[1..], w);
      } else {
        var p := Words.Prefix(s);
        if w != p {
          SplitInside(s[|p|..], w);
        }
      }
    }
  }
}

=== FILE: stdio.dfy ===
/**
  Formatted output of the C library (libc/src/stdio.c): `num_to_str`,
  `printf`, `vsnprintf` (and `snprintf`, which only forwards to it), `puts`,
  and the `sprintf` stub.

  A format string is given as the memory the format pointer points into; the
  format proper ends at its first NUL.  An argument is an `int`-sized word or
  a string pointer.  A word is given by any integer whose 32-bit pattern is
  the argument's (so `-1` and `4294967295` are the same word); a string
  pointer is NULL or points at a buffer whose C string is what lies before
  the first NUL.  Characters are bytes; `char` is unsigned on RISC-V.
  Output is the text `write` receives; `None` stands for undefined
  behaviour: an argument missing or not of the kind its conversion reads, or
  a read beyond the memory the format lies in.
*/
module Stdio {
  import opened Ascii
  import opened Wrappers
  import Int32
  import Numerals
  import Stdlib

  datatype Arg = Word(v: int) | Str(s: Option<string>)

  /** The 32-bit pattern of a word, as `va_arg(args, unsigned int)` reads it. */
  function Pattern(w: int): (u: nat)
    ensures u < Int32.MODULUS && (u - w) % Int32.MODULUS == 0
  {
    w % Int32.MODULUS
  }

  /**
    `num_to_str`: `num` in `base` with the digits "0123456789abcdef", most
    significant first, after a `-` when the conversion is signed and the
    number negative.  The number is a C `long`, so negating any `int` is exact.
  */
  function NumToStr(num: int, base: nat, signed: bool): (s: string)
    requires base == 10 || base == 16
    requires signed || num >= 0
    ensures num < 0 ==> |s| > 1 && s[0] == '-' && Numerals.AllDigits(s[1..], base) && Numerals.Canonical(s[1..]) && Numerals.Value(s[1..], base) == -num
    ensures num >= 0 ==> Numerals.AllDigits(s, base) && Numerals.Canonical(s) && Numerals.Value(s, base) == num
  {
    if num < 0 then
      var d := Numerals.Digits(-num, base);
      assert ("-" + d)[1..] == d;
      "-" + d
    else Numerals.Digits(num, base)
  }

  /** What `%d` prints is what `atoi` reads back. */
  lemma SignedRoundTrip(v: int)
    requires Int32.IsI32(v)
    ensures Stdlib.Atoi(NumToStr(v, 10, true)) == v
    ensures 0 < |NumToStr(v, 10, true)| <= 11
  {
    assert NumToStr(v, 10, true) == Numerals.Decimal(v);
    Stdlib.AtoiDecimal(v, "");
    assert Numerals.Decimal(v) + "" == Numerals.Decimal(v);
    Numerals.DecimalShort(v);
  }

  /** What `%x` prints is the only canonical hexadecimal numeral of the value, and fits in 8 digits. */
  lemma HexRoundTrip(u: nat, s: string)
    requires u < Int32.MODULUS
    requires Numerals.AllDigits(s, 16) && Numerals.Canonical(s) && Numerals.Value(s, 16) == u
    ensures NumToStr(u, 16, false) == s
    ensures |s| <= 8
  {
    Numerals.DigitsOfValue(s, 16);
    assert Numerals.Power(16, 8) == Int32.MODULUS;
    Numerals.DigitsLength(u, 16, 8);
  }

  /** The conversion characters `printf` and `vsnprintf` know that read an argument. */
  predicate ReadsArg(c: char)
  {
    c == 'd' || c == 'i' || c == 'u' || c == 'x' || c == 'X' || c == 's' || c == 'c'
  }

  /** The text a conversion that reads an argument produces; `None` when the argument is of the wrong kind. */
  function Convert(c: char, arg: Arg): (r: Option<string>)
    requires ReadsArg(c)
    ensures r.Some? <==> (c == 's' <==> arg.Str?)
    ensures r.Some? && c == 'c' ==> r.value == [(arg.v % 256) as char]
    ensures r.Some? && c == 's' && arg.s.None? ==> r.value == "(null)"
    ensures r.Some? && c == 's' && arg.s.Some? ==> r.value == UpToNul(arg.s.value)
  {
    if c == 's' then
      if !arg.Str? then None
      else if arg.s.None? then Some("(null)")
      else Some(UpToNul(arg.s.value))
    else if !arg.Word? then None
    else if c == 'd' || c == 'i' then Some(NumToStr(Int32.Signed(Pattern(arg.v)), 10, true))
    else if c == 'u' then Some(NumToStr(Pattern(arg.v), 10, false))
    else if c == 'x' || c == 'X' then Some(NumToStr(Pattern(arg.v), 16, false))
    else Some([(arg.v % 256) as char])
  }

  /** One turn of the format loop: the text it prints, and the format characters and arguments it consumes. */
  datatype Step = Step(piece: string, width: nat, used: nat)

  /**
    The turn that starts at a format character that is not the terminator:
    a plain character prints itself; `%` and a conversion print the
    argument's text; `%%` prints `%`; `%` and any other character print both.
    A `%` that ends the format prints `%` and consumes only itself, so the
    loop stops at the terminator.
  */
  function Directive(fmt: string, args: seq<Arg>): (r: Option<Step>)
    requires NUL in fmt && fmt[0] != NUL
    ensures r.Some? ==> 1 <= r.value.width <= 2 && r.value.used <= |args| && NUL in fmt[r.value.width..]
    ensures r.Some? ==> |r.value.piece| <= 11 || (|args| > 0 && args[0].Str?)
  {
    if fmt[0] != '%' then Some(Step([fmt[0]], 1, 0))
    else
      var c := fmt[1];
      if c == NUL then Some(Step("%", 1, 0))
      else if c == '%' then Some(Step("%", 2, 0))
      else if !ReadsArg(c) then Some(Step(['%', c], 2, 0))
      else if |args| == 0 then None
      else
        match Convert(c, args[0])
        case None => None
        case Some(text) =>
          assert c != 's' && c != 'c' ==> |text| <= 11 by {
            if c != 's' && c != 'c' {
              WordShort(c, args[0].v);
            }
          }
          Some(Step(text, 2, 1))
  }

  /** A number printed by a conversion never takes more than 11 characters. */
  lemma WordShort(c: char, w: int)
    requires ReadsArg(c) && c != 's' && c != 'c'
    ensures |Convert(c, Word(w)).value| <= 11
  {
    var u := Pattern(w);
    if c == 'd' || c == 'i' {
      SignedRoundTrip(Int32.Signed(u));
    } else {
      var base := if c == 'u' then 10 else 16;
      var s := Numerals.Digits(u, base);
      assert Numerals.Power(10, 10) == 10_000_000_000;
      assert Numerals.Power(16, 10) > Int32.MODULUS;
      Numerals.DigitsLength(u, base, 10);
    }
  }

  /** `printf`: the text written, turn by turn, until the terminator. */
  function Printf(fmt: string, args: seq<Arg>): (out: Option<string>)
    requires NUL in fmt
    decreases |fmt|
  {
    if fmt[0] == NUL then Some("")
    else
      var st :- Directive(fmt, args);
      var rest :- Printf(fmt[st.width..], args[st.used..]);
      Some(st.piece + rest)
  }

  /**
    `printf` as written: a `%` at the end of the format writes `%` and the
    terminator itself, and the loop then carries on past the terminator.
  */
  function PrintfAsWritten(mem: string, args: seq<Arg>): (out: Option<string>)
    decreases |mem|
  {
    if |mem| == 0 then None
    else if mem[0] == NUL then Some("")
    else if mem[0] == '%' && |mem| >= 2 && mem[1] == NUL then
      var rest :- PrintfAsWritten(mem[2..], args);
      Some(['%', NUL] + rest)
    else if !(NUL in mem) then None
    else
      var st :- Directive(mem, args);
      var rest :- PrintfAsWritten(mem[st.width..], args[st.used..]);
      Some(st.piece + rest)
  }

  /** The return value of `printf` and `vsnprintf`: one count per character written. */
  function Count(out: string): int
  {
    |out|
  }

  /** Whatever follows the terminator, `printf` prints the same: it reads nothing past it. */
  lemma {:induction false} PrintfStopsAtNul(fmt: string, tail: string, args: seq<Arg>)
    requires NUL in fmt
    ensures Printf(fmt + tail, args) == Printf(fmt, args)
    decreases |fmt|
  {
    var m := fmt + tail;
    assert m[0] == fmt[0];
    if fmt[0] != NUL {
      DirectiveStopsAtNul(fmt, tail, args);
      var st := Directive(fmt, args);
      if st.Some? {
        var w := st.value.width;
        assert m[w..] == fmt[w..] + tail;
        PrintfStopsAtNul(fmt[w..], tail, args[st.value.used..]);
      }
    }
  }

  lemma DirectiveStopsAtNul(fmt: string, tail: string, args: seq<Arg>)
    requires NUL in fmt && fmt[0] != NUL
    ensures NUL in fmt + tail
    ensures Directive(fmt + tail, args) == Directive(fmt, args)
  {
    var m := fmt + tail;
    assert m[0] == fmt[0];
    if fmt[0] == '%' {
      assert |fmt| >= 2 && m[1] == fmt[1];
    }
  }

  /** A format that ends in `%`: `printf` as written prints the terminator and then whatever the memory after it holds. */
  lemma TrailingPercentOverruns(a: char, b: char)
    requires a != NUL && a != '%' && b != NUL && b != '%'
    ensures PrintfAsWritten([a, '%', NUL, b, NUL], []) == Some([a, '%', NUL, b])
    ensures Printf([a, '%', NUL, b, NUL], []) == Some([a, '%'])
  {
    OverrunAsWritten(a, b);
    StopsCorrected(a, b);
  }

  lemma OverrunAsWritten(a: char, b: char)
    requires a != NUL && a != '%' && b != NUL && b != '%'
    ensures PrintfAsWritten([a, '%', NUL, b, NUL], []) == Some([a, '%', NUL, b])
  {
    var t := [b, NUL];
    var m1 := ['%', NUL] + t;
    var m := [a] + m1;
    assert m == [a, '%', NUL, b, NUL] && m[1..] == m1;
    assert t[1..] == [NUL] && t[1] == NUL;
    assert Directive(t, []) == Some(Step([b], 1, 0));
    assert PrintfAsWritten([NUL], []) == Some("");
    assert PrintfAsWritten(t, []) == Some([b] + "");
    assert [b] + "" == [b];
    PrintfAsWrittenTrailing(t, []);
    assert m[2] == NUL;
    assert Directive(m, []) == Some(Step([a], 1, 0));
    assert PrintfAsWritten(m1, []) == Some(['%', NUL] + [b]);
    assert PrintfAsWritten(m, []) == Some([a] + (['%', NUL] + [b]));
    assert [a] + (['%', NUL] + [b]) == [a, '%', NUL, b];
  }

  lemma StopsCorrected(a: char, b: char)
    requires a != NUL && a != '%' && b != NUL && b != '%'
    ensures Printf([a, '%', NUL, b, NUL], []) == Some([a, '%'])
  {
    var t := [b, NUL];
    var m1 := ['%', NUL] + t;
    assert [a] + m1 == [a, '%', NUL, b, NUL];
    PrintfTrailing(t, []);
    PrintfPlain(a, m1, []);
    assert [a] + "%" == [a, '%'];
  }

  /** Where no `%` ends the format, `printf` as written and corrected print the same. */
  lemma {:induction false} PrintfAgrees(fmt: string, args: seq<Arg>)
    requires NUL in fmt
    requires forall k | 0 <= k < |fmt| - 1 :: fmt[k] == '%' ==> fmt[k + 1] != NUL
    ensures PrintfAsWritten(fmt, args) == Printf(fmt, args)
    decreases |fmt|
  {
    if fmt[0] != NUL {
      var st := Directive(fmt, args);
      if st.Some? {
        var w := st.value.width;
        var rest := fmt[w..];
        PrintfAgrees(rest, args[st.value.used..]);
      }
    }
  }

  /**
    The text of a turn `vsnprintf` writes with `room` bytes left: what fits
    of the `printf` text.  This is the corrected loop, which stops at a `%`
    that ends the format; `FillAsWritten` below is the loop as written.
  */
  function Fill(fmt: string, args: seq<Arg>, room: int): (out: Option<string>)
    requires NUL in fmt
    ensures out.Some? ==> |out.value| <= (if room < 0 then 0 else room)
    decreases |fmt|
  {
    if fmt[0] == NUL || room <= 0 then Some("")
    else
      match Directive(fmt, args)
      case None => None
      case Some(st) =>
        if |st.piece| >= room then Some(st.piece[..room])
        else
          match Fill(fmt[st.width..], args[st.used..], room - |st.piece|)
          case None => None
          case Some(rest) => Some(st.piece + rest)
  }

  /** What `vsnprintf` leaves: the bytes it stores into the buffer, and its return value. */
  datatype Filled = Filled(stored: string, count: int)

  /**
    `vsnprintf`: nothing without a buffer or with size 0; otherwise at most
    `size - 1` bytes and a terminator.  The room is `(int)(size - 1)`: the
    64-bit `size_t` cut to a 32-bit `int`.
  */
  function Vsnprintf(buffer: bool, size: nat, fmt: string, args: seq<Arg>): (r: Option<Filled>)
    requires NUL in fmt && size < 0x1_0000_0000_0000_0000
    ensures r.Some? && buffer && size > 0 ==> r.value.count >= 0 && |r.value.stored| == r.value.count + 1 && r.value.stored[r.value.count] == NUL
    ensures r.Some? && buffer && size > 0 ==> r.value.count < size
    ensures !buffer || size == 0 ==> r == Some(Filled("", 0))
  {
    if !buffer || size == 0 then Some(Filled("", 0))
    else
      var room := Room(size);
      var text :- Fill(fmt, args, room);
      Some(Filled(text + [NUL], Count(text)))
  }

  /** `(int)(size - 1)`: the low 32 bits of the room, read as a signed `int`. */
  function Room(size: nat): (room: int)
    requires 0 < size
    ensures room < size
    ensures size <= 0x8000_0000 ==> room == size - 1
  {
    Int32.Signed((size - 1) % Int32.MODULUS)
  }

  /** `snprintf` forwards its arguments to `vsnprintf`. */
  function Snprintf(buffer: bool, size: nat, fmt: string, args: seq<Arg>): (r: Option<Filled>)
    requires NUL in fmt && size < 0x1_0000_0000_0000_0000
    ensures r.Some? && buffer && size > 0 ==> r.value.count < size
  {
    Vsnprintf(buffer, size, fmt, args)
  }

  function Min(a: nat, b: nat): nat
  {
    if a < b then a else b
  }

  /**
    A turn of `vsnprintf` as written: a `%` at the end of the format stores
    `%`, leaves the terminator out, and the loop then carries on with the
    memory behind it while room is left.
  */
  function FillAsWritten(mem: string, args: seq<Arg>, room: int): (out: Option<string>)
    ensures out.Some? ==> |out.value| <= (if room < 0 then 0 else room)
    decreases |mem|
  {
    if |mem| == 0 then None
    else if mem[0] == NUL || room <= 0 then Some("")
    else if mem[0] == '%' && |mem| >= 2 && mem[1] == NUL then
      var rest :- FillAsWritten(mem[2..], args, room - 1);
      Some("%" + rest)
    else if !(NUL in mem) then None
    else
      match Directive(mem, args)
      case None => None
      case Some(st) =>
        if |st.piece| >= room then Some(st.piece[..room])
        else
          match FillAsWritten(mem[st.width..], args[st.used..], room - |st.piece|)
          case None => None
          case Some(rest) => Some(st.piece + rest)
  }

  /** `vsnprintf` as written, over the memory the format lies in. */
  function VsnprintfAsWritten(buffer: bool, size: nat, mem: string, args: seq<Arg>): (r: Option<Filled>)
    requires size < 0x1_0000_0000_0000_0000
    ensures r.Some? && buffer && size > 0 ==> r.value.count >= 0 && |r.value.stored| == r.value.count + 1 && r.value.stored[r.value.count] == NUL
    ensures r.Some? && buffer && size > 0 ==> r.value.count < size
    ensures !buffer || size == 0 ==> r == Some(Filled("", 0))
  {
    if !buffer || size == 0 then Some(Filled("", 0))
    else
      var text :- FillAsWritten(mem, args, Room(size));
      Some(Filled(text + [NUL], Count(text)))
  }

  /** Where no `%` ends the format, `vsnprintf` as written and corrected store the same. */
  lemma {:induction false} FillAgrees(fmt: string, args: seq<Arg>, room: int)
    requires NUL in fmt
    requires forall k | 0 <= k < |fmt| - 1 :: fmt[k] == '%' ==> fmt[k + 1] != NUL
    ensures FillAsWritten(fmt, args, room) == Fill(fmt, args, room)
    decreases |fmt|
  {
    if fmt[0] != NUL && room > 0 {
      var st := Directive(fmt, args);
      if st.Some? && |st.value.piece| < room {
        FillAgrees(fmt[st.value.width..], args[st.value.used..], room - |st.value.piece|);
      }
    }
  }

  /** Where no `%` ends the format, `vsnprintf` as written and corrected agree on the bytes and the count. */
  lemma VsnprintfAgrees(buffer: bool, size: nat, fmt: string, args: seq<Arg>)
    requires NUL in fmt && size < 0x1_0000_0000_0000_0000
    requires forall k | 0 <= k < |fmt| - 1 :: fmt[k] == '%' ==> fmt[k + 1] != NUL
    ensures VsnprintfAsWritten(buffer, size, fmt, args) == Vsnprintf(buffer, size, fmt, args)
  {
    if buffer && size > 0 {
      FillAgrees(fmt, args, Room(size));
    }
  }

  /**
    A two-character text and `%`, followed in memory by two more characters
    (such as "50%" then "XY"): as written, `vsnprintf` skips the terminator
    and stores all four characters and the `%`, returning 5; corrected, it
    stores "50%" and returns 3.
  */
  lemma VsnprintfOverruns(a: char, b: char, x: char, y: char)
    requires a !in {NUL, '%'} && b !in {NUL, '%'} && x !in {NUL, '%'} && y !in {NUL, '%'}
    ensures VsnprintfAsWritten(true, 32, [a, b, '%', NUL, x, y, NUL], []) == Some(Filled([a, b, '%', x, y, NUL], 5))
    ensures Vsnprintf(true, 32, [a, b, '%', NUL, x, y, NUL], []) == Some(Filled([a, b, '%', NUL], 3))
  {
    var t4: string := [x, y, NUL];
    OverrunShapes(a, b, x, y);
    StoresAsWritten(a, b, x, y, t4);
    AsWrittenSmallSize(32, [a, b, '%', NUL, x, y, NUL], [], [a] + ([b] + ['%', x, y]));
    StoresCorrected(a, b, t4);
    SmallSize(32, [a, b, '%', NUL, x, y, NUL], [], [a] + ([b] + "%"));
  }

  lemma OverrunShapes(a: char, b: char, x: char, y: char)
    ensures [a, b, '%', NUL, x, y, NUL] == [a] + ([b] + (['%', NUL] + [x, y, NUL]))
    ensures ([a] + ([b] + ['%', x, y])) + [NUL] == [a, b, '%', x, y, NUL] && |[a] + ([b] + ['%', x, y])| == 5
    ensures ([a] + ([b] + "%")) + [NUL] == [a, b, '%', NUL] && |[a] + ([b] + "%")| == 3
  {
  }

  /** For a buffer of at most 2^31 bytes the room of `vsnprintf` as written is `size - 1`. */
  lemma AsWrittenSmallSize(size: nat, mem: string, args: seq<Arg>, text: string)
    requires 1 <= size <= 0x8000_0000
    requires FillAsWritten(mem, args, size - 1) == Some(text)
    ensures VsnprintfAsWritten(true, size, mem, args) == Some(Filled(text + [NUL], |text|))
  {
  }

  lemma StoresAsWritten(a: char, b: char, x: char, y: char, t4: string)
    requires a !in {NUL, '%'} && b !in {NUL, '%'} && x !in {NUL, '%'} && y !in {NUL, '%'}
    requires t4 == [x, y, NUL]
    ensures FillAsWritten([a] + ([b] + (['%', NUL] + t4)), [], 31) == Some([a] + ([b] + ['%', x, y]))
  {
    OverrunTail(x, y, t4, 29);
    FillAsWrittenPlain(b, ['%', NUL] + t4, 30, ['%', x, y]);
    FillAsWrittenPlain(a, [b] + (['%', NUL] + t4), 31, [b] + ['%', x, y]);
  }

  lemma StoresCorrected(a: char, b: char, t4: string)
    requires a !in {NUL, '%'} && b !in {NUL, '%'}
    ensures NUL in [a] + ([b] + (['%', NUL] + t4))
    ensures Fill([a] + ([b] + (['%', NUL] + t4)), [], 31) == Some([a] + ([b] + "%"))
  {
    StopTail(t4, 29);
    FillPlain(b, ['%', NUL] + t4, 30, "%");
    FillPlain(a, [b] + (['%', NUL] + t4), 31, [b] + "%");
  }

  lemma FillAsWrittenPlain(c: char, rest: string, room: int, r: string)
    requires c != NUL && c != '%' && NUL in rest && room > 1
    requires FillAsWritten(rest, [], room - 1) == Some(r)
    ensures FillAsWritten([c] + rest, [], room) == Some([c] + r)
  {
    var f := [c] + rest;
    assert f[1..] == rest;
    assert Directive(f, []) == Some(Step([c], 1, 0));
  }

  lemma FillPlain(c: char, rest: string, room: int, r: string)
    requires c != NUL && c != '%' && NUL in rest && room > 1
    requires Fill(rest, [], room - 1) == Some(r)
    ensures NUL in [c] + rest
    ensures Fill([c] + rest, [], room) == Some([c] + r)
  {
    var f := [c] + rest;
    assert f[1..] == rest;
    assert Directive(f, []) == Some(Step([c], 1, 0));
  }

  /** As written, `%` and the terminator, then two characters in the memory behind, store `%` and both characters. */
  lemma OverrunTail(x: char, y: char, t4: string, room: int)
    requires x !in {NUL, '%'} && y !in {NUL, '%'} && t4 == [x, y, NUL] && room > 3
    ensures FillAsWritten(['%', NUL] + t4, [], room) == Some(['%', x, y])
  {
    var t5: string := [y, NUL];
    assert t4 == [x] + t5 && t5 == [y] + [NUL];
    assert FillAsWritten([NUL], [], room - 3) == Some("");
    FillAsWrittenPlain(y, [NUL], room - 2, "");
    assert [y] + "" == [y];
    assert FillAsWritten(t5, [], room - 2) == Some([y]);
    FillAsWrittenPlain(x, t5, room - 1, [y]);
    assert [x] + [y] == [x, y];
    assert FillAsWritten(t4, [], room - 1) == Some([x, y]);
    var f := ['%', NUL] + t4;
    assert f[0] == '%' && f[1] == NUL && f[2..] == t4;
    assert "%" + [x, y] == ['%', x, y];
  }

  /** Corrected, a `%` before the terminator stores "%" and nothing after it. */
  lemma StopTail(t4: string, room: int)
    requires room > 1
    ensures NUL in ['%', NUL] + t4
    ensures Fill(['%', NUL] + t4, [], room) == Some("%")
  {
    var f := ['%', NUL] + t4;
    assert f[1] == NUL && f[1..] == [NUL] + t4;
    assert Directive(f, []) == Some(Step("%", 1, 0));
    assert Fill(f[1..], [], room - 1) == Some("");
    assert "%" + "" == "%";
  }

  /** Whatever follows the terminator, corrected `vsnprintf` stores the same: it reads nothing past it. */
  lemma {:induction false} FillStopsAtNul(fmt: string, tail: string, args: seq<Arg>, room: int)
    requires NUL in fmt
    ensures NUL in fmt + tail
    ensures Fill(fmt + tail, args, room) == Fill(fmt, args, room)
    decreases |fmt|
  {
    var m := fmt + tail;
    assert m[0] == fmt[0];
    if fmt[0] != NUL && room > 0 {
      DirectiveStopsAtNul(fmt, tail, args);
      var st := Directive(fmt, args);
      if st.Some? && |st.value.piece| < room {
        var w := st.value.width;
        assert m[w..] == fmt[w..] + tail;
        FillStopsAtNul(fmt[w..], tail, args[st.value.used..], room - |st.value.piece|);
      }
    }
  }

  /** A turn of `printf` that is not the last: its piece, then what the rest of the format prints. */
  lemma PrintfUnfold(fmt: string, args: seq<Arg>)
    requires NUL in fmt && fmt[0] != NUL && Printf(fmt, args).Some?
    ensures Directive(fmt, args).Some?
    ensures var st := Directive(fmt, args).value;
      Printf(fmt[st.width..], args[st.used..]).Some?
      && Printf(fmt, args).value == st.piece + Printf(fmt[st.width..], args[st.used..]).value
  {
  }

  /** A turn of `vsnprintf` with room left: the piece, cut to the room, then the rest if the piece fitted. */
  lemma FillUnfold(fmt: string, args: seq<Arg>, room: nat, st: Step)
    requires NUL in fmt && fmt[0] != NUL && room > 0 && Directive(fmt, args) == Some(st)
    ensures |st.piece| >= room ==> Fill(fmt, args, room) == Some(st.piece[..room])
    ensures |st.piece| < room && Fill(fmt[st.width..], args[st.used..], room - |st.piece|).Some? ==>
      Fill(fmt, args, room) == Some(st.piece + Fill(fmt[st.width..], args[st.used..], room - |st.piece|).value)
  {
    if |st.piece| >= room {
      FillCut(fmt, args, room, st);
    } else if Fill(fmt[st.width..], args[st.used..], room - |st.piece|).Some? {
      FillGoesOn(fmt, args, room, st);
    }
  }

  lemma FillCut(fmt: string, args: seq<Arg>, room: nat, st: Step)
    requires NUL in fmt && fmt[0] != NUL && 0 < room <= |st.piece| && Directive(fmt, args) == Some(st)
    ensures Fill(fmt, args, room) == Some(st.piece[..room])
  {
  }

  lemma FillGoesOn(fmt: string, args: seq<Arg>, room: nat, st: Step)
    requires NUL in fmt && fmt[0] != NUL && room > |st.piece| && Directive(fmt, args) == Some(st)
    requires Fill(fmt[st.width..], args[st.used..], room - |st.piece|).Some?
    ensures Fill(fmt, args, room) == Some(st.piece + Fill(fmt[st.width..], args[st.used..], room - |st.piece|).value)
  {
  }

  /** With `room` bytes left, `vsnprintf` writes exactly the first `room` bytes of what `printf` prints. */
  lemma {:induction false} FillIsPrefix(fmt: string, args: seq<Arg>, room: nat)
    requires NUL in fmt && Printf(fmt, args).Some?
    ensures Fill(fmt, args, room) == Some(Printf(fmt, args).value[..Min(room, |Printf(fmt, args).value|)])
    decreases |fmt|
  {
    var p := Printf(fmt, args).value;
    if fmt[0] == NUL {
      assert p == "" && Fill(fmt, args, room) == Some("");
    } else if room == 0 {
      assert Fill(fmt, args, room) == Some("");
      assert p[..0] == "";
    } else {
      PrintfUnfold(fmt, args);
      var st := Directive(fmt, args).value;
      var rest := Printf(fmt[st.width..], args[st.used..]).value;
      assert p == st.piece + rest;
      FillUnfold(fmt, args, room, st);
      PrefixOfConcat(st.piece, rest, room);
      if |st.piece| < room {
        FillIsPrefix(fmt[st.width..], args[st.used..], room - |st.piece|);
      }
    }
  }

  lemma PrefixOfConcat(a: string, b: string, room: nat)
    ensures |a| < room ==> (a + b)[..Min(room, |a + b|)] == a + b[..Min(room - |a|, |b|)]
    ensures |a| >= room ==> (a + b)[..Min(room, |a + b|)] == a[..room]
  {
    if |a| < room {
      var m := Min(room - |a|, |b|);
      assert (a + b)[..|a| + m] == a + b[..m];
    } else {
      assert (a + b)[..room] == a[..room];
    }
  }

  /** A plain character prints itself ahead of the rest of the format. */
  lemma PrintfPlain(c: char, rest: string, args: seq<Arg>)
    requires c != NUL && c != '%' && NUL in rest
    ensures NUL in [c] + rest
    ensures Printf([c] + rest, args) == if Printf(rest, args).Some? then Some([c] + Printf(rest, args).value) else None
  {
    var f := [c] + rest;
    assert f[1..] == rest;
    assert Directive(f, args) == Some(Step([c], 1, 0));
  }

  /** Format text with neither a terminator nor a `%`: printed as it stands. */
  predicate Literal(lit: string)
  {
    forall k | 0 <= k < |lit| :: lit[k] != NUL && lit[k] != '%'
  }

  /** Literal text ahead of the rest of the format is printed as it stands. */
  lemma {:induction false} PrintfLiteral(lit: string, rest: string, args: seq<Arg>)
    requires Literal(lit) && NUL in rest
    ensures NUL in lit + rest
    ensures Printf(rest, args).Some? ==> Printf(lit + rest, args) == Some(lit + Printf(rest, args).value)
    ensures Printf(rest, args).None? ==> Printf(lit + rest, args).None?
    decreases |lit|
  {
    if |lit| == 0 {
      assert lit + rest == rest;
      assert Printf(rest, args).Some? ==> lit + Printf(rest, args).value == Printf(rest, args).value;
    } else {
      PrintfLiteral(lit[1..], rest, args);
      LiteralStep(lit, rest, args);
    }
  }

  lemma LiteralStep(lit: string, rest: string, args: seq<Arg>)
    requires Literal(lit) && NUL in rest && |lit| > 0
    requires NUL in lit[1..] + rest
    requires Printf(rest, args).Some? ==> Printf(lit[1..] + rest, args) == Some(lit[1..] + Printf(rest, args).value)
    requires Printf(rest, args).None? ==> Printf(lit[1..] + rest, args).None?
    ensures NUL in lit + rest
    ensures Printf(rest, args).Some? ==> Printf(lit + rest, args) == Some(lit + Printf(rest, args).value)
    ensures Printf(rest, args).None? ==> Printf(lit + rest, args).None?
  {
    var f := lit + rest;
    Regroup(lit, rest);
    assert f[0] == lit[0];
    PlainHead(f, args);
    if Printf(rest, args).Some? {
      Regroup(lit, Printf(rest, args).value);
    }
  }

  /** A plain character at the head of the format prints itself ahead of the rest. */
  lemma PlainHead(f: string, args: seq<Arg>)
    requires NUL in f && f[0] != NUL && f[0] != '%' && NUL in f[1..]
    ensures Printf(f[1..], args).Some? ==> Printf(f, args) == Some([f[0]] + Printf(f[1..], args).value)
    ensures Printf(f[1..], args).None? ==> Printf(f, args).None?
  {
    assert Directive(f, args) == Some(Step([f[0]], 1, 0));
  }

  lemma Regroup(a: string, b: string)
    requires |a| > 0
    ensures (a + b)[1..] == a[1..] + b && [a[0]] + (a[1..] + b) == a + b
  {
  }

  /** `%%` prints one `%`; `%` and a character that is no conversion print both, and no argument is read. */
  lemma PrintfPercent(c: char, rest: string, args: seq<Arg>)
    requires c != NUL && !ReadsArg(c) && NUL in rest
    ensures NUL in ['%', c] + rest
    ensures var shown := if c == '%' then "%" else ['%', c];
      Printf(['%', c] + rest, args) == if Printf(rest, args).Some? then Some(shown + Printf(rest, args).value) else None
  {
    var f := ['%', c] + rest;
    assert f[2..] == rest && f[1] == c;
  }

  /** A `%` that ends the format prints `%` and nothing after it. */
  lemma PrintfTrailing(tail: string, args: seq<Arg>)
    ensures Printf(['%', NUL] + tail, args) == Some("%")
  {
    var f := ['%', NUL] + tail;
    assert f[1..][0] == NUL;
    assert Directive(f, args) == Some(Step("%", 1, 0));
    assert "%" + "" == "%";
  }

  /** As written, such a `%` prints `%` and the terminator, then carries on with the memory behind it. */
  lemma PrintfAsWrittenTrailing(tail: string, args: seq<Arg>)
    ensures PrintfAsWritten(['%', NUL] + tail, args) ==
      if PrintfAsWritten(tail, args).Some? then Some(['%', NUL] + PrintfAsWritten(tail, args).value) else None
  {
    assert (['%', NUL] + tail)[2..] == tail;
  }

  /**
    For a buffer of at most 2^31 bytes, `vsnprintf` stores the first
    `size - 1` bytes of what `printf` would print, then a terminator, and
    returns how many it stored.
  */
  lemma VsnprintfTruncatesPrintf(size: nat, fmt: string, args: seq<Arg>, p: string)
    requires 1 <= size <= 0x8000_0000
    requires NUL in fmt && Printf(fmt, args) == Some(p)
    ensures var n := Min(size - 1, |p|);
      Vsnprintf(true, size, fmt, args) == Some(Filled(p[..n] + [NUL], n))
  {
    FillIsPrefix(fmt, args, size - 1);
    SmallSize(size, fmt, args, p[..Min(size - 1, |p|)]);
  }

  /** For a buffer of at most 2^31 bytes the room is `size - 1`. */
  lemma SmallSize(size: nat, fmt: string, args: seq<Arg>, text: string)
    requires 1 <= size <= 0x8000_0000
    requires NUL in fmt && Fill(fmt, args, size - 1) == Some(text)
    ensures Vsnprintf(true, size, fmt, args) == Some(Filled(text + [NUL], |text|))
  {
  }

  /** `snprintf(buf, size, "<text>%d", n)` stores the text and the number whenever they fit. */
  lemma SnprintfNumber(lit: string, n: int)
    requires Literal(lit) && Int32.IsI32(n) && |lit| + 11 < 32
    ensures Snprintf(true, 32, lit + "%d" + [NUL], [Word(n)])
      == Some(Filled(lit + Numerals.Decimal(n) + [NUL], |lit + Numerals.Decimal(n)|))
  {
    var f := "%d" + [NUL];
    var t := lit + Numerals.Decimal(n);
    DecimalFormat(n);
    PrintfLiteral(lit, f, [Word(n)]);
    SignedRoundTrip(n);
    Associate(lit, "%d", [NUL]);
    VsnprintfTruncatesPrintf(32, lit + f, [Word(n)], t);
    WholeFits(t, 31);
  }

  lemma Associate(a: string, b: string, c: string)
    ensures a + b + c == a + (b + c)
  {
  }

  lemma WholeFits(t: string, room: nat)
    requires |t| <= room
    ensures Min(room, |t|) == |t| && t[..Min(room, |t|)] == t
  {
  }

  /** `%d` alone prints the number in decimal. */
  lemma DecimalFormat(n: int)
    requires Int32.IsI32(n)
    ensures Printf("%d" + [NUL], [Word(n)]) == Some(Numerals.Decimal(n))
  {
    var f := "%d" + [NUL];
    assert Int32.Signed(Pattern(n)) == n;
    assert f[2..] == [NUL];
    assert Directive(f, [Word(n)]) == Some(Step(Numerals.Decimal(n), 2, 1));
    assert Printf(f, [Word(n)]) == Some(Numerals.Decimal(n) + "");
    assert Numerals.Decimal(n) + "" == Numerals.Decimal(n);
  }

  /** A size of 2^32 + 1 is cut to no room at all: only the terminator is stored. */
  lemma HugeSizeStoresNothing(fmt: string, args: seq<Arg>)
    requires NUL in fmt
    ensures Vsnprintf(true, 0x1_0000_0001, fmt, args) == Some(Filled([NUL], 0))
  {
    assert Room(0x1_0000_0001) == 0;
    assert Fill(fmt, args, 0) == Some("");
    assert "" + [NUL] == [NUL];
  }

  /** `puts`: the C string, then a newline; it returns 0. */
  function Puts(s: string): (r: (string, int))
    ensures r.1 == 0
  {
    (UpToNul(s) + "\n", 0)
  }

  /** `puts(s)` writes what `printf("%s\n", s)` writes. */
  lemma PutsIsPrintf(s: string)
    ensures Printf("%s\n" + [NUL], [Str(Some(s))]) == Some(Puts(s).0)
  {
    var f := "%s\n" + [NUL];
    assert f[2..] == "\n" + [NUL];
    assert Directive(f, [Str(Some(s))]) == Some(Step(UpToNul(s), 2, 1));
    PrintfPlain('\n', [NUL], []);
    assert Printf([NUL], []) == Some("");
    assert ['\n'] + [NUL] == f[2..];
    assert ['\n'] + "" == "\n";
    assert Printf(f[2..], []) == Some("\n");
  }

  /** `putchar`: the byte `c` is cut to, written; `c` itself is returned. */
  function Putchar(c: int): (r: (string, int))
    ensures r.1 == c && |r.0| == 1 && r.0[0] as int == c % 256
  {
    ([(c % 256) as char], c)
  }

  /**
    `sprintf` is a stub: it stores nothing and returns 0, whatever the format,
    so it disagrees with `snprintf` on every format that prints something.
  */
  function Sprintf(buf: string, fmt: string, args: seq<Arg>): (r: (string, int))
  {
    (buf, 0)
  }

  lemma SprintfIsStub(buf: string)
    ensures Sprintf(buf, "x" + [NUL], []) == (buf, 0)
    ensures Snprintf(true, 2, "x" + [NUL], []) == Some(Filled("x" + [NUL], 1))
  {
    var f := "x" + [NUL];
    assert Directive(f, []) == Some(Step("x", 1, 0));
    assert (2 - 1) % Int32.MODULUS == 1;
    FillUnfold(f, [], 1, Step("x", 1, 0));
    assert "x"[..1] == "x";
  }
}

=== FILE: stdlib.dfy ===
/**
  The C library's `stdlib` (libc/src/stdlib.c): `atoi`, `abs`, and the bump
  allocator `malloc`/`calloc`/`free` on top of `sbrk`.  Pointers are
  integers, 0 is NULL, and `size_t` values are below 2^64.
*/
module Stdlib {
  import Numerals
  import Int32
  import Uapi
  import opened Ascii
  import opened Unistd
  import opened Sv39Bits

  /** The only white space `atoi` skips: space, tab and line feed. */
  predicate IsBlank(c: char)
  {
    c == ' ' || c == '\t' || c == '\n'
  }

  function SkipBlanks(s: string): string
  {
    if |s| > 0 && IsBlank(s[0]) then SkipBlanks(s[1..]) else s
  }

  /** The longest prefix of decimal digits; it ends at the first other character, the terminating NUL included. */
  function DigitRun(s: string): (d: string)
    ensures Numerals.AllDigits(d, 10)
  {
    if |s| > 0 && IsDigit(s[0]) then [s[0]] + DigitRun(s[1..]) else []
  }

  /**
    `atoi`: blanks, an optional sign, then the digits up to the first other
    character.  The result is the mathematical value; where the C loop
    overflows an `int` its behaviour is undefined.
  */
  function Atoi(s: string): int
  {
    var t := SkipBlanks(s);
    if |t| > 0 && t[0] == '-' then -(Numerals.Value(DigitRun(t[1..]), 10) as int)
    else if |t| > 0 && t[0] == '+' then Numerals.Value(DigitRun(t[1..]), 10)
    else Numerals.Value(DigitRun(t), 10)
  }

  /** `atoi` as the C code runs it: one pointer walk and an accumulator. */
  method AtoiLoop(s: string) returns (r: int)
    ensures r == Atoi(s)
  {
    var i := SkipLoop(s);
    var sign: int := 1;
    if i < |s| && s[i] == '-' {
      sign := -1;
      i := i + 1;
    } else if i < |s| && s[i] == '+' {
      i := i + 1;
    }
    var v := DigitsLoop(s, i);
    return sign * v;
  }

  /** The blank-skipping loop: the index of the first character that is no blank. */
  method SkipLoop(s: string) returns (i: nat)
    ensures i <= |s| && s[i..] == SkipBlanks(s)
  {
    i := 0;
    while i < |s| && IsBlank(s[i])
      invariant 0 <= i <= |s|
      invariant SkipBlanks(s) == SkipBlanks(s[i..])
    {
      assert s[i..][1..] == s[i + 1..];
      i := i + 1;
    }
  }

  /** The accumulating loop: `result * 10 + digit` over the digits from `start`. */
  method DigitsLoop(s: string, start: nat) returns (v: nat)
    requires start <= |s|
    ensures v == Numerals.Value(DigitRun(s[start..]), 10)
  {
    ghost var u := s[start..];
    var k := 0;
    v := 0;
    while start + k < |s| && IsDigit(s[start + k])
      invariant k <= |u|
      invariant DigitRun(u) == u[..k] + DigitRun(u[k..])
      invariant Numerals.AllDigits(u[..k], 10) && v == Numerals.Value(u[..k], 10)
    {
      assert u[k] == s[start + k];
      DigitsStep(u, k, v);
      v := v * 10 + DigitValue(s[start + k]);
      k := k + 1;
    }
    assert k == |u| || u[k] == s[start + k];
    DigitRunStops(u, k);
  }

  /** One more digit keeps the loop's invariant: the run read so far and its value. */
  lemma DigitsStep(u: string, k: nat, v: nat)
    requires k < |u| && IsDigit(u[k])
    requires DigitRun(u) == u[..k] + DigitRun(u[k..])
    requires Numerals.AllDigits(u[..k], 10) && v == Numerals.Value(u[..k], 10)
    ensures DigitRun(u) == u[..k + 1] + DigitRun(u[k + 1..])
    ensures Numerals.AllDigits(u[..k + 1], 10) && v * 10 + DigitValue(u[k]) == Numerals.Value(u[..k + 1], 10)
  {
    DigitRunStep(u, k);
    Numerals.ValueAppend(u[..k], u[k], 10);
    assert u[..k + 1] == u[..k] + [u[k]];
  }

  lemma DigitRunStep(u: string, k: nat)
    requires k < |u| && IsDigit(u[k])
    requires DigitRun(u) == u[..k] + DigitRun(u[k..])
    ensures DigitRun(u) == u[..k + 1] + DigitRun(u[k + 1..])
  {
    var v := u[k..];
    assert v[0] == u[k] && v[1..] == u[k + 1..];
    assert DigitRun(v) == [u[k]] + DigitRun(u[k + 1..]);
    assert u[..k + 1] == u[..k] + [u[k]];
    Regroup(u[..k], [u[k]], DigitRun(u[k + 1..]));
  }

  lemma Regroup(a: string, b: string, c: string)
    ensures a + (b + c) == (a + b) + c
  {
  }

  lemma DigitRunStops(u: string, k: nat)
    requires k <= |u| && (k == |u| || !IsDigit(u[k]))
    requires DigitRun(u) == u[..k] + DigitRun(u[k..])
    ensures DigitRun(u) == u[..k]
  {
    assert DigitRun(u[k..]) == [];
    assert u[..k] + [] == u[..k];
  }

  /** A digit string followed by anything that is not a digit reads as itself. */
  lemma {:induction false} DigitRunOf(d: string, rest: string)
    requires Numerals.AllDigits(d, 10)
    requires |rest| == 0 || !IsDigit(rest[0])
    ensures DigitRun(d + rest) == d
  {
    if |d| > 0 {
      assert (d + rest)[1..] == d[1..] + rest;
      DigitRunOf(d[1..], rest);
      assert d == [d[0]] + d[1..];
    } else {
      assert d + rest == rest;
    }
  }

  /** `atoi` reads back every decimal `%d` prints, up to the first character that is no digit. */
  lemma AtoiDecimal(n: int, rest: string)
    requires |rest| == 0 || !IsDigit(rest[0])
    ensures Atoi(Numerals.Decimal(n) + rest) == n
  {
    if n < 0 {
      var m: nat := -n;
      AtoiNegative(m, rest);
      assert Numerals.Decimal(n) == "-" + Numerals.Digits(m, 10);
    } else {
      var m: nat := n;
      AtoiNonNegative(m, rest);
      assert Numerals.Decimal(n) == Numerals.Digits(m, 10);
    }
  }

  lemma AtoiNonNegative(m: nat, rest: string)
    requires |rest| == 0 || !IsDigit(rest[0])
    ensures Atoi(Numerals.Digits(m, 10) + rest) == m
  {
    var d := Numerals.Digits(m, 10);
    DigitRunOf(d, rest);
    assert Numerals.DigitVal(d[0]) < 10;
    assert (d + rest)[0] == d[0];
    assert SkipBlanks(d + rest) == d + rest;
  }

  lemma AtoiNegative(m: nat, rest: string)
    requires |rest| == 0 || !IsDigit(rest[0])
    ensures Atoi("-" + Numerals.Digits(m, 10) + rest) == -(m as int)
  {
    var d := Numerals.Digits(m, 10);
    assert "-" + d + rest == "-" + (d + rest);
    AtoiMinus(d + rest);
    DigitRunOf(d, rest);
  }

  lemma AtoiMinus(u: string)
    ensures Atoi("-" + u) == -(Numerals.Value(DigitRun(u), 10) as int)
  {
    var t := "-" + u;
    assert t[0] == '-' && t[1..] == u;
  }

  /** `abs`; `abs(INT_MIN)` overflows, which C leaves undefined. */
  function Abs(j: int): (r: int)
    requires Int32.IsI32(j) && j != Int32.MIN
    ensures Int32.IsI32(r) && r >= 0
    ensures r == j || r == -j
  {
    if j < 0 then -j else j
  }

  const SIZE_MAX: nat := 0xFFFF_FFFF_FFFF_FFFF
  const NULL: int := 0

  /** `(size + 7) & ~7` in `size_t` arithmetic, which wraps past `SIZE_MAX`. */
  function AlignedRequestAsWritten(size: usize): (n: nat)
    ensures n % 8 == 0 && n <= SIZE_MAX
  {
    (size + 7) % 0x1_0000_0000_0000_0000 / 8 * 8
  }

  /** `malloc` as written: a zero size gives NULL, anything else asks `sbrk` for the rounded-up size. */
  function MallocAsWritten(s: Break, size: usize, brk: int -> int): (r: (Break, int))
  {
    if size == 0 then (s, NULL)
    else
      var (s', p) := Sbrk(s, Uapi.AsSigned(AlignedRequestAsWritten(size)), brk);
      if p == FAILED then (s', NULL) else (s', p)
  }

  /**
    A request within 7 bytes of `SIZE_MAX` rounds up to 0, so `malloc` asks
    `sbrk` for nothing and returns the current break: a block of no bytes
    where the caller asked for almost 2^64.
  */
  lemma MallocWrapsAsWritten(s: Break, size: usize, brk: int -> int)
    requires size > SIZE_MAX - 7
    ensures AlignedRequestAsWritten(size) == 0
    ensures MallocAsWritten(s, size, brk).1 == Fetched(s, brk).current || MallocAsWritten(s, size, brk).1 == NULL
    ensures Fetched(s, brk).current > 0 ==> MallocAsWritten(s, size, brk).1 == Fetched(s, brk).current
  {
  }

  /** The rounded-up request: the next multiple of 8. */
  function AlignUp8(size: nat): (n: nat)
    ensures n % 8 == 0 && size <= n < size + 8
  {
    (size + 7) / 8 * 8
  }

  /** `malloc`, with the rounding kept from wrapping: a request that cannot be rounded up fails. */
  function Malloc(s: Break, size: usize, brk: int -> int): (r: (Break, int))
    ensures size == 0 || size > SIZE_MAX - 7 ==> r == (s, NULL)
  {
    if size == 0 || size > SIZE_MAX - 7 then (s, NULL)
    else
      var (s', p) := Sbrk(s, Uapi.AsSigned(AlignUp8(size)), brk);
      if p == FAILED then (s', NULL) else (s', p)
  }

  /** Where the rounding does not wrap, the two agree. */
  lemma MallocAgrees(s: Break, size: usize, brk: int -> int)
    requires size <= SIZE_MAX - 7
    ensures Malloc(s, size, brk) == MallocAsWritten(s, size, brk)
  {
  }

  /**
    A block `malloc` hands out (for a request small enough to be a positive
    `long`) is followed by a break at least `size` bytes further on: the whole
    request is reserved, rounded up to 8.
  */
  lemma MallocReserves(s: Break, size: usize, brk: int -> int)
    requires 0 < size < 0x8000_0000_0000_0000 - 7
    requires Malloc(s, size, brk).1 != NULL
    ensures var r := Malloc(s, size, brk);
      r.0.current == r.1 + AlignUp8(size) && r.0.current >= r.1 + size
  {
    var n := AlignUp8(size);
    assert Uapi.AsSigned(n) == n;
  }

  /** A failed `sbrk` is a NULL `malloc`, and NULL comes only from a zero size, a size too large, or a refusal. */
  lemma MallocNull(s: Break, size: usize, brk: int -> int)
    requires 0 < size < 0x8000_0000_0000_0000 - 7
    ensures Malloc(s, size, brk).1 == NULL <==>
      !Granted(s, AlignUp8(size), brk) || Fetched(s, brk).current == 0 || Fetched(s, brk).current == FAILED
  {
    var n := AlignUp8(size);
    assert Uapi.AsSigned(n) == n;
  }

  /** `free` keeps nothing: the break is where it was. */
  function Free(s: Break, p: int): (r: Break)
    ensures r.current == s.current
  {
    s
  }

  /** A `calloc` result: the block and how many bytes from its start were set to zero. */
  datatype Block = Block(state: Break, ptr: int, zeroed: nat)

  /** `calloc`: `nmemb * size` in wrapping `size_t` arithmetic, then `malloc` and `memset`. */
  function Calloc(s: Break, nmemb: usize, size: usize, brk: int -> int): (r: Block)
    ensures r.ptr == NULL ==> r.zeroed == 0
  {
    var total := nmemb * size % 0x1_0000_0000_0000_0000;
    var (s', p) := Malloc(s, total, brk);
    if p != NULL then Block(s', p, total) else Block(s', NULL, 0)
  }

  /** Without wrap-around, a `calloc` block holds `nmemb * size` zero bytes inside the space reserved for it. */
  lemma CallocZeroes(s: Break, nmemb: usize, size: usize, brk: int -> int)
    requires 0 < nmemb * size < 0x8000_0000_0000_0000 - 7
    requires Calloc(s, nmemb, size, brk).ptr != NULL
    ensures var r := Calloc(s, nmemb, size, brk);
      r.zeroed == nmemb * size && r.state.current >= r.ptr + r.zeroed
  {
    var total := nmemb * size;
    assert total % 0x1_0000_0000_0000_0000 == total;
    MallocReserves(s, total, brk);
  }
}

=== FILE: sv39_bits.dfy ===
/**
  Sv39 address arithmetic and page-table-entry encoding (kernel/src/lib.rs,
  kernel/src/sv39.rs).  Addresses are naturals below 2^64; a shift right by k is
  division by 2^k and a mask of k low bits is remainder by 2^k.  A PTE is the
  64-bit word `(ppn << 10) | flags`, held here as the natural `ppn * 1024 + flags`,
  which is the same number because every flag set used by the kernel fits in the
  low eight bits.
*/
module Sv39Bits {
  import Arith

  /** A value of Rust's `usize` on RV64. */
  type usize = x: nat | x < 0x1_0000_0000_0000_0000

  /** The low eight bits of a PTE. */
  type Flags = bv8

  const PTE_V: Flags := 0x01
  const PTE_R: Flags := 0x02
  const PTE_W: Flags := 0x04
  const PTE_X: Flags := 0x08
  const PTE_U: Flags := 0x10
  const PTE_G: Flags := 0x20
  const PTE_A: Flags := 0x40
  const PTE_D: Flags := 0x80

  const RWX: Flags := PTE_R | PTE_W | PTE_X | PTE_V | PTE_A | PTE_D
  const RW: Flags := PTE_R | PTE_W | PTE_V | PTE_A | PTE_D
  const RX: Flags := PTE_R | PTE_X | PTE_V | PTE_A

  const SIZE_4K: nat := 0x1000
  const SIZE_2M: nat := 0x20_0000
  const SIZE_1G: nat := 0x4000_0000
  /** Bytes addressed by the 27 VPN bits plus the 12 offset bits. */
  const SV39_SPAN: nat := 0x80_0000_0000
  /** Physical addresses whose PPN fits the 44-bit PPN field. */
  const PA_LIMIT: nat := 0x100_0000_0000_0000

  const DRAM_BASE: nat := 0x8000_0000
  const DRAM_SIZE: nat := 128 * 1024 * 1024
  const UART0: nat := 0x1000_0000
  const USER_VA_BASE: nat := 0x4000_0000
  const USER_PA_POOL_START: nat := 0x8800_0000 - 0x10_0000 - 0x1_0000
  const USER_PA_POOL_END: nat := 0x8800_0000 - 0x1_0000
  const USER_CODE_VA: nat := USER_VA_BASE
  const USER_STACK_VA: nat := USER_VA_BASE + 0x1000

  /** Physical page number: the number of whole 4 KiB pages below `pa`. */
  function Ppn(pa: nat): (r: nat)
    ensures r * SIZE_4K <= pa < (r + 1) * SIZE_4K
  {
    pa / SIZE_4K
  }

  /** The 9-bit virtual page number field of `va` for the given level (0 = leaf). */
  function Vpn(va: nat, level: nat): (r: nat)
    requires level < 3
    ensures r < 512
  {
    if level == 0 then (va / SIZE_4K) % 512
    else if level == 1 then (va / SIZE_2M) % 512
    else (va / SIZE_1G) % 512
  }

  /**
    `[VPN[0], VPN[1], VPN[2]]`: three 9-bit digits that, with the page offset,
    spell out the low 39 bits of `va`.
  */
  function VpnIndices(va: nat): (r: seq<nat>)
    ensures |r| == 3
    ensures r[0] < 512 && r[1] < 512 && r[2] < 512
    ensures r[2] * SIZE_1G + r[1] * SIZE_2M + r[0] * SIZE_4K + va % SIZE_4K == va % SV39_SPAN
  {
    VpnDigits(va);
    [Vpn(va, 0), Vpn(va, 1), Vpn(va, 2)]
  }

  lemma VpnDigits(va: nat)
    ensures Vpn(va, 2) * SIZE_1G + Vpn(va, 1) * SIZE_2M + Vpn(va, 0) * SIZE_4K + va % SIZE_4K
            == va % SV39_SPAN
  {
    var p := va / 0x1000;
    Arith.DivDiv(va, 0x1000, 512);
    Arith.DivDiv(va, 0x1000, 0x4_0000);
    Arith.DivDiv(va, 0x1000, 0x800_0000);
    Arith.DivDiv(p, 512, 0x4_0000);
    Arith.DivDiv(p / 512, 512, 512);
    Arith.DivDiv(p, 512, 512);
  }

  /** A page-aligned address inside the Sv39 span is rebuilt from its three indices. */
  lemma VpnRoundTrip(va: nat)
    requires va % SIZE_4K == 0 && va < SV39_SPAN
    ensures var i := VpnIndices(va); i[2] * SIZE_1G + i[1] * SIZE_2M + i[0] * SIZE_4K == va
  {
  }

  /** Distinct pages of the Sv39 span have distinct index triples. */
  lemma VpnIndicesInjective(va: nat, vb: nat)
    requires va % SIZE_4K == 0 && va < SV39_SPAN
    requires vb % SIZE_4K == 0 && vb < SV39_SPAN
    requires VpnIndices(va) == VpnIndices(vb)
    ensures va == vb
  {
    VpnRoundTrip(va);
    VpnRoundTrip(vb);
  }

  /** Addresses in the same 4 KiB page share all three indices. */
  lemma SamePageSameVpn(u: nat, v: nat)
    requires u / SIZE_4K == v / SIZE_4K
    ensures VpnIndices(u) == VpnIndices(v)
  {
    Arith.DivDiv(u, SIZE_4K, 512);
    Arith.DivDiv(v, SIZE_4K, 512);
    Arith.DivDiv(u, SIZE_4K, 0x4_0000);
    Arith.DivDiv(v, SIZE_4K, 0x4_0000);
  }

  /** Addresses in the same 2 MiB region share the level-2 and level-1 indices. */
  lemma SameRegionSameVpn(u: nat, v: nat)
    requires u / SIZE_2M == v / SIZE_2M
    ensures Vpn(u, 2) == Vpn(v, 2) && Vpn(u, 1) == Vpn(v, 1)
  {
    Arith.DivDiv(u, SIZE_2M, 512);
    Arith.DivDiv(v, SIZE_2M, 512);
  }

  /** Inside the Sv39 span the three indices spell out the page base of `u`. */
  lemma PageBase(u: nat)
    requires u < SV39_SPAN
    ensures var i := VpnIndices(u); i[2] * SIZE_1G + i[1] * SIZE_2M + i[0] * SIZE_4K == u - u % SIZE_4K
  {
    Arith.DivUnique(u, SV39_SPAN, 0, u);
  }

  /** Inside the Sv39 span, an address outside the page at `v` has other indices. */
  lemma OtherPageOtherVpn(u: nat, v: nat)
    requires v % SIZE_4K == 0 && u < SV39_SPAN && v < SV39_SPAN
    requires !(v <= u < v + SIZE_4K)
    ensures VpnIndices(u) != VpnIndices(v)
  {
    PageBase(u);
    PageBase(v);
  }

  /** Inside the Sv39 span, an address outside the 2 MiB region at `v` has other upper indices. */
  lemma OtherRegionOtherVpn(u: nat, v: nat)
    requires v % SIZE_2M == 0 && u < SV39_SPAN && v < SV39_SPAN
    requires !(v <= u < v + SIZE_2M)
    ensures Vpn(u, 2) != Vpn(v, 2) || Vpn(u, 1) != Vpn(v, 1)
  {
    PageBase(u);
    PageBase(v);
    Arith.DivDiv(v, SIZE_4K, 512);
    assert Vpn(v, 0) == 0 && v % SIZE_4K == 0;
    var i := VpnIndices(u);
    assert i[0] * SIZE_4K + u % SIZE_4K < SIZE_2M;
  }

  /** An address in the page at `va` lies in the same page and 2 MiB region. */
  lemma InPage(v: nat, va: nat)
    requires va % SIZE_4K == 0 && va <= v < va + SIZE_4K
    ensures v / SIZE_4K == va / SIZE_4K && v / SIZE_2M == va / SIZE_2M
    ensures v % SIZE_4K == v - va
  {
    Arith.DivUnique(v, SIZE_4K, va / SIZE_4K, v - va);
    Arith.DivDiv(v, SIZE_4K, 512);
    Arith.DivDiv(va, SIZE_4K, 512);
  }

  /** An address in the 2 MiB region at `va` lies in that region at offset `v - va`. */
  lemma InRegion(v: nat, va: nat)
    requires va % SIZE_2M == 0 && va <= v < va + SIZE_2M
    ensures v / SIZE_2M == va / SIZE_2M && v % SIZE_2M == v - va
  {
    Arith.DivUnique(v, SIZE_2M, va / SIZE_2M, v - va);
  }

  /** Two distinct page-aligned addresses are at least a page apart. */
  lemma PageGap(x: nat, y: nat)
    requires x % SIZE_4K == 0 && y % SIZE_4K == 0 && x < y
    ensures x + SIZE_4K <= y
  {
    assert x == (x / SIZE_4K) * SIZE_4K && y == (y / SIZE_4K) * SIZE_4K;
  }

  /**
    Walking up in 4 KiB steps from an address `lo` that is not 2 MiB aligned: a
    page-aligned `va` short of the next 2 MiB boundary starts a page that ends at or
    before that boundary, and its region starts below `lo`.
  */
  lemma HeadPage(lo: nat, va: nat)
    requires lo % SIZE_2M != 0 && lo <= va <= lo - lo % SIZE_2M + SIZE_2M
    requires va % SIZE_4K == 0 && va % SIZE_2M != 0
    ensures va + SIZE_4K <= lo - lo % SIZE_2M + SIZE_2M
    ensures va - va % SIZE_2M < lo
  {
    var s := lo - lo % SIZE_2M;
    Arith.DivUnique(s, SIZE_2M, lo / SIZE_2M, 0);
    Arith.DivUnique(s + SIZE_2M, SIZE_2M, lo / SIZE_2M + 1, 0);
    InRegion(va, s);
    Arith.AlignedCoarse(s + SIZE_2M, 512, SIZE_4K);
    PageGap(va, s + SIZE_2M);
  }

  /** A 2 MiB boundary at or below `v` is at or below the start of `v`'s region. */
  lemma BoundaryBelow(b: nat, v: nat)
    requires b % SIZE_2M == 0 && b <= v
    ensures b <= v - v % SIZE_2M
  {
    var p, q := b / SIZE_2M, v / SIZE_2M;
    assert b == p * SIZE_2M;
    assert v - v % SIZE_2M == q * SIZE_2M;
    assert v < (q + 1) * SIZE_2M;
  }

  lemma VpnOfLayout()
    ensures VpnIndices(DRAM_BASE) == [0, 0, 2]
    ensures VpnIndices(USER_VA_BASE) == [0, 0, 1]
    ensures VpnIndices(UART0) == [0, 128, 0]
  {
  }

  /** `ppn(k * 4096) == k`: the page number of the k-th page frame. */
  lemma PpnOfFrame(k: nat)
    ensures Ppn(k * SIZE_4K) == k
  {
    Arith.DivUnique(k * SIZE_4K, SIZE_4K, k, 0);
  }

  /** The user frame pool lies inside DRAM and holds 256 frames. */
  lemma UserPoolLayout()
    ensures USER_PA_POOL_START < USER_PA_POOL_END <= DRAM_BASE + DRAM_SIZE
    ensures USER_PA_POOL_END - USER_PA_POOL_START == 256 * SIZE_4K
    ensures USER_PA_POOL_START % SIZE_4K == 0
  {
  }

  // ----- Page-table entries -----

  /** `(ppn(pa) << 10) | flags`. */
  function MakePte(pa: nat, flags: Flags): nat
  {
    Ppn(pa) * 1024 + flags as nat
  }

  /** The low flag byte of an entry. */
  function PteFlags(pte: nat): Flags
  {
    (pte % 256) as Flags
  }

  /** `(((pte >> 10) & ((1 << 44) - 1)) << 12)`: the physical address an entry points at. */
  function PteTarget(pte: nat): (r: nat)
    ensures r % SIZE_4K == 0 && r < PA_LIMIT
  {
    ((pte / 1024) % 0x1000_0000_0000) * SIZE_4K
  }

  predicate IsValid(pte: nat) { PteFlags(pte) & PTE_V != 0 }

  /** A valid entry with any of R, W, X set is a leaf; otherwise it points to a table. */
  predicate IsLeaf(pte: nat) { PteFlags(pte) & (PTE_R | PTE_W | PTE_X) != 0 }

  /** Encoding an entry and decoding it gives back the page base and the flags. */
  lemma PteRoundTrip(pa: nat, flags: Flags)
    requires pa < PA_LIMIT
    ensures PteTarget(MakePte(pa, flags)) == pa - pa % SIZE_4K
    ensures PteFlags(MakePte(pa, flags)) == flags
  {
    var p := Ppn(pa);
    var f := flags as nat;
    Arith.DivUnique(p * 1024 + f, 1024, p, f);
    Arith.DivUnique(p * 1024 + f, 256, p * 4, f);
    assert p < 0x1000_0000_0000;
  }

  lemma PteFlagsOfMake(pa: nat, flags: Flags)
    ensures PteFlags(MakePte(pa, flags)) == flags
  {
    var p := Ppn(pa);
    Arith.DivUnique(p * 1024 + flags as nat, 256, p * 4, flags as nat);
  }

  // ----- ELF segment permissions -----

  /**
    Translation of ELF `p_flags` (PF_X = 1, PF_W = 2, PF_R = 4) into PTE bits:
    every user page is valid, user-accessible and pre-accessed, and a writable page
    is also pre-dirtied.
  */
  function PteFlagsFromPf(pf: bv32): (r: Flags)
    ensures r & PTE_V != 0 && r & PTE_U != 0 && r & PTE_A != 0
    ensures (r & PTE_R != 0) <==> (pf & 4 != 0)
    ensures (r & PTE_W != 0) <==> (pf & 2 != 0)
    ensures (r & PTE_D != 0) <==> (pf & 2 != 0)
    ensures (r & PTE_X != 0) <==> (pf & 1 != 0)
    ensures r & PTE_G == 0
  {
    var f := PTE_V | PTE_U | PTE_A;
    var f := if pf & 4 != 0 then f | PTE_R else f;
    var f := if pf & 2 != 0 then f | PTE_W | PTE_D else f;
    if pf & 1 != 0 then f | PTE_X else f
  }

  /** Reads the R/W/X permission of a PTE back as ELF `p_flags` bits. */
  function PfOfFlags(f: Flags): (pf: bv32)
    ensures pf & !7 == 0
  {
    (if f & PTE_R != 0 then 4 else 0)
    | (if f & PTE_W != 0 then 2 else 0)
    | (if f & PTE_X != 0 then 1 else 0)
  }

  /** The permission bits of `p_flags` survive the translation. */
  lemma PfRoundTrip(pf: bv32)
    ensures PfOfFlags(PteFlagsFromPf(pf)) == pf & 7
  {
    var r := PteFlagsFromPf(pf);
    assert (pf & 4 != 0) == (r & PTE_R != 0);
    assert (pf & 2 != 0) == (r & PTE_W != 0);
    assert (pf & 1 != 0) == (r & PTE_X != 0);
  }

  // ----- satp -----

  const SATP_MODE_SV39: nat := 8

  /**
    The satp word `(8 << 60) | ((asid & 0xffff) << 44) | (ppn(root) & ((1 << 44) - 1))`,
    described by its three fields.
  */
  function SatpBits(asid: usize, rootPa: usize): (r: usize)
    ensures r / 0x1000_0000_0000_0000 == SATP_MODE_SV39
    ensures (r / 0x1000_0000_0000) % 0x1_0000 == asid % 0x1_0000
    ensures r % 0x1000_0000_0000 == Ppn(rootPa) % 0x1000_0000_0000
  {
    var a := asid % 0x1_0000;
    var p := Ppn(rootPa) % 0x1000_0000_0000;
    var low := a * 0x1000_0000_0000 + p;
    Arith.DivUnique(low, 0x1000_0000_0000, a, p);
    Arith.DivUnique(8 * 0x1000_0000_0000_0000 + low, 0x1000_0000_0000_0000, 8, low);
    Arith.DivUnique(8 * 0x1000_0000_0000_0000 + low, 0x1000_0000_0000, 8 * 0x1_0000 + a, p);
    Arith.DivUnique(8 * 0x1_0000 + a, 0x1_0000, 8, a);
    8 * 0x1000_0000_0000_0000 + low
  }
}

=== FILE: trap.dfy ===
/**
  The supervisor trap handler `rust_trap` (kernel/src/trap.rs).  The handler
  gets the saved register frame of the interrupted user program and updates it
  by fixed rules that depend on the trap cause and, for `ecall`, on the call
  number in `a7`.

  The UART output is recorded as a list of events; `Sent` gives the bytes a
  written character leaves the UART as.  Although the handler's comment calls
  the `write` output raw, it goes through the UART's `write_str`, so a
  newline still goes out as a carriage return and a newline.  The timer tick's own work
  (`timer::on_timer`) is not part of this model.  The address of `after_user`
  is a parameter.  Any other trap prints a report and parks the hart in a
  `wfi` loop, which is the `Halted` outcome here.
*/
module Trap {
  import Uapi
  import Uart
  import Wrappers
  import opened Ascii
  import opened Sv39Bits

  /** A saved register; `sstatus` is kept as a bit vector since only bit operations touch it. */
  type Word = usize

  /** The saved registers, in the layout of `TrapFrame`. */
  datatype TrapFrame = TrapFrame(
    ra: Word, sp: Word, t0: Word, t1: Word, t2: Word,
    a0: Word, a1: Word, a2: Word, a3: Word, a4: Word, a5: Word, a6: Word, a7: Word,
    t3: Word, t4: Word, t5: Word, t6: Word,
    sepc: Word, sstatusBits: bv64)

  /** The causes the handler tells apart. */
  datatype Cause = SupervisorTimer | UserEnvCall | Other(code: nat)

  /** What the handler writes to the UART. */
  datatype Output = Char(b: nat) | UnknownSyscall(nr: Word) | TrapReport(cause: Cause)

  datatype Outcome =
    | Resumed(tf: TrapFrame, out: seq<Output>)
    | Halted(out: seq<Output>)

  const SSTATUS_SPP_BIT: bv64 := 1 << 8
  const SSTATUS_SPIE_BIT: bv64 := 1 << 5

  /** `wrapping_add` on `usize`. */
  function WrappingAdd(a: usize, b: usize): usize
  {
    (a + b) % 0x1_0000_0000_0000_0000
  }

  /** The general-purpose registers of a frame, everything but `sepc` and `sstatus`. */
  function Gprs(tf: TrapFrame): seq<Word>
  {
    [tf.ra, tf.sp, tf.t0, tf.t1, tf.t2, tf.a0, tf.a1, tf.a2, tf.a3, tf.a4, tf.a5, tf.a6, tf.a7,
     tf.t3, tf.t4, tf.t5, tf.t6]
  }

  /** `rust_trap` on a frame. */
  function RustTrap(cause: Cause, tf: TrapFrame, afterUser: Word): (r: Outcome)
    ensures r.Resumed? <==> !cause.Other?
    ensures r.Resumed? ==> Gprs(r.tf) == Gprs(tf)
    ensures cause == SupervisorTimer ==> r == Resumed(tf, [])
    ensures cause == UserEnvCall && tf.a7 != Uapi.EXIT ==>
              r.tf == tf.(sepc := r.tf.sepc) && r.tf.sepc == (tf.sepc + 4) % 0x1_0000_0000_0000_0000
    ensures cause == UserEnvCall && tf.a7 == Uapi.WRITE ==> r.out == [Char(tf.a0 % 256)]
    ensures cause == UserEnvCall && tf.a7 == Uapi.EXIT ==>
              r.tf.sepc == afterUser && r.tf.sstatusBits == tf.sstatusBits | 0x120
  {
    match cause
    case SupervisorTimer => Resumed(tf, [])
    case UserEnvCall =>
      var nr := tf.a7;
      if nr == 1 then
        // `(a0 & 0xFF) as u8` keeps the low byte
        Resumed(tf.(sepc := WrappingAdd(tf.sepc, 4)), [Char(tf.a0 % 256)])
      else if nr == 2 then
        Resumed(tf.(sepc := afterUser, sstatusBits := tf.sstatusBits | SSTATUS_SPP_BIT | SSTATUS_SPIE_BIT), [])
      else
        Resumed(tf.(sepc := WrappingAdd(tf.sepc, 4)), [UnknownSyscall(nr)])
    case Other(_) => Halted([TrapReport(cause)])
  }

  /** `exit` sets SPP (bit 8) and SPIE (bit 5) in the saved `sstatus` and keeps every other bit. */
  lemma ExitStatusBits(tf: TrapFrame, afterUser: Word)
    requires tf.a7 == Uapi.EXIT
    ensures var s := RustTrap(UserEnvCall, tf, afterUser).tf.sstatusBits;
            && s & SSTATUS_SPP_BIT != 0 && s & SSTATUS_SPIE_BIT != 0
            && s & !0x120 == tf.sstatusBits & !0x120
  {
    StatusOr(tf.sstatusBits);
  }

  lemma StatusOr(x: bv64)
    ensures SSTATUS_SPP_BIT == 0x100 && SSTATUS_SPIE_BIT == 0x20
    ensures (x | 0x120) & 0x100 != 0 && (x | 0x120) & 0x20 != 0
    ensures (x | 0x120) & !0x120 == x & !0x120
  {
  }

  /**
    Only `sepc` and `sstatus` ever change: a trap that resumes leaves every
    general-purpose register, `a0` included, as it found it, and an unknown
    call number differs from a `write` only in what it prints.
  */
  lemma UnknownOnlyAdvances(tf: TrapFrame, afterUser: Word)
    requires tf.a7 != Uapi.WRITE && tf.a7 != Uapi.EXIT
    ensures var r := RustTrap(UserEnvCall, tf, afterUser);
            && r.tf.a0 == tf.a0 && r.tf.sstatusBits == tf.sstatusBits
            && r.tf == RustTrap(UserEnvCall, tf.(a7 := 1), afterUser).tf.(a7 := tf.a7)
            && r.out == [UnknownSyscall(tf.a7)]
  {
  }

  /** The bytes `write!(uart, "{}", ch as char)` sends for a printed character. */
  function Sent(o: Output): seq<Byte>
    requires o.Char? && o.b < 256
  {
    Uart.CharBytes(o.b)
  }

  /**
    A `write` call prints one character, the low byte of `a0`: a newline as
    "\r\n", any other byte below 0x80 as itself, and a byte from 0x80 as
    two bytes that decode back to it.
  */
  lemma WriteSends(tf: TrapFrame, afterUser: Word)
    requires tf.a7 == Uapi.WRITE
    ensures var r := RustTrap(UserEnvCall, tf, afterUser);
            var b := tf.a0 % 256;
            && |r.out| == 1 && r.out[0] == Char(b)
            && (b == 10 ==> Sent(r.out[0]) == "\r\n")
            && (b != 10 && b < 0x80 ==> Sent(r.out[0]) == [b as char])
            && (b >= 0x80 ==> |Sent(r.out[0])| == 2 && Uart.DecodeChar(Sent(r.out[0])) == Wrappers.Some(b))
  {
  }

  /** Two `write` calls in a row move `sepc` 8 bytes on, wrapping at 2^64. */
  lemma WritesAdvance(tf: TrapFrame, afterUser: Word)
    requires tf.a7 == Uapi.WRITE
    ensures var r1 := RustTrap(UserEnvCall, tf, afterUser).tf;
            var r2 := RustTrap(UserEnvCall, r1, afterUser).tf;
            r2.sepc == (tf.sepc + 8) % 0x1_0000_0000_0000_0000 && Gprs(r2) == Gprs(tf)
  {
  }
}

=== FILE: uapi.dfy ===
/**
  The system-call ABI shared by the kernel and user programs (uapi/src/lib.rs):
  the call numbers and the error sentinel.  The C library keeps its own copy
  of the numbers (libc/src/syscall.c); both tables are here so that they can
  be compared.
*/
module Uapi {
  import opened Sv39Bits

  const WRITE: nat := 1
  const EXIT: nat := 2
  const WRITE_CSTR: nat := 3
  const OPEN: nat := 4
  const READ: nat := 5
  const WRITE_FD: nat := 6
  const CLOSE: nat := 7
  const LSEEK: nat := 8
  const BRK: nat := 9
  const GETTIME: nat := 10
  const POWEROFF: nat := 11
  const EXEC: nat := 12
  const EXECV: nat := 13

  /** The `nr` table in declaration order. */
  const NUMBERS: seq<nat> :=
    [WRITE, EXIT, WRITE_CSTR, OPEN, READ, WRITE_FD, CLOSE, LSEEK, BRK, GETTIME, POWEROFF, EXEC, EXECV]

  /** The `SYS_*` defines of the C library, in the same order; it has no `execv`. */
  const C_NUMBERS: seq<nat> := [1, 2, 3, 4, 5, 6, 7, 8, 9, 10, 11, 12]

  /** `usize::MAX`, the value a failing call returns. */
  const SENTINEL: usize := 0xFFFF_FFFF_FFFF_FFFF

  /** `is_err_sentinel`. */
  predicate IsErrSentinel(v: usize)
  {
    v == SENTINEL
  }

  /** The register value read as the C library's `long`: two's complement. */
  function AsSigned(v: usize): (r: int)
    ensures -0x8000_0000_0000_0000 <= r < 0x8000_0000_0000_0000
    ensures r % 0x1_0000_0000_0000_0000 == v
  {
    if v < 0x8000_0000_0000_0000 then v else v - 0x1_0000_0000_0000_0000
  }

  /** The sentinel is exactly the word the C side reads as -1. */
  lemma SentinelIsMinusOne(v: usize)
    ensures IsErrSentinel(v) <==> AsSigned(v) == -1
  {
  }

  /** The call numbers are the dense range 1..13, in order. */
  lemma NumbersDense()
    ensures |NUMBERS| == 13
    ensures forall i | 0 <= i < |NUMBERS| :: NUMBERS[i] == i + 1
  {
  }

  /** No two calls share a number. */
  lemma NumbersDistinct()
    ensures forall i, j | 0 <= i < j < |NUMBERS| :: NUMBERS[i] != NUMBERS[j]
  {
    NumbersDense();
  }

  /** The C table agrees with the kernel's for every call it has. */
  lemma CTableAgrees()
    ensures |C_NUMBERS| == |NUMBERS| - 1
    ensures forall i | 0 <= i < |C_NUMBERS| :: C_NUMBERS[i] == NUMBERS[i]
  {
  }
}

=== FILE: uart.dfy ===
/**
  The bytes the kernel's UART writer sends (kernel/src/uart.rs).  Its
  `write_str` sends the bytes of the text one by one, except that a newline
  goes out as a carriage return followed by the newline.  A `char` printed
  with `{}` is first encoded as UTF-8: one byte below 0x80, two bytes for
  the code points 0x80 to 0xFF that a byte cast to `char` can give.

  The device registers are not modelled; the result is the byte sequence
  written, as characters below 256.
*/
module Uart {
  import opened Ascii
  import opened Wrappers

  const CR: Byte := '\r'
  const LF: Byte := '\n'

  /** `write_str`: every byte as it is, a newline as a carriage return and a newline. */
  function WriteStr(s: seq<Byte>): (out: seq<Byte>)
    ensures |out| == |s| + Newlines(s)
    decreases |s|
  {
    if |s| == 0 then []
    else (if s[0] == LF then [CR, LF] else [s[0]]) + WriteStr(s[1..])
  }

  /** How many newlines a text holds. */
  function Newlines(s: seq<Byte>): nat
    decreases |s|
  {
    if |s| == 0 then 0 else (if s[0] == LF then 1 else 0) + Newlines(s[1..])
  }

  /** Writing two texts in turn sends what writing them together sends. */
  lemma {:induction false} WriteStrAppend(a: seq<Byte>, b: seq<Byte>)
    ensures WriteStr(a + b) == WriteStr(a) + WriteStr(b)
    decreases |a|
  {
    if |a| == 0 {
      assert a + b == b;
    } else {
      assert (a + b)[0] == a[0] && (a + b)[1..] == a[1..] + b;
      WriteStrAppend(a[1..], b);
    }
  }

  /** A text without a newline goes out unchanged. */
  lemma {:induction false} WriteStrPlain(s: seq<Byte>)
    requires LF !in s
    ensures WriteStr(s) == s
    decreases |s|
  {
    if |s| > 0 {
      assert s == [s[0]] + s[1..];
      WriteStrPlain(s[1..]);
    }
  }

  /** What a terminal keeps of the bytes: a carriage return right before a newline is dropped. */
  function DropCr(s: seq<Byte>): (t: seq<Byte>)
    decreases |s|
  {
    if |s| == 0 then []
    else if |s| >= 2 && s[0] == CR && s[1] == LF then [LF] + DropCr(s[2..])
    else [s[0]] + DropCr(s[1..])
  }

  /** For a text without carriage returns, dropping them from what was sent gives the text back. */
  lemma {:induction false} WriteStrRoundTrip(s: seq<Byte>)
    requires CR !in s
    ensures DropCr(WriteStr(s)) == s
    decreases |s|
  {
    if |s| > 0 {
      var head: seq<Byte> := if s[0] == LF then [CR, LF] else [s[0]];
      var rest := WriteStr(s[1..]);
      assert CR !in s[1..] by {
        forall i | 0 <= i < |s| - 1
          ensures s[1..][i] != CR
        {
          assert s[1..][i] == s[i + 1];
        }
      }
      WriteStrRoundTrip(s[1..]);
      var w := head + rest;
      assert WriteStr(s) == w;
      if s[0] == LF {
        assert w[0] == CR && w[1] == LF && w[2..] == rest;
        assert DropCr(w) == [LF] + DropCr(rest);
      } else {
        assert w[0] == s[0] && w[1..] == rest;
        assert DropCr(w) == [s[0]] + DropCr(rest);
      }
      assert s == [s[0]] + s[1..];
    }
  }

  /**
    `b as char` printed with `{}`: the UTF-8 encoding of the code point `b`.
    A lead byte `0xC0 | (b >> 6)` and a continuation byte `0x80 | (b & 0x3F)`
    for `b` from 0x80; the sums below are those `|`s, since the bits do not
    overlap.
  */
  function EncodeChar(b: nat): (out: seq<Byte>)
    requires b < 256
    ensures |out| == (if b < 0x80 then 1 else 2)
  {
    if b < 0x80 then [b as char]
    else [(0xC0 + b / 64) as char, (0x80 + b % 64) as char]
  }

  /** Reading one UTF-8 encoded code point below 256 back from its bytes. */
  function DecodeChar(s: seq<Byte>): (r: Option<nat>)
    ensures r.Some? ==> r.value < 256
  {
    if |s| == 1 && s[0] as int < 0x80 then Some(s[0] as int)
    else if |s| == 2 && 0xC2 <= s[0] as int <= 0xC3 && 0x80 <= s[1] as int < 0xC0 then
      Some((s[0] as int - 0xC0) * 64 + (s[1] as int - 0x80))
    else None
  }

  /** Every byte value's encoding decodes back to it. */
  lemma EncodeRoundTrip(b: nat)
    requires b < 256
    ensures DecodeChar(EncodeChar(b)) == Some(b)
  {
    if b >= 0x80 {
      var e := EncodeChar(b);
      assert e[0] as int == 0xC0 + b / 64 && e[1] as int == 0x80 + b % 64;
      assert 2 <= b / 64 <= 3;
    }
  }

  /** The bytes sent when `b as char` is written with `write!`: its encoding, with a newline translated. */
  function CharBytes(b: nat): (out: seq<Byte>)
    requires b < 256
    ensures b == 10 ==> out == [CR, LF]
    ensures b != 10 && b < 0x80 ==> out == [b as char]
    ensures b >= 0x80 ==> |out| == 2 && DecodeChar(out) == Some(b)
  {
    CharBytesCases(b);
    EncodeRoundTrip(b);
    WriteStr(EncodeChar(b))
  }

  lemma CharBytesCases(b: nat)
    requires b < 256
    ensures b == 10 ==> WriteStr(EncodeChar(b)) == [CR, LF]
    ensures b != 10 && b < 0x80 ==> WriteStr(EncodeChar(b)) == [b as char]
    ensures b >= 0x80 ==> WriteStr(EncodeChar(b)) == EncodeChar(b)
  {
    var e := EncodeChar(b);
    if b >= 0x80 {
      assert e[0] != LF && e[1] != LF;
      WriteStrPlain(e);
    } else if b != 10 {
      assert e[0] != LF;
      WriteStrPlain(e);
    } else {
      assert e == [LF];
      assert WriteStr(e) == [CR, LF] + WriteStr([]);
    }
  }
}

=== FILE: unistd.dfy ===
/**
  The POSIX wrappers of the C library (libc/src/unistd.c): how the word a
  system call returns becomes the C result, and the `sbrk` break cursor.

  The kernel's side of a call is not modelled here: a call's result is an
  input, and for `BRK` the kernel's answer to each requested address is a
  function parameter.  The C library reads every returned register as a
  `long`.
*/
module Unistd {
  import Uapi
  import Int32
  import opened Sv39Bits

  /** `read` and `lseek`: the sentinel becomes -1, anything else is passed on as a `long`. */
  function ReadResult(ret: usize): (r: int)
    ensures r == -1 <==> Uapi.IsErrSentinel(ret)
    ensures r != -1 ==> r % 0x1_0000_0000_0000_0000 == ret
  {
    Uapi.SentinelIsMinusOne(ret);
    var l := Uapi.AsSigned(ret);
    if l == -1 then -1 else l
  }

  /** `open`: like `read`, then narrowed to an `int`, which keeps the low 32 bits. */
  function OpenResult(ret: usize): (r: int)
    ensures Int32.IsI32(r)
    ensures Uapi.IsErrSentinel(ret) ==> r == -1
    ensures ret <= Int32.MAX ==> r == ret
  {
    var l := Uapi.AsSigned(ret);
    if l == -1 then -1 else Int32.Signed(l % Int32.MODULUS)
  }

  /** `close`: 0 exactly when the kernel returned 0, -1 otherwise. */
  function CloseResult(ret: usize): (r: int)
    ensures r == 0 <==> ret == 0
    ensures r == 0 || r == -1
  {
    if ret == 0 then 0 else -1
  }

  /** `(void *)-1`, the value a failing `sbrk` returns. */
  const FAILED: int := -1

  /** The cached break; 0 until the first call has asked the kernel for it. */
  datatype Break = Break(current: int)

  const UNKNOWN: Break := Break(0)

  /** The break after the first-use fetch: `brk(0)` is how the kernel is asked for the current break. */
  function Fetched(s: Break, brk: int -> int): Break
  {
    if s.current == 0 then Break(brk(0)) else s
  }

  /** The kernel grants a request when it answers with exactly the address asked for. */
  predicate Granted(s: Break, increment: int, brk: int -> int)
  {
    var next := Fetched(s, brk).current + increment;
    brk(next) == next
  }

  /** `sbrk(increment)`: the old break and the new state. */
  function Sbrk(s: Break, increment: int, brk: int -> int): (r: (Break, int))
    ensures increment == 0 ==> r.0 == Fetched(s, brk) && r.1 == r.0.current
    ensures increment != 0 && Granted(s, increment, brk) ==>
      r.1 == Fetched(s, brk).current && r.0.current == r.1 + increment
    ensures increment != 0 && !Granted(s, increment, brk) ==> r.1 == FAILED && r.0 == Fetched(s, brk)
  {
    var cur := Fetched(s, brk);
    if increment == 0 then (cur, cur.current)
    else if Granted(s, increment, brk) then (Break(cur.current + increment), cur.current)
    else (cur, FAILED)
  }

  /** Two granted requests in a row hand out adjacent blocks: the second starts where the first ends. */
  lemma SbrkAdjacent(s: Break, a: int, b: int, brk: int -> int)
    requires a != 0 && b != 0
    requires Granted(s, a, brk)
    requires Sbrk(s, a, brk).0.current != 0
    requires Granted(Sbrk(s, a, brk).0, b, brk)
    ensures Sbrk(Sbrk(s, a, brk).0, b, brk).1 == Sbrk(s, a, brk).1 + a
  {
  }

  /**
    The trap dispatcher of kernel/src/trap.rs has no case for `BRK`: an
    unknown call returns with the argument register as it was, so every
    request is "granted", the first break fetched is 0, and the first block
    handed out starts at address 0.
  */
  lemma EchoingKernel(n: int)
    requires n != 0
    ensures Sbrk(UNKNOWN, n, x => x) == (Break(n), 0)
  {
  }
}

=== FILE: user_app.dfy ===
/**
  The minimal user program: a fixed-width hexadecimal formatter for 64-bit
  values, and the start-up echo of its argument vector.
*/
module UserApp {
  import opened Wrappers
  import opened Ascii
  import Numerals
  import Words
  import Arith

  const HEX: string := Numerals.DIGITS

  /** `16^k`. */
  function Pow16(k: nat): (p: nat)
    ensures p > 0
  {
    if k == 0 then 1 else 16 * Pow16(k - 1)
  }

  /** The values a `u64` holds. */
  const U64_LIMIT: nat := 0x1_0000_0000_0000_0000

  // ---------------------------------------------------------------------
  // `_put_hex_u64`
  // ---------------------------------------------------------------------

  /** The `n` low hexadecimal digits of `x`, most significant first, zero-padded. */
  function Fixed(x: nat, n: nat): (s: string)
    ensures |s| == n
    decreases n
  {
    if n == 0 then [] else Fixed(x / 16, n - 1) + [HEX[x % 16]]
  }

  /** What `_put_hex_u64` writes: "0x" and sixteen nybbles. */
  function Hex(x: nat): (s: string)
    ensures |s| == 18 && s[..2] == "0x"
  {
    "0x" + Fixed(x, 16)
  }

  /**
    The formatting loop. For a 64-bit `x`, shifting right by `4k` bits is
    division by `16^k` and masking with `0xF` is the remainder by 16.
  */
  method PutHex(x: nat) returns (out: string)
    requires x < U64_LIMIT
    ensures out == Hex(x)
  {
    ghost var full := Fixed(x, 16);
    var digits := "";
    var i := 0;
    while i < 16
      invariant 0 <= i <= 16
      invariant digits == full[..i]
    {
      var nyb := (x / Pow16(15 - i)) % 16;
      FixedDigit(x, 16, i);
      assert full[..i + 1] == full[..i] + [full[i]];
      digits := digits + [HEX[nyb]];
      i := i + 1;
    }
    assert full[..16] == full;
    out := "0x" + digits;
  }

  /** Digit `i` of the `n`-digit numeral is the nybble `n - 1 - i` places up. */
  lemma {:induction false} FixedDigit(x: nat, n: nat, i: nat)
    requires i < n
    ensures Fixed(x, n)[i] == HEX[(x / Pow16(n - 1 - i)) % 16]
    decreases n
  {
    if i < n - 1 {
      assert Fixed(x, n)[i] == Fixed(x / 16, n - 1)[i];
      FixedDigit(x / 16, n - 1, i);
      assert Pow16(n - 1 - i) == 16 * Pow16(n - 2 - i);
      Arith.DivDiv(x, 16, Pow16(n - 2 - i));
    } else {
      assert Pow16(0) == 1;
    }
  }

  /** The digits read back as the value they were written from: the formatter loses nothing below 2^64. */
  lemma {:induction false} FixedValue(x: nat, n: nat)
    requires x < Pow16(n)
    ensures Numerals.AllDigits(Fixed(x, n), 16)
    ensures Numerals.Value(Fixed(x, n), 16) == x
    decreases n
  {
    if n > 0 {
      var s := Fixed(x, n);
      Numerals.DigitValOfDigit(x % 16);
      assert x / 16 < Pow16(n - 1);
      FixedValue(x / 16, n - 1);
      assert s[..n - 1] == Fixed(x / 16, n - 1);
    }
  }

  /** `Hex` is a fixed-width numeral of its argument in base 16. */
  lemma HexRoundTrip(x: nat)
    requires x < U64_LIMIT
    ensures Numerals.AllDigits(Hex(x)[2..], 16)
    ensures Numerals.Value(Hex(x)[2..], 16) == x
  {
    PowerSixteen();
    FixedValue(x, 16);
    assert Hex(x)[2..] == Fixed(x, 16);
  }

  /** Two different 64-bit values never print the same. */
  lemma HexInjective(x: nat, y: nat)
    requires x < U64_LIMIT && y < U64_LIMIT && Hex(x) == Hex(y)
    ensures x == y
  {
    HexRoundTrip(x);
    HexRoundTrip(y);
  }

  lemma PowerSixteen()
    ensures Pow16(16) == U64_LIMIT
  {
    assert Pow16(4) == 0x1_0000 by {
      assert Pow16(2) == 256;
    }
    assert Pow16(8) == 0x1_0000_0000 by { PowerAdd(4, 4); }
    PowerAdd(8, 8);
  }

  lemma {:induction false} PowerAdd(a: nat, b: nat)
    ensures Pow16(a + b) == Pow16(a) * Pow16(b)
    decreases a
  {
    if a > 0 {
      PowerAdd(a - 1, b);
    }
  }

  // ---------------------------------------------------------------------
  // The argument echo
  // ---------------------------------------------------------------------

  /** The C strings of the non-null argument pointers, in order. */
  function Shown(argv: seq<Option<string>>): (ws: seq<string>)
    ensures |ws| <= |argv|
    ensures forall i | 0 <= i < |ws| :: NUL !in ws[i]
    decreases |argv|
  {
    if |argv| == 0 then []
    else
      var last := argv[|argv| - 1];
      Shown(argv[..|argv| - 1]) + (if last.Some? then [UpToNul(last.value)] else [])
  }

  /** Each string followed by one space. */
  function Spaced(ws: seq<string>): string
  {
    if |ws| == 0 then [] else ws[0] + " " + Spaced(ws[1..])
  }

  /** What the program prints: "ARGS: ", each argument and a space, and a newline. */
  function Echo(argv: seq<Option<string>>): string
  {
    "ARGS: " + Spaced(Shown(argv)) + "\n"
  }

  /** The echo loop over `argc` pointers, skipping null ones. */
  method EchoArgs(argv: seq<Option<string>>) returns (out: string)
    ensures out == Echo(argv)
  {
    out := "ARGS: ";
    var i := 0;
    while i < |argv|
      invariant 0 <= i <= |argv|
      invariant out == "ARGS: " + Spaced(Shown(argv[..i]))
    {
      assert argv[..i + 1][..i] == argv[..i];
      assert Shown(argv[..i + 1]) == Shown(argv[..i]) + (if argv[i].Some? then [UpToNul(argv[i].value)] else []);
      if argv[i].Some? {
        var w := UpToNul(argv[i].value);
        SpacedAppend(Shown(argv[..i]), w);
        assert Shown(argv[..i + 1]) == Shown(argv[..i]) + [w];
        assert out + w + " " == "ARGS: " + (Spaced(Shown(argv[..i])) + w + " ");
        out := out + w + " ";
      } else {
        assert Shown(argv[..i + 1]) == Shown(argv[..i]);
      }
      i := i + 1;
    }
    assert argv[..i] == argv;
    out := out + "\n";
  }

  lemma {:induction false} SpacedAppend(ws: seq<string>, w: string)
    ensures Spaced(ws + [w]) == Spaced(ws) + w + " "
    decreases |ws|
  {
    if |ws| > 0 {
      assert (ws + [w])[1..] == ws[1..] + [w];
      SpacedAppend(ws[1..], w);
    } else {
      assert Spaced([w]) == w + " " + Spaced([]);
    }
  }

  lemma {:induction false} ShownSplit(a: seq<Option<string>>, b: seq<Option<string>>)
    ensures Shown(a + b) == Shown(a) + Shown(b)
    decreases |b|
  {
    if |b| > 0 {
      var c := b[..|b| - 1];
      assert (a + b)[..|a + b| - 1] == a + c;
      ShownSplit(a, c);
    } else {
      assert a + b == a;
    }
  }

  /** A null pointer anywhere in the vector changes nothing in the output. */
  lemma NullIgnored(a: seq<Option<string>>, b: seq<Option<string>>)
    ensures Echo(a + [None] + b) == Echo(a + b)
  {
    ShownSplit(a + [None], b);
    ShownSplit(a, [None]);
    ShownSplit(a, b);
    var one: seq<Option<string>> := [None];
    assert one[..0] == [];
    assert Shown(one) == [];
    assert Shown(a + [None]) == Shown(a);
  }

  /**
    The echo reads back: the words of the output are "ARGS:" and then each
    non-null argument, in order, when every argument is a single word.
  */
  lemma EchoParses(argv: seq<Option<string>>)
    requires forall i | 0 <= i < |Shown(argv)| :: Words.IsWord(Shown(argv)[i])
    ensures Words.Split(Echo(argv)) == ["ARGS:"] + Shown(argv)
  {
    var rest := Spaced(Shown(argv)) + "\n";
    SpacedSplit(Shown(argv));
    assert Words.IsWord("ARGS:");
    assert Echo(argv) == "ARGS:" + (" " + rest);
    Words.PrefixOfWord("ARGS:", " " + rest);
    assert ("ARGS:" + (" " + rest))[|"ARGS:"|..] == " " + rest;
  }

  lemma {:induction false} SpacedSplit(ws: seq<string>)
    requires forall i | 0 <= i < |ws| :: Words.IsWord(ws[i])
    ensures Words.Split(Spaced(ws) + "\n") == ws
    decreases |ws|
  {
    if |ws| == 0 {
      assert Words.IsWhitespace('\n');
      assert Spaced(ws) + "\n" == "\n";
      assert "\n"[1..] == [];
    } else {
      var w := ws[0];
      var rest := Spaced(ws[1..]) + "\n";
      var s := Spaced(ws) + "\n";
      assert s == w + (" " + rest);
      Words.PrefixOfWord(w, " " + rest);
      assert s[|w|..] == " " + rest;
      assert Words.IsWhitespace(' ');
      assert (" " + rest)[1..] == rest;
      SpacedSplit(ws[1..]);
    }
  }
}

=== FILE: user_space.dfy ===
/**
  The user address space as the ELF loader sees it (kernel/src/elf.rs).

  The loader gets a fresh frame for every user page it maps and writes through
  the kernel's identity view of that frame.  Here the write lands at the user
  virtual address it is meant for.  Mapping a page again installs a new frame,
  so every byte written earlier in that page becomes unknown.  The frame
  allocator `alloc_user_page` is not part of this model; it is assumed to hand
  out a distinct frame on every call, and only the number of frames taken is
  recorded.
*/
module UserSpace {
  import opened Wrappers
  import opened Sv39Bits

  /** A byte of user memory. */
  type Byte = b: int | 0 <= b < 256

  /** Failure kinds of `load_user_elf` and `setup_user_stack`. */
  datatype ElfLoadError =
    | Short
    | BadMagic
    | Not64LE
    | NotRiscv
    | PhOutOfBounds
    | SatpNotSet
    | SegmentOverflow

  function Min(a: int, b: int): int { if a < b then a else b }

  function Max(a: int, b: int): int { if a < b then b else a }

  /**
    Mapped user pages with their PTE flags, the bytes known to be in user
    memory, and the number of frames taken from the user-page allocator.
  */
  datatype Space = Space(pages: map<nat, Flags>, mem: map<nat, Byte>, frames: nat)

  /** `map_user_page`: a fresh frame is mapped at the page `va`; its old bytes are gone. */
  function MapUserPage(s: Space, va: nat, flags: Flags): (r: Space)
    ensures r.pages == s.pages[va := flags]
    ensures r.frames == s.frames + 1
    ensures forall a :: a in r.mem <==> a in s.mem && !(va <= a < va + SIZE_4K)
    ensures forall a | a in r.mem :: r.mem[a] == s.mem[a]
  {
    Space(s.pages[va := flags], map a | a in s.mem && !(va <= a < va + SIZE_4K) :: s.mem[a], s.frames + 1)
  }

  /**
    `pages` is `before` with every page boundary in `[lo, hi)` added or
    overwritten with `flags`, and nothing else changed.
  */
  ghost predicate MappedRange(pages: map<nat, Flags>, before: map<nat, Flags>, lo: nat, hi: nat, flags: Flags)
  {
    && (forall p :: p in pages <==> p in before || (lo <= p < hi && p % SIZE_4K == 0))
    && (forall p | p in pages :: pages[p] == if lo <= p < hi && p % SIZE_4K == 0 then flags else before[p])
  }

  /** `write_user_bytes` / `memcpy_pa`: the bytes `b` are stored from `addr` on. */
  function WriteBytes(m: map<nat, Byte>, addr: nat, b: seq<Byte>): (r: map<nat, Byte>)
    ensures Holds(r, addr, b) && SameOutside(m, r, addr, addr + |b|)
    decreases |b|
  {
    if |b| == 0 then m
    else
      WriteBytes(m[addr := b[0]], addr + 1, b[1..])
  }

  /** `n` zero bytes: what `memzero_pa` stores. */
  function Zeros(n: nat): (r: seq<Byte>)
    ensures |r| == n && forall i | 0 <= i < n :: r[i] == 0
  {
    seq(n, _ => 0)
  }

  /** The bytes `b` are present in `m` from `addr` on. */
  ghost predicate Holds(m: map<nat, Byte>, addr: nat, b: seq<Byte>)
  {
    forall a | addr <= a < addr + |b| :: a in m && m[a] == b[a - addr]
  }

  /** `m2` keeps every byte of `m1` outside `[lo, hi)`. */
  ghost predicate SameOutside(m1: map<nat, Byte>, m2: map<nat, Byte>, lo: nat, hi: nat)
  {
    forall a | !(lo <= a < hi) :: (a in m2 <==> a in m1) && (a in m1 ==> m2[a] == m1[a])
  }

  /** Bytes outside a write keep holding. */
  lemma HoldsFrame(m1: map<nat, Byte>, m2: map<nat, Byte>, lo: nat, hi: nat, addr: nat, b: seq<Byte>)
    requires Holds(m1, addr, b) && SameOutside(m1, m2, lo, hi)
    requires addr + |b| <= lo || hi <= addr
    ensures Holds(m2, addr, b)
  {
    forall a | addr <= a < addr + |b|
      ensures a in m2 && m2[a] == b[a - addr]
    {
      assert a in m1;
    }
  }

  /** Two writes inside `[lo, hi)` together change nothing outside it. */
  lemma SameOutsideGrow(m1: map<nat, Byte>, m2: map<nat, Byte>, m3: map<nat, Byte>,
                        lo1: nat, hi1: nat, lo2: nat, hi2: nat, lo: nat, hi: nat)
    requires SameOutside(m1, m2, lo1, hi1) && SameOutside(m2, m3, lo2, hi2)
    requires lo <= lo1 && lo <= lo2 && hi1 <= hi && hi2 <= hi
    ensures SameOutside(m1, m3, lo, hi)
  {
  }

  // ----- machine words -----

  const WORD: nat := 8

  function Pow256(n: nat): (r: nat)
    ensures r > 0
  {
    if n == 0 then 1 else 256 * Pow256(n - 1)
  }

  /** A word holds exactly the values of a `usize`. */
  lemma Pow256Word()
    ensures Pow256(WORD) == 0x1_0000_0000_0000_0000
  {
    assert Pow256(2) == 0x1_0000;
    assert Pow256(4) == 0x1_0000_0000;
    assert Pow256(6) == 0x1_0000_0000_0000;
  }

  /** A `usize` written as a word reads back as itself. */
  lemma ReadWrittenUsize(m: map<nat, Byte>, addr: nat, v: usize)
    requires WordAt(m, addr, v)
    ensures ReadWord(m, addr) == Some(v)
  {
    Pow256Word();
    ReadWrittenWord(m, addr, v);
  }

  /** The `n` little-endian bytes of `v` (RV64 stores a `usize` little-endian). */
  function LeBytes(v: nat, n: nat): (r: seq<Byte>)
    ensures |r| == n
  {
    if n == 0 then [] else [(v % 256) as Byte] + LeBytes(v / 256, n - 1)
  }

  /** The number a little-endian byte string denotes. */
  function LeValue(b: seq<Byte>): (r: nat)
    ensures r < Pow256(|b|)
  {
    if |b| == 0 then 0 else b[0] as nat + 256 * LeValue(b[1..])
  }

  lemma {:induction false} LeRoundTrip(v: nat, n: nat)
    requires v < Pow256(n)
    ensures LeValue(LeBytes(v, n)) == v
  {
    if n > 0 {
      var b := LeBytes(v, n);
      assert b[1..] == LeBytes(v / 256, n - 1);
      ShiftBelow(v, Pow256(n - 1));
      LeRoundTrip(v / 256, n - 1);
    }
  }

  /** Dropping the low byte of a value below `256 * p` leaves one below `p`. */
  lemma ShiftBelow(v: nat, p: nat)
    requires v < 256 * p
    ensures v / 256 < p
  {
  }

  /** `write_user_usize(addr, v)` has left `v` at `addr`. */
  ghost predicate WordAt(m: map<nat, Byte>, addr: nat, v: nat)
  {
    Holds(m, addr, LeBytes(v, WORD))
  }

  /**
    `write_user_usize(addr, v)`: the eight bytes of `v` in the machine's
    little-endian order are stored at `addr`, and no other byte changes.
  */
  method StoreWord(m: map<nat, Byte>, addr: nat, v: nat) returns (r: map<nat, Byte>)
    ensures WordAt(r, addr, v) && SameOutside(m, r, addr, addr + WORD)
  {
    r := WriteBytes(m, addr, LeBytes(v, WORD));
  }

  /** The `n` bytes of `m` from `addr` on; all of them must be known. */
  function Gather(m: map<nat, Byte>, addr: nat, n: nat): (r: seq<Byte>)
    requires forall a | addr <= a < addr + n :: a in m
    ensures |r| == n
    decreases n
  {
    if n == 0 then [] else [m[addr]] + Gather(m, addr + 1, n - 1)
  }

  /** Reading the word at `addr`, if all eight bytes are known. */
  function ReadWord(m: map<nat, Byte>, addr: nat): (r: Option<nat>)
    ensures r.Some? ==> r.value < Pow256(WORD)
  {
    if forall a | addr <= a < addr + WORD :: a in m
    then Some(LeValue(Gather(m, addr, WORD)))
    else None
  }

  lemma {:induction false} GatherHolds(m: map<nat, Byte>, addr: nat, b: seq<Byte>)
    requires Holds(m, addr, b)
    ensures Gather(m, addr, |b|) == b
    decreases |b|
  {
    if |b| > 0 {
      assert addr in m && m[addr] == b[0];
      GatherHolds(m, addr + 1, b[1..]);
    }
  }

  /** A word outside a write keeps its value. */
  lemma WordFrame(m1: map<nat, Byte>, m2: map<nat, Byte>, lo: nat, hi: nat, addr: nat, v: nat)
    requires WordAt(m1, addr, v) && SameOutside(m1, m2, lo, hi)
    requires addr + WORD <= lo || hi <= addr
    ensures WordAt(m2, addr, v)
  {
    HoldsFrame(m1, m2, lo, hi, addr, LeBytes(v, WORD));
  }

  /** The same word, named by an equal address. */
  lemma WordAtSame(m: map<nat, Byte>, a: nat, b: nat, v: nat)
    requires WordAt(m, a, v) && a == b
    ensures WordAt(m, b, v)
  {
  }

  /** A word that was written reads back as the same `usize`. */
  lemma ReadWrittenWord(m: map<nat, Byte>, addr: nat, v: nat)
    requires WordAt(m, addr, v) && v < Pow256(WORD)
    ensures ReadWord(m, addr) == Some(v)
  {
    GatherHolds(m, addr, LeBytes(v, WORD));
    LeRoundTrip(v, WORD);
  }
}

=== FILE: user_stack.dfy ===
/**
  `setup_user_stack` (kernel/src/elf.rs): maps the stack pages, copies the
  environment and argument strings to the top of the stack, then builds the
  NULL-terminated envp and argv pointer vectors below them and stores argc
  below argv.
*/
module UserStack {
  import opened Wrappers
  import opened Sv39Bits
  import opened UserSpace
  import Arith
  import PageTable

  /** Capacity of the `heapless::Vec` that collects string pointers. */
  const MAX_STRINGS: nat := 32

  /** Stack pages are user read/write, accessed and dirty. */
  const STACK_FLAGS: Flags := PTE_V | PTE_U | PTE_R | PTE_W | PTE_A | PTE_D

  /** The gap left under the stack top before the first string. */
  const TOP_GUARD: nat := 16

  /** The room `ss` takes on the stack: each string plus its NUL. */
  function Footprint(ss: seq<seq<Byte>>): nat
  {
    if |ss| == 0 then 0 else Footprint(ss[..|ss| - 1]) + |ss[|ss| - 1]| + 1
  }

  lemma FootprintStep(ss: seq<seq<Byte>>, i: nat)
    requires i < |ss|
    ensures Footprint(ss[..i + 1]) == Footprint(ss[..i]) + |ss[i]| + 1
  {
    assert ss[..i + 1][..i] == ss[..i];
  }

  lemma {:induction false} FootprintPrefix(ss: seq<seq<Byte>>, i: nat)
    requires i <= |ss|
    ensures Footprint(ss[..i]) <= Footprint(ss)
    decreases |ss| - i
  {
    if i < |ss| {
      FootprintStep(ss, i);
      FootprintPrefix(ss, i + 1);
    } else {
      assert ss[..i] == ss;
    }
  }

  /** The strings the copy loop gets through: all of them, or up to the one that overflows. */
  function Reached(ss: seq<seq<Byte>>): seq<seq<Byte>>
  {
    if |ss| <= MAX_STRINGS then ss else ss[..MAX_STRINGS + 1]
  }

  /** `x & !15`: the largest multiple of 16 not above `x`. */
  function AlignDown16(x: int): (r: int)
    ensures r % 16 == 0 && r <= x < r + 16
    ensures x >= 0 ==> r >= 0
  {
    x - x % 16
  }

  // ----- strings and pointer vectors in memory -----

  /**
    Where the strings of `ss` start when they are stacked downward from
    `base`: string `i` sits just below string `i - 1`.
  */
  function StringAddrs(base: int, ss: seq<seq<Byte>>): (r: seq<nat>)
    requires Footprint(ss) <= base
    ensures |r| == |ss|
    decreases |ss|
  {
    if |ss| == 0 then []
    else StringAddrs(base, ss[..|ss| - 1]) + [base - Footprint(ss)]
  }

  /** Every string lies inside the `Footprint(ss)` bytes under `base`. */
  lemma {:induction false} StringAddrsBounds(base: int, ss: seq<seq<Byte>>)
    requires Footprint(ss) <= base
    ensures forall i | 0 <= i < |ss| ::
      base - Footprint(ss) <= StringAddrs(base, ss)[i] && StringAddrs(base, ss)[i] + |ss[i]| + 1 <= base
    decreases |ss|
  {
    if |ss| > 0 {
      var pre := ss[..|ss| - 1];
      StringAddrsBounds(base, pre);
      forall i | 0 <= i < |pre|
        ensures pre[i] == ss[i]
      {
      }
    }
  }

  /** Each string of `ss`, NUL-terminated, is in memory at its address in `ptrs`. */
  ghost predicate StringsAt(m: map<nat, Byte>, ptrs: seq<nat>, ss: seq<seq<Byte>>)
  {
    |ptrs| == |ss| && forall i | 0 <= i < |ss| :: Holds(m, ptrs[i], ss[i] + [0])
  }

  /** A NULL-terminated vector of words: `ptrs[0]` at `base`, each next entry 8 bytes up, then 0. */
  ghost predicate Vector(m: map<nat, Byte>, base: nat, ptrs: seq<nat>)
    decreases |ptrs|
  {
    if |ptrs| == 0 then WordAt(m, base, 0)
    else WordAt(m, base, ptrs[0]) && Vector(m, base + 8, ptrs[1..])
  }

  /** The address of entry `j` of a word vector at `base`. */
  function Slot(base: nat, j: nat): nat
  {
    base + 8 * j
  }

  /** Entry `j` of a vector is the word in slot `j`; the NULL follows the last entry. */
  lemma {:induction false} VectorEntry(m: map<nat, Byte>, base: nat, ptrs: seq<nat>, j: nat)
    requires Vector(m, base, ptrs) && j <= |ptrs|
    ensures j < |ptrs| ==> WordAt(m, Slot(base, j), ptrs[j])
    ensures j == |ptrs| ==> WordAt(m, Slot(base, j), 0)
    decreases j
  {
    if j == 0 {
      WordAtSame(m, base, Slot(base, 0), if |ptrs| == 0 then 0 else ptrs[0]);
    } else {
      VectorEntry(m, base + 8, ptrs[1..], j - 1);
      if j < |ptrs| {
        assert ptrs[1..][j - 1] == ptrs[j];
        WordAtSame(m, Slot(base + 8, j - 1), Slot(base, j), ptrs[j]);
      } else {
        WordAtSame(m, Slot(base + 8, j - 1), Slot(base, j), 0);
      }
    }
  }

  /** Writes below the stacked strings keep them. */
  lemma StringsFrame(m1: map<nat, Byte>, m2: map<nat, Byte>, base: int, ss: seq<seq<Byte>>, lo: nat, hi: nat)
    requires Footprint(ss) <= base && hi + Footprint(ss) <= base
    requires StringsAt(m1, StringAddrs(base, ss), ss) && SameOutside(m1, m2, lo, hi)
    ensures StringsAt(m2, StringAddrs(base, ss), ss)
  {
    var ptrs := StringAddrs(base, ss);
    StringAddrsBounds(base, ss);
    forall i | 0 <= i < |ss|
      ensures Holds(m2, ptrs[i], ss[i] + [0])
    {
      HoldsFrame(m1, m2, lo, hi, ptrs[i], ss[i] + [0]);
    }
  }

  /** Writes below a vector keep it. */
  lemma {:induction false} VectorFrame(m1: map<nat, Byte>, m2: map<nat, Byte>, base: nat, ptrs: seq<nat>, lo: nat, hi: nat)
    requires Vector(m1, base, ptrs) && SameOutside(m1, m2, lo, hi) && hi <= base
    ensures Vector(m2, base, ptrs)
    decreases |ptrs|
  {
    WordFrame(m1, m2, lo, hi, base, if |ptrs| == 0 then 0 else ptrs[0]);
    if |ptrs| > 0 {
      VectorFrame(m1, m2, base + 8, ptrs[1..], lo, hi);
    }
  }

  /** A word stored just below a vector extends it by one entry at the front. */
  lemma VectorCons(m0: map<nat, Byte>, m: map<nat, Byte>, base: nat, p: nat, rest: seq<nat>)
    requires Vector(m0, base + 8, rest)
    requires WordAt(m, base, p) && SameOutside(m0, m, base, base + 8)
    ensures Vector(m, base, [p] + rest)
  {
    VectorFrame(m0, m, base + 8, rest, base, base + 8);
    assert ([p] + rest)[1..] == rest;
  }

  // ----- the steps of setup_user_stack -----

  /** The mapping loop: `pages` fresh frames at `lo`, `lo + 4096`, ... with `flags`. */
  method MapPages(s: Space, lo: nat, pages: nat, flags: Flags) returns (r: Space)
    requires lo % SIZE_4K == 0
    ensures MappedRange(r.pages, s.pages, lo, lo + pages * SIZE_4K, flags)
    ensures r.frames == s.frames + pages
    ensures SameOutside(s.mem, r.mem, lo, lo + pages * SIZE_4K)
  {
    var va := lo;
    var k := 0;
    r := s;
    while k < pages
      invariant k <= pages && va == lo + k * SIZE_4K && va % SIZE_4K == 0
      invariant MappedRange(r.pages, s.pages, lo, va, flags)
      invariant r.frames == s.frames + k
      invariant SameOutside(s.mem, r.mem, lo, va)
    {
      var r' := MapUserPage(r, va, flags);
      MapPagesStep(s, r, r', lo, va, flags);
      Arith.AlignedAdd(va, SIZE_4K, SIZE_4K);
      r := r';
      va := va + SIZE_4K;
      k := k + 1;
    }
  }

  lemma MapPagesStep(s: Space, r: Space, r': Space, lo: nat, va: nat, flags: Flags)
    requires va % SIZE_4K == 0 && lo <= va
    requires MappedRange(r.pages, s.pages, lo, va, flags) && SameOutside(s.mem, r.mem, lo, va)
    requires r' == MapUserPage(r, va, flags)
    ensures MappedRange(r'.pages, s.pages, lo, va + SIZE_4K, flags)
    ensures SameOutside(s.mem, r'.mem, lo, va + SIZE_4K)
  {
    forall p | p % SIZE_4K == 0 && va <= p < va + SIZE_4K
      ensures p == va
    {
      if va < p { Sv39Bits.PageGap(va, p); }
    }
  }

  /** The string loop's state after `i` strings: stacked from `sp` down to `cur`. */
  ghost predicate StringsLoop(m: map<nat, Byte>, mem: map<nat, Byte>, sp: nat, ss: seq<seq<Byte>>,
                              ptrs: seq<nat>, i: nat, cur: nat)
  {
    && i <= |ss|
    && cur + Footprint(ss[..i]) == sp
    && ptrs == StringAddrs(sp, ss[..i])
    && StringsAt(mem, ptrs, ss[..i])
    && SameOutside(m, mem, cur, sp)
  }

  /**
    One string loop: each string and its NUL go just below the previous one,
    and its address is pushed; the 33rd push overflows, after that string was
    written, and `overflow` reports it.
  */
  method PushStrings(m: map<nat, Byte>, sp: nat, ss: seq<seq<Byte>>)
    returns (overflow: bool, m': map<nat, Byte>, sp': nat, ptrs: seq<nat>)
    requires Footprint(Reached(ss)) <= sp
    ensures overflow <==> |ss| > MAX_STRINGS
    ensures !overflow ==>
      && sp' + Footprint(ss) == sp
      && ptrs == StringAddrs(sp, ss)
      && StringsAt(m', ptrs, ss)
      && SameOutside(m, m', sp', sp)
  {
    m' := m;
    sp' := sp;
    ptrs := [];
    var i := 0;
    assert ss[..0] == [];
    while i < |ss|
      invariant i <= MAX_STRINGS
      invariant StringsLoop(m, m', sp, ss, ptrs, i, sp')
    {
      FootprintStep(ss, i);
      ReachedFits(ss, i);
      ghost var mem0, cur0 := m', sp';
      m', sp' := PushString(m', sp', ss[i]);
      if |ptrs| == MAX_STRINGS {
        return true, m', sp', ptrs;
      }
      StringsStep(m, mem0, m', sp, ss, ptrs, i, cur0, sp');
      ptrs := ptrs + [sp'];
      i := i + 1;
    }
    assert ss[..i] == ss;
    overflow := false;
  }

  /** `sp -= len + 1`, then the string and its NUL are written at the new `sp`. */
  method PushString(m: map<nat, Byte>, sp: nat, b: seq<Byte>) returns (m': map<nat, Byte>, sp': nat)
    requires |b| + 1 <= sp
    ensures sp' + |b| + 1 == sp
    ensures Holds(m', sp', b + [0]) && SameOutside(m, m', sp', sp)
  {
    sp' := sp - (|b| + 1);
    var m1 := WriteBytes(m, sp', b);
    m' := WriteBytes(m1, sp' + |b|, [0]);
    StoredWithNul(m1, m', sp', b);
    SameOutsideGrow(m, m1, m', sp', sp' + |b|, sp' + |b|, sp, sp', sp);
  }

  /** A string the loop reaches still fits under `sp`. */
  lemma ReachedFits(ss: seq<seq<Byte>>, i: nat)
    requires i < |ss| && i <= MAX_STRINGS
    ensures Footprint(ss[..i + 1]) <= Footprint(Reached(ss))
  {
    if |ss| <= MAX_STRINGS {
      FootprintPrefix(ss, i + 1);
    } else {
      var rs := ss[..MAX_STRINGS + 1];
      FootprintPrefix(rs, i + 1);
      assert rs[..i + 1] == ss[..i + 1];
    }
  }

  lemma StringsStep(m: map<nat, Byte>, mem0: map<nat, Byte>, mem: map<nat, Byte>,
                    sp: nat, ss: seq<seq<Byte>>, ptrs: seq<nat>, i: nat, cur0: nat, cur: nat)
    requires i < |ss| && StringsLoop(m, mem0, sp, ss, ptrs, i, cur0)
    requires cur + |ss[i]| + 1 == cur0
    requires Holds(mem, cur, ss[i] + [0]) && SameOutside(mem0, mem, cur, cur0)
    ensures StringsLoop(m, mem, sp, ss, ptrs + [cur], i + 1, cur)
  {
    FootprintStep(ss, i);
    var pre, post := ss[..i], ss[..i + 1];
    assert post[..i] == pre;
    assert post == pre + [ss[i]];
    StringsExtend(m, mem0, mem, pre, ptrs, cur, ss[i], sp);
  }

  /** Writing one string and its NUL below the earlier ones keeps them and the outside. */
  lemma StringsExtend(m: map<nat, Byte>, mem0: map<nat, Byte>, mem: map<nat, Byte>,
                      pre: seq<seq<Byte>>, ptrs: seq<nat>, cur: nat, b: seq<Byte>, sp: nat)
    requires cur + |b| + 1 + Footprint(pre) == sp
    requires ptrs == StringAddrs(sp, pre) && StringsAt(mem0, ptrs, pre)
    requires Holds(mem, cur, b + [0]) && SameOutside(mem0, mem, cur, cur + |b| + 1)
    requires SameOutside(m, mem0, cur + |b| + 1, sp)
    ensures StringsAt(mem, ptrs + [cur], pre + [b])
    ensures SameOutside(m, mem, cur, sp)
  {
    SameOutsideGrow(m, mem0, mem, cur + |b| + 1, sp, cur, cur + |b| + 1, cur, sp);
    StringAddrsBounds(sp, pre);
    var ptrs', ss' := ptrs + [cur], pre + [b];
    forall j | 0 <= j < |ss'|
      ensures Holds(mem, ptrs'[j], ss'[j] + [0])
    {
      if j < |pre| {
        assert ptrs'[j] == ptrs[j] && ss'[j] == pre[j];
        HoldsFrame(mem0, mem, cur, cur + |b| + 1, ptrs[j], pre[j] + [0]);
      }
    }
  }

  /** A string followed by a NUL written just after it. */
  lemma StoredWithNul(mem1: map<nat, Byte>, mem: map<nat, Byte>, cur: nat, b: seq<Byte>)
    requires Holds(mem1, cur, b)
    requires Holds(mem, cur + |b|, [0]) && SameOutside(mem1, mem, cur + |b|, cur + |b| + 1)
    ensures Holds(mem, cur, b + [0])
  {
    forall a | cur <= a < cur + |b| + 1
      ensures a in mem && mem[a] == (b + [0])[a - cur]
    {
      if a < cur + |b| {
        assert a in mem1;
      }
    }
  }

  /** The vector loop's state: entries `k..` and the NULL are stored from `sp'` up to `sp`. */
  ghost predicate VectorLoop(m: map<nat, Byte>, m': map<nat, Byte>, sp: nat, ptrs: seq<nat>, k: nat, sp': nat)
  {
    && k <= |ptrs|
    && sp' + 8 * (|ptrs| - k + 1) == sp
    && Vector(m', sp', ptrs[k..])
    && SameOutside(m, m', sp', sp)
  }

  /**
    One vector: a NULL word, then the pointers in reverse, so that entry 0
    ends up lowest.
  */
  method PushVector(m: map<nat, Byte>, sp: nat, ptrs: seq<nat>) returns (m': map<nat, Byte>, sp': nat)
    requires 8 * (|ptrs| + 1) <= sp
    ensures sp' + 8 * (|ptrs| + 1) == sp
    ensures Vector(m', sp', ptrs)
    ensures SameOutside(m, m', sp', sp)
  {
    sp' := sp - 8;
    m' := StoreWord(m, sp', 0);
    var k: nat := |ptrs|;
    VectorStart(m, m', sp, ptrs, sp');
    while k > 0
      invariant VectorLoop(m, m', sp, ptrs, k, sp')
    {
      ghost var m0 := m';
      sp' := sp' - 8;
      m' := StoreWord(m', sp', ptrs[k - 1]);
      VectorStep(m, m0, m', sp, ptrs, k, sp');
      k := k - 1;
    }
    VectorDone(m, m', sp, ptrs, sp');
  }

  lemma VectorStart(m: map<nat, Byte>, m': map<nat, Byte>, sp: nat, ptrs: seq<nat>, sp': nat)
    requires sp' + 8 == sp && WordAt(m', sp', 0) && SameOutside(m, m', sp', sp)
    ensures VectorLoop(m, m', sp, ptrs, |ptrs|, sp')
  {
    assert ptrs[|ptrs|..] == [];
  }

  lemma VectorDone(m: map<nat, Byte>, m': map<nat, Byte>, sp: nat, ptrs: seq<nat>, sp': nat)
    requires VectorLoop(m, m', sp, ptrs, 0, sp')
    ensures sp' + 8 * (|ptrs| + 1) == sp && Vector(m', sp', ptrs) && SameOutside(m, m', sp', sp)
  {
    assert ptrs[0..] == ptrs;
  }

  lemma VectorStep(m: map<nat, Byte>, m0: map<nat, Byte>, m': map<nat, Byte>, sp: nat, ptrs: seq<nat>, k: nat, sp': nat)
    requires 0 < k && VectorLoop(m, m0, sp, ptrs, k, sp' + 8)
    requires WordAt(m', sp', ptrs[k - 1]) && SameOutside(m0, m', sp', sp' + 8)
    ensures VectorLoop(m, m', sp, ptrs, k - 1, sp')
  {
    VectorCons(m0, m', sp', ptrs[k - 1], ptrs[k..]);
    assert ptrs[k - 1..] == [ptrs[k - 1]] + ptrs[k..];
    SameOutsideGrow(m, m0, m', sp' + 8, sp, sp', sp' + 8, sp', sp);
  }

  // ----- the layout setup_user_stack produces -----

  /** The number of stack pages: `bytes` rounded up to whole pages. */
  function StackPages(bytes: nat): nat
  {
    (bytes + SIZE_4K - 1) / SIZE_4K
  }

  /** The first stack page: the page holding `top - pages * 4096`. */
  function StackBase(top: nat, bytes: nat): nat
    requires StackPages(bytes) * SIZE_4K <= top
  {
    PageTable.PageFloor(top - StackPages(bytes) * SIZE_4K)
  }

  /** Where the environment strings start stacking down: 16 bytes under `top`. */
  function EnvBase(top: nat): int
  {
    top - TOP_GUARD
  }

  /** Where the argument strings start stacking down: under the environment strings. */
  function ArgBase(top: nat, envp: seq<seq<Byte>>): int
  {
    EnvBase(top) - Footprint(envp)
  }

  /** The lowest byte of the strings: both string areas lie under the guard. */
  function StringsLow(top: nat, argv: seq<seq<Byte>>, envp: seq<seq<Byte>>): int
  {
    ArgBase(top, envp) - Footprint(argv)
  }

  /** envp[0]: the envp vector ends at the 16-aligned boundary at or below `low`. */
  function EnvpVa(low: int, envc: nat): int
  {
    AlignDown16(low) - 8 * (envc + 1)
  }

  /** argv[0]: the argv vector ends where the envp vector begins. */
  function ArgvVa(low: int, envc: nat, argc: nat): int
  {
    EnvpVa(low, envc) - 8 * (argc + 1)
  }

  /** argc's slot: the word under argv[0]. */
  function ArgcVa(low: int, envc: nat, argc: nat): int
  {
    ArgvVa(low, envc, argc) - 8
  }

  /** The returned stack pointer: argc's slot, aligned down to 16. */
  function FinalSp(low: int, envc: nat, argc: nat): int
  {
    AlignDown16(ArgcVa(low, envc, argc))
  }

  /**
    The room `setup_user_stack` needs to run without a `usize` underflow: the
    pages fit under `top`, the strings the loops reach fit under the guard,
    and, when no vector overflows, both vectors and argc fit below the
    strings.
  */
  predicate StackFits(top: nat, bytes: nat, argv: seq<seq<Byte>>, envp: seq<seq<Byte>>)
  {
    && bytes + SIZE_4K - 1 < 0x1_0000_0000_0000_0000
    && StackPages(bytes) * SIZE_4K <= top
    && TOP_GUARD + Footprint(Reached(envp)) <= top
    && (|envp| <= MAX_STRINGS ==> TOP_GUARD + Footprint(envp) + Footprint(Reached(argv)) <= top)
    && (|envp| <= MAX_STRINGS && |argv| <= MAX_STRINGS ==>
          AlignDown16(StringsLow(top, argv, envp)) >= 8 * (|envp| + |argv| + 3))
  }

  /** What `setup_user_stack` returns: `(sp, envp_va, argv_va, argc)`. */
  datatype StackFrame = StackFrame(sp: nat, envp: nat, argv: nat, argc: nat)

  /**
    The stack image `setup_user_stack` builds for `argv` and `envp` under
    `top`, `f` being the values it returns: the environment strings stacked
    down from 16 bytes under `top`, the argument strings below them, the two
    NULL-terminated pointer vectors below those (argv lowest), argc in the
    word under argv, and `sp` 16-aligned at or below argc.
  */
  ghost predicate StackImage(m: map<nat, Byte>, f: StackFrame, top: nat, argv: seq<seq<Byte>>, envp: seq<seq<Byte>>)
  {
    var low := StringsLow(top, argv, envp);
    && TOP_GUARD + Footprint(envp) + Footprint(argv) <= top
    && f.argc == |argv|
    && f.envp == EnvpVa(low, |envp|) && f.argv == ArgvVa(low, |envp|, |argv|) && f.sp == FinalSp(low, |envp|, |argv|)
    && f.sp % 16 == 0 && f.sp + 8 <= f.argv && f.argv + 8 * (f.argc + 1) == f.envp && f.envp + 8 * (|envp| + 1) <= low
    && WordAt(m, ArgcVa(low, |envp|, |argv|), f.argc)
    && StringsAt(m, StringAddrs(EnvBase(top), envp), envp)
    && StringsAt(m, StringAddrs(ArgBase(top, envp), argv), argv)
    && Vector(m, f.envp, StringAddrs(EnvBase(top), envp))
    && Vector(m, f.argv, StringAddrs(ArgBase(top, envp), argv))
  }

  /**
    `setup_user_stack`: the stack pages are mapped user read/write and the
    stack image is written; a 33rd string in either list fails with
    `SegmentOverflow`.
  */
  method SetupUserStack(s: Space, top: usize, bytes: usize, argv: seq<seq<Byte>>, envp: seq<seq<Byte>>)
    returns (r: Result<(Space, StackFrame), ElfLoadError>)
    requires StackFits(top, bytes, argv, envp)
    ensures r.Err? <==> |envp| > MAX_STRINGS || |argv| > MAX_STRINGS
    ensures r.Err? ==> r.error == SegmentOverflow
    ensures r.Ok? ==> StackImage(r.value.0.mem, r.value.1, top, argv, envp)
    ensures r.Ok? ==>
      MappedRange(r.value.0.pages, s.pages, StackBase(top, bytes), StackBase(top, bytes) + StackPages(bytes) * SIZE_4K, STACK_FLAGS)
    ensures r.Ok? ==> r.value.0.frames == s.frames + StackPages(bytes)
    ensures r.Ok? ==> SameOutside(s.mem, r.value.0.mem, Min(StackBase(top, bytes), r.value.1.sp), top)
  {
    var pages := StackPages(bytes);
    var lo := StackBase(top, bytes);
    PageTable.PageRounding(top - pages * SIZE_4K);
    var t := MapPages(s, lo, pages, STACK_FLAGS);
    var overflow, m', f := BuildStack(t.mem, top, argv, envp);
    if overflow {
      return Err(SegmentOverflow);
    }
    SameOutsideGrow(s.mem, t.mem, m', lo, lo + pages * SIZE_4K, f.sp, top - TOP_GUARD, Min(lo, f.sp), top);
    r := Ok((t.(mem := m'), f));
  }

  /** Everything after the mapping loop: strings, vectors and argc. */
  method BuildStack(m: map<nat, Byte>, top: nat, argv: seq<seq<Byte>>, envp: seq<seq<Byte>>)
    returns (overflow: bool, m': map<nat, Byte>, f: StackFrame)
    requires TOP_GUARD + Footprint(Reached(envp)) <= top
    requires |envp| <= MAX_STRINGS ==> TOP_GUARD + Footprint(envp) + Footprint(Reached(argv)) <= top
    requires |envp| <= MAX_STRINGS && |argv| <= MAX_STRINGS ==>
               AlignDown16(StringsLow(top, argv, envp)) >= 8 * (|envp| + |argv| + 3)
    ensures overflow <==> |envp| > MAX_STRINGS || |argv| > MAX_STRINGS
    ensures !overflow ==> StackImage(m', f, top, argv, envp) && SameOutside(m, m', f.sp, EnvBase(top))
  {
    var m2, envPtrs, argPtrs;
    overflow, m2, envPtrs, argPtrs := PlaceStrings(m, top, argv, envp);
    if overflow {
      return overflow, m2, StackFrame(0, 0, 0, 0);
    }
    assert |envPtrs| == |envp| && |argPtrs| == |argv|;
    var envpVa, argvVa, sp;
    m', envpVa, argvVa, sp := PlaceVectors(m2, StringsLow(top, argv, envp), envPtrs, argPtrs);
    StringsFrame(m2, m', EnvBase(top), envp, sp, AlignDown16(StringsLow(top, argv, envp)));
    StringsFrame(m2, m', ArgBase(top, envp), argv, sp, AlignDown16(StringsLow(top, argv, envp)));
    SameOutsideGrow(m, m2, m', StringsLow(top, argv, envp), EnvBase(top), sp, AlignDown16(StringsLow(top, argv, envp)), sp, EnvBase(top));
    StackImageIntro(m', top, argv, envp, envPtrs, argPtrs, envpVa, argvVa, sp);
    f := StackFrame(sp, envpVa, argvVa, |argPtrs|);
  }

  /** The pieces the string and vector phases leave behind make up the stack image. */
  lemma StackImageIntro(m: map<nat, Byte>, top: nat, argv: seq<seq<Byte>>, envp: seq<seq<Byte>>,
                        envPtrs: seq<nat>, argPtrs: seq<nat>, envpVa: nat, argvVa: nat, sp: nat)
    requires TOP_GUARD + Footprint(envp) + Footprint(argv) <= top
    requires envPtrs == StringAddrs(EnvBase(top), envp) && argPtrs == StringAddrs(ArgBase(top, envp), argv)
    requires StringsAt(m, envPtrs, envp) && StringsAt(m, argPtrs, argv)
    requires envpVa == EnvpVa(StringsLow(top, argv, envp), |envPtrs|)
    requires argvVa == ArgvVa(StringsLow(top, argv, envp), |envPtrs|, |argPtrs|)
    requires sp == FinalSp(StringsLow(top, argv, envp), |envPtrs|, |argPtrs|)
    requires sp % 16 == 0 && sp + 8 <= argvVa && argvVa + 8 * (|argPtrs| + 1) == envpVa
    requires Vector(m, envpVa, envPtrs) && Vector(m, argvVa, argPtrs)
    requires WordAt(m, ArgcVa(StringsLow(top, argv, envp), |envPtrs|, |argPtrs|), |argPtrs|)
    ensures StackImage(m, StackFrame(sp, envpVa, argvVa, |argPtrs|), top, argv, envp)
  {
  }

  /**
    Reading a vector of string pointers: entry `i` is the address of string
    `i`, whose bytes and NUL are there; the entry after the last is NULL.
  */
  lemma VectorReadBack(m: map<nat, Byte>, base: nat, ptrs: seq<nat>, ss: seq<seq<Byte>>, i: nat)
    requires Vector(m, base, ptrs) && StringsAt(m, ptrs, ss) && i <= |ptrs|
    requires forall j | 0 <= j < |ptrs| :: ptrs[j] < 0x1_0000_0000_0000_0000
    ensures i == |ptrs| ==> ReadWord(m, Slot(base, i)) == Some(0)
    ensures i < |ptrs| ==> ReadWord(m, Slot(base, i)) == Some(ptrs[i]) && Gather(m, ptrs[i], |ss[i]| + 1) == ss[i] + [0]
  {
    VectorEntry(m, base, ptrs, i);
    if i < |ptrs| {
      ReadWrittenUsize(m, Slot(base, i), ptrs[i]);
      GatherHolds(m, ptrs[i], ss[i] + [0]);
    } else {
      ReadWrittenUsize(m, Slot(base, i), 0);
    }
  }

  /**
    What the program reads back from the image: argc in the word under
    argv[0], each argv[i] pointing at argument `i` followed by its NUL, and
    a NULL after the last entry.
  */
  lemma ArgvReadBack(m: map<nat, Byte>, f: StackFrame, top: usize, argv: seq<seq<Byte>>, envp: seq<seq<Byte>>, i: nat)
    requires StackImage(m, f, top, argv, envp) && i <= |argv|
    ensures ReadWord(m, ArgcVa(StringsLow(top, argv, envp), |envp|, |argv|)) == Some(|argv|)
    ensures i == |argv| ==> ReadWord(m, Slot(f.argv, i)) == Some(0)
    ensures i < |argv| ==>
      var p := StringAddrs(ArgBase(top, envp), argv)[i];
      && ReadWord(m, Slot(f.argv, i)) == Some(p)
      && Gather(m, p, |argv[i]| + 1) == argv[i] + [0]
  {
    ReadWrittenUsize(m, ArgcVa(StringsLow(top, argv, envp), |envp|, |argv|), |argv|);
    StringAddrsBounds(ArgBase(top, envp), argv);
    VectorReadBack(m, f.argv, StringAddrs(ArgBase(top, envp), argv), argv, i);
  }

  /** The same for the environment: envp[i] points at variable `i`, and a NULL ends the vector. */
  lemma EnvpReadBack(m: map<nat, Byte>, f: StackFrame, top: usize, argv: seq<seq<Byte>>, envp: seq<seq<Byte>>, i: nat)
    requires StackImage(m, f, top, argv, envp) && i <= |envp|
    ensures i == |envp| ==> ReadWord(m, Slot(f.envp, i)) == Some(0)
    ensures i < |envp| ==>
      var p := StringAddrs(EnvBase(top), envp)[i];
      && ReadWord(m, Slot(f.envp, i)) == Some(p)
      && Gather(m, p, |envp[i]| + 1) == envp[i] + [0]
  {
    StringAddrsBounds(EnvBase(top), envp);
    VectorReadBack(m, f.envp, StringAddrs(EnvBase(top), envp), envp, i);
  }

  /** The two string loops: the environment under the guard, the arguments below it. */
  method PlaceStrings(m: map<nat, Byte>, top: nat, argv: seq<seq<Byte>>, envp: seq<seq<Byte>>)
    returns (overflow: bool, m': map<nat, Byte>, envPtrs: seq<nat>, argPtrs: seq<nat>)
    requires TOP_GUARD + Footprint(Reached(envp)) <= top
    requires |envp| <= MAX_STRINGS ==> TOP_GUARD + Footprint(envp) + Footprint(Reached(argv)) <= top
    ensures overflow <==> |envp| > MAX_STRINGS || |argv| > MAX_STRINGS
    ensures !overflow ==>
      && Footprint(envp) + Footprint(argv) + TOP_GUARD <= top
      && envPtrs == StringAddrs(EnvBase(top), envp)
      && argPtrs == StringAddrs(ArgBase(top, envp), argv)
      && StringsAt(m', envPtrs, envp) && StringsAt(m', argPtrs, argv)
      && SameOutside(m, m', StringsLow(top, argv, envp), EnvBase(top))
  {
    var m1, sp1, sp2;
    overflow, m1, sp1, envPtrs := PushStrings(m, EnvBase(top), envp);
    if overflow {
      return overflow, m1, envPtrs, [];
    }
    assert sp1 == ArgBase(top, envp);
    overflow, m', sp2, argPtrs := PushStrings(m1, sp1, argv);
    if overflow {
      return;
    }
    assert sp2 == StringsLow(top, argv, envp);
    StringsFrame(m1, m', EnvBase(top), envp, sp2, sp1);
    SameOutsideGrow(m, m1, m', sp1, EnvBase(top), sp2, sp1, StringsLow(top, argv, envp), EnvBase(top));
  }

  /**
    Below the strings: align to 16, the envp vector, the argv vector, argc,
    and a last alignment of `sp` to 16.
  */
  method PlaceVectors(m: map<nat, Byte>, low: nat, envPtrs: seq<nat>, argPtrs: seq<nat>)
    returns (m': map<nat, Byte>, envpVa: nat, argvVa: nat, sp: nat)
    requires AlignDown16(low) >= 8 * (|envPtrs| + |argPtrs| + 3)
    ensures envpVa == EnvpVa(low, |envPtrs|) && argvVa == ArgvVa(low, |envPtrs|, |argPtrs|)
    ensures sp == FinalSp(low, |envPtrs|, |argPtrs|)
    ensures sp % 16 == 0 && sp + 8 <= argvVa && argvVa + 8 * (|argPtrs| + 1) == envpVa
    ensures Vector(m', envpVa, envPtrs) && Vector(m', argvVa, argPtrs)
    ensures WordAt(m', ArgcVa(low, |envPtrs|, |argPtrs|), |argPtrs|)
    ensures SameOutside(m, m', sp, AlignDown16(low))
  {
    var aligned := AlignDown16(low);
    var m3;
    m3, envpVa := PushVector(m, aligned, envPtrs);
    var m4;
    m4, argvVa := PushVector(m3, envpVa, argPtrs);
    var spc := argvVa - 8;
    m' := StoreWord(m4, spc, |argPtrs|);
    sp := AlignDown16(spc);
    assert envpVa == EnvpVa(low, |envPtrs|);
    assert spc == ArgcVa(low, |envPtrs|, |argPtrs|);
    VectorsKept(envPtrs, argPtrs, m3, m4, m', envpVa, argvVa, spc);
    SameOutsideGrow(m, m3, m4, envpVa, aligned, argvVa, envpVa, argvVa, aligned);
    SameOutsideGrow(m, m4, m', argvVa, aligned, spc, argvVa, sp, aligned);
  }

  /** The argv vector and argc go below the envp vector; argc below argv. */
  lemma VectorsKept(envPtrs: seq<nat>, argPtrs: seq<nat>, m3: map<nat, Byte>, m4: map<nat, Byte>, m5: map<nat, Byte>,
                    envpVa: nat, argvVa: nat, spc: nat)
    requires spc + 8 == argvVa && argvVa + 8 * (|argPtrs| + 1) == envpVa
    requires Vector(m3, envpVa, envPtrs)
    requires Vector(m4, argvVa, argPtrs) && SameOutside(m3, m4, argvVa, envpVa)
    requires WordAt(m5, spc, |argPtrs|) && SameOutside(m4, m5, spc, argvVa)
    ensures Vector(m5, envpVa, envPtrs) && Vector(m5, argvVa, argPtrs)
  {
    VectorFrame(m3, m4, envpVa, envPtrs, argvVa, envpVa);
    VectorFrame(m4, m5, envpVa, envPtrs, spc, argvVa);
    VectorFrame(m4, m5, argvVa, argPtrs, spc, argvVa);
  }
}

=== FILE: words.dfy ===
/**
  `str::split_whitespace`, which the kernel command line, both Forth
  interpreters and the shell use to cut a line into words.  A word is a
  maximal run of characters that are not white space in Rust's sense
  (`char::is_whitespace`, the Unicode White_Space property).
*/
module Words {

  /** `char::is_whitespace`. */
  predicate IsWhitespace(c: char)
  {
    ('\t' <= c <= '\r') || c == ' ' || c == '\U{85}' || c == '\U{A0}' || c == '\U{1680}'
    || ('\U{2000}' <= c <= '\U{200A}') || c == '\U{2028}' || c == '\U{2029}' || c == '\U{202F}'
    || c == '\U{205F}' || c == '\U{3000}'
  }

  /** A word as `split_whitespace` yields it: non-empty, with no white space. */
  predicate IsWord(w: string)
  {
    |w| > 0 && forall i | 0 <= i < |w| :: !IsWhitespace(w[i])
  }

  /** The longest prefix of `s` without white space. */
  function Prefix(s: string): (w: string)
    ensures |w| <= |s| && w == s[..|w|]
    ensures forall i | 0 <= i < |w| :: !IsWhitespace(w[i])
    ensures |w| == |s| || IsWhitespace(s[|w|])
  {
    if |s| == 0 || IsWhitespace(s[0]) then [] else [s[0]] + Prefix(s[1..])
  }

  /** `s.split_whitespace()`, collected in order. */
  function Split(s: string): (ws: seq<string>)
    ensures forall i | 0 <= i < |ws| :: IsWord(ws[i])
    decreases |s|
  {
    if |s| == 0 then []
    else if IsWhitespace(s[0]) then Split(s[1..])
    else
      var w := Prefix(s);
      [w] + Split(s[|w|..])
  }

  /** Words joined with single spaces, the shape a shell line or a boot command line has. */
  function Join(ws: seq<string>): string
  {
    if |ws| == 0 then [] else if |ws| == 1 then ws[0] else ws[0] + " " + Join(ws[1..])
  }

  lemma PrefixOfWord(w: string, rest: string)
    requires IsWord(w)
    requires |rest| == 0 || IsWhitespace(rest[0])
    ensures Prefix(w + rest) == w
    decreases |w|
  {
    if |w| > 1 {
      assert (w + rest)[1..] == w[1..] + rest;
      PrefixOfWord(w[1..], rest);
    } else {
      assert (w + rest)[1..] == rest;
    }
  }

  /** Splitting words joined by spaces gives the words back. */
  lemma {:induction false} SplitJoin(ws: seq<string>)
    requires forall i | 0 <= i < |ws| :: IsWord(ws[i])
    ensures Split(Join(ws)) == ws
  {
    if |ws| == 1 {
      var w := ws[0];
      PrefixOfWord(w, []);
      assert w + [] == w;
      assert !IsWhitespace(w[0]);
      assert w[|w|..] == [];
    } else if |ws| > 1 {
      var w, rest := ws[0], " " + Join(ws[1..]);
      assert Join(ws) == w + rest;
      PrefixOfWord(w, rest);
      assert !IsWhitespace((w + rest)[0]);
      assert (w + rest)[|w|..] == rest;
      assert rest[1..] == Join(ws[1..]);
      SplitJoin(ws[1..]);
      assert ws == [w] + ws[1..];
    }
  }

  /** Leading white space does not change the words. */
  lemma {:induction false} SplitSkipsSpace(pad: string, s: string)
    requires forall i | 0 <= i < |pad| :: IsWhitespace(pad[i])
    ensures Split(pad + s) == Split(s)
    decreases |pad|
  {
    if |pad| > 0 {
      assert (pad + s)[0] == pad[0];
      assert (pad + s)[1..] == pad[1..] + s;
      SplitSkipsSpace(pad[1..], s);
    } else {
      assert pad + s == s;
    }
  }

  /** A line of nothing but white space has no words. */
  lemma {:induction false} BlankHasNoWords(s: string)
    requires forall i | 0 <= i < |s| :: IsWhitespace(s[i])
    ensures Split(s) == []
  {
    SplitSkipsSpace(s, []);
    assert s + [] == s;
  }
}

=== FILE: wrappers.dfy ===
/** Failure-compatible Option and Result types shared by every module. */
module Wrappers {

  datatype Option<+T> = None | Some(value: T) {
    predicate IsFailure() { None? }

    function PropagateFailure<U>(): Option<U>
      requires None?
    {
      None
    }

    function Extract(): T
      requires Some?
    {
      value
    }
  }

  datatype Result<+T, +E> = Ok(value: T) | Err(error: E) {
    predicate IsFailure() { Err? }

    function PropagateFailure<U>(): Result<U, E>
      requires Err?
    {
      Err(error)
    }

    function Extract(): T
      requires Ok?
    {
      value
    }
  }
}
